=== FILE: README.md ===
# godot-blipkit core model

A Dafny model of godot-blipkit: the Godot extension around the BlipKit chiptune
synthesizer. It covers both the current tree (`src/`) and the older tree
(`addons/detomon.blipkit/native/src/`), plus the class-reference generator
`doc/markdown.py`. The modules follow the program's classes:

- `Bytes`, `ByteStream`: fixed-width little-endian integers and the byte buffer with a cursor behind the byte streams.
- `Half`: binary16 conversion (section 3.6 of IEEE 754-2008), with the extension's truncation and flush-to-zero.
- `Variants`, `Levels`: the script values the extension inspects, and the conversion of levels to 16-bit frames.
- `Bytecode`, `Assembler`: the current bytecode container (header, code section, "labl" sections) and the assembler that builds it, patches label placeholders and publishes labels.
- `Delays`, `Interpreter`: the delay register and the current interpreter, one instruction at a time, with the track as a log of commands.
- `Dividers`: countdown counters that call a script callback, keyed by id now and by name in the older tree.
- `Samples`, `Waveforms`, `Instruments`, `Tracks`: the sound resources and the track's attribute setters and getters.
- `LegacyBytecode`, `LegacyAssembler`, `LegacyInterpreter`: the older bytecode with a label footer, its assembler and its register interpreter.
- `Markdown`: anchor slugs, the BBCode-to-Markdown rewriter, signatures, and the grouping of constants into sections.

Where the code looks defective, the member takes an `asWritten` (or `older`) flag.
The rest of the model uses the corrected behaviour, and "## Findings" pairs each defect with both versions.

## Model

| member | source | states |
|---|---|---|
| Bytes.LeValueOfBytes | src/byte_stream.hpp:85-103 | decoding the n little-endian bytes `write` stores for a value below 256^n gives the value back |
| Bytes.LeBytesOfValue | src/byte_stream.hpp:17-35 | the bytes `read` combines are recovered exactly by re-encoding the value it returns |
| Bytes.LeBytesInjective | src/byte_stream.hpp:85-103 | two values of the same width with the same stored bytes are equal |
| Bytes.ToSigned | src/byte_stream.cpp:43-45 | the signed reading of an n-byte pattern lies in the two's complement range and converts back to the same pattern |
| Bytes.ToUnsigned | src/byte_stream.cpp:99-101 | a signed value's n-byte pattern is the value itself when non-negative and the value plus 256^n when negative |
| Bytes.S32RoundTrip | src/byte_stream.cpp:43-45 | an int32 stored by `put_s32` and decoded by `get_s32` is the same int32 |
| Bytes.WrapU32 | src/byte_stream.hpp:14-15 | truncation to uint32 lands in range, agrees with the value modulo 2^32 and keeps values already in range |
| Bytes.WrapI32 | src/blipkit_interpreter.cpp:23-42 | truncation to int32 lands in range, agrees modulo 2^32 and keeps values already in range |
| Bytes.WrapU8 | src/blipkit_assembler.cpp:131-137 | the low byte of an integer agrees with it modulo 256 and keeps byte values |
| Bytes.Clamp | src/blipkit_assembler.cpp:138-160 | CLAMP gives lo below the range, hi above it and the value inside it |
| ByteStream.SetBytes | src/byte_stream.cpp:53-57 | the reader holds exactly the given bytes, its size is their length and the cursor is 0 |
| ByteStream.Seek | src/byte_stream.hpp:51 | the cursor moves to the offset but never past the size; contents and storage do not change |
| ByteStream.NextPowerOfTwo | src/byte_stream.cpp:189-195 | 0 maps to 0; any positive p maps to the power of two in [p, 2p) |
| ByteStream.Reserve | src/byte_stream.cpp:189-195 | storage grows to max(128, next power of two >= p) when that exceeds it, never shrinks, and contents and cursor stay |
| ByteStream.Write | src/byte_stream.hpp:85-103 | the written bytes sit at the old cursor, the cursor advances by their length, the size becomes max(size, cursor), bytes before the cursor and after the written span are unchanged |
| ByteStream.WriteAppends | src/byte_stream.hpp:85-103 | writing at the end appends and leaves the cursor at the new end |
| ByteStream.WriteOverwrites | src/byte_stream.hpp:85-103 | writing inside the stream keeps the size and replaces exactly the written span |
| ByteStream.Read | src/byte_stream.hpp:17-35 | with fewer than n bytes left the read yields 0 and does not move; otherwise it yields the little-endian value of the next n bytes and moves past them |
| ByteStream.ReadStored | src/byte_stream.hpp:17-35 | reading n bytes where v's encoding is stored yields v and moves n bytes |
| ByteStream.GetU8 | src/byte_stream.cpp:17-19 | yields the byte at the cursor and moves past it; at the end it yields 0 and does not move |
| ByteStream.GetU16 | src/byte_stream.cpp:25-27 | yields the little-endian value of the next 2 bytes and moves past them; with fewer than 2 bytes left it yields 0 and does not move |
| ByteStream.GetU32 | src/byte_stream.cpp:39-41 | yields the little-endian value of the next 4 bytes and moves past them; with fewer than 4 bytes left it yields 0 and does not move |
| ByteStream.GetS32 | src/byte_stream.cpp:43-45 | yields the int32 the next 4 bytes encode, moving like a 4-byte read; with fewer than 4 bytes left it yields 0 and does not move |
| ByteStream.PutU8 | src/byte_stream.cpp:73-75 | the byte lands at the old cursor, the cursor moves one byte on, the size grows to cover it, and the bytes before the cursor stay |
| ByteStream.PutU16 | src/byte_stream.cpp:81-83 | the value's 2 little-endian bytes land at the old cursor, the cursor moves past them, the size grows to cover them, and the bytes before the cursor stay |
| ByteStream.PutU32Writes | src/byte_stream.cpp:95-97 | `put_u32` leaves the value's 4 little-endian bytes at the old cursor, moves the cursor past them, grows the size to cover them, and keeps the bytes before the cursor |
| ByteStream.PutS32Writes | src/byte_stream.cpp:99-101 | `put_s32` leaves the int32's 4 two's complement bytes, little-endian, at the old cursor, moves the cursor past them, grows the size to cover them, and keeps the bytes before the cursor |
| ByteStream.GetBytes | src/byte_stream.cpp:59-67 | copies min(n, available) bytes from the cursor and moves past them; contents are unchanged |
| ByteStream.PutBytesRange | src/byte_stream.cpp:109-118 | clamps the start to the source length, copies min(size, length - start) bytes to the cursor and returns that count; bytes before the cursor stay |
| ByteStream.Clear | src/byte_stream.cpp:197-200 | size and cursor become 0 while storage capacity is kept |
| ByteStream.WriteSeekReadRoundTrip | src/byte_stream.hpp:17-103 | writing an n-byte value, seeking back to where it started and reading n bytes returns it |
| ByteStream.WriterToReaderRoundTrip | src/byte_stream.cpp:181-183 | a value appended by a writer is found at the same position by a reader over the writer's bytes |
| ByteStream.U8PutGetRoundTrip | src/byte_stream.cpp:17-75 | a byte put and read back from where it was put is the same byte |
| ByteStream.U16PutGetRoundTrip | src/byte_stream.cpp:25-83 | a uint16 put and read back from where it was put is the same value |
| ByteStream.U32PutGetRoundTrip | src/byte_stream.cpp:39-97 | a uint32 put and read back from where it was put is the same value |
| ByteStream.S32WriteReadRoundTrip | src/byte_stream.cpp:99-101 | an int32 put at the end and read back after seeking returns the same int32 |
| Variants.TypeOf | src/blipkit_assembler.cpp:80-117 | each variant kind has exactly its own type tag, in both directions |
| Variants.NumberOf | src/blipkit_assembler.cpp:138-160 | integers convert to their real value, floats to their number |
| Half.NormalRoundTrip | addons/detomon.blipkit/native/src/math.hpp:8-95 | a normal half converted to float and back is the same half |
| Half.InfRoundTrip | addons/detomon.blipkit/native/src/math.hpp:8-95 | infinities survive the trip through float |
| Half.NanRoundTrip | addons/detomon.blipkit/native/src/math.hpp:51-95 | a NaN half comes back as the NaN of the same sign with all significand bits set |
| Half.SmallFlushToZero | addons/detomon.blipkit/native/src/math.hpp:51-95 | both zeros and every subnormal half come back as +0 |
| Half.HalfToFloatNormal | addons/detomon.blipkit/native/src/math.hpp:8-48 | a normal half keeps its sign, its exponent is rebiased by 112 and its 10 significand bits become the top of the float's 23 |
| Half.HalfToFloatSpecial | addons/detomon.blipkit/native/src/math.hpp:8-48 | the sign is kept for every half; zeros become signed zeros and Inf/NaN keep their significand in the top bits |
| Half.SubnormalExact | addons/detomon.blipkit/native/src/math.hpp:8-48 | a subnormal half becomes the float of exactly the same value (renormalised significand and matching exponent), with its sign |
| Half.RenormalizeReachesBit10 | addons/detomon.blipkit/native/src/math.hpp:28-35 | the renormalising loop stops exactly when the leading one reaches bit 10, after at most nine shifts |
| Half.FloatToHalfOverflow | addons/detomon.blipkit/native/src/math.hpp:68-79 | floats at or beyond the half range become Inf of the same sign, NaNs with the all-ones significand |
| Half.FloatToHalfUnderflow | addons/detomon.blipkit/native/src/math.hpp:80-89 | floats with an exponent at or below that of 2^-15 are flushed to +0 |
| Half.FloatToHalfNormal | addons/detomon.blipkit/native/src/math.hpp:90-94 | in the normal range the sign is kept and the significand truncated to its top 10 bits |
| Half.NormalRangeTruncates | addons/detomon.blipkit/native/src/math.hpp:51-95 | in the normal range float to half and back clears exactly the 13 low significand bits (truncation, not rounding) |
| Half.ToFloat | addons/detomon.blipkit/native/src/float16.hpp:58-92 | the conversion operator keeps the half's sign in the float |
| Half.AssignBits | addons/detomon.blipkit/native/src/float16.hpp:94-97 | raw bits stored are the bits read back |
| Half.AssignFloat | addons/detomon.blipkit/native/src/float16.hpp:99-137 | assigning a float truncates in the normal range, flushes small values to +0 and saturates large ones to Inf/NaN |
| Half.StructNormalRoundTrip | addons/detomon.blipkit/native/src/float16.hpp:54-137 | a normal float16 read as float and assigned back is the same float16 |
| Levels.Truncate | src/blipkit_waveform.cpp:44-83 | a float-to-int cast rounds toward zero: the result is within 1 of the input on the zero side |
| Levels.MaxAbs | src/blipkit_waveform.cpp:44-83 | the result bounds every level's magnitude and is attained by one of them (or is 0) |
| Levels.Convert | src/blipkit_waveform.cpp:44-83 | one frame per level, each within plus or minus BK_FRAME_MAX |
| Levels.ConvertPlain | src/blipkit_sample.cpp:115-152 | without normalising, levels in [-1, 1] become their truncated full-scale value and levels beyond saturate at plus or minus BK_FRAME_MAX |
| Levels.NormalizedPeak | src/blipkit_waveform.cpp:44-83 | normalising a non-silent sequence makes the loudest frame exactly the truncated clamped amplitude and no frame louder |
| Levels.ToFrameWithin | src/blipkit_sample.cpp:115-152 | a scaled level of magnitude at most a gives a frame of magnitude at most the truncated a times BK_FRAME_MAX |
| Bytecode.HeaderBytes | src/blipkit_bytecode.hpp:28-34 | the 16-byte header is "BLIP", version 0, "code" at bytes 8-11 and the code size as little-endian uint32 at bytes 12-15 |
| Bytecode.FindLabel | src/blipkit_bytecode.cpp:183-191 | the result is -1 or the index of a label with that name |
| Bytecode.FindLabelSpec | src/blipkit_bytecode.cpp:179-191 | -1 exactly when no label has the name; otherwise no earlier label has it |
| Bytecode.LabelName | src/blipkit_bytecode.cpp:197-201 | an index in range gives that label's name; any other index gives the empty name |
| Bytecode.LabelPosition | src/blipkit_bytecode.hpp:36-39 | an index in range gives that label's uint32 byte offset; any other index gives 0 |
| Bytecode.ScriptLabelPosition | src/blipkit_bytecode.cpp:203-207 | `get_label_position` returns the uint32 offset as an int32: offsets up to INT32_MAX unchanged, offsets from 2^31 on as the offset minus 2^32; 0 for an index out of range |
| Bytecode.CodeSectionSize | src/blipkit_bytecode.hpp:28-34 | the code section size is the header's uint32 `bytecode_size` field |
| Bytecode.ScriptCodeSectionSize | src/blipkit_bytecode.cpp:175-177 | `get_code_section_size` returns the uint32 field as an int32: it is negative exactly when the size exceeds INT32_MAX, and then it is the size minus 2^32 |
| Bytecode.Fail | src/blipkit_bytecode.cpp:20-25 | failing sets the state and error and touches nothing else |
| Bytecode.UpToNul | src/blipkit_bytecode.cpp:117 | a name read from bytes is their longest prefix without a NUL |
| Bytecode.ReadHeader | src/blipkit_bytecode.cpp:27-60 | the header is accepted exactly when 16 bytes are there with the magic, the code magic and version 0; otherwise the state is ERR_INVALID_BINARY for a short, bad-magic or bad-code-magic header and ERR_UNSUPPORTED_VERSION for another version; on success the cursor is past the header |
| Bytecode.ReadLabels | src/blipkit_bytecode.cpp:90-130 | a failure is always ERR_INVALID_BINARY "Truncated label."; success keeps the state; contents and header never change |
| Bytecode.SectionPass | src/blipkit_bytecode.cpp:67-82 | one pass of the section loop keeps state and contents, and with the corrected seek always moves forward |
| Bytecode.ReadSections | src/blipkit_bytecode.cpp:62-88 | on success the cursor is back at the start of the code section and the state unchanged |
| Bytecode.SetBytes | src/blipkit_bytecode.cpp:136-146 | the bytecode holds exactly the given bytes; a short, bad-magic, bad-code-magic or other-version image gives the matching error state; it never turns an invalid bytecode valid |
| Bytecode.ReadLabelSection | src/blipkit_bytecode.cpp:90-130 | a well-formed labl section of distinct names is read back as exactly its labels, moving past it, state unchanged |
| Bytecode.SectionLoopOnLabels | src/blipkit_bytecode.cpp:67-82 | a labl section that ends the image is read to the end with its labels and no error |
| Bytecode.ImageRoundTrip | src/blipkit_bytecode.cpp:62-146 | an image of code plus a labl section of distinct names reads back with the same code size, the cursor at the code and exactly those labels |
| Bytecode.TrailingFragmentIgnored | src/blipkit_bytecode.cpp:67-72 | 1 to 3 trailing bytes after the code stop the section loop without an error state and without labels |
| Bytecode.UnknownSectionRejected | src/blipkit_bytecode.cpp:74-81 | a section whose magic is not "labl" fails with ERR_INVALID_BINARY naming the section's offset |
| Bytecode.TruncatedLabelRejected | src/blipkit_bytecode.cpp:110-115 | a label whose name is shorter than its size byte says fails with ERR_INVALID_BINARY "Truncated label." |
| Bytecode.ShortEntryFails | src/blipkit_bytecode.cpp:103-115 | an entry whose name bytes run out fails |
| Bytecode.AddLabelsFirstWins | src/blipkit_bytecode.cpp:117-124 | inserting names keeps earlier labels: a known name keeps its index and first offset, a new name is appended |
| Bytecode.AddLabelsKeepsDistinct | src/blipkit_bytecode.cpp:117-124 | the label list never holds a name twice |
| Bytecode.NameIndependentOfHistory | src/blipkit_bytecode.cpp:102-124 | with the corrected name read, an entry's name does not depend on earlier entries |
| Bytecode.StaleNames | src/blipkit_bytecode.cpp:104-117 | the as-written reading yields one name per entry |
| Bytecode.StaleNameExample | src/blipkit_bytecode.cpp:104-117 | as written, the entries "ab" then "c" read back as "ab" then "cb" |
| Bytecode.StaleNameDiffers | src/blipkit_bytecode.cpp:104-117 | as written, a name shorter than the one before it is read with the tail of the earlier name attached |
| Bytecode.ReadEncodedEntriesAsWritten | src/blipkit_bytecode.cpp:102-125 | as written, the entries read are the stale names inserted first-wins |
| Bytecode.StaleNamesExact | src/blipkit_bytecode.cpp:104-117 | as written, names that never get shorter are read exactly |
| Bytecode.ReadLabelSectionAsWritten | src/blipkit_bytecode.cpp:90-130 | as written, a labl section whose names never shrink and whose end fits in uint32 reads back as exactly its labels |
| Bytecode.ImageRoundTripAsWritten | src/blipkit_bytecode.cpp:62-146 | as written, the image round trip holds for non-shrinking names and an image shorter than 2^32 bytes |
| Bytecode.WrapBack | src/blipkit_bytecode.cpp:127 | a section size of 0xfffffff8 makes the uint32 seek target land back on the section's own magic |
| Bytecode.StuckPassNeverEnds | src/blipkit_bytecode.cpp:67-82 | a section pass that leaves the cursor where it was makes the loop never finish, whatever the fuel |
| Bytecode.WrappingSectionAsWritten | src/blipkit_bytecode.cpp:62-130 | as written, an image whose labl section has size 0xfffffff8 never finishes loading |
| Bytecode.WrappingSectionCorrected | src/blipkit_bytecode.cpp:62-130 | with the seek target not wrapped, the same image loads with no labels and state unchanged |
| Assembler.Fail | src/blipkit_assembler.cpp:119-124 | failing sets the state to failed with the message and keeps bytes, labels and addresses |
| Assembler.Clear | src/blipkit_assembler.cpp:465-478 | after clearing the assembler is assembling, holds only the header with code size 0 and no labels or addresses |
| Assembler.IndexOf | src/blipkit_assembler.cpp:334-340 | -1 exactly when no label has the name, otherwise the index of one that has it |
| Assembler.GetOrAddLabel | src/blipkit_assembler.cpp:333-364 | a known name returns its index and changes nothing; an empty name, one over 255 bytes or a 65535th label fails with ERR_INVALID_LABEL; otherwise the name is appended undefined and its new index returned |
| Assembler.PutLabel | src/blipkit_assembler.cpp:366-387 | outside assembling it is ERR_INVALID_STATE; a label already defined fails with ERR_DUPLICATE_LABEL; on success the label is defined at the position minus the code offset with the requested visibility, other labels stay |
| Assembler.PutLabelHere | src/blipkit_assembler.cpp:389-393 | binding a label defines it at the current end of the code |
| Assembler.MismatchFrom | src/blipkit_assembler.cpp:89-98 | no mismatch exactly when every argument has its expected type; otherwise the reported 1-based index is the first that does not |
| Assembler.CheckArgs | src/blipkit_assembler.cpp:80-117 | number instructions and DELAY_STEP accept exactly an int or float followed by two nils; every other instruction accepts exactly its signature's types |
| Assembler.ClampedU16 | src/blipkit_assembler.cpp:272-283 | the clamped integer lies in [lo, 65535] and equals the argument when that already does |
| Assembler.Encode | src/blipkit_assembler.cpp:137-296 | an encoded instruction starts with its opcode and is at most 2 + 2 * 32 bytes long |
| Assembler.DelayStepEncoding | src/blipkit_assembler.cpp:285-296 | DELAY_STEP emits nothing exactly when the clamped step count is within CMP_EPSILON of 0; otherwise it emits the opcode and the count's half |
| Assembler.Emit | src/blipkit_assembler.cpp:137-296 | emitting appends the bytes and changes nothing else |
| Assembler.PutBranch | src/blipkit_assembler.cpp:240-261 | CALL and JUMP look up or add the label, append the opcode and a 4-byte placeholder and record its address; a bad label fails without emitting |
| Assembler.Put | src/blipkit_assembler.cpp:131-304 | an opcode >= OP_MAX is ERR_INVALID_OPCODE, a call outside assembling ERR_INVALID_STATE, an opcode without a case fails with ERR_INVALID_OPCODE, mistyped arguments fail with ERR_INVALID_ARGUMENT and the first mismatch, and a well-typed non-branch instruction appends exactly its encoding |
| Assembler.PutLabels | src/blipkit_assembler.cpp:314-322 | putting an included bytecode's labels keeps the bytes and addresses and fails only with ERR_INVALID_STATE or a failed state |
| Assembler.PutLabelsDefines | src/blipkit_assembler.cpp:314-322 | every included label is defined at the inclusion point plus its offset, and labels with other names stay |
| Assembler.CopySize | src/blipkit_assembler.cpp:325-328 | the copy size is the code section size minus the HALT byte; the corrected version stops at 0 |
| Assembler.Clipped | src/byte_stream.cpp:109-118 | the copied range is the source clipped to its length |
| Assembler.PutByteCode | src/blipkit_assembler.cpp:306-331 | outside assembling it is ERR_INVALID_STATE; a missing or invalid bytecode is ERR_INVALID_ARGUMENT; on success exactly the included code is appended and no addresses are added |
| Assembler.Published | src/blipkit_assembler.cpp:35-39 | the published labels are a sub-list of the labels |
| Assembler.WriteLabelsSize | src/blipkit_assembler.cpp:32-78 | the labl section is bounded by 12 + 260 bytes per label |
| Assembler.EntriesEncodePublished | src/blipkit_assembler.cpp:56-69 | the entries written are exactly the bytecode encoding of the public labels, in order |
| Assembler.WriteLabelsIsSection | src/blipkit_assembler.cpp:32-78 | the bytes written are exactly the labl section the bytecode reader expects for the public labels, or nothing when none is public |
| Assembler.Overwrite | src/blipkit_assembler.cpp:423-424 | overwriting replaces exactly the span and keeps the length and every other byte |
| Assembler.Displacement | src/blipkit_assembler.cpp:422 | the jump offset is the label's offset minus the address's, as an int32 |
| Assembler.Patch | src/blipkit_assembler.cpp:412-425 | patching keeps the length and stops at the first address whose label is undefined, and only then |
| Assembler.PatchKeeps | src/blipkit_assembler.cpp:412-425 | bytes outside every placeholder are left alone |
| Assembler.PatchedSlots | src/blipkit_assembler.cpp:412-425 | when every label is defined each placeholder holds its jump offset |
| Assembler.Terminate | src/blipkit_assembler.cpp:398-409 | compiling appends HALT and writes the code size (bytes after the header) into the header, keeping the rest |
| Assembler.Patched | src/blipkit_assembler.cpp:398-425 | the patched code is one byte longer and fails exactly when some address names an undefined label |
| Assembler.Compile | src/blipkit_assembler.cpp:395-437 | outside assembling it is ERR_INVALID_STATE; it succeeds exactly when every referenced label is defined, leaving the patched code plus the labl section and the compiled state; otherwise ERR_UNDEFINED_LABEL names an undefined label |
| Assembler.GetByteCode | src/blipkit_assembler.cpp:443-459 | a bytecode is returned only in the compiled state and only when it loads as valid |
| Assembler.PublishedDistinct | src/blipkit_assembler.cpp:56-69 | the published names are distinct when the labels' names are |
| Assembler.CompiledImage | src/blipkit_assembler.cpp:395-437 | the compiled bytes are a bytecode image of the code ending in HALT and the public labels |
| Assembler.CompiledLoads | src/blipkit_assembler.cpp:443-459 | the compiled bytes load as a valid bytecode with the public labels and the code size including HALT |
| Assembler.CompiledLoadsAsWritten | src/blipkit_assembler.cpp:443-459 | with the label reader as written the same holds when public names never get shorter |
| Assembler.CompiledJumps | src/blipkit_assembler.cpp:412-425 | after compiling each placeholder decodes to its label's offset minus the placeholder's own offset |
| Assembler.IncludedCodeWithoutHalt | src/blipkit_assembler.cpp:325-328 | including a loaded bytecode copies its code without the final HALT |
| Assembler.EmptyCodeCopiesLabelSection | src/blipkit_assembler.cpp:325-328 | as written, a bytecode with an empty code section and labels makes the size wrap and copies its labl section as code; corrected, nothing is copied |
| Delays.Shift | src/blipkit_interpreter.cpp:79-91 | shifting takes the next buffered length, capped at the ticks left, moves the index by one and reduces the ticks by the same amount; past the last entry it yields 0 and changes nothing |
| Delays.Begin | src/blipkit_interpreter.cpp:23-42 | while replaying a delay shifts (as written even a zero one); otherwise a non-zero delay with room is buffered, the first one saving the code offset, and anything else changes nothing |
| Delays.StepDelay | src/blipkit_interpreter.cpp:44-77 | while replaying the closing TICK/STEP shifts the last entry and ends the run; otherwise a non-zero length with room is buffered, replaying starts with the full length and the code seeks back to the first delay; otherwise the buffer is dropped |
| Delays.RecordBuffers | src/blipkit_interpreter.cpp:23-42 | recording a run buffers exactly its non-zero delays while room lasts, keeps the first code offset and enters the recording state once something is buffered |
| Delays.RecordFromFirst | src/blipkit_interpreter.cpp:23-42 | a run starting with a non-zero delay records from its own code offset |
| Delays.ShiftCovered | src/blipkit_interpreter.cpp:79-91 | shifting keeps the remaining ticks covering the remaining entries |
| Delays.ReplayConserves | src/blipkit_interpreter.cpp:23-42 | over a replay the ticks waited plus the ticks left equal the ticks before; as written each delay, zero or not, moves the index |
| Delays.ReplayKept | src/blipkit_interpreter.cpp:23-42 | with zero delays not shifting, replay waits exactly the buffered delays in order while the step covers them |
| Delays.RunLastsStep | src/blipkit_interpreter.cpp:23-91 | a recorded run seeks back to its first delay, and the delays waited plus the closing wait add up to the closing TICK/STEP's length, after which the register is idle |
| Delays.RunWaitsKept | src/blipkit_interpreter.cpp:23-91 | corrected, each delay waits exactly its own recorded length and the closing wait is the rest of the step |
| Delays.SkippedDelayShifts | src/blipkit_interpreter.cpp:23-42 | as written, delays 1, 0, 2 with a 24-tick step wait 1, 2 and 21 ticks: the zero delay takes the second delay's length |
| Delays.SkippedDelayWaitsNothing | src/blipkit_interpreter.cpp:23-42 | corrected, the same run waits 1, 0 and 2 ticks and closes with 21 |
| Delays.KeptAll | src/blipkit_interpreter.cpp:28-30 | non-zero delays that fit in the buffer are all kept |
| Dividers.Tick | src/divider.hpp:31-46 | a divider that has not run down only counts down; when it fires it returns the callback's answer, adopts a positive answer as its new interval and restarts the count |
| Dividers.Fresh | src/divider.cpp:9-12 | a new divider has the given interval and fires on its first tick |
| Dividers.Reset | src/divider.cpp:14-19 | resetting makes the divider fire on the next tick and adopts the interval only when positive |
| Dividers.RunPeriodic | src/divider.hpp:31-46 | a divider whose callback keeps answering its interval fires on exactly every interval-th tick, starting from its counter |
| Dividers.Remove | src/divider.cpp:76-78 | removal deletes exactly that divider |
| Dividers.ResetDivider | src/divider.cpp:84-88 | an unknown id changes nothing; a known one is reset alone |
| Dividers.ResetAll | src/divider.cpp:104-109 | every divider's counter returns to 0 and its interval stays |
| Dividers.Clear | src/divider.cpp:111-113 | no divider is left |
| Dividers.Keys | src/divider.cpp:56-66 | the listed keys are exactly the dividers present |
| Dividers.Callback | src/divider.cpp:21-42 | every divider ticks once and exactly those that fire with a negative answer are removed |
| Dividers.ResetThenCallback | src/divider.cpp:21-42 | after a reset every divider fires on the next callback, stays exactly when its answer is non-negative and adopts a positive answer as its interval |
| Dividers.QuietCallbackKeepsAll | src/divider.cpp:21-42 | when no divider fires none is removed |
| Dividers.AddById | src/divider.cpp:68-74 | the new id is the previous id plus one (wrapping as uint32); the divider gets the interval, a new one fires first, and others are untouched |
| Dividers.IdsIncrease | src/divider.cpp:68-74 | consecutive additions get consecutive ids |
| Dividers.ListedIds | src/divider.cpp:56-66 | every divider's id is listed as an int32 |
| Dividers.AddByName | addons/detomon.blipkit/native/src/divider.cpp:54-59 | adding a name that exists changes nothing; otherwise a fresh divider is added under it and others are untouched |
| Dividers.AddedFiresFirst | addons/detomon.blipkit/native/src/divider.cpp:7-27 | a newly added divider fires on the next callback and survives exactly when its answer is non-negative |
| Dividers.AddRemoveByName | addons/detomon.blipkit/native/src/divider.cpp:54-63 | adding a new name and removing it restores the group |
| Samples.New | src/blipkit_sample.cpp:10-13 | a new sample is valid and has no frames |
| Samples.SustainIndex | src/blipkit_sample.cpp:169-179 | with frames, a negative index counts from one past the end, the result is clamped to [0, size]; without frames a negative index becomes 0 and a non-negative one is kept |
| Samples.SustainIndexStable | src/blipkit_sample.cpp:169-179 | setting an offset that was already normalised changes nothing |
| Samples.FromEndMatchesFromStart | src/blipkit_sample.cpp:169-179 | -k addresses the same position as size + 1 - k |
| Samples.SetSustainOffset | src/blipkit_sample.cpp:169-179 | only the sustain offset changes, to the normalised index |
| Samples.SetSustainEnd | src/blipkit_sample.cpp:185-195 | only the sustain end changes, to the normalised index |
| Samples.RepeatOf | src/blipkit_sample.cpp:201-204 | a mode exists exactly for ordinals 0 to 3 and has that ordinal |
| Samples.SetRepeatMode | src/blipkit_sample.cpp:201-204 | an ordinal outside [0, REPEAT_MAX) changes nothing; otherwise only the repeat mode changes, to that ordinal |
| Samples.RepeatModeRoundTrip | src/blipkit_sample.cpp:201-208 | setting a mode's ordinal and reading it back gives the mode |
| Samples.SetFrames | src/blipkit_sample.cpp:115-152 | fewer than two levels change nothing; otherwise only the frames change, to the levels converted (normalised or not) one per level, each within plus or minus BK_FRAME_MAX |
| Samples.SetFramesPlain | src/blipkit_sample.cpp:115-152 | without normalising, each stored frame is its level times BK_FRAME_MAX truncated toward zero, and levels beyond plus or minus 1 saturate |
| Samples.FrameBytes | src/blipkit_sample.cpp:231-240 | two bytes per frame, low byte first, of the frame's 16-bit pattern |
| Samples.SetFrameBytes | src/blipkit_sample.cpp:210-229 | one frame per two bytes (an odd last byte is dropped), each the 16-bit value of its little-endian pair; nothing else changes |
| Samples.BitsInjective | src/blipkit_sample.cpp:231-240 | distinct frames have distinct bit patterns |
| Samples.FramesRoundTrip | src/blipkit_sample.cpp:210-240 | storing the frame bytes of a sample's frames reproduces the sample |
| Samples.BytesRoundTrip | src/blipkit_sample.cpp:210-240 | the frame bytes after storing bytes are those bytes up to an even length |
| Samples.RepeatForLoop | src/blipkit_sample.cpp:93-106 | loop disabled, forward, ping-pong and backward map to repeat modes 0, 1, 2 and 3 |
| Samples.WavValue | src/blipkit_sample.cpp:38-75 | a 16-bit value lies in int16 range and an 8-bit one in int8 range |
| Samples.WavSample | src/blipkit_sample.cpp:84-112 | the imported sample has n frames within plus or minus BK_FRAME_MAX, the repeat mode of the loop mode and the loop points normalised against n |
| Samples.CreateWithWav | src/blipkit_sample.cpp:21-113 | corrected, a sample is created exactly when the data holds at least two frames and the format is 8 or 16 bit; then it has that many frames, the loop's repeat mode and normalised loop points |
| Samples.CreateWithWavAsWritten | src/blipkit_sample.cpp:21-113 | as written, the frame count is the byte count (halved for stereo) even for 16-bit data, and a sample is created exactly when that is at least two and the format is supported |
| Samples.AsWrittenAgreesFor8Bits | src/blipkit_sample.cpp:36-57 | for 8-bit data the as-written import is the corrected one |
| Samples.ShortWavImportedAsWritten | src/blipkit_sample.cpp:27-30 | as written, a 16-bit mono WAV of a single frame passes the two-frame check and is imported as two frames; corrected it is refused |
| Samples.FrameCountFits | src/blipkit_sample.cpp:27-30 | the frame count is the whole number of frames the data holds: that many frames of the frame size fit and one more does not (as written the frame size omits the sample width) |
| Samples.FullScaleByte | src/blipkit_sample.cpp:50-55 | 8-bit 127 and -127 import as plus and minus BK_FRAME_MAX |
| Samples.WavReadsPastEnd | src/blipkit_sample.cpp:58-77 | as written, a 16-bit WAV reads twice as many values as its data holds |
| Samples.WavReadsPastEndExample | src/blipkit_sample.cpp:58-77 | as written, four bytes of 16-bit mono data are read as four values where two exist |
| Samples.WavReadsInBounds | src/blipkit_sample.cpp:58-77 | corrected, every value read lies inside the data and the frame count is the largest that fits |
| Waveforms.New | src/blipkit_waveform.cpp:10-24 | a new waveform is a square of 8 frames, four at full scale then four at 0 |
| Waveforms.SetFrames | src/blipkit_waveform.cpp:44-83 | fewer than two or more than 64 levels change nothing; otherwise the frames are the levels converted (normalised or not), one per level |
| Waveforms.SetFramesPlain | src/blipkit_waveform.cpp:44-83 | without normalising, each stored frame is its level times BK_FRAME_MAX truncated toward zero, and levels beyond plus or minus 1 saturate |
| Waveforms.CreateWithFrames | src/blipkit_waveform.cpp:32-42 | a waveform is created exactly for 2 to 64 levels, and it is a new waveform with those levels set |
| Waveforms.GetFrames | src/blipkit_waveform.cpp:85-97 | one level per frame, the frame divided by BK_FRAME_MAX |
| Waveforms.GetSetRoundTrip | src/blipkit_waveform.cpp:44-97 | setting a waveform's own levels without normalising gives back the same waveform |
| Waveforms.SetProperty | src/blipkit_waveform.cpp:118-126 | only the stored property's name is accepted ("_frames" now, "frames" in the older version, which normalises by default); other names change nothing |
| Waveforms.GetProperty | src/blipkit_waveform.cpp:128-136 | only the stored property's name yields a value, one level per frame |
| Waveforms.PropertyRoundTrip | src/blipkit_waveform.cpp:118-136 | the saved "_frames" property loaded into any waveform reproduces the saved one |
| Instruments.TypeOf | src/blipkit_instrument.cpp:33 | a script integer names an envelope type exactly when it is in [0, ENVELOPE_MAX), and then the type with that ordinal |
| Instruments.TypeRoundTrip | src/blipkit_instrument.cpp:33-58 | every envelope type's ordinal maps back to the type |
| Instruments.Multiplier | src/blipkit_instrument.cpp:38-58 | every envelope's value multiplier is at least 1 (BK_MAX_VOLUME for volume and panning, BK_FINT20_UNIT for pitch, 1 for duty cycle) |
| Instruments.New | src/blipkit_instrument.cpp:13-16 | a new instrument has all four envelopes empty |
| Instruments.SustainOffset | src/blipkit_instrument.cpp:68-72 | the sustain offset is clamped to [0, size]; now a negative offset counts from one past the end, while the older version (addons/detomon.blipkit/native/src/blipkit_instrument.cpp:147) clamps it to 0 |
| Instruments.SustainLength | src/blipkit_instrument.cpp:73 | the sustain length is clamped to what is left after the offset |
| Instruments.StepRead | src/blipkit_instrument.cpp:96 | a step is read only inside the steps array, and is its value truncated to uint32 |
| Instruments.LibraryCall | src/blipkit_instrument.cpp:89-115 | with steps the library gets an envelope of one phase per value, without steps a sequence of the values, both with the clamped sustain cycle |
| Instruments.Plan | src/blipkit_instrument.cpp:32-127 | a type out of range or (now) a steps array whose length differs from the values' refuses the call; otherwise the stored envelope is the values and steps with the clamped sustain cycle, and the library call matches it |
| Instruments.SetEnvelope | src/blipkit_instrument.cpp:32-130 | a refused or rejected call leaves the instrument unchanged; an accepted one replaces exactly the envelope of that type |
| Instruments.SetEnvelopeKeepsMatched | src/blipkit_instrument.cpp:60-66 | now the stored steps always match the stored values in length |
| Instruments.HasEnvelope | src/blipkit_instrument.cpp:136-139 | an envelope exists exactly when the type is in range and its values are not empty |
| Instruments.GetEnvelope | src/blipkit_instrument.cpp:141-159 | an out-of-range type reads as the empty envelope |
| Instruments.SetThenGet | src/blipkit_instrument.cpp:32-159 | after an accepted set the envelope reads back with the same values, steps and clamped offset, exists exactly when values were given, and other envelopes are unchanged |
| Instruments.StoreStored | src/blipkit_instrument.cpp:32-127 | storing an envelope the instrument already holds stores it unchanged |
| Instruments.ClearEnvelope | src/blipkit_instrument.cpp:161-163 | an accepted clear leaves that envelope empty and others unchanged |
| Instruments.SetAdsr | src/blipkit_instrument.cpp:132-134 | ADSR sets the volume envelope to steps attack, decay, 240, release and values 1, sustain, sustain, 0 with sustain offset 2 and length 1, leaving the other envelopes |
| Instruments.OlderStepReads | addons/detomon.blipkit/native/src/blipkit_instrument.cpp:165-172 | the older version reads one step per value whenever steps are given |
| Instruments.OlderReadsPastSteps | addons/detomon.blipkit/native/src/blipkit_instrument.cpp:145-174 | the older version, given fewer steps than values, indexes the steps array past its end, where godot-cpp's checked `operator[]` dereferences null |
| Instruments.OlderReadsPastStepsExample | addons/detomon.blipkit/native/src/blipkit_instrument.cpp:165-172 | older, values 1.0, 0.5 with steps [4] index a second step that does not exist |
| Instruments.StepReadsInBounds | src/blipkit_instrument.cpp:60-98 | the current version reads every step inside the array |
| Instruments.PropertyType | src/blipkit_instrument.cpp:194-209 | "envelope/volume", "envelope/panning", "envelope/pitch" and "envelope/duty_cycle" name their type and nothing else names one |
| Instruments.GetProperty | src/blipkit_instrument.cpp:228-261 | only an envelope property name yields a value: the four fields steps, values, offset, length when the envelope exists, empty otherwise |
| Instruments.SetProperty | src/blipkit_instrument.cpp:194-226 | an envelope name with four fields sets that envelope; now other sizes are refused, older ones are handled without effect; other names are not handled and change nothing |
| Instruments.PropertyRoundTrip | src/blipkit_instrument.cpp:194-261 | a saved envelope property loaded into any instrument reproduces that envelope and leaves the others; an empty one changes nothing |
| Tracks.WaveformOf | src/blipkit_track.cpp:99-100 | a script integer names a waveform exactly when it is in [0, WAVEFORM_MAX), and then the waveform with that ordinal |
| Tracks.MasterVolumeFor | src/blipkit_track.cpp:694-723 | the default master volume is the bass level exactly for triangle, sine and sample waveforms, and the default level otherwise |
| Tracks.Level | src/blipkit_track.cpp:43-49 | a level in [lo, 1] (lo 0 or -1) becomes an integer in [lo * BK_MAX_VOLUME, BK_MAX_VOLUME] |
| Tracks.SetMasterVolume | src/blipkit_track.cpp:43-52 | the master volume is clamped and scaled into [0, BK_MAX_VOLUME], no other attribute changes, and the current code marks the volume as chosen by the user (the older code, addons/detomon.blipkit/native/src/blipkit_track.cpp:234-241, keeps no such mark) |
| Tracks.LevelRoundTrip | src/blipkit_track.cpp:43-61 | a level in range read back through get_master_volume (or get_volume, get_panning) differs from what was set by less than one step of 1/BK_MAX_VOLUME, rounding toward zero |
| Tracks.Store | src/blipkit_track.cpp:63-70 | `BKSetAttr` on a track: the written attribute reads back the value and every other attribute reads as before |
| Tracks.GetLevel | src/blipkit_track.cpp:72-79 | a volume-like attribute is read as its value over BK_MAX_VOLUME, in [0, 1] for a stored value in [0, BK_MAX_VOLUME] and in [-1, 1] for one in [-BK_MAX_VOLUME, BK_MAX_VOLUME] (also get_master_volume at 54-61 and get_panning at 90-97) |
| Tracks.SetVolume | src/blipkit_track.cpp:63-70 | the volume is clamped and scaled into [0, BK_MAX_VOLUME] and nothing else changes |
| Tracks.SetPanning | src/blipkit_track.cpp:81-88 | the panning is clamped and scaled into [-BK_MAX_VOLUME, BK_MAX_VOLUME] and nothing else changes |
| Tracks.NoteValue | src/blipkit_track.cpp:169-179 | a non-negative note becomes a non-negative pitch value, a note at or below -2 becomes NOTE_MUTE and one in (-2, 0) becomes NOTE_RELEASE |
| Tracks.SetNote | src/blipkit_track.cpp:169-184 | set_note stores that value and touches no other attribute |
| Tracks.GetNote | src/blipkit_track.cpp:186-198 | a negative stored note reads as NOTE_RELEASE, a non-negative one as a non-negative note |
| Tracks.Mute | src/blipkit_track.cpp:535-537 | mute stores NOTE_MUTE, which get_note reads back as NOTE_RELEASE |
| Tracks.Release | src/blipkit_track.cpp:531-533 | release stores NOTE_RELEASE and get_note reads it back |
| Tracks.NoteOffset | src/blipkit_track.cpp:200-207 | a pitch offset is clamped to [-BK_MAX_NOTE, BK_MAX_NOTE] and scaled by BK_FINT20_UNIT, so the result stays within that range times the unit |
| Tracks.NoteOffsetRoundTrip | src/blipkit_track.cpp:200-216 | a pitch in range read back through get_pitch differs from what was set by less than 1/BK_FINT20_UNIT, rounding toward zero |
| Tracks.SetPitch | src/blipkit_track.cpp:200-207 | set_pitch stores the scaled offset and nothing else changes |
| Tracks.GetOffset | src/blipkit_track.cpp:209-216 | a pitch attribute is read as its value over BK_FINT20_UNIT, and a value stored from an offset within the note limits reads back strictly within one semitone beyond those limits (also get_sample_pitch at 477-484) |
| Tracks.SetSamplePitch | src/blipkit_track.cpp:468-475 | set_sample_pitch stores the scaled offset and nothing else changes |
| Tracks.PhaseWrapValue | src/blipkit_track.cpp:218-228 | a phase wrap is 0 exactly when the input is not positive, otherwise at least 2: inputs of 2 or more are kept and 1 becomes 2 |
| Tracks.PhaseWrapIdempotent | src/blipkit_track.cpp:218-228 | applying the phase-wrap rule twice gives the same value as applying it once |
| Tracks.SetPhaseWrap | src/blipkit_track.cpp:218-228 | set_phase_wrap stores the adjusted value and nothing else changes |
| Tracks.SetDivider | src/blipkit_track.cpp:342-347 | the effect, arpeggio and instrument dividers store the value, with a negative value stored as 0, and nothing else changes (also 378-383 and 410-415) |
| Tracks.SetRaw | src/blipkit_track.cpp:239-258 | the duty cycle, volume slide, panning slide and portamento store the value unchanged and nothing else changes (also 154-158 and 269-273) |
| Tracks.GetPanningSlideAsWritten | src/blipkit_track.cpp:260-267 | as written, get_panning_slide returns the volume slide: it differs from the stored panning slide whenever the two slides differ, and setting the panning slide does not change it |
| Tracks.GetPanningSlide | src/blipkit_track.cpp:260-267 | corrected, get_panning_slide returns whatever the panning slide was last set to, and setting the volume slide does not change it |
| Tracks.PanningSlideReadsVolume | src/blipkit_track.cpp:260-267 | as written, get_panning_slide reads the volume slide, so after setting different volume and panning slides it returns the volume slide |
| Tracks.PanningSlideRoundTrip | src/blipkit_track.cpp:254-267 | with the getter reading the panning slide, get_panning_slide returns what set_panning_slide stored, whatever the volume slide is |
| Tracks.SetTremolo | src/blipkit_track.cpp:284-293 | the tremolo keeps its ticks, scales its delta as a volume level and stores negative slide ticks as 0; nothing else changes |
| Tracks.SetVibrato | src/blipkit_track.cpp:313-322 | the vibrato keeps its ticks, scales its delta as a pitch offset and stores negative slide ticks as 0; nothing else changes |
| Tracks.GetTremolo | src/blipkit_track.cpp:295-311 | get_tremolo returns the stored ticks and slide ticks and the delta divided by BK_MAX_VOLUME |
| Tracks.GetVibratoAsWritten | src/blipkit_track.cpp:324-340 | as written, get_vibrato divides the stored pitch delta by BK_MAX_VOLUME |
| Tracks.GetVibrato | src/blipkit_track.cpp:324-340 | get_vibrato with the delta divided by BK_FINT20_UNIT, the unit set_vibrato multiplies by |
| Tracks.VibratoReadsScaled | src/blipkit_track.cpp:313-340 | as written, a vibrato delta of 1.0 reads back as BK_FINT20_UNIT / BK_MAX_VOLUME, more than 32 |
| Tracks.VibratoRoundTrip | src/blipkit_track.cpp:313-340 | with the corrected getter, the vibrato reads back with the same ticks, non-negative slide ticks and the delta within one pitch step |
| Tracks.SetArpeggio | src/blipkit_track.cpp:358-372 | the library receives the first min(size, BK_MAX_ARPEGGIO) notes as pitch offsets, the whole array is kept for the getter, and nothing else changes |
| Tracks.GetArpeggio | src/blipkit_track.cpp:374-376 | the current code returns the stored array; the older code (addons/detomon.blipkit/native/src/blipkit_track.cpp:571-587) returns the library's offsets divided by BK_FINT20_UNIT |
| Tracks.ArpeggioRoundTrip | src/blipkit_track.cpp:358-376 | the current getter returns exactly the array that was set; the older getter returns at most BK_MAX_ARPEGGIO values |
| Tracks.LibraryRepeatOf | src/blipkit_track.cpp:665-681 | a sample's repeat mode becomes no-repeat exactly for REPEAT_NONE and palindrome exactly for REPEAT_PING_PONG; the two other modes repeat |
| Tracks.UpdateWaveform | src/blipkit_track.cpp:596-728 | a basic waveform is always selected and a custom or sample one only once attached; the held waveform and sample stay; the master volume is reset to the waveform's default unless the user has set it |
| Tracks.SetWaveform | src/blipkit_track.cpp:99-117 | an out-of-range or non-basic waveform changes nothing; a basic one is selected, the track is muted and the held custom waveform and sample are kept; the older code (addons/detomon.blipkit/native/src/blipkit_track.cpp:316-354) drops the custom waveform, does not mute and always resets the master volume |
| Tracks.GetWaveform | src/blipkit_track.cpp:119-152 | the returned number names the track's waveform |
| Tracks.UserVolumeSticks | src/blipkit_track.cpp:43-52 | after set_master_volume, any run of set_waveform calls leaves the user's master volume in place |
| Tracks.SetWaveforms | src/blipkit_track.cpp:99-117 | a run of set_waveform calls keeps the track well formed and does not change whether the user has set the master volume |
| Tracks.SetWaveformsKeepVolume | src/blipkit_track.cpp:694-727 | once the user has set the master volume, no run of set_waveform calls changes it |
| Tracks.SetCustomWaveform | src/blipkit_track.cpp:426-441 | a null waveform falls back to square; an empty one is refused and changes nothing; a valid one is held, drops the sample and is selected once attached (the older code, addons/detomon.blipkit/native/src/blipkit_track.cpp:661-681, holds no sample, only hands the waveform to the library and does not mute) |
| Tracks.SetSample | src/blipkit_track.cpp:447-462 | a null sample falls back to square; an empty one is refused and changes nothing; a valid one is held, drops the custom waveform and is selected once attached |
| Tracks.BasicKeepsCustom | src/blipkit_track.cpp:99-117 | after a custom waveform, selecting a basic waveform keeps the custom waveform, which attach selects again |
| Tracks.Attach | src/blipkit_track.cpp:486-513 | attaching marks the track attached, keeps the held waveform and sample, and selects a held custom waveform or sample again |
| Tracks.SetInstrument | src/blipkit_track.cpp:394-404 | set_instrument stores the instrument and nothing else |
| Tracks.New | src/blipkit_track.cpp:17-26 | a new track is well formed, uses the square wave at the default master volume not marked as set by the user, holds no custom waveform or sample and is not attached |
| Tracks.AddDivider | src/blipkit_track.cpp:567-574 | a non-positive interval or a null callable returns 0 and changes nothing; otherwise the next ID is returned and a fresh divider is stored under it |
| Tracks.RemoveDivider | src/blipkit_track.cpp:576-582 | the divider is gone afterwards; an unknown ID changes nothing; other dividers stay |
| Tracks.AddNamedDivider | addons/detomon.blipkit/native/src/blipkit_track.cpp:757-763 | the older code refuses an existing name, a non-positive interval or a null callable; otherwise it stores a fresh divider under the name; other names are unaffected |
| Tracks.RemoveNamedDivider | addons/detomon.blipkit/native/src/blipkit_track.cpp:765-769 | the named divider is gone afterwards; an unknown name changes nothing; other names stay |
| Tracks.NamedAddRemove | addons/detomon.blipkit/native/src/blipkit_track.cpp:757-769 | adding a new name and then removing it gives back the original group |
| Interpreter.ErrorsFromInvalidBinary | src/blipkit_interpreter.hpp:27-35 | a state is an error exactly when it comes at or after ERR_INVALID_BINARY in the state list, and states are told apart by their position |
| Interpreter.Init | src/blipkit_interpreter.cpp:15-21 | a new interpreter is running, with the default step length of 24 ticks, no code, an empty stack, no delay and an arpeggio buffer of ARPEGGIO_MAX entries |
| Interpreter.Fail | src/blipkit_interpreter.cpp:93-102 | failing records the error state and moves the cursor to the end of the code, changing nothing else |
| Interpreter.SetStepTicks | src/blipkit_interpreter.cpp:134-136 | the step length is clamped to [1, UINT16_MAX]: values in range are kept, smaller ones become 1 and larger ones UINT16_MAX |
| Interpreter.Reset | src/blipkit_interpreter.cpp:477-501 | without a loaded program nothing happens; an unknown start label fails with ERR_INVALID_LABEL; otherwise the cursor goes to the code section (plus the label's position), and the stack, delay register and arpeggio are cleared with the state running |
| Interpreter.LoadByteCode | src/blipkit_interpreter.cpp:142-163 | a null bytecode returns false and changes nothing; an invalid one fails with ERR_INVALID_BINARY and an unknown label with ERR_INVALID_LABEL; it returns true exactly when neither happens, and then the program is loaded and running |
| Interpreter.GetHalves | src/blipkit_interpreter.cpp:300-313 | reading n binary16 values gives n values, leaves the bytes alone and only moves the cursor forward |
| Interpreter.Ticks | src/blipkit_interpreter.cpp:247-253 | a step count scaled by the step length is stored as a uint32 |
| Interpreter.BranchTarget | src/blipkit_interpreter.cpp:370-377 | a branch lands at the position after its operand plus the offset minus 4, whenever that is a non-negative int32 |
| Interpreter.Send | src/blipkit_interpreter.cpp:171-190 | a track command reaches the track exactly when the delay register is not recording: then exactly that command is sent, otherwise none, and the machine is unchanged either way |
| Interpreter.Wait | src/blipkit_interpreter.cpp:321-343 | a wait sends no command and keeps code, stack and state; with no delay recorded it returns the ticks unless they are 0; any wait it returns is a non-zero int32 |
| Interpreter.Delay | src/blipkit_interpreter.cpp:351-369 | DELAY_TICK and DELAY_STEP update only the delay register, send no command and keep the code, stack and state |
| Interpreter.Call | src/blipkit_interpreter.cpp:379-392 | a CALL with a full stack fails with ERR_STACK_OVERFLOW and returns -1; otherwise it pushes the position after the operand and seeks to the branch target |
| Interpreter.Return | src/blipkit_interpreter.cpp:393-406 | a RETURN with an empty stack fails with -1 (as written with ERR_STACK_OVERFLOW, corrected with ERR_STACK_UNDERFLOW); otherwise it pops the last position and seeks there |
| Interpreter.Execute | src/blipkit_interpreter.cpp:181-320 | a track command changes only the cursor (and, for ARPEGGIO, the arpeggio buffer), returns nothing, and sends one command exactly when not recording a delay |
| Interpreter.CommandOpsCovered | src/blipkit_interpreter.cpp:181-450 | every track command other than ARPEGGIO and the two effects falls into one of the operand groups the interpreter handles |
| Interpreter.ExecuteSimple | src/blipkit_interpreter.cpp:181-254 | a command with one operand changes only the cursor and sends one command exactly when not recording a delay |
| Interpreter.ExecuteArpeggio | src/blipkit_interpreter.cpp:300-313 | ARPEGGIO changes only the cursor and the arpeggio buffer and sends one command exactly when not recording a delay |
| Interpreter.ExecuteEffect | src/blipkit_interpreter.cpp:255-276 | VIBRATO and TREMOLO change only the cursor and send one command exactly when not recording a delay |
| Interpreter.Flow | src/blipkit_interpreter.cpp:321-406 | the timing and branching instructions send no command, keep the program and the arpeggio buffer, and return -1 whenever they fail |
| Interpreter.Step | src/blipkit_interpreter.cpp:166-451 | one instruction keeps the code and program, sends nothing while a delay is being recorded, and returns -1 whenever it fails |
| Interpreter.AtEnd | src/blipkit_interpreter.cpp:454-466 | at the end of the code a running interpreter becomes finished; the result is -1 exactly for an error state and 0 otherwise |
| Interpreter.Advance | src/blipkit_interpreter.cpp:165-467 | advance keeps the code, returns -1 at once in an error state, and returns -1 whenever it ends in an error |
| Interpreter.ReadsHalves | src/blipkit_interpreter.cpp:300-313 | reading back the binary16 values the assembler stored gives exactly those values and moves the cursor by two bytes each |
| Interpreter.EncodedHalf | src/blipkit_assembler.cpp:138-160 | a binary16-operand instruction is the opcode followed by the two bytes of its operand |
| Interpreter.EncodedByte | src/blipkit_assembler.cpp:161-173 | a one-byte-operand instruction is the opcode followed by the operand truncated to a byte |
| Interpreter.EncodedDivider | src/blipkit_assembler.cpp:174-185 | a divider instruction is the opcode followed by the operand clamped to a uint16 |
| Interpreter.EncodedPlain | src/blipkit_assembler.cpp:262-270 | an instruction without operands is the opcode alone |
| Interpreter.EncodedArpeggio | src/blipkit_assembler.cpp:224-239 | an arpeggio is the opcode, a count of at most BK_MAX_ARPEGGIO and that many binary16 values |
| Interpreter.EncodedEffect | src/blipkit_assembler.cpp:209-223 | an effect is the opcode followed by three binary16 operands |
| Interpreter.ExecutesHalf | src/blipkit_interpreter.cpp:181-254 | running an encoded binary16 instruction moves past its operand and sends the command the assembler was given |
| Interpreter.ExecutesByte | src/blipkit_interpreter.cpp:219-246 | running an encoded one-byte instruction moves past its operand and sends the command the assembler was given |
| Interpreter.ExecutesDivider | src/blipkit_interpreter.cpp:293-299 | running an encoded divider instruction moves past its operand and sends the clamped divider |
| Interpreter.ExecutesEffect | src/blipkit_interpreter.cpp:255-276 | running an encoded effect moves past its three operands and sends the effect with its ticks scaled by the step length |
| Interpreter.ExecutesArpeggio | src/blipkit_interpreter.cpp:300-313 | running an encoded arpeggio moves past its count and values and sends exactly the notes the assembler stored |
| Interpreter.RunsEncodedHalf | src/blipkit_interpreter.cpp:181-292 | a binary16 instruction decodes to the command it was assembled from |
| Interpreter.RunsEncodedByte | src/blipkit_interpreter.cpp:219-246 | a one-byte instruction decodes to the command it was assembled from |
| Interpreter.RunsEncodedDivider | src/blipkit_interpreter.cpp:293-299 | a divider instruction decodes to the command it was assembled from |
| Interpreter.RunsEncodedPlain | src/blipkit_interpreter.cpp:188-197 | an instruction without operands decodes to its command |
| Interpreter.RunsEncodedArpeggio | src/blipkit_interpreter.cpp:300-313 | an arpeggio decodes to the notes it was assembled from |
| Interpreter.RunsEncodedEffect | src/blipkit_interpreter.cpp:255-276 | an effect decodes to the command it was assembled from |
| Interpreter.ExecutesEncoded | src/blipkit_interpreter.cpp:181-320 | every track command the assembler emits is read back in full and sends exactly the command it was assembled from (or none while recording a delay) |
| Interpreter.ReadsOpcode | src/blipkit_interpreter.cpp:166-169 | the loop reads the opcode at the cursor and moves one byte on; it only runs while not in an error state |
| Interpreter.StepExecutes | src/blipkit_interpreter.cpp:166-320 | a track-command opcode is handed to the command executor, which executes exactly when no delay is being recorded |
| Interpreter.StepFlows | src/blipkit_interpreter.cpp:321-406 | a timing or branching opcode is handed to the flow executor |
| Interpreter.StepRunsEncoded | src/blipkit_interpreter.cpp:166-320 | assembler output for any track command, run as one step, moves past the instruction, keeps stack, delay, step length and state, and sends the assembled command unless a delay is being recorded |
| Interpreter.EncodedStartsWithOp | src/blipkit_assembler.cpp:131-137 | every encoded track command starts with its opcode |
| Interpreter.StepBranches | src/blipkit_interpreter.cpp:370-392 | a JUMP or CALL reads its 4-byte offset and goes to the branch target, a CALL also pushing the return position |
| Interpreter.FlowBranches | src/blipkit_interpreter.cpp:370-392 | with execution on, JUMP seeks to the branch target and CALL is handled by the call rule |
| Interpreter.CompiledBranch | src/blipkit_assembler.cpp:395-437 | in compiled code every recorded branch is a CALL or JUMP byte whose 4-byte operand is the distance from the operand to the label's offset |
| Interpreter.BranchReaches | src/blipkit_interpreter.cpp:370-392 | a branch whose offset points at a target moves the cursor to that target (a CALL also pushing the position after the operand) |
| Interpreter.CompiledBranchLands | src/blipkit_interpreter.cpp:370-392 | running a compiled JUMP or CALL lands on its label's position in the code section |
| Interpreter.StepReturns | src/blipkit_interpreter.cpp:393-406 | a RETURN pops the last position and goes there; on an empty stack it fails, returns -1 and moves to the end |
| Interpreter.CallThenReturn | src/blipkit_interpreter.cpp:379-406 | a RETURN reached with the stack a CALL left comes back right after the CALL with the stack as it was |
| Interpreter.EmptyReturnOverflows | src/blipkit_interpreter.cpp:393-397 | as written, RETURN on an empty stack reports ERR_STACK_OVERFLOW, although the message says stack underflow |
| Interpreter.EmptyReturnUnderflows | src/blipkit_interpreter.cpp:393-397 | corrected, RETURN on an empty stack reports ERR_STACK_UNDERFLOW and returns -1 |
| Interpreter.StepProduct | src/blipkit_interpreter.cpp:332-334 | the product of a positive step count and step length, both uint16, is never 0 in int32; above INT32_MAX it turns negative |
| Interpreter.StepWaitsEncoded | src/blipkit_interpreter.cpp:321-343 | an assembled TICK or STEP with no delay returns its ticks (STEP: steps times the step length, truncated to int32) and moves past the operand |
| Interpreter.StepTicksEncoded | src/blipkit_interpreter.cpp:344-350 | an assembled STEP_TICKS sets the step length to its operand clamped to [1, UINT16_MAX], unless a delay is being recorded |
| Interpreter.LongStepTurnsNegative | src/blipkit_interpreter.cpp:332-342 | 40000 steps of 60000 ticks come back as a negative wait |
| Interpreter.AdvanceWaitsEncoded | src/blipkit_interpreter.cpp:165-331 | advance on an assembled TICK with no delay returns its ticks with the cursor past it |
| Interpreter.AdvanceHalts | src/blipkit_interpreter.cpp:177-180 | advance on HALT returns 0 with the interpreter finished and the cursor past the opcode |
| LegacyBytecode.DecodeHeader | addons/detomon.blipkit/native/src/blipkit_bytecode.cpp:25-26 | a header's bytes give its name bytes, a one-byte version and a uint32 footer offset |
| LegacyBytecode.ReadHeader | addons/detomon.blipkit/native/src/blipkit_bytecode.cpp:25-50 | reading the header never changes the bytes; it fails whenever fewer than a header's worth of bytes follow the cursor, and a header that passes leaves the cursor right after it |
| LegacyBytecode.ReadEntries | addons/detomon.blipkit/native/src/blipkit_bytecode.cpp:62-76 | the footer's entry loop keeps the bytes, only moves forward and never forgets a label |
| LegacyBytecode.ReadFooter | addons/detomon.blipkit/native/src/blipkit_bytecode.cpp:52-81 | reading the footer keeps the bytes and every label already known, and on success puts the cursor back where it was |
| LegacyBytecode.Initialize | addons/detomon.blipkit/native/src/blipkit_bytecode.cpp:15-23 | the bytecode keeps the stream's bytes and is valid only if the header read from the stream's cursor passes; once it passes, validity and labels are those of the footer read at the header's footer offset, with the name buffer as written or corrected |
| LegacyBytecode.SetBytes | addons/detomon.blipkit/native/src/blipkit_bytecode.cpp:96-98 | set_bytes replaces the bytes and rewinds, but the labels and the validity stay as they were |
| LegacyBytecode.GetLabels | addons/detomon.blipkit/native/src/blipkit_bytecode.cpp:115-128 | the names returned are exactly the names of the labels read |
| LegacyBytecode.GetByteArray | addons/detomon.blipkit/native/src/blipkit_bytecode.cpp:104-113 | the array holds as many bytes as the stream |
| LegacyBytecode.LabelMapLastWins | addons/detomon.blipkit/native/src/blipkit_bytecode.cpp:74-75 | a name the entries define maps to the offset of its last entry |
| LegacyBytecode.LabelMapKeepsOthers | addons/detomon.blipkit/native/src/blipkit_bytecode.cpp:74-75 | a name no entry defines keeps what it had |
| LegacyBytecode.EncodedLength | addons/detomon.blipkit/native/src/blipkit_assembler.cpp:58-62 | each encoded footer entry takes at least five bytes |
| LegacyBytecode.ReadEncodedEntries | addons/detomon.blipkit/native/src/blipkit_bytecode.cpp:62-76 | reading encoded entries recovers them, a later entry of a name replacing an earlier one, and moves the cursor past them |
| LegacyBytecode.Footer | addons/detomon.blipkit/native/src/blipkit_assembler.cpp:53-62 | a footer is the four-byte label count followed by the entries |
| LegacyBytecode.FooterRoundTrip | addons/detomon.blipkit/native/src/blipkit_bytecode.cpp:52-81 | with the name buffer not reused (corrected), a footer read where it was written succeeds with its labels, the last entry of a name winning, and puts the cursor back |
| LegacyBytecode.ReadEncodedEntriesAsWritten | addons/detomon.blipkit/native/src/blipkit_bytecode.cpp:62-76 | as written, reading encoded entries succeeds and stores each entry under its stale name: the name copied over the front of the names before it |
| LegacyBytecode.FooterRoundTripAsWritten | addons/detomon.blipkit/native/src/blipkit_bytecode.cpp:52-81 | as written, a footer read where it was written succeeds and yields the stale names; names that never get shorter come back exactly |
| LegacyBytecode.FooterLosesShorterName | addons/detomon.blipkit/native/src/blipkit_bytecode.cpp:62-75 | as written, a name shorter than the name before it is stored under the name followed by the earlier name's tail and its own name is missing; the corrected reader finds it at its offset |
| LegacyBytecode.HeaderReadAtEnd | addons/detomon.blipkit/native/src/blipkit_bytecode.cpp:15-31 | as written, a stream whose cursor is at its end never parses, because the header read comes up short |
| LegacyBytecode.HeaderReadFromStart | addons/detomon.blipkit/native/src/blipkit_bytecode.cpp:25-50 | read from offset 0, a stream that starts with the template's name and version passes the header check wherever its cursor was |
| LegacyAssembler.KindOf | addons/detomon.blipkit/native/src/blipkit_assembler.cpp:75-198 | NOOP, HALT and opcodes past OP_MAX have no case in put; CALL and JUMP are the branch case and STORE its own case |
| LegacyAssembler.SlotsGrow | addons/detomon.blipkit/native/src/blipkit_assembler.cpp:152-167 | placeholders inside a stream stay inside when the stream and label table grow |
| LegacyAssembler.SlotsAppend | addons/detomon.blipkit/native/src/blipkit_assembler.cpp:152-167 | a new placeholder inside the stream that refers to a known label keeps all placeholders inside |
| LegacyAssembler.TableGrows | addons/detomon.blipkit/native/src/blipkit_assembler.cpp:237-255 | the label table stays well formed when the stream grows |
| LegacyAssembler.New | addons/detomon.blipkit/native/src/blipkit_assembler.cpp:316-324 | a new assembler is valid and assembling, with no code, labels or placeholders |
| LegacyAssembler.Clear | addons/detomon.blipkit/native/src/blipkit_assembler.cpp:316-324 | clear empties the code, labels, placeholders and message and returns to assembling |
| LegacyAssembler.Init | addons/detomon.blipkit/native/src/blipkit_assembler.cpp:24-35 | init_byte_code writes the template header only into an empty stream, and then nothing else changes; a non-empty stream is left alone |
| LegacyAssembler.Fail | addons/detomon.blipkit/native/src/blipkit_assembler.cpp:193-210 | a failure sets the failed state and its message and keeps code, labels and placeholders |
| LegacyAssembler.Emit | addons/detomon.blipkit/native/src/blipkit_assembler.cpp:178-191 | writing an instruction writes its bytes at the cursor and changes nothing else |
| LegacyAssembler.IndexOf | addons/detomon.blipkit/native/src/blipkit_assembler.cpp:213-218 | the lookup finds a label of that name, and returns -1 exactly when there is none |
| LegacyAssembler.GetOrAddLabel | addons/detomon.blipkit/native/src/blipkit_assembler.cpp:213-225 | an existing label keeps its index; a new name is appended as an undefined label; either way the returned index names the label |
| LegacyAssembler.PutLabel | addons/detomon.blipkit/native/src/blipkit_assembler.cpp:237-255 | put_label refuses the wrong state, an empty name and a name of 255 UTF-8 bytes or more (with its NUL); a defined label is a duplicate that keeps the code; otherwise the label is defined at the cursor |
| LegacyAssembler.DefineLabel | addons/detomon.blipkit/native/src/blipkit_assembler.cpp:242-252 | defining a new or only-referenced label at the cursor keeps the assembler valid and every other label |
| LegacyAssembler.Relabel | addons/detomon.blipkit/native/src/blipkit_assembler.cpp:213-225 | a longer label table over the same placeholders keeps the assembler valid |
| LegacyAssembler.TableDefine | addons/detomon.blipkit/native/src/blipkit_assembler.cpp:242-252 | defining a label at a position inside the stream keeps the label table well formed |
| LegacyAssembler.TableReference | addons/detomon.blipkit/native/src/blipkit_assembler.cpp:152-167 | referring to a label through a new placeholder keeps the label table well formed |
| LegacyAssembler.Signature | addons/detomon.blipkit/native/src/blipkit_assembler.cpp:81-181 | every case checks exactly three argument types |
| LegacyAssembler.CheckArgs | addons/detomon.blipkit/native/src/blipkit_assembler.cpp:37-46 | the check passes exactly when all three arguments have their case's types; otherwise it names the first wrong argument, numbered from 1 |
| LegacyAssembler.StoreNumber | addons/detomon.blipkit/native/src/blipkit_assembler.cpp:186 | the register number is the int argument clamped to [0, REGISTER_COUNT], the bound included |
| LegacyAssembler.Encode | addons/detomon.blipkit/native/src/blipkit_assembler.cpp:76-192 | every accepted instruction starts with its opcode |
| LegacyAssembler.PutBranch | addons/detomon.blipkit/native/src/blipkit_assembler.cpp:152-167 | CALL and JUMP look the label up (adding it), write the opcode and a zero placeholder, and remember the placeholder |
| LegacyAssembler.Put | addons/detomon.blipkit/native/src/blipkit_assembler.cpp:65-211 | an opcode past OP_MAX is refused, then the wrong state; NOOP, HALT and wrong argument types fail the assembler; otherwise the instruction is appended |
| LegacyAssembler.PutCode | addons/detomon.blipkit/native/src/blipkit_assembler.cpp:227-235 | put_code refuses the wrong state; otherwise it writes the header and always reports a parser error |
| LegacyAssembler.JumpOffset | addons/detomon.blipkit/native/src/blipkit_assembler.cpp:286 | a placeholder receives the label's offset minus its own, as an int32 |
| LegacyAssembler.PatchFrom | addons/detomon.blipkit/native/src/blipkit_assembler.cpp:276-289 | the placeholder loop keeps the stream's size and stops, if at all, on a placeholder it has not passed |
| LegacyAssembler.PatchOne | addons/detomon.blipkit/native/src/blipkit_assembler.cpp:287-288 | one store writes the jump's four bytes at the placeholder, touches nothing else and leaves the cursor after them |
| LegacyAssembler.PatchFromOutcome | addons/detomon.blipkit/native/src/blipkit_assembler.cpp:276-289 | the loop stops exactly at the first placeholder whose label is undefined, with the cursor after the last store |
| LegacyAssembler.PatchFromFrame | addons/detomon.blipkit/native/src/blipkit_assembler.cpp:276-289 | the loop changes no byte outside the placeholders |
| LegacyAssembler.PatchFromSlots | addons/detomon.blipkit/native/src/blipkit_assembler.cpp:276-289 | with every label defined, each placeholder ends up holding its jump |
| LegacyAssembler.MetaEntry | addons/detomon.blipkit/native/src/blipkit_assembler.cpp:55-61 | a footer entry is five bytes plus the name |
| LegacyAssembler.Entries | addons/detomon.blipkit/native/src/blipkit_assembler.cpp:54-61 | the footer lists each label by name with its offset as a uint32 |
| LegacyAssembler.Store32 | addons/detomon.blipkit/native/src/blipkit_assembler.cpp:269-270 | overwriting a uint32 field stores its four bytes and keeps everything else and the cursor |
| LegacyAssembler.Terminate | addons/detomon.blipkit/native/src/blipkit_assembler.cpp:262-273 | compile writes HALT at the cursor, stores the code size and leaves the cursor one byte further on |
| LegacyAssembler.Compile | addons/detomon.blipkit/native/src/blipkit_assembler.cpp:257-300 | compile refuses the wrong state; it succeeds exactly when every placeholder's label is defined, and then it is compiled with no placeholders left and the labels kept |
| LegacyAssembler.Stop | addons/detomon.blipkit/native/src/blipkit_assembler.cpp:281-284 | a failed compile keeps the state, labels and placeholders and names the undefined label |
| LegacyAssembler.Finish | addons/detomon.blipkit/native/src/blipkit_assembler.cpp:294-299 | a successful compile clears the placeholders and becomes compiled |
| LegacyAssembler.CompiledTable | addons/detomon.blipkit/native/src/blipkit_assembler.cpp:276-296 | once every placeholder's label is defined, every label is, and the table holds without placeholders |
| LegacyAssembler.GetByteCode | addons/detomon.blipkit/native/src/blipkit_assembler.cpp:302-310 | get_byte_code returns a bytecode exactly when compiled, holding the compiled bytes |
| LegacyAssembler.InitAppending | addons/detomon.blipkit/native/src/blipkit_assembler.cpp:24-35 | init_byte_code keeps the cursor at the end, the header intact and the placeholders ordered |
| LegacyAssembler.EmitAppending | addons/detomon.blipkit/native/src/blipkit_assembler.cpp:178-191 | writing at the end appends exactly those bytes |
| LegacyAssembler.PutKeepsAppending | addons/detomon.blipkit/native/src/blipkit_assembler.cpp:65-211 | an accepted instruction is appended after the header: its encoding, or for CALL and JUMP the opcode and a zero placeholder |
| LegacyAssembler.BranchAppending | addons/detomon.blipkit/native/src/blipkit_assembler.cpp:152-167 | a branch appends its opcode and a zero placeholder and records the placeholder after the header |
| LegacyAssembler.IndexOfLast | addons/detomon.blipkit/native/src/blipkit_assembler.cpp:220-224 | a new label is found at the end of the table |
| LegacyAssembler.PutLabelKeepsAppending | addons/detomon.blipkit/native/src/blipkit_assembler.cpp:237-255 | a label put_label defines points at the end of the stream, where the next instruction goes |
| LegacyAssembler.TerminateImage | addons/detomon.blipkit/native/src/blipkit_assembler.cpp:262-273 | compile appends HALT and stores the code size in its header field (corrected: also the footer offset), leaving every other byte |
| LegacyAssembler.AppendingFacts | addons/detomon.blipkit/native/src/blipkit_assembler.cpp:24-35 | after init_byte_code the stream holds the header, the cursor is at its end and every placeholder lies past the header |
| LegacyAssembler.CompiledCode | addons/detomon.blipkit/native/src/blipkit_assembler.cpp:257-300 | a successful compile terminates, patches and appends the footer to the stream after init_byte_code, and every placeholder's label is defined |
| LegacyAssembler.PatchedHeaderStream | addons/detomon.blipkit/native/src/blipkit_assembler.cpp:262-273 | after compile, HALT follows the code and the header keeps its name and version and holds the code size (corrected: also the footer offset) |
| LegacyAssembler.CompiledStreamImage | addons/detomon.blipkit/native/src/blipkit_assembler.cpp:257-300 | a compiled stream is the patched code and header followed by the footer, with the cursor at the end |
| LegacyAssembler.CompiledStreamSlots | addons/detomon.blipkit/native/src/blipkit_assembler.cpp:276-289 | in a compiled stream each placeholder holds its jump |
| LegacyAssembler.PatchKeepsHeader | addons/detomon.blipkit/native/src/blipkit_assembler.cpp:276-289 | placeholders past the header leave the header as it was |
| LegacyAssembler.AllDefined | addons/detomon.blipkit/native/src/blipkit_assembler.cpp:281-284 | with no placeholders left, every label has an offset inside the code and a name put_label accepts |
| LegacyAssembler.MetaEntriesEncode | addons/detomon.blipkit/native/src/blipkit_assembler.cpp:54-62 | write_meta's entries are exactly the entries the reader decodes |
| LegacyAssembler.MetaIsFooter | addons/detomon.blipkit/native/src/blipkit_assembler.cpp:48-63 | write_meta writes the footer the reader expects |
| LegacyAssembler.CompiledImage | addons/detomon.blipkit/native/src/blipkit_assembler.cpp:257-300 | a successful compile's image is the header, the code, HALT, then the footer |
| LegacyAssembler.CompiledNeverValid | addons/detomon.blipkit/native/src/blipkit_assembler.cpp:302-310 | as written, the bytecode get_byte_code returns after a successful compile is never valid, since the header is read from the cursor at the end |
| LegacyAssembler.CompiledFooterOffsetUnchanged | addons/detomon.blipkit/native/src/blipkit_assembler.cpp:262-273 | as written, compile never stores the footer offset: the header keeps the template's value there |
| LegacyAssembler.LoadsFromStart | addons/detomon.blipkit/native/src/blipkit_bytecode.cpp:15-81 | with the header read from offset 0 and the corrected footer reader, a stream with the template's name and version whose footer offset points at a footer loads with that footer's labels |
| LegacyAssembler.CompiledLoads | addons/detomon.blipkit/native/src/blipkit_assembler.cpp:257-310 | corrected (footer offset stored, header read from offset 0, footer names read without the shared buffer), a compiled program loads with every label at its offset |
| LegacyAssembler.CompiledJumpLands | addons/detomon.blipkit/native/src/blipkit_assembler.cpp:276-289 | every placeholder of a successful compile holds the distance from itself to its label, a label inside the code |
| LegacyAssembler.FailedCode | addons/detomon.blipkit/native/src/blipkit_assembler.cpp:257-284 | a failed compile leaves the terminated, partly patched stream, and some placeholder's label is undefined |
| LegacyAssembler.FailedStreamCursor | addons/detomon.blipkit/native/src/blipkit_assembler.cpp:281-288 | after a failed compile, as written the cursor is after the last store, inside the code once a placeholder was patched; corrected it is at the end with the header intact |
| LegacyAssembler.FailedCompileRewinds | addons/detomon.blipkit/native/src/blipkit_assembler.cpp:276-284 | as written, a compile that fails on a later placeholder leaves the cursor inside the code, where the next put overwrites it, and the assembler still assembling |
| LegacyAssembler.FailedCompileKeepsAppending | addons/detomon.blipkit/native/src/blipkit_assembler.cpp:257-292 | corrected, a failed compile keeps the cursor at the end and the header and placeholders as they were |
| LegacyInterpreter.ErrorsFromInvalidBinary | addons/detomon.blipkit/native/src/blipkit_interpreter.hpp:28-35 | a status is an error exactly when it is neither running nor finished, and statuses are told apart by their position |
| LegacyInterpreter.ZeroRegisters | addons/detomon.blipkit/native/src/blipkit_interpreter.hpp:44-45 | a fresh register set holds REGISTER_COUNT zeros |
| LegacyInterpreter.New | addons/detomon.blipkit/native/src/blipkit_interpreter.cpp:15-19 | a new interpreter is running with no message, no code, an empty stack, no program and every register 0 |
| LegacyInterpreter.Fail | addons/detomon.blipkit/native/src/blipkit_interpreter.cpp:21-30 | failing records the status and message and moves the cursor to the end, changing nothing else |
| LegacyInterpreter.SetRegister | addons/detomon.blipkit/native/src/blipkit_interpreter.cpp:52-55 | set_register changes only the registers, and a number outside [0, REGISTER_COUNT) changes nothing |
| LegacyInterpreter.GetRegister | addons/detomon.blipkit/native/src/blipkit_interpreter.cpp:57-60 | get_register returns an int32, and 0 for a number outside [0, REGISTER_COUNT) |
| LegacyInterpreter.SetThenGet | addons/detomon.blipkit/native/src/blipkit_interpreter.cpp:52-60 | a register reads back what was set in it, every other register is unchanged, and a number out of range sets nothing |
| LegacyInterpreter.Reset | addons/detomon.blipkit/native/src/blipkit_interpreter.cpp:246-268 | reset is refused once the status is an error; an unknown label fails with ERR_INVALID_BINARY; otherwise the cursor goes to the start or the label, and the stack, registers, arpeggio and message are cleared with the status running |
| LegacyInterpreter.LoadByteCode | addons/detomon.blipkit/native/src/blipkit_interpreter.cpp:62-83 | a null object returns false and changes nothing; an object that did not parse fails with its message and an unknown label with ERR_INVALID_BINARY; it returns true exactly when neither happens |
| LegacyInterpreter.LoadAfterErrorStaysFailed | addons/detomon.blipkit/native/src/blipkit_interpreter.cpp:62-83 | as written, after an error reset changes nothing, so load_byte_code reports success but keeps the error status and message, with the cursor at offset 0 |
| LegacyInterpreter.LoadStarts | addons/detomon.blipkit/native/src/blipkit_interpreter.cpp:62-83 | corrected, a successful load always starts the program: running, no message, empty stack, zero registers, at the start position |
| LegacyInterpreter.Execute | addons/detomon.blipkit/native/src/blipkit_interpreter.cpp:96-178 | a track command changes only the cursor (and the arpeggio buffer), moves forward, returns nothing and sends exactly one command |
| LegacyInterpreter.StoreIndex | addons/detomon.blipkit/native/src/blipkit_interpreter.cpp:212 | the register STORE writes is its byte operand when below REGISTER_COUNT; as written the clamp lets REGISTER_COUNT itself through, corrected it stays below |
| LegacyInterpreter.Store | addons/detomon.blipkit/native/src/blipkit_interpreter.cpp:211-215 | STORE changes only the cursor and the registers and sends nothing |
| LegacyInterpreter.Call | addons/detomon.blipkit/native/src/blipkit_interpreter.cpp:179-190 | a CALL with a full stack fails with ERR_STACK_OVERFLOW; otherwise it pushes the position after the operand and seeks to the branch target |
| LegacyInterpreter.Return | addons/detomon.blipkit/native/src/blipkit_interpreter.cpp:197-207 | a RETURN on an empty stack fails (as written with ERR_STACK_OVERFLOW, corrected with ERR_STACK_UNDERFLOW); otherwise it pops the last position and seeks there |
| LegacyInterpreter.Step | addons/detomon.blipkit/native/src/blipkit_interpreter.cpp:88-223 | one instruction keeps the code and program, and one that fails returns -1 with a message |
| LegacyInterpreter.AtEnd | addons/detomon.blipkit/native/src/blipkit_interpreter.cpp:226-235 | at the end a running interpreter becomes finished; the result is -1 exactly when there is an error message and 0 otherwise |
| LegacyInterpreter.Advance | addons/detomon.blipkit/native/src/blipkit_interpreter.cpp:85-236 | advance keeps the code, and at the end of the code it goes straight to the end-of-code rule |
| LegacyInterpreter.AdvanceAfterFailure | addons/detomon.blipkit/native/src/blipkit_interpreter.cpp:21-30 | after a failure, advance sends nothing, keeps the error status and returns -1 |
| LegacyInterpreter.ReadsOpcode | addons/detomon.blipkit/native/src/blipkit_interpreter.cpp:89-90 | the loop reads the opcode at the cursor and moves one byte on |
| LegacyInterpreter.StepExecutes | addons/detomon.blipkit/native/src/blipkit_interpreter.cpp:96-178 | a track-command opcode is handed to the command executor |
| LegacyInterpreter.StepFlows | addons/detomon.blipkit/native/src/blipkit_interpreter.cpp:93-222 | NOOP moves on, TICK returns its uint16 operand, and CALL, JUMP, RETURN, STORE, HALT and unknown opcodes go to their own rules |
| LegacyInterpreter.ExecutesHalf | addons/detomon.blipkit/native/src/blipkit_interpreter.cpp:96-116 | running an encoded binary16 instruction moves past its operand and sends the command it was assembled from |
| LegacyInterpreter.ExecutesByte | addons/detomon.blipkit/native/src/blipkit_interpreter.cpp:117-135 | running an encoded one-byte instruction moves past its operand and sends the command it was assembled from |
| LegacyInterpreter.ExecutesWord | addons/detomon.blipkit/native/src/blipkit_interpreter.cpp:136-153 | running an encoded uint16 instruction moves past its operand and sends the command it was assembled from |
| LegacyInterpreter.ExecutesEffect | addons/detomon.blipkit/native/src/blipkit_interpreter.cpp:158-169 | running an encoded effect moves past its six operand bytes and sends the effect it was assembled from |
| LegacyInterpreter.ExecutesArpeggio | addons/detomon.blipkit/native/src/blipkit_interpreter.cpp:170-178 | running an encoded arpeggio moves past its count and values and sends the notes it was assembled from |
| LegacyInterpreter.ReadsArpeggio | addons/detomon.blipkit/native/src/blipkit_interpreter.cpp:171-176 | reading an arpeggio's count and values gives back the notes the assembler stored |
| LegacyInterpreter.EncodedHalf | addons/detomon.blipkit/native/src/blipkit_assembler.cpp:76-88 | a binary16 instruction is the opcode followed by the two bytes of its operand |
| LegacyInterpreter.EncodedByte | addons/detomon.blipkit/native/src/blipkit_assembler.cpp:89-101 | a one-byte instruction is the opcode followed by the operand truncated to a byte |
| LegacyInterpreter.EncodedWord | addons/detomon.blipkit/native/src/blipkit_assembler.cpp:102-118 | a uint16 instruction is the opcode followed by the operand clamped to a uint16 |
| LegacyInterpreter.EncodedEffect | addons/detomon.blipkit/native/src/blipkit_assembler.cpp:119-134 | an effect is the opcode, the ticks as a uint16, the delta as binary16 and the slide ticks as a uint16 |
| LegacyInterpreter.EncodedArpeggio | addons/detomon.blipkit/native/src/blipkit_assembler.cpp:135-151 | an arpeggio is the opcode, a count of at most BK_MAX_ARPEGGIO and that many binary16 values |
| LegacyInterpreter.EncodedPlain | addons/detomon.blipkit/native/src/blipkit_assembler.cpp:169-179 | an instruction without operands is the opcode alone |
| LegacyInterpreter.OpensEncoded | addons/detomon.blipkit/native/src/blipkit_interpreter.cpp:88-90 | an encoded instruction at the cursor opens with its opcode and its operands follow |
| LegacyInterpreter.StepRunsEncoded | addons/detomon.blipkit/native/src/blipkit_interpreter.cpp:88-178 | assembler output for any track command, run as one step, moves past the instruction and sends exactly the command it was assembled from |
| LegacyInterpreter.RunsHalf | addons/detomon.blipkit/native/src/blipkit_interpreter.cpp:96-116 | a binary16 instruction decodes to the command it was assembled from |
| LegacyInterpreter.RunsByte | addons/detomon.blipkit/native/src/blipkit_interpreter.cpp:117-135 | a one-byte instruction decodes to the command it was assembled from |
| LegacyInterpreter.RunsWord | addons/detomon.blipkit/native/src/blipkit_interpreter.cpp:136-153 | a uint16 instruction decodes to the command it was assembled from |
| LegacyInterpreter.RunsEffect | addons/detomon.blipkit/native/src/blipkit_interpreter.cpp:158-169 | an effect decodes to the command it was assembled from |
| LegacyInterpreter.RunsPlain | addons/detomon.blipkit/native/src/blipkit_interpreter.cpp:99-104 | an instruction without operands decodes to its command |
| LegacyInterpreter.RunsArpeggio | addons/detomon.blipkit/native/src/blipkit_interpreter.cpp:170-178 | an arpeggio decodes to the notes it was assembled from |
| LegacyInterpreter.ExecutesPlain | addons/detomon.blipkit/native/src/blipkit_interpreter.cpp:99-104 | RELEASE, MUTE and RESET send their command and read no operand |
| LegacyInterpreter.StepTicksEncoded | addons/detomon.blipkit/native/src/blipkit_interpreter.cpp:154-157 | an assembled TICK returns its clamped uint16 operand, sends nothing and moves past it |
| LegacyInterpreter.StepStoresEncoded | addons/detomon.blipkit/native/src/blipkit_interpreter.cpp:211-215 | an assembled STORE writes its value as an int32 into its register, or nowhere when the register is out of range, and moves past its five operand bytes |
| LegacyInterpreter.StoreReads | addons/detomon.blipkit/native/src/blipkit_interpreter.cpp:211-215 | STORE reads a register byte and an int32 and stores the int32 in that register |
| LegacyInterpreter.StoreWritesPastLast | addons/detomon.blipkit/native/src/blipkit_assembler.cpp:180-192 | as written, STORE with a register number of REGISTER_COUNT or more is assembled with the number REGISTER_COUNT, which the interpreter's clamp lets through as a register index one past the last |
| LegacyInterpreter.StoreStaysInside | addons/detomon.blipkit/native/src/blipkit_interpreter.cpp:212-214 | corrected, the register index is always below REGISTER_COUNT, keeps numbers in range and sends larger ones to the last register |
| LegacyInterpreter.StepBranches | addons/detomon.blipkit/native/src/blipkit_interpreter.cpp:179-196 | a JUMP or CALL reads its 4-byte offset and goes to the branch target, a CALL also pushing the return position |
| LegacyInterpreter.BranchReaches | addons/detomon.blipkit/native/src/blipkit_interpreter.cpp:179-196 | a branch whose offset points at a target inside the code moves the cursor to that target |
| LegacyInterpreter.CompiledBranchLands | addons/detomon.blipkit/native/src/blipkit_interpreter.cpp:179-196 | running a compiled JUMP or CALL lands on its label's offset |
| LegacyInterpreter.CallThenReturn | addons/detomon.blipkit/native/src/blipkit_interpreter.cpp:179-207 | a RETURN after a CALL comes back right after the CALL's operand with the stack as before |
| LegacyInterpreter.EmptyReturnOverflows | addons/detomon.blipkit/native/src/blipkit_interpreter.cpp:197-200 | as written, RETURN on an empty stack reports ERR_STACK_OVERFLOW with the underflow message, returns -1 and moves to the end |
| LegacyInterpreter.EmptyReturnUnderflows | addons/detomon.blipkit/native/src/blipkit_interpreter.cpp:197-200 | corrected, RETURN on an empty stack reports ERR_STACK_UNDERFLOW |
| LegacyInterpreter.AdvanceRejectsOpcode | addons/detomon.blipkit/native/src/blipkit_interpreter.cpp:220-222 | an opcode past OP_MAX fails with ERR_INVALID_OPCODE, names the opcode and its offset and returns -1 |
| LegacyInterpreter.AdvanceHalts | addons/detomon.blipkit/native/src/blipkit_interpreter.cpp:216-235 | HALT moves to the end; advance then finishes a running interpreter and returns 0 exactly when there is no error message |
| LegacyInterpreter.AdvanceTicksEncoded | addons/detomon.blipkit/native/src/blipkit_interpreter.cpp:154-157 | advance on an assembled TICK returns its ticks with the cursor past it |
| Markdown.Lower | doc/markdown.py:25 | lower-casing keeps the length and maps every character on its own |
| Markdown.StripTabs | doc/markdown.py:100 | removing leading tabs leaves a suffix that does not start with a tab, and everything removed was a tab |
| Markdown.StripRight | doc/markdown.py:100 | `rstrip` leaves a prefix that does not end in white space, and everything removed was white space |
| Markdown.StripLeft | doc/markdown.py:91 | removing leading white space leaves a suffix that does not start with white space, and everything removed was white space |
| Markdown.Strip | doc/markdown.py:91 | a stripped text neither starts nor ends with white space, and adds no bracket |
| Markdown.SplitLines | doc/markdown.py:92 | no line holds a line break, and text without brackets gives lines without brackets |
| Markdown.SplitThenJoin | doc/markdown.py:92 | text whose only line breaks are newlines, and which does not end in one, is given back by splitting it into lines and joining them with newlines |
| Markdown.KeepWordsAndSpaces | doc/markdown.py:23 | the first pass of `name_to_anchor` keeps only word characters and spaces, and never lengthens the name |
| Markdown.Hyphenate | doc/markdown.py:24 | every space becomes a hyphen and every other character is kept |
| Markdown.NameToAnchor | doc/markdown.py:22-27 | an anchor is never longer than its name and holds only lower-case word characters and hyphens |
| Markdown.SlugOf | doc/markdown.py:22-27 | a single character gives at most one anchor character |
| Markdown.AnchorIsSlug | doc/markdown.py:22-27 | the three passes of `name_to_anchor` are the same as slugging the name character by character |
| Markdown.AnchorAppend | doc/markdown.py:22-27 | the anchor of two joined names is the two anchors joined |
| Markdown.AnchorOfCharacter | doc/markdown.py:22-27 | the anchor of one character is that character's slug |
| Markdown.AnchorFixedIffNoHyphen | doc/markdown.py:22-27 | taking the anchor of an anchor changes it exactly when the anchor holds a hyphen |
| Markdown.SlugOfAnchorChars | doc/markdown.py:22-27 | a text of anchor characters is its own slug exactly when it has no hyphen, and slugging never lengthens it |
| Markdown.AnchorNotIdempotent | doc/markdown.py:22-27 | the anchor of "a b" is "a-b", and the anchor of that is "ab" |
| Markdown.EmptyDict | doc/markdown.py:177 | a new dictionary is well formed and has no keys |
| Markdown.Put | doc/markdown.py:191-201 | storing a key sets its value; a new key is appended to the key order, an existing key keeps its place |
| Markdown.FirstSeen | doc/markdown.py:176-203 | the first-seen order holds exactly the keys given, each once |
| Markdown.Collect | doc/markdown.py:176-203 | filling a dictionary from keys and values gives a well-formed dictionary whose keys are exactly the keys given |
| Markdown.CollectKeepsFirstPlaceLastValue | doc/markdown.py:176-203 | a key keeps the place of its first store and holds the value of its last |
| Markdown.CollectKeepsFirstPlace | doc/markdown.py:176-203 | the key order is the first-seen order of the keys given |
| Markdown.CollectKeepsLastValue | doc/markdown.py:176-203 | each key holds the value stored with it last |
| Markdown.CollectValues | doc/markdown.py:176-203 | every value in the dictionary is one of the values given |
| Markdown.ValuesInOrder | doc/markdown.py:332-333 | iterating a dictionary's values gives one value per key |
| Markdown.FindFrom | doc/markdown.py:211-213 | a search for a text from a position gives its first occurrence there or after, or none when there is none |
| Markdown.WordRun | doc/markdown.py:129 | `\w+` consumes the longest run of word characters |
| Markdown.SpaceRun | doc/markdown.py:129 | `\s+` consumes the longest run of white space |
| Markdown.MatchAt | doc/markdown.py:129-157 | a match at a position ends after it and inside the text, and a bracketed pattern only matches at a '[' |
| Markdown.Search | doc/markdown.py:129 | `re.search` gives the leftmost position at or after the start where the pattern matches, or none when it matches nowhere |
| Markdown.Sub | doc/markdown.py:139-157 | `re.sub` with a bracketed pattern leaves text without brackets unchanged |
| Markdown.TaggedSpanReplaced | doc/markdown.py:139-145 | an opening tag, a text without the closing tag and the closing tag are replaced as one span by the replacement of the text |
| Markdown.ReplaceMember | doc/markdown.py:30-40 | a member reference links to the anchor of the member's full name when the name is known; as written the check asks the method table, so a method that is not a member fails with a missing key and a member that is not a method stays plain code |
| Markdown.ReplaceMethod | doc/markdown.py:43-53 | a method reference becomes a link exactly when the method is in the methods table, pointing at the anchor of its full signature; an unknown method stays the name and "()" as plain code |
| Markdown.ReplaceConstant | doc/markdown.py:56-67 | a constant reference becomes a link exactly when the constant is in the constants table, pointing at the anchor of the bare name; an unknown constant stays plain code |
| Markdown.ConstantLinkIsLowerName | doc/markdown.py:56-67 | a known constant whose name is made of word characters links to "#" followed by its name in lower case |
| Markdown.SlugOfWord | doc/markdown.py:22-27 | the anchor slug of a text of word characters is that text in lower case |
| Markdown.ReplaceEnum | doc/markdown.py:70-73 | an enum reference always becomes a link, to "#enum-" followed by the anchor of the enum's name |
| Markdown.ReplaceClass | doc/markdown.py:76-87 | a class reference starts with the class name as code inside brackets, followed by its link |
| Markdown.PlainLineUnchanged | doc/markdown.py:137-157 | a paragraph line without brackets passes every substitution unchanged |
| Markdown.Trim | doc/markdown.py:100 | a trimmed line does not start with a tab and adds no bracket |
| Markdown.TrimmedKeepsNoTabs | doc/markdown.py:100-137 | removing tabs again from a trimmed line changes nothing, so the tab removal at line 137 is a no-op |
| Markdown.CodeLinesCollected | doc/markdown.py:102-119 | inside a code block, lines without language or closing tags are collected, trimmed, each followed by a newline, and nothing is emitted |
| Markdown.CodeLineStep | doc/markdown.py:119 | one collected code line is appended to the code with a newline |
| Markdown.UnclosedBlockDropped | doc/markdown.py:102-161 | a code block never closed is dropped at the end with everything it collected |
| Markdown.ClosingLineEmits | doc/markdown.py:110-112 | a closing tag emits the collected code as one fenced block in its language and returns to paragraph mode |
| Markdown.PlainLines | doc/markdown.py:100-159 | each paragraph line without brackets becomes one output line |
| Markdown.PlainLinesPass | doc/markdown.py:100-159 | paragraph lines without brackets are emitted as their trimmed selves, each followed by a newline |
| Markdown.PlainStep | doc/markdown.py:100-159 | one paragraph line without brackets is emitted trimmed with a newline, and the mode stays paragraph |
| Markdown.FeedEnd | doc/markdown.py:161 | at the end the emitted lines are joined with newlines, whatever the mode |
| Markdown.RewriteLine | doc/markdown.py:136-159 | with the corrected member lookup the paragraph substitutions never raise; as written, the only failure is a missing key, and only for a name that is in the methods table but not in the members table |
| Markdown.Feed | doc/markdown.py:98-161 | over all lines: corrected, the conversion never raises; as written, it fails only with a missing key for a name that is a method and not a member |
| Markdown.BbcodeToMarkdown | doc/markdown.py:90-161 | corrected, converting a description never raises; as written, it fails only with a missing key for a name that is a method and not a member |
| Markdown.LangOpenerMatches | doc/markdown.py:123-134 | "[codeblock lang=x]" for a word x is not a `[codeblocks]` line, and the language pattern matches it at its start with x as the language |
| Markdown.OpenerMatch | doc/markdown.py:129 | the language pattern matches the whole of "[codeblock lang=x]" with x as its group |
| Markdown.BlocksOpenerStarts | doc/markdown.py:123-127 | a `[codeblocks]` line opens a code block in GDScript and emits nothing |
| Markdown.FencedBlock | doc/markdown.py:102-134 | an opener with a language, code lines and a closing line become one fenced block of that language holding the trimmed code lines |
| Markdown.PlainTextPasses | doc/markdown.py:90-161 | text without brackets is stripped, split into lines, each line trimmed and followed by a newline, and the lines are joined with newlines |
| Markdown.NameEndsAtColon | doc/markdown.py:211 | in "name: type" where the name has no colon, the first ": " is right after the name |
| Markdown.TypeEndsAtEquals | doc/markdown.py:212-213 | a type without '=' has no " = ", and in "type = default" the first " = " is right after the type |
| Markdown.ParamRoundTrip | doc/markdown.py:206-220 | a parameter's full name "name: type = default" (the default part only when the default is not empty) reads back as the same parameter when the name has no colon and the type no '=' |
| Markdown.PrepareMethod | doc/markdown.py:226-242 | a prepared method keeps its name, return type and description, and its anchor is the anchor of its full signature |
| Markdown.SignatureAnchor | doc/markdown.py:237-239 | a method's anchor is the return type's slug, a hyphen, the name's slug, the arguments' slug, and a hyphen and the qualifiers' slug when there are qualifiers |
| Markdown.PunctuationSlugs | doc/markdown.py:22-27 | backticks and parentheses give no anchor characters, and a space gives a hyphen |
| Markdown.SignatureSlugs | doc/markdown.py:238-239 | the anchor of "`rt name(args)q`" is the slugs of the parts with a hyphen for the space |
| Markdown.MethodNames | doc/markdown.py:226-242 | one name per method element |
| Markdown.PrepareMethods | doc/markdown.py:223-253 | the methods table is a well-formed dictionary |
| Markdown.MethodsFirstPlaceLastWins | doc/markdown.py:223-253 | overloads share one entry, placed where the name first appears and holding the method that came last |
| Markdown.PrepareMember | doc/markdown.py:180-201 | a prepared member keeps its name, default and description, and its anchor is the anchor of its full name |
| Markdown.PrepareMembers | doc/markdown.py:176-203 | the members table is a well-formed dictionary |
| Markdown.PrepareConstants | doc/markdown.py:256-272 | the constants table is a well-formed dictionary |
| Markdown.PreparedTables | doc/markdown.py:176-272 | every entry of the prepared tables has the anchor of its full name |
| Markdown.MethodsPrepared | doc/markdown.py:223-253 | every entry of the methods table has the anchor of its full signature, so the link in the list and the heading agree |
| Markdown.MembersPrepared | doc/markdown.py:176-203 | every entry of the members table has the anchor of its full name "`type name`" |
| Markdown.ReferencesTargetEntries | doc/markdown.py:30-53 | with prepared tables, a method reference and a corrected member reference link to the same anchor as the entry in the list |
| Markdown.MemberReferenceAsWritten | doc/markdown.py:30-40 | as written, a member that is not a method stays unlinked, and a method that is not a member fails with a missing key |
| Markdown.MemberReferenceCorrected | doc/markdown.py:30-40 | with the member table asked, a member reference never fails, and it is a link exactly when the name is a member |
| Markdown.EnumReferenceMatchesHeading | doc/markdown.py:70-73 | an enum reference's anchor is the anchor of its heading "enum `name`", since backticks have no slug |
| Markdown.ClassTagMatched | doc/markdown.py:147 | "[Name]" for a class name is one match whose group is the name |
| Markdown.Enums | doc/markdown.py:275-290 | one enum per constant |
| Markdown.ByEnum | doc/markdown.py:275-290 | the constants of one enum are never more than all the constants |
| Markdown.GroupIndex | doc/markdown.py:282 | the index of a group with the given name, or -1 exactly when no group has it |
| Markdown.GroupsOf | doc/markdown.py:275-290 | one group per enum name |
| Markdown.GroupsByEnum | doc/markdown.py:275-290 | grouping gives one group per enum in first-seen order, each holding that enum's constants in order |
| Markdown.ByEnumAbsent | doc/markdown.py:275-290 | an enum no constant has has no constants |
| Markdown.Where | doc/markdown.py:343-344 | filtering the groups never adds one |
| Markdown.EnumGroupsOf | doc/markdown.py:343 | the enum groups are the groups of the non-empty enum names |
| Markdown.PlainGroupOf | doc/markdown.py:344 | the plain constants form one group when the empty enum is among the names, and none otherwise |
| Markdown.ConstantSections | doc/markdown.py:275-363 | "Enumerations" lists one group per non-empty enum in first-seen order, and "Constants" lists the single group of plain constants when there are any |
| Markdown.SectionsOfConstants | doc/markdown.py:275-363 | grouping the constants table (one constant per name, the last one given), "Enumerations" is written exactly when some constant of the table has an enum, and "Constants" exactly when some constant of the table has none |
| Markdown.GroupConstants | doc/markdown.py:275-290 | the groups have distinct enum names, none is empty, each holds only constants of its own enum, there are never more groups than constants, and there is at least one group when there are constants |
| Markdown.Sections | doc/markdown.py:293-383 | the page always opens with the Description section |
| Markdown.SectionsListed | doc/markdown.py:293-383 | "Online Tutorials" is written exactly when there are tutorials, "Properties" and "Property Descriptions" exactly when there are members, "Methods" and "Method Descriptions" exactly when there are methods |
| Markdown.TableValues | doc/markdown.py:278 | the table's values in key order include a constant with (or without) an enum exactly when the table holds one |
| Markdown.SectionPresence | doc/markdown.py:342-363 | each constants section is written exactly when its groups are not empty |
| Bytecode.AddLabel | src/blipkit_bytecode.cpp:117-124 | a name already present leaves the labels as they are; a new name is appended with its offset |
| Bytecode.SectionLoop | src/blipkit_bytecode.cpp:62-88 | the section loop keeps the bytes and the header; when it finishes without error the state and error are unchanged; it never makes an invalid bytecode valid |
| Bytecode.SectionLoopAsWritten | src/blipkit_bytecode.cpp:62-88 | as written (with the uint32 seek and the stale name buffer), a loop that ends keeps the bytes |
| Bytecode.SetBytesAsWritten | src/blipkit_bytecode.cpp:136-146 | as written, loading that ends leaves the bytecode holding exactly the given bytes |
| Bytecode.ShortSectionFails | src/blipkit_bytecode.cpp:103-115 | a one-entry labl section whose name runs past the end of the bytes fails to read |
| Bytecode.ShortSectionStopsLoop | src/blipkit_bytecode.cpp:74-115 | the same section stops the section loop with ERR_INVALID_BINARY and "Truncated label." |
| Bytecode.SectionLoopAsWrittenOnLabels | src/blipkit_bytecode.cpp:62-130 | as written, a labl section ending the image, with distinct names that never get shorter and an end that fits in uint32, is read with its labels and no error |
| Bytecode.WrappingPass | src/blipkit_bytecode.cpp:127 | as written, a labl section of size 0xfffffff8 makes one pass leave the cursor where it was; with the seek not wrapped the pass reaches the end with no labels |
| Delays.Record | src/blipkit_interpreter.cpp:23-42 | recording a run of delays keeps the delay register well formed |
| Delays.Replay | src/blipkit_interpreter.cpp:23-42 | replaying gives one wait per delay and keeps the register well formed |
| Delays.Run | src/blipkit_interpreter.cpp:23-91 | recording a run of delays, closing it with a step, and replaying it gives one wait per delay and leaves the register well formed |
| Delays.ReplayShifting | src/blipkit_interpreter.cpp:23-42 | as written, replaying delays 1, 0, 2 over the recorded 1, 2, 24 waits 1, 2 and 21 ticks: the zero delay takes the next recorded length |
| Dividers.Run | src/divider.hpp:31-46 | ticking a divider once per callback answer gives one tick value per answer |

## Left out

- Bytecode.ImageRoundTrip: holds for the corrected label reader. As written (`SetBytesAsWritten`), the stale name buffer and the uint32 seek make it hold only for names that never get shorter and an image under 2^32 bytes (`Bytecode.ImageRoundTripAsWritten`). `Assembler.CompiledLoads` likewise uses the corrected reader; `Assembler.CompiledLoadsAsWritten` states the as-written case.
- Bytecode.UpToNul: a label name is the bytes up to the first NUL. Godot's `get_string_from_utf8` (src/blipkit_bytecode.cpp:117) also skips a leading UTF-8 byte order mark and replaces invalid sequences with U+FFFD. The model keeps the raw bytes, so it treats every name as valid UTF-8 without a leading byte order mark.
- Bytecode.ReadLabelSection: the labels come back exactly only for names Godot's UTF-8 decoder returns unchanged: valid UTF-8 with no leading byte order mark. A name "\xEF\xBB\xBFloop" reads back as "loop" in the source.
- Bytecode.ImageRoundTrip: the same UTF-8 restriction on names applies.
- Assembler.CompiledLoads: the same UTF-8 restriction on public label names applies. So it does to `Assembler.CompiledLoadsAsWritten`.
- LegacyBytecode.FooterRoundTrip: the older `read_footer` decodes names with the same `get_string_from_utf8` (addons/detomon.blipkit/native/src/blipkit_bytecode.cpp:74), so the same UTF-8 restriction applies. So it does to `LegacyBytecode.FooterRoundTripAsWritten`.
- LegacyAssembler.CompiledLoads: the same UTF-8 restriction on label names applies.
- Assembler.Put: requires `HasRoom`, at most 0x7dffffff bytes in the stream (assembler.dfy `ROOM`). The source accepts longer streams, and there the int32 branch offsets and label positions it computes wrap around. The model does not describe that wrap.
- Assembler.PutBranch: the same `HasRoom` bound, for the same reason.
- Assembler.Compile: the same `HasRoom` bound, for the same reason. The lemmas about compiled output (`CompiledImage`, `CompiledLoads`, `CompiledLoadsAsWritten`, `CompiledJumps`) carry the bound too.
- LegacyAssembler.PutLabel: the same bound on the older stream (`HasRoom`, at most 0x7dffffff bytes), where the int32 jump offsets would otherwise wrap.
- LegacyAssembler.DefineLabel: the same `HasRoom` bound.
- LegacyAssembler.PutBranch: the same `HasRoom` bound.
- LegacyAssembler.Put: the same `HasRoom` bound.
- LegacyAssembler.Compile: the same `HasRoom` bound. The lemmas about its output (`CompiledCode`, `CompiledImage`, `CompiledLoads`, `CompiledJumpLands`, `FailedCode` and their relatives) carry the bound too.
- Samples.FrameBytes: the source copies frames with `memcpy` (src/blipkit_sample.cpp:211, 236), which uses the host's byte order. The model takes a little-endian host. `Samples.SetFrameBytes` assumes the same.
- ByteStream.Read: `read<T>` and `write<T>` copy a value's bytes in host order. The model takes a little-endian host for every stream value.
- Waveforms.GetSetRoundTrip: levels are reals here. In the source, `float(frame) * (1.0 / 32767)` followed by `BKFrame(level * 32767)` is single-precision arithmetic, and about 1536 frame values come back one lower (32160 comes back as 32159, 32672 as 32671). The round trip is exact only for real-valued levels.
- Waveforms.PropertyRoundTrip: the same float32 conversion applies to the stored property. Its round trip is exact only for real-valued levels.
- Levels: single-precision rounding of level arithmetic, normalisation and amplitude is not modelled (reals). The same holds for the level conversions of `Samples`, `Instruments` (envelope multipliers) and `Tracks` (volume, panning, pitch, effect deltas).
- Variants: a number's value and the binary16 bits `put_f16` stores for it are independent fields. The float-to-bits rounding is floating-point work. The bits stand for the operand after the clamps the assembler applies before `put_f16`: effect ticks and slide ticks to [0, UINT16_MAX], effect deltas and arpeggio notes to [-BK_MAX_NOTE, BK_MAX_NOTE] (src/blipkit_assembler.cpp:215-222 and 236). Those clamps are not separate steps of the model.
- Interpreter: `scale`, the float product of a binary16 step count and the step length, is an arbitrary function `(nat, nat) -> nat`. Contracts hold for every such function.
- Interpreter: the error message and `get_error_message` (src/blipkit_interpreter.cpp:93-101, 473-475) are not modelled. Only the error state is. The older interpreter keeps its message.
- Interpreter: the instrument, waveform and sample slot setters and getters (src/blipkit_interpreter.cpp:104-132) and the older tree's equivalents are not modelled. Commands name the slot, and the track side looks it up.
- Interpreter.Advance: runs for at most `fuel` instructions, because a program can loop forever without waiting. The contracts say nothing about a program that runs out of fuel. `LegacyInterpreter.Advance` is bounded the same way.
- Dividers.Keys: godot-cpp's `HashMap` (src/divider.hpp:51) iterates in insertion order, so `get_dividers` and `get_divider_names` list the keys in the order they were added. The model's group is a `map`, which keeps no order, so it states only the set of keys and not their order.
- Dividers.Callback: ticks every divider once, but the model does not fix the insertion order the source ticks them in. The order matters only through the callbacks' side effects, and here each callback's answer is a fixed function of its key.
- LegacyBytecode.GetLabels: the older `HashMap` of labels (addons/detomon.blipkit/native/src/blipkit_bytecode.hpp:22) also iterates in insertion order, but the model keeps the labels in a `map` and states only the set of names. The older `write_meta` footer is written in the labels' insertion order.
- LegacyInterpreter.Store: as written, STORE writes `registers.aux[REGISTER_COUNT]`, one past the last register. That is undefined behaviour in C++, so the model leaves the registers unchanged in that case. `StoreWritesPastLast` shows the index is reached; `StoreStaysInside` gives the corrected index.
- LegacyInterpreter.Reset: requires a loaded program or an error state. Otherwise the source dereferences a null bytecode reference.
- Instruments.SetEnvelope: whether BlipKit accepts the sequence (`BKInstrumentSetSequence`'s result) is the parameter `accepted`. The library is not part of this model.
- Tracks: the BlipKit library's track is modelled as an attribute store that gives back every attribute as it was set. Conversions the library itself applies to an attribute are not modelled.
- Tracks: `reset`, `detach`, `create_with_waveform`, attaching to playback, thread locks and the audio output are not modelled. BlipKit's note limits are library constants passed in as `NoteLimits`.
- Samples: the `_set`/`_get` property dispatch is not modelled. WAV formats other than 8 and 16 bits are only the error path.
- Bytecode: the `ERR_FAIL_COND` on a truncated section magic (src/blipkit_bytecode.cpp:72) only logs. The loop's exit there is `Bytecode.TrailingFragmentIgnored`.
- Interpreter.CompiledBranchLands: requires the compiled byte at the placeholder's opcode position. The lemma concludes it is a branch; the requires only places the cursor there.
- LegacyBytecode: the older `Header` struct is declared in a header file that is not part of this model. Its field layout (`Layout`) and the assembler's static header (`template`) are parameters.
- Markdown: `\w` and `lower()` are ASCII-only here. Reading the XML, writing files (doc/markdown.py:386-435), the page template text and `prepare_tutorial` are not modelled.

## Findings

| source | as written | input that shows it | evidently intended | confidence | as-written member | corrected member |
|---|---|---|---|---|---|---|
| src/blipkit_bytecode.cpp:104-117 | the name buffer only grows, and each name is read from the whole buffer | labels "ab" then "c" read back as "ab" and "cb" | each name is read from its own bytes | not executed | Bytecode.StaleNameDiffers | Bytecode.ReadLabelSection |
| src/blipkit_bytecode.cpp:127 | the end of a section is `position + section_size` in uint32; the seek past the code section at line 65 wraps the same way, and `SetBytesAsWritten` models both | a labl section of size 0xfffffff8 seeks back to its own magic, so loading never ends | the seek target is not wrapped | not executed | Bytecode.WrappingSectionAsWritten | Bytecode.WrappingSectionCorrected |
| src/blipkit_assembler.cpp:325-328 | the copied size is the code size minus 1 in uint32 | an included bytecode with an empty code section copies 2^32 - 1 bytes, past the code | an empty code section copies nothing | not executed | Assembler.EmptyCodeCopiesLabelSection | Assembler.IncludedCodeWithoutHalt |
| src/blipkit_interpreter.cpp:23-42 | on replay a zero-length delay, which was never recorded, still shifts a buffered length | delays 1, 0, 2 with a 24-tick step wait 1, 2 and 21 ticks | the zero delay waits nothing: 1, 0 and 2, then 21 | not executed | Delays.SkippedDelayShifts | Delays.SkippedDelayWaitsNothing |
| src/blipkit_sample.cpp:27-77 | the frame count is the data's byte count (halved for stereo), also for 16-bit data | a 16-bit mono WAV of 4 bytes reads 4 values from 2 | the frame count is the bytes divided by channels times sample width | not executed | Samples.WavReadsPastEnd | Samples.WavReadsInBounds |
| addons/detomon.blipkit/native/src/blipkit_instrument.cpp:165-172 | step counts are read for every value | more values than step counts index `p_steps` past its end, where godot-cpp's checked `operator[]` dereferences null, so the call crashes | only step counts that exist are read | not executed | Instruments.OlderReadsPastSteps | Instruments.StepReadsInBounds |
| src/blipkit_track.cpp:260-267 | `get_panning_slide` reads the volume slide attribute | with volume slide 1 and panning slide 2 the getter gives 1 | it reads the panning slide | not executed | Tracks.PanningSlideReadsVolume | Tracks.PanningSlideRoundTrip |
| src/blipkit_track.cpp:324-340 | `get_vibrato` divides the delta by `BK_MAX_VOLUME` | a delta of 1.0 semitone reads back as 32 | it divides by `BK_FINT20_UNIT`, the scale `set_vibrato` multiplies by | not executed | Tracks.VibratoReadsScaled | Tracks.VibratoRoundTrip |
| src/blipkit_interpreter.cpp:393-397 | RETURN on an empty stack fails with ERR_STACK_OVERFLOW | RETURN as the first instruction | ERR_STACK_UNDERFLOW, which the state enum has and the message names | not executed | Interpreter.EmptyReturnOverflows | Interpreter.EmptyReturnUnderflows |
| addons/detomon.blipkit/native/src/blipkit_bytecode.cpp:58-75 | the older footer reader also keeps one grow-only name buffer and decodes the whole buffer for each name | a footer with labels "abc" then "x" loads "abc" and "xbc", and "x" is missing | each name is read from its own bytes | not executed | LegacyBytecode.FooterLosesShorterName | LegacyBytecode.FooterRoundTrip |
| addons/detomon.blipkit/native/src/blipkit_interpreter.cpp:197-200 | the same RETURN check in the older interpreter | RETURN as the first instruction | ERR_STACK_UNDERFLOW | not executed | LegacyInterpreter.EmptyReturnOverflows | LegacyInterpreter.EmptyReturnUnderflows |
| addons/detomon.blipkit/native/src/blipkit_interpreter.cpp:211-215 | STORE clamps the register number to [0, REGISTER_COUNT] | `STORE 16, x` writes `registers.aux[16]`, one past the last | clamp to REGISTER_COUNT - 1 | not executed | LegacyInterpreter.StoreWritesPastLast | LegacyInterpreter.StoreStaysInside |
| addons/detomon.blipkit/native/src/blipkit_interpreter.cpp:62-83 | loading calls `reset`, which is refused once the status is an error | loading a valid program after a stack overflow leaves the error and the cursor at 0 | a successful load starts the program | not executed | LegacyInterpreter.LoadAfterErrorStaysFailed | LegacyInterpreter.LoadStarts |
| addons/detomon.blipkit/native/src/blipkit_bytecode.cpp:15-28 | the header is read from the copied stream's cursor, which the assembler left at the end | any compiled program: `get_byte_code` gives an invalid bytecode | the stream is rewound before the header is read | not executed | LegacyAssembler.CompiledNeverValid | LegacyAssembler.CompiledLoads |
| addons/detomon.blipkit/native/src/blipkit_assembler.cpp:262-273 | `compile` stores the code size but never the footer offset | any compiled program keeps the template's footer offset | the footer offset is stored with the code size | not executed | LegacyAssembler.CompiledFooterOffsetUnchanged | LegacyAssembler.CompiledLoads |
| addons/detomon.blipkit/native/src/blipkit_assembler.cpp:276-292 | an undefined label returns from inside the patch loop with the cursor at the placeholder | a jump to an undefined label: the next instruction overwrites code | the cursor returns to the end before failing | not executed | LegacyAssembler.FailedCompileRewinds | LegacyAssembler.FailedCompileKeepsAppending |
| doc/markdown.py:30-40 | the member resolver tests `name not in methods` | a property that is not also a method stays unlinked; a method named as a member raises KeyError | it tests `name not in members` | not executed | Markdown.MemberReferenceAsWritten | Markdown.MemberReferenceCorrected |

=== FILE: assembler.dfy ===
/** `BlipKitAssembler` of the current tree: builds a bytecode image
    instruction by instruction, keeps a table of labels and of the 4-byte
    placeholders that refer to them, and on `compile` terminates the code,
    patches every placeholder with a relative offset and publishes the
    public labels in a "labl" section.

    The writer's cursor sits at the end of the written bytes whenever an
    instruction is emitted, so the stream is modelled by its contents:
    emitting appends, and the seek-then-put pairs of `compile` overwrite
    bytes inside the contents (ByteStream.WriteAppends and
    ByteStream.WriteOverwrites show both for the stream itself). */
module Assembler {
  import opened Wrappers
  import opened Bytes
  import opened Variants
  import Bytecode
  import opened Levels

  // ---------------------------------------------------------------------
  // Opcodes, in declaration order.

  const OP_NOOP: byte := 0
  const OP_HALT: byte := 1
  const OP_ATTACK: byte := 2
  const OP_RELEASE: byte := 3
  const OP_MUTE: byte := 4
  const OP_VOLUME: byte := 5
  const OP_MASTER_VOLUME: byte := 6
  const OP_PANNING: byte := 7
  const OP_WAVEFORM: byte := 8
  const OP_DUTY_CYCLE: byte := 9
  const OP_PITCH: byte := 10
  const OP_PHASE_WRAP: byte := 11
  const OP_PORTAMENTO: byte := 12
  const OP_VIBRATO: byte := 13
  const OP_TREMOLO: byte := 14
  const OP_VOLUME_SLIDE: byte := 15
  const OP_PANNING_SLIDE: byte := 16
  const OP_EFFECT_DIV: byte := 17
  const OP_ARPEGGIO: byte := 18
  const OP_ARPEGGIO_DIV: byte := 19
  const OP_TICK: byte := 20
  const OP_STEP: byte := 21
  const OP_STEP_TICKS: byte := 22
  const OP_DELAY_TICK: byte := 23
  const OP_DELAY_STEP: byte := 24
  const OP_JUMP: byte := 25
  const OP_CALL: byte := 26
  const OP_RETURN: byte := 27
  const OP_RESET: byte := 28
  const OP_INSTRUMENT: byte := 29
  const OP_INSTRUMENT_DIV: byte := 30
  const OP_CUSTOM_WAVEFORM: byte := 31
  const OP_SAMPLE: byte := 32
  const OP_SAMPLE_PITCH: byte := 33
  const OP_MAX: byte := 34

  /** Instructions with one number operand (int or float) stored as a half. */
  const NUMBER_OPS: set<byte> :=
    {OP_ATTACK, OP_PITCH, OP_SAMPLE_PITCH, OP_VOLUME_SLIDE, OP_PANNING_SLIDE, OP_PORTAMENTO}
  /** Instructions with one float operand stored as a half. */
  const FLOAT_OPS: set<byte> := {OP_VOLUME, OP_MASTER_VOLUME, OP_PANNING}
  /** Instructions with one int operand stored as a byte. */
  const BYTE_OPS: set<byte> :=
    {OP_WAVEFORM, OP_CUSTOM_WAVEFORM, OP_SAMPLE, OP_DUTY_CYCLE, OP_PHASE_WRAP, OP_INSTRUMENT}
  /** Divider instructions: one int operand clamped to a uint16. */
  const DIVIDER_OPS: set<byte> := {OP_EFFECT_DIV, OP_ARPEGGIO_DIV, OP_INSTRUMENT_DIV}
  /** Waits that are left out entirely when their clamped length is 0. */
  const WAIT_OPS: set<byte> := {OP_TICK, OP_STEP, OP_DELAY_TICK}
  /** Effects with three float operands. */
  const EFFECT_OPS: set<byte> := {OP_TREMOLO, OP_VIBRATO}
  /** Instructions that refer to a label through a 4-byte offset. */
  const BRANCH_OPS: set<byte> := {OP_CALL, OP_JUMP}
  /** Instructions without operands. */
  const PLAIN_OPS: set<byte> := {OP_RELEASE, OP_MUTE, OP_RETURN, OP_RESET}

  /** BlipKit's `BK_MAX_ARPEGGIO`. */
  const MAX_ARPEGGIO: nat := 8
  const UINT16_MAX: nat := 0xffff
  /** The longest name a label may have, in UTF-8 bytes. */
  const LABEL_MAX_SIZE: nat := 255
  /** The code section starts right after the 16-byte header. */
  const CODE_SECTION_OFFSET: nat := Bytecode.HEADER_SIZE
  /** Positions are kept below this bound so that the int32 offsets the
      assembler computes never wrap; the label section of `compile` fits in
      the margin above it. */
  const ROOM: nat := 0x7dff_ffff

  // ---------------------------------------------------------------------
  // State.

  /** `Error`, the result of every operation. */
  datatype Error =
    | Ok
    | ErrInvalidState
    | ErrInvalidOpcode
    | ErrInvalidArgument
    | ErrDuplicateLabel
    | ErrUndefinedLabel
    | ErrInvalidLabel

  /** `State`. */
  datatype AsmState = Assemble | Compiled | Failed

  /** The error message, by kind. */
  datatype Message =
    | NoMessage
    | WrongArgumentType(index: nat, expected: VariantType)
    | NotANumber
    | InvalidOpcode(op: byte)
    | EmptyLabel
    | LabelTooLong
    | TooManyLabels
    | AlreadyDefined(name: seq<byte>)
    | NotDefined(name: seq<byte>, at: int)

  /** A label: its name, its offset from the code section (-1 while only
      referenced) and whether compiling publishes it. */
  datatype Label = Label(name: seq<byte>, offset: int, isPublic: bool)

  /** A placeholder: the label it refers to and the code-relative offset of
      its four bytes. */
  datatype Address = Address(labelIndex: nat, offset: int)

  /** The three argument slots of an instruction. */
  datatype Args = Args(arg1: Variant, arg2: Variant, arg3: Variant)

  datatype Assembler = Assembler(state: AsmState, data: seq<byte>, labels: seq<Label>,
                                 addresses: seq<Address>, message: Message)
  {
    /** What holds between operations: the header's fixed part leads the
        bytes, label names are distinct, non-empty and short enough, and
        every placeholder follows a CALL or JUMP byte, lies inside the code
        and does not overlap the next instruction. */
    predicate Valid() {
      HEADER_SIZE_OK(data)
      && LabelsValid(labels)
      && AddressesValid(addresses, |labels|, data)
    }
  }

  const HEADER_PREFIX: seq<byte> := Bytecode.MAGIC + [Bytecode.VERSION, 0, 0, 0] + Bytecode.CODE_MAGIC

  predicate HEADER_SIZE_OK(data: seq<byte>) {
    CODE_SECTION_OFFSET <= |data| <= I32_MAX && data[..12] == HEADER_PREFIX
  }

  predicate LabelsValid(labels: seq<Label>) {
    |labels| <= UINT16_MAX
    && (forall i :: 0 <= i < |labels| ==> 0 < |labels[i].name| <= LABEL_MAX_SIZE && IsI32(labels[i].offset))
    && (forall i, j :: 0 <= i < j < |labels| ==> labels[i].name != labels[j].name)
  }

  predicate AddressValid(ad: Address, labelCount: nat, data: seq<byte>) {
    ad.labelIndex < labelCount
    && 1 <= ad.offset && CODE_SECTION_OFFSET + ad.offset + 4 <= |data|
    && data[CODE_SECTION_OFFSET + ad.offset - 1] in BRANCH_OPS
  }

  predicate AddressesValid(addresses: seq<Address>, labelCount: nat, data: seq<byte>) {
    (forall i :: 0 <= i < |addresses| ==> AddressValid(addresses[i], labelCount, data))
    && (forall i, j :: 0 <= i < j < |addresses| ==> addresses[i].offset + 5 <= addresses[j].offset)
  }

  /** Room for one more instruction or section without int32 wrap-around. */
  predicate HasRoom(a: Assembler) {
    |a.data| <= ROOM
  }

  /** `fail_with_error`. */
  function Fail(a: Assembler, message: Message): (r: Assembler)
    ensures r.state == Failed && r.message == message
    ensures r.data == a.data && r.labels == a.labels && r.addresses == a.addresses
  {
    a.(state := Failed, message := message)
  }

  /** The constructor and `clear`: only the header is written (with a code
      size of 0), no labels, no placeholders, ready to assemble. */
  function Clear(): (a: Assembler)
    ensures a.Valid() && a.state == Assemble
    ensures a.data == Bytecode.HeaderBytes(0) && a.labels == [] && a.addresses == []
  {
    var h := Bytecode.HeaderBytes(0);
    assert h[..12] == HEADER_PREFIX by {
      assert h[..12] == h[..4] + [h[4], h[5], h[6], h[7]] + h[8..12];
    }
    Assembler(Assemble, h, [], [], NoMessage)
  }

  // ---------------------------------------------------------------------
  // Labels.

  /** The index of the label called `name`, or -1 (the `label_indices`
      lookup). */
  function IndexOf(labels: seq<Label>, name: seq<byte>): (i: int)
    ensures -1 <= i < |labels|
    ensures i >= 0 ==> labels[i].name == name
    ensures i == -1 <==> forall k :: 0 <= k < |labels| ==> labels[k].name != name
  {
    if |labels| == 0 then -1
    else
      var i := IndexOf(labels[..|labels| - 1], name);
      if i >= 0 then i
      else if labels[|labels| - 1].name == name then |labels| - 1
      else -1
  }

  /** `get_or_add_label`: the index of an existing label, or a new label
      that is referenced but undefined; empty names, names over 255 bytes
      and a 65536th label fail the assembler. */
  function GetOrAddLabel(a: Assembler, name: seq<byte>): (r: (Error, nat, Assembler))
    requires a.Valid()
    ensures r.2.Valid()
    ensures r.0 == Ok || r.0 == ErrInvalidLabel
    ensures r.0 == Ok ==> r.1 < |r.2.labels| && r.2.labels[r.1].name == name
    ensures r.0 == Ok ==> r.2.state == a.state && r.2.data == a.data && r.2.addresses == a.addresses
    ensures r.0 == Ok ==> |a.labels| <= |r.2.labels| && r.2.labels[..|a.labels|] == a.labels
    ensures r.0 == Ok && r.1 < |a.labels| ==> r.2 == a
    ensures r.0 == Ok && r.1 >= |a.labels| ==>
              r.1 == |a.labels| && r.2.labels == a.labels + [Label(name, -1, false)]
    ensures IndexOf(a.labels, name) >= 0 ==> r == (Ok, IndexOf(a.labels, name) as nat, a)
    ensures r.0 != Ok ==> r.2 == Fail(a, r.2.message) && IndexOf(a.labels, name) == -1
    ensures IndexOf(a.labels, name) == -1 && |name| == 0 ==> r.0 == ErrInvalidLabel
    ensures IndexOf(a.labels, name) == -1 && |name| > LABEL_MAX_SIZE ==> r.0 == ErrInvalidLabel
    ensures IndexOf(a.labels, name) == -1 && |a.labels| >= UINT16_MAX ==> r.0 == ErrInvalidLabel
  {
    var i := IndexOf(a.labels, name);
    if i >= 0 then (Ok, i as nat, a)
    else if |name| == 0 then (ErrInvalidLabel, 0, Fail(a, EmptyLabel))
    else if |name| + 1 > LABEL_MAX_SIZE + 1 then (ErrInvalidLabel, 0, Fail(a, LabelTooLong))
    else if |a.labels| >= UINT16_MAX then (ErrInvalidLabel, 0, Fail(a, TooManyLabels))
    else
      var labels := a.labels + [Label(name, -1, false)];
      assert labels[..|a.labels|] == a.labels;
      (Ok, |a.labels|, a.(labels := labels))
  }

  /** `put_label`: define a label at an absolute position. A label that is
      already defined fails the assembler with ERR_DUPLICATE_LABEL; a new
      definition records the position relative to the code section and the
      public flag. */
  function PutLabel(a: Assembler, name: seq<byte>, position: int, isPublic: bool): (r: (Error, Assembler))
    requires a.Valid()
    ensures r.1.Valid()
    ensures a.state != Assemble ==> r == (ErrInvalidState, a)
    ensures r.1.data == a.data && r.1.addresses == a.addresses
    ensures r.0 == Ok ==> a.state == Assemble && r.1.state == Assemble
    ensures r.0 != Ok ==> r.0 == ErrInvalidState || r.1.state == Failed
    ensures r.0 == Ok ==> Label(name, WrapI32(position - CODE_SECTION_OFFSET), isPublic) in r.1.labels
    ensures forall l :: l in a.labels && l.name != name ==> l in r.1.labels
    ensures a.state == Assemble && IndexOf(a.labels, name) >= 0
            && a.labels[IndexOf(a.labels, name)].offset >= 0
            ==> r.0 == ErrDuplicateLabel && r.1 == Fail(a, AlreadyDefined(name))
  {
    if a.state != Assemble then (ErrInvalidState, a)
    else
      var (err, i, a1) := GetOrAddLabel(a, name);
      if err != Ok then (err, a1)
      else if a1.labels[i].offset >= 0 then (ErrDuplicateLabel, Fail(a1, AlreadyDefined(name)))
      else
        var l := Label(name, WrapI32(position - CODE_SECTION_OFFSET), isPublic);
        DefineLabel(a1, i, l);
        (Ok, a1.(labels := a1.labels[i := l]))
  }

  /** Giving the label at index i a new offset and flag keeps the table
      valid and every other label. */
  lemma DefineLabel(a: Assembler, i: nat, l: Label)
    requires a.Valid() && i < |a.labels| && a.labels[i].name == l.name && IsI32(l.offset)
    ensures a.(labels := a.labels[i := l]).Valid()
    ensures l in a.labels[i := l]
    ensures forall m :: m in a.labels && m.name != l.name ==> m in a.labels[i := l]
  {
    var labels := a.labels[i := l];
    assert forall k :: 0 <= k < |labels| ==> labels[k].name == a.labels[k].name;
    assert labels[i] == l;
    forall m | m in a.labels && m.name != l.name
      ensures m in labels
    {
      var k :| 0 <= k < |a.labels| && a.labels[k] == m;
      assert labels[k] == m;
    }
  }

  /** `put_label_bind`: define a label at the current end of the code. */
  function PutLabelHere(a: Assembler, name: seq<byte>, isPublic: bool): (r: (Error, Assembler))
    requires a.Valid()
    ensures r.1.Valid() && r.1.data == a.data
    ensures r.0 == Ok ==> Label(name, |a.data| - CODE_SECTION_OFFSET, isPublic) in r.1.labels
  {
    PutLabel(a, name, WrapI32(|a.data|), isPublic)
  }

  // ---------------------------------------------------------------------
  // Argument checks.

  /** `check_arg_types` from slot i on: the 1-based index of the first
      argument whose type differs from the expected one. */
  function MismatchFrom(args: seq<Variant>, types: seq<VariantType>, i: nat): (r: Option<nat>)
    requires |args| == |types| && i <= |args|
    ensures r.None? <==> forall k :: i <= k < |args| ==> TypeOf(args[k]) == types[k]
    ensures r.Some? ==> i < r.value <= |args| && TypeOf(args[r.value - 1]) != types[r.value - 1]
                        && forall k :: i <= k < r.value - 1 ==> TypeOf(args[k]) == types[k]
    decreases |args| - i
  {
    if i == |args| then None
    else if TypeOf(args[i]) != types[i] then Some(i + 1)
    else MismatchFrom(args, types, i + 1)
  }

  function Slots(args: Args): seq<Variant> {
    [args.arg1, args.arg2, args.arg3]
  }

  /** The argument types `put` demands of an instruction checked by
      `check_arg_types`. */
  function Signature(op: byte): (types: seq<VariantType>)
    ensures |types| == 3
  {
    if op in FLOAT_OPS then [FloatType, NilType, NilType]
    else if op in EFFECT_OPS then [FloatType, FloatType, FloatType]
    else if op == OP_ARPEGGIO then [FloatArrayType, NilType, NilType]
    else if op in BRANCH_OPS then [StringType, NilType, NilType]
    else if op in PLAIN_OPS then [NilType, NilType, NilType]
    else [IntType, NilType, NilType]
  }

  /** The argument check of an instruction: the message it fails with, or
      None when the arguments fit. Number operands (`check_args_number_nil_nil`)
      accept an int or a float first and then two nils. */
  function CheckArgs(op: byte, args: Args): (r: Option<Message>)
    ensures op in NUMBER_OPS || op == OP_DELAY_STEP ==>
              (r.None? <==> (args.arg1.Int? || args.arg1.Float?) && args.arg2.Nil? && args.arg3.Nil?)
    ensures !(op in NUMBER_OPS || op == OP_DELAY_STEP) ==>
              (r.None? <==> forall k :: 0 <= k < 3 ==> TypeOf(Slots(args)[k]) == Signature(op)[k])
  {
    if op in NUMBER_OPS || op == OP_DELAY_STEP then
      if !(args.arg1.Int? || args.arg1.Float?) then Some(NotANumber)
      else if !args.arg2.Nil? then Some(WrongArgumentType(2, NilType))
      else if !args.arg3.Nil? then Some(WrongArgumentType(3, NilType))
      else None
    else
      var types := Signature(op);
      match MismatchFrom(Slots(args), types, 0)
      case None => None
      case Some(i) => Some(WrongArgumentType(i, types[i - 1]))
  }

  // ---------------------------------------------------------------------
  // Encoding.

  /** The two stored bytes of a half. */
  function HalfBytes(h: bv16): (bs: seq<byte>)
    ensures |bs| == 2 && LeValue(bs) == h as nat
  {
    Pow256Values();
    LeValueOfBytes(h as nat, 2);
    LeBytes(h as nat, 2)
  }

  function HalvesBytes(hs: seq<bv16>): (bs: seq<byte>)
    ensures |bs| == 2 * |hs|
  {
    if |hs| == 0 then [] else HalfBytes(hs[0]) + HalvesBytes(hs[1..])
  }

  /** The two stored bytes of a uint16. */
  function U16Bytes(v: nat): (bs: seq<byte>)
    requires IsU16(v)
    ensures |bs| == 2 && LeValue(bs) == v
  {
    Pow256Values();
    LeValueOfBytes(v, 2);
    LeBytes(v, 2)
  }

  /** An int argument converted to int32 and clamped, as the uint16
      operands are computed. */
  function ClampedU16(v: Variant, lo: nat): (r: nat)
    requires lo <= UINT16_MAX
    ensures lo <= r <= UINT16_MAX
    ensures IsI32(IntOf(v)) && lo <= IntOf(v) <= UINT16_MAX ==> r == IntOf(v)
  {
    Clamp(WrapI32(IntOf(v)), lo, UINT16_MAX)
  }

  /** The bytes `put` emits for an instruction whose arguments passed the
      check (CALL and JUMP, which also touch the label table, aside). */
  function Encode(op: byte, args: Args): (bs: seq<byte>)
    ensures |bs| <= 2 + 2 * MAX_ARPEGGIO
    ensures |bs| > 0 ==> bs[0] == op
  {
    var v := args.arg1;
    if op in NUMBER_OPS || op in FLOAT_OPS then [op] + HalfBytes(HalfOf(v))
    else if op in BYTE_OPS then [op, WrapU8(IntOf(v))]
    else if op in DIVIDER_OPS then [op] + U16Bytes(ClampedU16(v, 0))
    else if op in WAIT_OPS then
      var ticks := ClampedU16(v, 0);
      if ticks == 0 then [] else [op] + U16Bytes(ticks)
    else if op == OP_STEP_TICKS then [op] + U16Bytes(ClampedU16(v, 1))
    else if op in EFFECT_OPS then
      [op] + HalfBytes(HalfOf(v)) + HalfBytes(HalfOf(args.arg2)) + HalfBytes(HalfOf(args.arg3))
    else if op == OP_ARPEGGIO then
      var hs := HalvesOf(v);
      var n := Min(|hs|, MAX_ARPEGGIO);
      [op, n as byte] + HalvesBytes(hs[..n])
    else if op == OP_DELAY_STEP then
      if DelayIsZero(v) then [] else [op] + HalfBytes(HalfOf(v))
    else [op]
  }

  /** DELAY_STEP's test: the steps clamped to [0, 65535] as a float are
      zero within `CMP_EPSILON`. */
  predicate DelayIsZero(v: Variant) {
    Abs(ClampReal(NumberOf(v), 0.0, UINT16_MAX as real)) < CMP_EPSILON
  }

  /** DELAY_STEP emits nothing exactly when its steps are zero within
      `CMP_EPSILON`; otherwise the opcode and the half bits, even bits
      that round to a zero half (steps from CMP_EPSILON to 2^-14). */
  lemma DelayStepEncoding(args: Args)
    ensures var bs := Encode(OP_DELAY_STEP, args);
            var x := NumberOf(args.arg1);
            (bs == [] <==> x < CMP_EPSILON)
            && (bs != [] ==> bs == [OP_DELAY_STEP] + HalfBytes(HalfOf(args.arg1)) && |bs| == 3)
  {
  }

  /** Opcodes `put` has a case for: everything below OP_MAX except NOOP
      and HALT. */
  predicate HasCase(op: byte) {
    OP_ATTACK <= op < OP_MAX
  }

  /** Append bytes at the end of the code. */
  function Emit(a: Assembler, bs: seq<byte>): (r: Assembler)
    requires a.Valid() && |a.data| + |bs| <= I32_MAX
    ensures r.Valid() && r.data == a.data + bs
    ensures r.state == a.state && r.labels == a.labels && r.addresses == a.addresses
  {
    var r := a.(data := a.data + bs);
    assert r.data[..12] == a.data[..12];
    assert forall i :: 0 <= i < |a.addresses| ==> AddressValid(a.addresses[i], |a.labels|, r.data) by {
      forall i | 0 <= i < |a.addresses|
        ensures AddressValid(a.addresses[i], |a.labels|, r.data)
      {
        assert AddressValid(a.addresses[i], |a.labels|, a.data);
        assert r.data[CODE_SECTION_OFFSET + a.addresses[i].offset - 1]
            == a.data[CODE_SECTION_OFFSET + a.addresses[i].offset - 1];
      }
    }
    r
  }

  /** CALL/JUMP: look the label up (adding it if new), emit the opcode and a
      zero placeholder, and remember where the placeholder is. */
  function PutBranch(a: Assembler, op: byte, name: seq<byte>): (r: (Error, Assembler))
    requires a.Valid() && HasRoom(a) && op in BRANCH_OPS
    ensures r.1.Valid()
    ensures r.0 == Ok || r.0 == ErrInvalidLabel
    ensures r.0 == Ok ==>
              var i := IndexOf(r.1.labels, name);
              var at := |a.data| + 1 - CODE_SECTION_OFFSET;
              i >= 0 && r.1.state == a.state
              && r.1.data == a.data + [op, 0, 0, 0, 0]
              && r.1.addresses == a.addresses + [Address(i as nat, at)]
    ensures r.0 != Ok ==> r.1.data == a.data && r.1.state == Failed
  {
    var (err, i, a1) := GetOrAddLabel(a, name);
    if err != Ok then (err, a1)
    else
      AppendBranch(a1, op, i);
      (Ok, a1.(data := a1.data + [op, 0, 0, 0, 0],
               addresses := a1.addresses + [Address(i, |a1.data| + 1 - CODE_SECTION_OFFSET)]))
  }

  /** A CALL or JUMP with its placeholder appended keeps the assembler
      valid. */
  lemma AppendBranch(a: Assembler, op: byte, i: nat)
    requires a.Valid() && op in BRANCH_OPS && i < |a.labels| && |a.data| + 5 <= I32_MAX
    ensures a.(data := a.data + [op, 0, 0, 0, 0],
               addresses := a.addresses + [Address(i, |a.data| + 1 - CODE_SECTION_OFFSET)]).Valid()
  {
    var a2 := Emit(a, [op, 0, 0, 0, 0]);
    var at := |a.data| + 1 - CODE_SECTION_OFFSET;
    var ad := Address(i, at);
    assert AddressValid(ad, |a2.labels|, a2.data);
    var r := a2.(addresses := a2.addresses + [ad]);
    assert forall k :: 0 <= k < |a2.addresses| ==> a2.addresses[k].offset + 5 <= at by {
      forall k | 0 <= k < |a2.addresses|
        ensures a2.addresses[k].offset + 5 <= at
      {
        assert AddressValid(a2.addresses[k], |a2.labels|, a.data);
      }
    }
    assert AddressesValid(r.addresses, |r.labels|, r.data);
  }

  /** `put`: check the opcode, then the state, then the arguments; emit the
      instruction. */
  function Put(a: Assembler, op: byte, args: Args): (r: (Error, Assembler))
    requires a.Valid() && HasRoom(a)
    ensures r.1.Valid()
    ensures op >= OP_MAX ==> r == (ErrInvalidOpcode, a)
    ensures op < OP_MAX && a.state != Assemble ==> r == (ErrInvalidState, a)
    ensures r.0 == Ok ==> a.state == Assemble && r.1.state == Assemble && a.data <= r.1.data
    ensures r.0 != Ok ==> r.1.data == a.data
    ensures a.state == Assemble && op < OP_MAX && !HasCase(op) ==>
              r == (ErrInvalidOpcode, Fail(a, InvalidOpcode(op)))
    ensures a.state == Assemble && HasCase(op) && CheckArgs(op, args).Some? ==>
              r == (ErrInvalidArgument, Fail(a, CheckArgs(op, args).value))
    ensures a.state == Assemble && HasCase(op) && CheckArgs(op, args).None? && !(op in BRANCH_OPS) ==>
              r == (Ok, Emit(a, Encode(op, args)))
  {
    if op >= OP_MAX then (ErrInvalidOpcode, a)
    else if a.state != Assemble then (ErrInvalidState, a)
    else if !HasCase(op) then (ErrInvalidOpcode, Fail(a, InvalidOpcode(op)))
    else
      match CheckArgs(op, args)
      case Some(m) => (ErrInvalidArgument, Fail(a, m))
      case None =>
        if op in BRANCH_OPS then PutBranch(a, op, Utf8Of(args.arg1))
        else (Ok, Emit(a, Encode(op, args)))
  }

  // ---------------------------------------------------------------------
  // Including compiled bytecode.

  /** Where `put_byte_code` defines an included label: the included offset
      becomes an int, is added to the position of the inclusion as an
      int32, and is made relative to the code section again. */
  function IncludedOffset(base: int, offset: nat): (r: int)
    ensures IsI32(r)
    ensures IsI32(offset) && IsI32(base + offset) && IsI32(base + offset - CODE_SECTION_OFFSET) ==>
              r == base + offset - CODE_SECTION_OFFSET
  {
    WrapI32(WrapI32(base + WrapI32(offset)) - CODE_SECTION_OFFSET)
  }

  /** The label loop of `put_byte_code`: define the included labels in
      order relative to `base`, stopping at the first error. */
  function PutLabels(a: Assembler, ls: seq<Bytecode.Label>, base: int, isPublic: bool): (r: (Error, Assembler))
    requires a.Valid()
    ensures r.1.Valid() && r.1.data == a.data && r.1.addresses == a.addresses
    ensures r.0 == Ok ==> r.1.state == a.state
    ensures r.0 != Ok ==> r.0 == ErrInvalidState || r.1.state == Failed
    ensures |ls| > 0 && a.state != Assemble ==> r == (ErrInvalidState, a)
    decreases |ls|
  {
    if |ls| == 0 then (Ok, a)
    else
      var (err, a1) := PutLabel(a, ls[0].name, WrapI32(base + WrapI32(ls[0].offset)), isPublic);
      if err != Ok then (err, a1)
      else PutLabels(a1, ls[1..], base, isPublic)
  }

  /** After the label loop succeeds, every included label is defined at its
      offset relative to `base`, and every earlier label with another name
      is still there. */
  lemma {:induction false} PutLabelsDefines(a: Assembler, ls: seq<Bytecode.Label>, base: int, isPublic: bool)
    requires a.Valid() && Bytecode.DistinctNames(ls)
    ensures var r := PutLabels(a, ls, base, isPublic);
            forall l :: l in a.labels && (forall k :: 0 <= k < |ls| ==> l.name != ls[k].name) ==> l in r.1.labels
    ensures var r := PutLabels(a, ls, base, isPublic);
            r.0 == Ok ==>
              forall k :: 0 <= k < |ls| ==> Label(ls[k].name, IncludedOffset(base, ls[k].offset), isPublic) in r.1.labels
    decreases |ls|
  {
    hide PutLabel, WrapI32, LabelsValid, AddressesValid, HEADER_SIZE_OK;
    if |ls| > 0 {
      var (err, a1) := PutLabel(a, ls[0].name, WrapI32(base + WrapI32(ls[0].offset)), isPublic);
      if err == Ok {
        var tail := ls[1..];
        assert forall k :: 0 <= k < |tail| ==> tail[k] == ls[k + 1];
        PutLabelsDefines(a1, tail, base, isPublic);
        var r := PutLabels(a1, tail, base, isPublic);
        assert PutLabels(a, ls, base, isPublic) == r;
        var first := Label(ls[0].name, IncludedOffset(base, ls[0].offset), isPublic);
        assert first in a1.labels;
        assert forall k :: 0 <= k < |tail| ==> first.name != tail[k].name;
        assert first in r.1.labels;
      }
    }
  }

  /** How many bytes of the included code section `put_byte_code` copies:
      the code size minus the final HALT, computed in uint32 as written or
      floored at 0 as evidently intended. */
  function CopySize(b: Bytecode.Bytecode, asWritten: bool): (n: nat)
    requires b.Valid()
    ensures !asWritten ==> n == Max(b.CodeSectionSize() - 1, 0)
    ensures b.CodeSectionSize() > 0 ==> n == b.CodeSectionSize() - 1
  {
    if asWritten then WrapU32(b.CodeSectionSize() - 1)
    else Max(b.CodeSectionSize() - 1, 0)
  }

  /** The bytes `put_bytes(vector, from, size)` reads: `from` clamped to the
      source, `size` clamped to what follows it. */
  function Clipped(src: seq<byte>, from: nat, size: nat): (r: seq<byte>)
    ensures |r| == Min(size, |src| - Min(from, |src|))
    ensures r == src[Min(from, |src|)..Min(from, |src|) + |r|]
  {
    var f := Min(from, |src|);
    src[f..f + Min(size, |src| - f)]
  }

  /** The code `put_byte_code` appends for an included bytecode. */
  function CopiedCode(b: Bytecode.Bytecode, asWritten: bool): (bs: seq<byte>)
    requires b.Valid()
    ensures |bs| <= |b.Bytes()|
  {
    Clipped(b.Bytes(), b.CodeSectionOffset(), CopySize(b, asWritten))
  }

  /** `put_byte_code`: include a compiled bytecode. The labels it publishes
      are defined at the current position (public or not as asked), then its
      code without the final HALT is appended. A missing or invalid
      bytecode is rejected without failing the assembler. The copied size is
      the uint32 one as written, or floored at 0 as evidently intended. */
  function PutByteCode(a: Assembler, b: Option<Bytecode.Bytecode>, isPublic: bool, asWritten: bool): (r: (Error, Assembler))
    requires a.Valid()
    requires b.Some? ==> b.value.Valid() && |a.data| + |b.value.Bytes()| <= I32_MAX
    ensures r.1.Valid()
    ensures a.state != Assemble ==> r == (ErrInvalidState, a)
    ensures a.state == Assemble && (b.None? || !b.value.IsValid()) ==> r == (ErrInvalidArgument, a)
    ensures r.0 == Ok ==>
              b.Some? && r.1.state == Assemble && r.1.addresses == a.addresses
              && r.1.data == a.data + CopiedCode(b.value, asWritten)
    ensures r.0 != Ok ==> r.1.data == a.data
  {
    if a.state != Assemble then (ErrInvalidState, a)
    else if b.None? || !b.value.IsValid() then (ErrInvalidArgument, a)
    else
      var (err, a1) := PutLabels(a, b.value.labels, |a.data|, isPublic);
      if err != Ok then (err, a1)
      else (Ok, Emit(a1, CopiedCode(b.value, asWritten)))
  }

  /** The public labels as the loader sees them: name and offset as the
      uint32 the section stores, in definition order. */
  function Published(labels: seq<Label>): (ls: seq<Bytecode.Label>)
    ensures |ls| <= |labels|
  {
    if |labels| == 0 then []
    else
      var l := labels[0];
      (if l.isPublic then [Bytecode.Label(l.name, WrapU32(l.offset))] else []) + Published(labels[1..])
  }

  /** One entry of `write_labels`: the offset as a uint32, the length as a
      byte, the name. */
  function LabelEntry(l: Label): (bs: seq<byte>)
    ensures |bs| == 5 + |l.name|
  {
    U32Bytes(WrapU32(l.offset)) + [WrapU8(|l.name|)] + l.name
  }

  /** The entries `write_labels` writes, one per public label. */
  function LabelEntries(labels: seq<Label>): (bs: seq<byte>)
  {
    if |labels| == 0 then []
    else (if labels[0].isPublic then LabelEntry(labels[0]) else []) + LabelEntries(labels[1..])
  }

  function U32Bytes(v: nat): (bs: seq<byte>)
    requires IsU32(v)
    ensures |bs| == 4 && LeValue(bs) == v
  {
    Pow256Values();
    LeValueOfBytes(v, 4);
    LeBytes(v, 4)
  }

  /** `write_labels`: nothing without public labels; otherwise the magic,
      the size of what follows the size field, the count and the entries. */
  function WriteLabels(labels: seq<Label>): (bs: seq<byte>)
  {
    var count := |Published(labels)|;
    if count == 0 then []
    else
      var entries := LabelEntries(labels);
      Bytecode.LABELS_MAGIC + U32Bytes(WrapU32(4 + |entries|)) + U32Bytes(WrapU32(count)) + entries
  }

  /** Names the "labl" section can carry: the loader reads a name up to its
      first NUL, so a name must not contain one. */
  predicate PublicNamesNoNul(labels: seq<Label>) {
    forall k :: 0 <= k < |labels| && labels[k].isPublic ==> Bytecode.NoNul(labels[k].name)
  }

  predicate NamesFit(labels: seq<Label>) {
    forall k :: 0 <= k < |labels| ==> 0 < |labels[k].name| <= LABEL_MAX_SIZE
  }

  /** The entries take at most 260 bytes per label. */
  lemma {:induction false} EntriesSize(labels: seq<Label>)
    requires NamesFit(labels)
    ensures |LabelEntries(labels)| <= (5 + LABEL_MAX_SIZE) * |labels|
  {
    if |labels| > 0 {
      var tail := labels[1..];
      assert forall k :: 0 <= k < |tail| ==> tail[k] == labels[k + 1];
      EntriesSize(tail);
      assert |LabelEntries(labels)| <= 5 + LABEL_MAX_SIZE + |LabelEntries(tail)|;
    }
  }

  /** A label section never exceeds 12 bytes plus 260 per label. */
  lemma WriteLabelsSize(labels: seq<Label>)
    requires LabelsValid(labels)
    ensures |WriteLabels(labels)| <= 12 + (5 + LABEL_MAX_SIZE) * UINT16_MAX
  {
    EntriesSize(labels);
    assert (5 + LABEL_MAX_SIZE) * |labels| <= (5 + LABEL_MAX_SIZE) * UINT16_MAX;
  }

  /** The entries the assembler writes are the loader's encoding of the
      published labels. */
  lemma {:induction false} EntriesEncodePublished(labels: seq<Label>)
    requires NamesFit(labels) && PublicNamesNoNul(labels)
    ensures Bytecode.AllStorable(Published(labels))
    ensures LabelEntries(labels) == Bytecode.EncodeLabels(Published(labels))
  {
    if |labels| > 0 {
      var l := labels[0];
      var tail := labels[1..];
      assert forall k :: 0 <= k < |tail| ==> tail[k] == labels[k + 1];
      EntriesEncodePublished(tail);
      if l.isPublic {
        var bl := Bytecode.Label(l.name, WrapU32(l.offset));
        assert Bytecode.IsStorable(bl);
        var ls := [bl] + Published(tail);
        assert Published(labels) == ls;
        assert ls[1..] == Published(tail);
        assert LabelEntry(l) == Bytecode.EncodeLabel(bl);
      } else {
        assert Published(labels) == Published(tail);
      }
    }
  }

  /** What `write_labels` appends is exactly the section the loader reads
      the published labels from. */
  lemma WriteLabelsIsSection(labels: seq<Label>)
    requires LabelsValid(labels) && PublicNamesNoNul(labels)
    ensures Bytecode.IsSectionSized(Published(labels))
    ensures |WriteLabels(labels)| <= 12 + (5 + LABEL_MAX_SIZE) * UINT16_MAX
    ensures WriteLabels(labels) ==
              if |Published(labels)| == 0 then [] else Bytecode.LabelSection(Published(labels))
  {
    hide Published, LabelEntries, Bytecode.EncodeLabels, LeBytes, LeValue;
    var ls := Published(labels);
    EntriesSize(labels);
    EntriesEncodePublished(labels);
    var entries := LabelEntries(labels);
    assert (5 + LABEL_MAX_SIZE) * |labels| <= (5 + LABEL_MAX_SIZE) * UINT16_MAX;
    assert IsU32(4 + |entries|) && IsU32(|ls|);
    assert Bytecode.IsSectionSized(ls);
    if |ls| > 0 {
      assert U32Bytes(WrapU32(4 + |entries|)) == LeBytes(4 + |Bytecode.EncodeLabels(ls)|, 4);
      assert U32Bytes(WrapU32(|ls|)) == LeBytes(|ls|, 4);
    }
  }

  // ---------------------------------------------------------------------
  // Compiling.

  /** The placeholder requirements `compile` relies on: each refers to a
      label, lies after the header's end and inside the bytes, and the
      placeholders are in order without overlapping. */
  predicate PatchBounds(data: seq<byte>, labelCount: nat, addresses: seq<Address>) {
    (forall k :: 0 <= k < |addresses| ==>
       addresses[k].labelIndex < labelCount && 1 <= addresses[k].offset
       && CODE_SECTION_OFFSET + addresses[k].offset + 4 <= |data|)
    && (forall k, j :: 0 <= k < j < |addresses| ==> addresses[k].offset + 4 <= addresses[j].offset)
  }

  /** Position p lies in none of the placeholders from index i on. */
  predicate Untouched(p: int, addresses: seq<Address>, i: nat) {
    forall k :: i <= k < |addresses| ==>
      !(CODE_SECTION_OFFSET + addresses[k].offset <= p < CODE_SECTION_OFFSET + addresses[k].offset + 4)
  }

  /** The four bytes of a placeholder. */
  function Slot(data: seq<byte>, ad: Address): seq<byte>
    requires 0 <= ad.offset && CODE_SECTION_OFFSET + ad.offset + 4 <= |data|
  {
    data[CODE_SECTION_OFFSET + ad.offset..CODE_SECTION_OFFSET + ad.offset + 4]
  }

  /** Replace the bytes at p.. with bs. */
  function Overwrite(data: seq<byte>, p: nat, bs: seq<byte>): (r: seq<byte>)
    requires p + |bs| <= |data|
    ensures |r| == |data|
    ensures r[p..p + |bs|] == bs
    ensures forall q :: 0 <= q < |data| && !(p <= q < p + |bs|) ==> r[q] == data[q]
  {
    data[..p] + bs + data[p + |bs|..]
  }

  /** The relative offset `compile` stores for a placeholder. */
  function Displacement(labels: seq<Label>, ad: Address): (d: int)
    requires ad.labelIndex < |labels|
    ensures IsI32(d)
    ensures IsI32(labels[ad.labelIndex].offset - ad.offset) ==> d == labels[ad.labelIndex].offset - ad.offset
  {
    WrapI32(labels[ad.labelIndex].offset - ad.offset)
  }

  /** The patch loop of `compile` from placeholder i on: each placeholder
      gets the distance from itself to its label; the loop stops at the
      first placeholder whose label was never defined and names it. */
  function Patch(data: seq<byte>, labels: seq<Label>, addresses: seq<Address>, i: nat)
    : (r: (seq<byte>, Option<nat>))
    requires PatchBounds(data, |labels|, addresses) && i <= |addresses|
    ensures |r.0| == |data|
    ensures r.1.Some? ==>
              i <= r.1.value < |addresses| && labels[addresses[r.1.value].labelIndex].offset < 0
              && forall k :: i <= k < r.1.value ==> labels[addresses[k].labelIndex].offset >= 0
    ensures r.1.None? <==> forall k :: i <= k < |addresses| ==> labels[addresses[k].labelIndex].offset >= 0
    decreases |addresses| - i
  {
    if i == |addresses| then (data, None)
    else
      var ad := addresses[i];
      if labels[ad.labelIndex].offset < 0 then (data, Some(i))
      else
        var d := Overwrite(data, CODE_SECTION_OFFSET + ad.offset, EncodeS32(Displacement(labels, ad)));
        Patch(d, labels, addresses, i + 1)
  }

  /** The patch loop changes no byte outside the placeholders it visits. */
  lemma {:induction false} PatchKeeps(data: seq<byte>, labels: seq<Label>, addresses: seq<Address>, i: nat)
    requires PatchBounds(data, |labels|, addresses) && i <= |addresses|
    ensures forall p :: 0 <= p < |data| && Untouched(p, addresses, i) ==>
              Patch(data, labels, addresses, i).0[p] == data[p]
    decreases |addresses| - i
  {
    hide EncodeS32, Displacement, WrapI32;
    if i < |addresses| && labels[addresses[i].labelIndex].offset >= 0 {
      var ad := addresses[i];
      var d := Overwrite(data, CODE_SECTION_OFFSET + ad.offset, EncodeS32(Displacement(labels, ad)));
      PatchKeeps(d, labels, addresses, i + 1);
      forall p | 0 <= p < |data| && Untouched(p, addresses, i)
        ensures Patch(data, labels, addresses, i).0[p] == data[p]
      {
        assert Untouched(p, addresses, i + 1);
        assert d[p] == data[p];
      }
    }
  }

  /** Once every label is defined, each placeholder from i on holds the
      distance to its label. */
  lemma {:induction false} PatchedSlots(data: seq<byte>, labels: seq<Label>, addresses: seq<Address>, i: nat)
    requires PatchBounds(data, |labels|, addresses) && i <= |addresses|
    requires Patch(data, labels, addresses, i).1.None?
    ensures forall k :: i <= k < |addresses| ==>
              Slot(Patch(data, labels, addresses, i).0, addresses[k]) == EncodeS32(Displacement(labels, addresses[k]))
    decreases |addresses| - i
  {
    hide Overwrite, EncodeS32, Displacement, WrapI32;
    if i < |addresses| {
      var ad := addresses[i];
      var d := Overwrite(data, CODE_SECTION_OFFSET + ad.offset, EncodeS32(Displacement(labels, ad)));
      var r := Patch(d, labels, addresses, i + 1).0;
      assert Patch(data, labels, addresses, i).0 == r;
      PatchedSlots(d, labels, addresses, i + 1);
      PatchKeeps(d, labels, addresses, i + 1);
      forall p | CODE_SECTION_OFFSET + ad.offset <= p < CODE_SECTION_OFFSET + ad.offset + 4
        ensures r[p] == d[p]
      {
        assert Untouched(p, addresses, i + 1);
      }
      assert Slot(r, ad) == Slot(d, ad);
    }
  }

  /** The first part of `compile`: append HALT and store the code size
      (everything after the header) in the header. */
  function Terminate(data: seq<byte>): (d: seq<byte>)
    requires CODE_SECTION_OFFSET <= |data| && IsU32(|data| + 1 - CODE_SECTION_OFFSET)
    ensures |d| == |data| + 1 && d[|data|] == OP_HALT
    ensures d[..Bytecode.CODE_SIZE_OFFSET] == data[..Bytecode.CODE_SIZE_OFFSET]
    ensures LeValue(d[Bytecode.CODE_SIZE_OFFSET..CODE_SECTION_OFFSET]) == |d| - CODE_SECTION_OFFSET
    ensures d[CODE_SECTION_OFFSET..|data|] == data[CODE_SECTION_OFFSET..]
  {
    var d := data + [OP_HALT];
    var r := Overwrite(d, Bytecode.CODE_SIZE_OFFSET, U32Bytes(|d| - CODE_SECTION_OFFSET));
    assert r[CODE_SECTION_OFFSET..|data|] == data[CODE_SECTION_OFFSET..] by {
      forall q | CODE_SECTION_OFFSET <= q < |data|
        ensures r[q] == data[q]
      {
        assert d[q] == data[q];
      }
    }
    r
  }

  /** Terminating and patching keep the header's fixed part, the size field
      and every opcode byte in front of a placeholder. */
  lemma PatchKeepsValid(a: Assembler)
    requires a.Valid() && HasRoom(a)
    ensures PatchBounds(Terminate(a.data), |a.labels|, a.addresses)
    ensures var p := Patch(Terminate(a.data), a.labels, a.addresses, 0).0;
            HEADER_SIZE_OK(p) && AddressesValid(a.addresses, |a.labels|, p)
            && p[..CODE_SECTION_OFFSET] == Terminate(a.data)[..CODE_SECTION_OFFSET]
  {
    hide Patch, Terminate, EncodeS32, WrapI32;
    var d := Terminate(a.data);
    assert forall k :: 0 <= k < |a.addresses| ==> AddressValid(a.addresses[k], |a.labels|, a.data);
    assert PatchBounds(d, |a.labels|, a.addresses);
    PatchKeeps(d, a.labels, a.addresses, 0);
    var p := Patch(d, a.labels, a.addresses, 0).0;
    forall q | 0 <= q < CODE_SECTION_OFFSET
      ensures p[q] == d[q]
    {
      assert Untouched(q, a.addresses, 0);
    }
    assert p[..12] == d[..12] == a.data[..12];
    forall k | 0 <= k < |a.addresses|
      ensures AddressValid(a.addresses[k], |a.labels|, p)
    {
      var at := CODE_SECTION_OFFSET + a.addresses[k].offset - 1;
      assert AddressValid(a.addresses[k], |a.labels|, a.data);
      assert Untouched(at, a.addresses, 0) by {
        forall m | 0 <= m < |a.addresses|
          ensures !(CODE_SECTION_OFFSET + a.addresses[m].offset <= at < CODE_SECTION_OFFSET + a.addresses[m].offset + 4)
        {
          if m < k {
            assert a.addresses[m].offset + 5 <= a.addresses[k].offset;
          } else if m > k {
            assert a.addresses[k].offset + 5 <= a.addresses[m].offset;
          }
        }
      }
      assert d[at] == a.data[at];
    }
  }

  /** The bytes after terminating and patching, and the first placeholder
      whose label is undefined, if any. */
  function Patched(a: Assembler): (r: (seq<byte>, Option<nat>))
    requires a.Valid() && HasRoom(a)
    ensures |r.0| == |a.data| + 1
    ensures r.1.Some? ==> r.1.value < |a.addresses| && a.labels[a.addresses[r.1.value].labelIndex].offset < 0
    ensures r.1.None? <==> forall k :: 0 <= k < |a.addresses| ==> a.labels[a.addresses[k].labelIndex].offset >= 0
  {
    PatchKeepsValid(a);
    Patch(Terminate(a.data), a.labels, a.addresses, 0)
  }

  /** Both outcomes of `compile` leave a valid assembler. */
  lemma CompileKeepsValid(a: Assembler)
    requires a.Valid() && HasRoom(a)
    ensures var p := Patched(a).0;
            Assembler(Failed, p, a.labels, a.addresses, a.message).Valid()
            && Assembler(Compiled, p + WriteLabels(a.labels), a.labels, [], a.message).Valid()
  {
    hide Patch, Terminate, WriteLabels;
    PatchKeepsValid(a);
    WriteLabelsSize(a.labels);
    var p := Patched(a).0;
    var r := p + WriteLabels(a.labels);
    assert r[..12] == p[..12];
  }

  /** `compile`: terminate the code, patch every placeholder, write the
      label section and freeze. An undefined label fails the assembler,
      leaving the bytes as far as they were patched. */
  function Compile(a: Assembler): (r: (Error, Assembler))
    requires a.Valid() && HasRoom(a)
    ensures r.1.Valid()
    ensures a.state != Assemble ==> r == (ErrInvalidState, a)
    ensures r.0 == Ok <==>
              a.state == Assemble
              && forall k :: 0 <= k < |a.addresses| ==> a.labels[a.addresses[k].labelIndex].offset >= 0
    ensures r.0 == Ok ==>
              r.1.state == Compiled && r.1.labels == a.labels && r.1.addresses == []
              && r.1.data == Patched(a).0 + WriteLabels(a.labels)
    ensures a.state == Assemble && r.0 != Ok ==>
              r.0 == ErrUndefinedLabel && r.1.state == Failed && r.1.message.NotDefined?
              && r.1.data == Patched(a).0
              && exists k :: 0 <= k < |a.addresses| && a.labels[a.addresses[k].labelIndex].offset < 0
                             && r.1.message.name == a.labels[a.addresses[k].labelIndex].name
  {
    if a.state != Assemble then (ErrInvalidState, a)
    else
      CompileKeepsValid(a);
      var (p, undefined) := Patched(a);
      match undefined
      case Some(k) =>
        var ad := a.addresses[k];
        var message := NotDefined(a.labels[ad.labelIndex].name, WrapI32(CODE_SECTION_OFFSET + ad.offset));
        (ErrUndefinedLabel, Assembler(Failed, p, a.labels, a.addresses, message))
      case None =>
        (Ok, Assembler(Compiled, p + WriteLabels(a.labels), a.labels, [], a.message))
  }

  /** `get_byte_code`: a compiled assembler's bytes loaded as bytecode, or
      nothing before compiling or when they do not load. */
  function GetByteCode(a: Assembler): (r: Option<Bytecode.Bytecode>)
    ensures r.Some? ==> a.state == Compiled && r.value.Valid() && r.value.IsValid()
                        && r.value.Bytes() == a.data
  {
    if a.state != Compiled then None
    else
      var b := Bytecode.SetBytes(Bytecode.Fresh(), a.data);
      if b.IsValid() then Some(b) else None
  }

  // ---------------------------------------------------------------------
  // What compiling produces.

  /** Published labels keep the table's distinct names. */
  lemma {:induction false} PublishedDistinct(labels: seq<Label>)
    requires forall i, j :: 0 <= i < j < |labels| ==> labels[i].name != labels[j].name
    ensures Bytecode.DistinctNames(Published(labels))
    ensures forall m :: 0 <= m < |Published(labels)| ==>
              exists k :: 0 <= k < |labels| && labels[k].name == Published(labels)[m].name
  {
    PublishedNamesFrom(labels);
    if |labels| > 0 {
      var tail := labels[1..];
      assert forall k :: 0 <= k < |tail| ==> tail[k] == labels[k + 1];
      PublishedDistinct(tail);
      var pt := Published(tail);
      if labels[0].isPublic {
        var ls := Published(labels);
        assert ls == [Bytecode.Label(labels[0].name, WrapU32(labels[0].offset))] + pt;
        hide Published;
        forall i, j | 0 <= i < j < |ls|
          ensures ls[i].name != ls[j].name
        {
          assert ls[j] == pt[j - 1];
          if i > 0 {
            assert ls[i] == pt[i - 1];
          } else {
            var k :| 0 <= k < |tail| && tail[k].name == pt[j - 1].name;
            assert labels[k + 1].name == ls[j].name;
          }
        }
      } else {
        assert Published(labels) == pt;
      }
    }
  }

  /** Every published name is the name of a label of the table. */
  lemma {:induction false} PublishedNamesFrom(labels: seq<Label>)
    ensures forall m :: 0 <= m < |Published(labels)| ==>
              exists k :: 0 <= k < |labels| && labels[k].name == Published(labels)[m].name
  {
    if |labels| > 0 {
      var tail := labels[1..];
      assert forall k :: 0 <= k < |tail| ==> tail[k] == labels[k + 1];
      PublishedNamesFrom(tail);
      var pt := Published(tail);
      var ls := Published(labels);
      var head: seq<Bytecode.Label> := if labels[0].isPublic then [Bytecode.Label(labels[0].name, WrapU32(labels[0].offset))] else [];
      assert ls == head + pt;
      hide Published;
      forall m | 0 <= m < |ls|
        ensures exists k :: 0 <= k < |labels| && labels[k].name == ls[m].name
      {
        if m < |head| {
          assert ls[m] == head[m];
        } else {
          assert ls[m] == pt[m - |head|];
          var k :| 0 <= k < |tail| && tail[k].name == pt[m - |head|].name;
          assert labels[k + 1].name == ls[m].name;
        }
      }
      assert forall m :: 0 <= m < |ls| ==> exists k :: 0 <= k < |labels| && labels[k].name == ls[m].name;
    } else {
      assert Published(labels) == [];
    }
  }

  /** The header of a compiled assembler: the fixed part and the size of
      the code including its HALT. */
  lemma CompiledHeader(a: Assembler)
    requires a.Valid() && HasRoom(a) && a.state == Assemble
    ensures var p := Patched(a).0;
            p[..CODE_SECTION_OFFSET] == Bytecode.HeaderBytes(|a.data| + 1 - CODE_SECTION_OFFSET)
            && p[|a.data|] == OP_HALT
  {
    hide Patch, Overwrite;
    var d := Terminate(a.data);
    PatchKeepsValid(a);
    PatchKeeps(d, a.labels, a.addresses, 0);
    var p := Patch(d, a.labels, a.addresses, 0).0;
    var n := |a.data| + 1 - CODE_SECTION_OFFSET;
    var size := d[Bytecode.CODE_SIZE_OFFSET..CODE_SECTION_OFFSET];
    LeBytesOfValue(size);
    assert d[..CODE_SECTION_OFFSET] == d[..12] + size;
    assert p[..CODE_SECTION_OFFSET] == HEADER_PREFIX + LeBytes(n, 4);
    assert Untouched(|a.data|, a.addresses, 0) by {
      assert forall k :: 0 <= k < |a.addresses| ==> AddressValid(a.addresses[k], |a.labels|, a.data);
    }
  }

  /** Header, code and section bytes side by side form an image. */
  lemma ImageLayout(p: seq<byte>, w: seq<byte>, ls: seq<Bytecode.Label>)
    requires |p| >= CODE_SECTION_OFFSET && IsU32(|p| - CODE_SECTION_OFFSET) && Bytecode.IsSectionSized(ls)
    requires p[..CODE_SECTION_OFFSET] == Bytecode.HeaderBytes(|p| - CODE_SECTION_OFFSET)
    requires w == if |ls| == 0 then [] else Bytecode.LabelSection(ls)
    ensures p + w == Bytecode.Image(p[CODE_SECTION_OFFSET..], ls)
  {
    hide Bytecode.HeaderBytes, Bytecode.LabelSection;
    assert p == p[..CODE_SECTION_OFFSET] + p[CODE_SECTION_OFFSET..];
  }

  /** Compiling lays the bytes out exactly as a bytecode image: the header
      announcing the code's size, the code ending in HALT, and the "labl"
      section of the public labels. */
  lemma CompiledImage(a: Assembler)
    requires a.Valid() && HasRoom(a) && Compile(a).0 == Ok && PublicNamesNoNul(a.labels)
    ensures var r := Compile(a).1;
            var code := r.data[CODE_SECTION_OFFSET..|a.data| + 1];
            Bytecode.IsSectionSized(Published(a.labels))
            && r.data == Bytecode.Image(code, Published(a.labels))
            && |code| == |a.data| + 1 - CODE_SECTION_OFFSET && code[|code| - 1] == OP_HALT
  {
    hide Compile, Patch, Terminate, WriteLabels, Bytecode.HeaderBytes, Bytecode.LabelSection,
      LabelsValid, AddressesValid, Published, Bytecode.Image, PatchBounds;
    PatchKeepsValid(a);
    CompiledHeader(a);
    WriteLabelsIsSection(a.labels);
    var p := Patched(a).0;
    var w := WriteLabels(a.labels);
    var data := Compile(a).1.data;
    ImageLayout(p, w, Published(a.labels));
    assert data == p + w;
    assert data[CODE_SECTION_OFFSET..|a.data| + 1] == p[CODE_SECTION_OFFSET..];
  }

  /** A compiled assembler loads back: its bytecode is valid, announces the
      code's size, and publishes exactly the public labels in order. */
  lemma CompiledLoads(a: Assembler)
    requires a.Valid() && HasRoom(a) && Compile(a).0 == Ok && PublicNamesNoNul(a.labels)
    ensures var b := GetByteCode(Compile(a).1);
            b.Some? && b.value.labels == Published(a.labels)
            && b.value.CodeSectionSize() == |a.data| + 1 - CODE_SECTION_OFFSET
  {
    PublishedDistinct(a.labels);
    hide Compile, Patch, Terminate, WriteLabels, Bytecode.SetBytes, Bytecode.Image, Published,
      Bytecode.HeaderBytes, Bytecode.LabelSection, LabelsValid, AddressesValid, Bytecode.Fresh;
    CompiledImage(a);
    var r := Compile(a).1;
    var ls := Published(a.labels);
    var code := r.data[CODE_SECTION_OFFSET..|a.data| + 1];
    Bytecode.ImageRoundTrip(Bytecode.Fresh(), code, ls);
    var b := Bytecode.SetBytes(Bytecode.Fresh(), r.data);
    assert b.state == Bytecode.Ok;
    assert GetByteCode(r) == Some(b);
  }

  /** The same with `set_bytes` as written: when the public names never get
      shorter in definition order and the bytes fit in uint32, the stale
      name buffer does no harm and the labels load back as published. */
  lemma CompiledLoadsAsWritten(a: Assembler, fuel: nat)
    requires a.Valid() && HasRoom(a) && Compile(a).0 == Ok && PublicNamesNoNul(a.labels)
    requires Bytecode.NonShrinking(Published(a.labels)) && IsU32(|Compile(a).1.data|) && fuel > 0
    ensures var b := Bytecode.SetBytesAsWritten(Bytecode.Fresh(), Compile(a).1.data, fuel);
            b.Some? && b.value.IsValid() && b.value.labels == Published(a.labels)
            && b.value.CodeSectionSize() == |a.data| + 1 - CODE_SECTION_OFFSET
  {
    PublishedDistinct(a.labels);
    hide Compile, Patch, Terminate, WriteLabels, Bytecode.SetBytesAsWritten, Bytecode.Image, Published,
      Bytecode.HeaderBytes, Bytecode.LabelSection, LabelsValid, AddressesValid, Bytecode.Fresh;
    CompiledImage(a);
    var r := Compile(a).1;
    var ls := Published(a.labels);
    var code := r.data[CODE_SECTION_OFFSET..|a.data| + 1];
    Bytecode.ImageRoundTripAsWritten(Bytecode.Fresh(), code, ls, fuel);
  }

  /** After compiling, each placeholder holds the distance from itself to
      the offset of its label. */
  lemma CompiledJumps(a: Assembler)
    requires a.Valid() && HasRoom(a) && Compile(a).0 == Ok
    ensures forall k :: 0 <= k < |a.addresses| ==>
              var ad := a.addresses[k];
              DecodeS32(Slot(Compile(a).1.data, ad)) == a.labels[ad.labelIndex].offset - ad.offset
  {
    hide Patch, Terminate, WriteLabels, EncodeS32, DecodeS32;
    PatchKeepsValid(a);
    var d := Terminate(a.data);
    PatchedSlots(d, a.labels, a.addresses, 0);
    var p := Patch(d, a.labels, a.addresses, 0).0;
    var r := Compile(a).1;
    assert r.data == p + WriteLabels(a.labels);
    forall k | 0 <= k < |a.addresses|
      ensures DecodeS32(Slot(r.data, a.addresses[k])) == a.labels[a.addresses[k].labelIndex].offset - a.addresses[k].offset
    {
      var ad := a.addresses[k];
      assert AddressValid(ad, |a.labels|, a.data);
      assert Slot(r.data, ad) == Slot(p, ad);
      S32RoundTrip(Displacement(a.labels, ad));
    }
  }

  // ---------------------------------------------------------------------
  // Including bytecode: the copied code.

  /** Including a compiled bytecode copies its code without the final
      HALT. */
  lemma IncludedCodeWithoutHalt(code: seq<byte>, ls: seq<Bytecode.Label>)
    requires IsU32(|code| + 1) && Bytecode.IsSectionSized(ls) && Bytecode.DistinctNames(ls)
    ensures var b := Bytecode.SetBytes(Bytecode.Fresh(), Bytecode.Image(code + [OP_HALT], ls));
            b.IsValid() && CopiedCode(b, false) == code && CopiedCode(b, true) == code
  {
    hide Bytecode.SetBytes, Bytecode.LabelSection, Bytecode.HeaderBytes;
    var image := Bytecode.Image(code + [OP_HALT], ls);
    Bytecode.ImageRoundTrip(Bytecode.Fresh(), code + [OP_HALT], ls);
    var b := Bytecode.SetBytes(Bytecode.Fresh(), image);
    assert b.Bytes() == image;
    assert image[CODE_SECTION_OFFSET..CODE_SECTION_OFFSET + |code|] == code by {
      assert image[CODE_SECTION_OFFSET..CODE_SECTION_OFFSET + |code| + 1] == code + [OP_HALT];
    }
  }

  /** With a code size of 0 (a valid header, but no HALT to drop) the
      uint32 subtraction wraps to 4294967295, and `put_byte_code` copies
      everything after the header: the whole "labl" section, 12 bytes or
      more, is appended as if it were code. */
  lemma EmptyCodeCopiesLabelSection(ls: seq<Bytecode.Label>)
    requires |ls| > 0 && Bytecode.IsSectionSized(ls) && Bytecode.DistinctNames(ls)
    requires IsU32(CODE_SECTION_OFFSET + |Bytecode.LabelSection(ls)|)
    ensures var b := Bytecode.SetBytes(Bytecode.Fresh(), Bytecode.Image([], ls));
            b.IsValid() && b.labels == ls && b.CodeSectionSize() == 0
            && CopiedCode(b, true) == Bytecode.LabelSection(ls) && |CopiedCode(b, true)| >= 12
            && CopiedCode(b, false) == []
  {
    hide Bytecode.SetBytes, Bytecode.HeaderBytes, Bytecode.LabelSection, Bytecode.IsSectionSized,
      Bytecode.DistinctNames, Bytecode.Fresh;
    var image := Bytecode.Image([], ls);
    Bytecode.ImageRoundTrip(Bytecode.Fresh(), [], ls);
    var b := Bytecode.SetBytes(Bytecode.Fresh(), image);
    assert b.Bytes() == image;
    assert image[CODE_SECTION_OFFSET..] == Bytecode.LabelSection(ls);
    assert CopySize(b, true) == WrapU32(-1) == U32_LIMIT - 1;
  }


}

=== FILE: bytecode.dfy ===
/** The compiled-bytecode container of the current tree (`BlipKitBytecode`).

    Layout: a 16-byte header ("BLIP", a version byte, three flag bytes,
    "code", then the code section's size as a little-endian uint32), the
    code section, then sections that each start with a 4-byte magic. The only
    section kind is "labl": a uint32 size counting the bytes after it, a
    uint32 label count, and per label a uint32 offset into the code section,
    a length byte and the name's UTF-8 bytes.

    `set_bytes` parses on an existing object and never resets its state, so
    a parse can only add an error to one already recorded. Names are kept as
    UTF-8 byte strings. Like Godot's UTF-8 decoder, the reader ends a name at
    the first NUL byte. */
module Bytecode {
  import opened Wrappers
  import opened Bytes
  import opened ByteStream

  /** `State`: whether the bytes parsed. */
  datatype State = Ok | ErrInvalidBinary | ErrUnsupportedVersion

  /** The error message, by kind. */
  datatype Failure =
    | NoFailure
    | TruncatedHeader
    | InvalidHeader
    | InvalidCodeSection
    | UnsupportedVersion(version: byte)
    | UnknownSection(offset: nat)
    | TruncatedLabel

  const VERSION: byte := 0
  const HEADER_SIZE: nat := 16
  /** Where the header stores the code section's size. */
  const CODE_SIZE_OFFSET: nat := 12
  /** "BLIP", "code" and "labl" in ASCII. */
  const MAGIC: seq<byte> := [0x42, 0x4c, 0x49, 0x50]
  const CODE_MAGIC: seq<byte> := [0x63, 0x6f, 0x64, 0x65]
  const LABELS_MAGIC: seq<byte> := [0x6c, 0x61, 0x62, 0x6c]

  /** The header for a code section of `codeSize` bytes. */
  function HeaderBytes(codeSize: nat): (h: seq<byte>)
    requires IsU32(codeSize)
    ensures |h| == HEADER_SIZE
    ensures h[..4] == MAGIC && h[4] == VERSION && h[8..12] == CODE_MAGIC
    ensures h[12..] == LeBytes(codeSize, 4) && LeValue(h[12..]) == codeSize
  {
    Pow256Values();
    LeValueOfBytes(codeSize, 4);
    MAGIC + [VERSION, 0, 0, 0] + CODE_MAGIC + LeBytes(codeSize, 4)
  }

  /** A label: its name and its offset from the start of the code section. */
  datatype Label = Label(name: seq<byte>, offset: nat)

  /** No byte of `bs` is NUL. */
  predicate NoNul(bs: seq<byte>) {
    forall i :: 0 <= i < |bs| ==> bs[i] != 0
  }

  /** A name the assembler accepts and the reader reads back: 1 to 255
      bytes, none of them NUL. */
  predicate IsLabelName(name: seq<byte>) {
    0 < |name| <= 255 && NoNul(name)
  }

  /** A label the "labl" section can store. */
  predicate IsStorable(l: Label) {
    IsLabelName(l.name) && IsU32(l.offset)
  }

  /** The first index whose label is called `name`, or -1. */
  function FindLabel(labels: seq<Label>, name: seq<byte>): (i: int)
    ensures -1 <= i < |labels|
    ensures i >= 0 ==> labels[i].name == name
  {
    if |labels| == 0 then -1
    else
      var i := FindLabel(labels[..|labels| - 1], name);
      if i >= 0 then i
      else if labels[|labels| - 1].name == name then |labels| - 1
      else -1
  }

  /** FindLabel finds a name exactly when some label has it, and then finds
      its first occurrence. */
  lemma {:induction false} FindLabelSpec(labels: seq<Label>, name: seq<byte>)
    ensures FindLabel(labels, name) == -1 <==> forall k :: 0 <= k < |labels| ==> labels[k].name != name
    ensures FindLabel(labels, name) >= 0 ==>
              forall k :: 0 <= k < FindLabel(labels, name) ==> labels[k].name != name
    decreases |labels|
  {
    if |labels| > 0 {
      var init := labels[..|labels| - 1];
      FindLabelSpec(init, name);
      assert forall k :: 0 <= k < |init| ==> init[k] == labels[k];
    }
  }

  /** The reader's find-or-insert: a name already present keeps its first
      offset; a new name is appended. */
  function AddLabel(labels: seq<Label>, name: seq<byte>, offset: nat): (r: seq<Label>)
    ensures FindLabel(labels, name) >= 0 ==> r == labels
    ensures FindLabel(labels, name) == -1 ==> r == labels + [Label(name, offset)]
  {
    if FindLabel(labels, name) >= 0 then labels else labels + [Label(name, offset)]
  }

  /** Adding labels one after the other, as the reader does. */
  function AddLabels(labels: seq<Label>, ls: seq<Label>): (r: seq<Label>)
    decreases |ls|
  {
    if |ls| == 0 then labels
    else AddLabels(AddLabel(labels, ls[0].name, ls[0].offset), ls[1..])
  }

  /** No two labels share a name. */
  predicate DistinctNames(ls: seq<Label>) {
    forall i, j :: 0 <= i < j < |ls| ==> ls[i].name != ls[j].name
  }

  /** With distinct names that are all new, adding keeps every label. */
  lemma {:induction false} AddLabelsDistinct(labels: seq<Label>, ls: seq<Label>)
    requires DistinctNames(labels + ls)
    ensures AddLabels(labels, ls) == labels + ls
    decreases |ls|
  {
    if |ls| > 0 {
      var all := labels + ls;
      forall k | 0 <= k < |labels|
        ensures labels[k].name != ls[0].name
      {
        assert all[k] == labels[k] && all[|labels|] == ls[0];
      }
      FindLabelSpec(labels, ls[0].name);
      var next := labels + [ls[0]];
      assert next + ls[1..] == all;
      AddLabelsDistinct(next, ls[1..]);
    }
  }

  /** The bytes of `bs` up to the first NUL, as the UTF-8 decoder reads a
      name. */
  function UpToNul(bs: seq<byte>): (r: seq<byte>)
    ensures r <= bs
    ensures forall i :: 0 <= i < |r| ==> r[i] != 0
    ensures |r| < |bs| ==> bs[|r|] == 0
  {
    if |bs| == 0 || bs[0] == 0 then []
    else [bs[0]] + UpToNul(bs[1..])
  }

  /** A parsed bytecode object. `header` holds the 16 header bytes as last
      copied from the input (a truncated input copies only a prefix over the
      previous header). */
  datatype Bytecode = Bytecode(code: Stream, header: seq<byte>, labels: seq<Label>,
                               state: State, failure: Failure)
  {
    predicate Valid() {
      code.Valid() && |header| == HEADER_SIZE
    }

    /** `is_valid`. */
    predicate IsValid() {
      state == Ok
    }

    /** `get_bytes`: the whole input. */
    function Bytes(): (bs: seq<byte>)
      requires Valid()
    {
      code.Contents()
    }

    /** `get_code_section_offset`: the code starts after the header. */
    function CodeSectionOffset(): nat {
      HEADER_SIZE
    }

    /** The header's uint32 `bytecode_size` field, as the loader and the
        assembler read it. */
    function CodeSectionSize(): (n: nat)
      requires Valid()
      ensures IsU32(n)
    {
      Pow256Values();
      LeValue(header[CODE_SIZE_OFFSET..])
    }

    /** `get_code_section_size`: the uint32 field returned as an `int`, so a
        size of 2^31 or more reaches a script as a negative number. */
    function ScriptCodeSectionSize(): (n: int)
      requires Valid()
      ensures IsI32(n)
      ensures n >= 0 <==> CodeSectionSize() <= I32_MAX
      ensures n >= 0 ==> n == CodeSectionSize()
      ensures n < 0 ==> n == CodeSectionSize() - U32_LIMIT
    {
      WrapI32(CodeSectionSize())
    }

    /** `has_label`. */
    predicate HasLabel(name: seq<byte>) {
      FindLabel(labels, name) >= 0
    }

    /** `get_label_count`. */
    function LabelCount(): nat {
      |labels|
    }

    /** `get_label_name`: the empty name for an index out of range. */
    function LabelName(index: int): (name: seq<byte>)
      ensures 0 <= index < |labels| ==> name == labels[index].name
      ensures !(0 <= index < |labels|) ==> name == []
    {
      if 0 <= index < |labels| then labels[index].name else []
    }

    /** A label's uint32 `byte_offset`, 0 for an index out of range. */
    function LabelPosition(index: int): (offset: nat)
      ensures 0 <= index < |labels| ==> offset == labels[index].offset
      ensures !(0 <= index < |labels|) ==> offset == 0
    {
      if 0 <= index < |labels| then labels[index].offset else 0
    }

    /** `get_label_position`: the uint32 offset returned as an `int`, so an
        offset of 2^31 or more reaches a script as a negative number. */
    function ScriptLabelPosition(index: int): (n: int)
      ensures IsI32(n)
      ensures !(0 <= index < |labels|) ==> n == 0
      ensures LabelPosition(index) <= I32_MAX ==> n == LabelPosition(index)
      ensures I32_MAX < LabelPosition(index) < U32_LIMIT ==> n == LabelPosition(index) - U32_LIMIT
    {
      WrapI32(LabelPosition(index))
    }
  }

  /** A new, empty object: the default header, no labels, state OK. */
  function Fresh(): (b: Bytecode)
    ensures b.Valid() && b.IsValid() && b.labels == []
  {
    Bytecode(Empty(), HeaderBytes(0), [], Ok, NoFailure)
  }

  function Fail(b: Bytecode, state: State, failure: Failure): (r: Bytecode)
    ensures r.state == state && r.failure == failure
    ensures r.code == b.code && r.header == b.header && r.labels == b.labels
  {
    b.(state := state, failure := failure)
  }

  /** `read_header`: copy up to 16 bytes over the header, then check the
      length, the two magics and the version, in that order. On success the
      cursor is at the code section. */
  function ReadHeader(b: Bytecode): (r: (bool, Bytecode))
    requires b.Valid()
    ensures r.1.Valid() && r.1.code.Contents() == b.code.Contents() && r.1.labels == b.labels
    ensures r.0 ==> r.1.state == b.state && r.1.failure == b.failure
    ensures r.0 ==> r.1.code.cursor == b.code.cursor + HEADER_SIZE
    ensures r.0 ==> r.1.header == b.code.Contents()[b.code.cursor..b.code.cursor + HEADER_SIZE]
    ensures var h := b.code.Contents()[b.code.cursor..];
            r.0 <==> |h| >= HEADER_SIZE && h[..4] == MAGIC && h[8..12] == CODE_MAGIC && h[4] == VERSION
    ensures var h := b.code.Contents()[b.code.cursor..];
            |h| < HEADER_SIZE ==> r.1.state == ErrInvalidBinary && r.1.failure == TruncatedHeader
    ensures var h := b.code.Contents()[b.code.cursor..];
            |h| >= HEADER_SIZE && h[..4] != MAGIC ==>
              r.1.state == ErrInvalidBinary && r.1.failure == InvalidHeader
    ensures var h := b.code.Contents()[b.code.cursor..];
            |h| >= HEADER_SIZE && h[..4] == MAGIC && h[8..12] != CODE_MAGIC ==>
              r.1.state == ErrInvalidBinary && r.1.failure == InvalidCodeSection
    ensures var h := b.code.Contents()[b.code.cursor..];
            |h| >= HEADER_SIZE && h[..4] == MAGIC && h[8..12] == CODE_MAGIC && h[4] != VERSION ==>
              r.1.state == ErrUnsupportedVersion && r.1.failure == UnsupportedVersion(h[4])
    ensures r.1.IsValid() ==> b.IsValid()
  {
    var (got, s1) := GetBytes(b.code, HEADER_SIZE);
    assert got == b.code.Contents()[b.code.cursor..][..|got|];
    var b1 := b.(code := s1, header := got + b.header[|got|..]);
    if |got| != HEADER_SIZE then (false, Fail(b1, ErrInvalidBinary, TruncatedHeader))
    else if got[..4] != MAGIC then (false, Fail(b1, ErrInvalidBinary, InvalidHeader))
    else if got[8..12] != CODE_MAGIC then (false, Fail(b1, ErrInvalidBinary, InvalidCodeSection))
    else if got[4] != VERSION then (false, Fail(b1, ErrUnsupportedVersion, UnsupportedVersion(got[4])))
    else
      // The size field is read a second time, from the same four bytes.
      var s2 := Seek(s1, b.code.cursor + CODE_SIZE_OFFSET);
      (true, b1.(code := GetU32(s2).1))
  }

  /** A name copied over the front of an earlier, longer buffer: the
      buffer's tail stays behind the name. */
  function Spliced(name: seq<byte>, buffer: seq<byte>): (r: seq<byte>)
    ensures |r| == Max(|name|, |buffer|)
  {
    if |name| < |buffer| then name + buffer[|name|..] else name
  }

  /** The outcome of reading one label entry: whether it was complete, the
      stream after it, the decoded name, the offset and the name buffer. */
  datatype Entry = Entry(ok: bool, stream: Stream, name: seq<byte>, offset: nat, buffer: seq<byte>)

  /** One entry of `read_labels`: a uint32 offset, a length byte and that
      many name bytes; a short name fails. With `asWritten` the name bytes
      are copied over the front of a buffer kept across entries and the
      name is decoded from the whole buffer, so a name shorter than an
      earlier one picks up that name's remaining bytes; otherwise only the
      bytes just read are decoded. */
  function ReadEntry(s: Stream, buffer: seq<byte>, asWritten: bool): (e: Entry)
    requires s.Valid()
    ensures e.stream.Valid() && e.stream.Contents() == s.Contents()
    ensures e.stream.cursor >= s.cursor
  {
    var (offset, s1) := GetU32(s);
    var (size, s2) := GetU8(s1);
    var (got, s3) := GetBytes(s2, size);
    if |got| < size then Entry(false, s3, [], offset, buffer)
    else
      var buffer' := if asWritten then Spliced(got, buffer) else got;
      var name := if asWritten then UpToNul(buffer') else UpToNul(got);
      Entry(true, s3, name, offset, buffer')
  }

  /** The outcome of reading label entries: whether all were complete, the
      stream after them, the labels so far and the name buffer. */
  datatype Entries = Entries(ok: bool, stream: Stream, labels: seq<Label>, buffer: seq<byte>)

  /** The entry loop of `read_labels`: `count` entries, each name added
      unless already present. */
  function ReadEntries(s: Stream, count: nat, buffer: seq<byte>, labels: seq<Label>,
                       asWritten: bool): (r: Entries)
    requires s.Valid()
    ensures r.stream.Valid() && r.stream.Contents() == s.Contents()
    ensures r.stream.cursor >= s.cursor
    decreases count
  {
    if count == 0 then Entries(true, s, labels, buffer)
    else
      var e := ReadEntry(s, buffer, asWritten);
      if !e.ok then Entries(false, e.stream, labels, buffer)
      else ReadEntries(e.stream, count - 1, e.buffer, AddLabel(labels, e.name, e.offset), asWritten)
  }

  /** `read_labels`, after the "labl" magic: the section size, the label
      count, the entries, then the rest in `LabelEntries`. */
  function ReadLabels(b: Bytecode, asWritten: bool): (r: (bool, Bytecode))
    requires b.Valid()
    ensures r.1.Valid() && r.1.code.Contents() == b.code.Contents() && r.1.header == b.header
    ensures r.0 ==> r.1.state == b.state && r.1.failure == b.failure
    ensures !r.0 ==> r.1.state == ErrInvalidBinary && r.1.failure == TruncatedLabel
    ensures r.0 && !asWritten ==> r.1.code.cursor >= b.code.cursor
    ensures r.1.IsValid() ==> b.IsValid()
  {
    var (sectionSize, s1) := GetU32(b.code);
    var (count, s2) := GetU32(s1);
    LabelEntries(b, ReadEntries(s2, count, [], [], asWritten), s1.cursor + sectionSize, asWritten)
  }

  /** The rest of `read_labels`, once the entries `e` of a section that
      ends at `end` are read: they replace all labels, then the cursor
      moves to the end. With `asWritten` the end is computed in uint32 and
      wraps around; otherwise it is exact. */
  function LabelEntries(b: Bytecode, e: Entries, end: nat, asWritten: bool): (r: (bool, Bytecode))
    requires b.Valid() && e.stream.Valid() && e.stream.Contents() == b.code.Contents()
    ensures r.1.Valid() && r.1.code.Contents() == b.code.Contents() && r.1.header == b.header
    ensures r.0 ==> r.1.state == b.state && r.1.failure == b.failure
    ensures !r.0 ==> r.1.state == ErrInvalidBinary && r.1.failure == TruncatedLabel
    ensures r.0 == e.ok && r.1.labels == e.labels
    ensures r.0 && !asWritten ==> r.1.code.cursor == Min(end, e.stream.count)
    ensures r.0 && asWritten ==> r.1.code.cursor == Min(WrapU32(end), e.stream.count)
    ensures r.1.IsValid() ==> b.IsValid()
  {
    var b1 := b.(code := e.stream, labels := e.labels);
    if !e.ok then (false, Fail(b1, ErrInvalidBinary, TruncatedLabel))
    else (true, b1.(code := Seek(e.stream, if asWritten then WrapU32(end) else end)))
  }

  /** One pass of the section loop of `read_sections`, with bytes left. */
  datatype Pass = Next(b: Bytecode) | Stop(ok: bool, b: Bytecode)

  function SectionPass(b: Bytecode, asWritten: bool): (r: Pass)
    requires b.Valid() && b.code.Available() > 0
    ensures r.b.Valid() && r.b.code.Contents() == b.code.Contents() && r.b.header == b.header
    ensures r.Next? && !asWritten ==> r.b.code.cursor > b.code.cursor
    ensures r.Next? ==> r.b.state == b.state && r.b.failure == b.failure
    ensures r.Stop? && r.ok ==> false
    ensures r.b.IsValid() ==> b.IsValid()
  {
    var sectionPosition := b.code.cursor;
    var (magic, s1) := GetBytes(b.code, 4);
    if |magic| < 4 then
      // A trailing fragment ends parsing without recording an error.
      Stop(false, b.(code := s1))
    else if magic == LABELS_MAGIC then
      var (ok, b2) := ReadLabels(b.(code := s1), asWritten);
      if ok then Next(b2) else Stop(false, b2)
    else
      Stop(false, Fail(b.(code := s1), ErrInvalidBinary, UnknownSection(sectionPosition)))
  }

  /** The section loop with exact section ends. Every pass moves forward,
      so the loop ends. */
  function SectionLoop(b: Bytecode): (r: (bool, Bytecode))
    requires b.Valid()
    ensures r.1.Valid() && r.1.code.Contents() == b.code.Contents() && r.1.header == b.header
    ensures r.0 ==> r.1.state == b.state && r.1.failure == b.failure
    decreases b.code.count - b.code.cursor
    ensures r.1.IsValid() ==> b.IsValid()
  {
    if b.code.Available() == 0 then (true, b)
    else
      match SectionPass(b, false)
      case Next(b1) => SectionLoop(b1)
      case Stop(ok, b1) => (ok, b1)
  }

  /** The section loop as written, for at most `fuel` passes; None when the
      passes run out. */
  function SectionLoopAsWritten(b: Bytecode, fuel: nat): (r: Option<(bool, Bytecode)>)
    requires b.Valid()
    ensures r.Some? ==> r.value.1.Valid() && r.value.1.code.Contents() == b.code.Contents()
    decreases fuel
  {
    if b.code.Available() == 0 then Some((true, b))
    else if fuel == 0 then None
    else
      match SectionPass(b, true)
      case Next(b1) => SectionLoopAsWritten(b1, fuel - 1)
      case Stop(ok, b1) => Some((ok, b1))
  }

  /** `read_sections`: skip the code section, read the sections, and on
      success seek back to the start of the code. */
  function ReadSections(b: Bytecode): (r: (bool, Bytecode))
    requires b.Valid()
    ensures r.1.Valid() && r.1.code.Contents() == b.code.Contents() && r.1.header == b.header
    ensures r.0 ==> r.1.state == b.state && r.1.failure == b.failure
    ensures r.0 ==> r.1.code.cursor == b.code.cursor
    ensures r.1.IsValid() ==> b.IsValid()
  {
    var position := b.code.cursor;
    var (ok, b1) := SectionLoop(b.(code := Seek(b.code, position + b.CodeSectionSize())));
    if ok then (true, b1.(code := Seek(b1.code, position))) else (false, b1)
  }

  /** `set_bytes`: take the input, read the header, then the sections. */
  function SetBytes(b: Bytecode, data: seq<byte>): (r: Bytecode)
    requires b.Valid()
    ensures r.Valid() && r.Bytes() == data
    ensures r.IsValid() ==> b.IsValid()
    ensures |data| < HEADER_SIZE ==> r.state == ErrInvalidBinary && r.failure == TruncatedHeader
    ensures |data| >= HEADER_SIZE && data[..4] != MAGIC ==>
              r.state == ErrInvalidBinary && r.failure == InvalidHeader
    ensures |data| >= HEADER_SIZE && data[..4] == MAGIC && data[8..12] != CODE_MAGIC ==>
              r.state == ErrInvalidBinary && r.failure == InvalidCodeSection
    ensures |data| >= HEADER_SIZE && data[..4] == MAGIC && data[8..12] == CODE_MAGIC
            && data[4] != VERSION ==>
              r.state == ErrUnsupportedVersion && r.failure == UnsupportedVersion(data[4])
  {
    var b0 := b.(code := ByteStream.SetBytes(data));
    assert b0.code.Contents()[b0.code.cursor..] == data;
    var (ok, b1) := ReadHeader(b0);
    if !ok then b1 else ReadSections(b1).1
  }

  /** `set_bytes` as written, with the section loop bounded by `fuel`. */
  function SetBytesAsWritten(b: Bytecode, data: seq<byte>, fuel: nat): (r: Option<Bytecode>)
    requires b.Valid()
    ensures r.Some? ==> r.value.Valid() && r.value.Bytes() == data
  {
    var b0 := b.(code := ByteStream.SetBytes(data));
    var (ok, b1) := ReadHeader(b0);
    if !ok then Some(b1)
    else
      var position := b1.code.cursor;
      var start := b1.(code := Seek(b1.code, WrapU32(position + b1.CodeSectionSize())));
      match SectionLoopAsWritten(start, fuel)
      case None => None
      case Some((ok2, b2)) => Some(if ok2 then b2.(code := Seek(b2.code, position)) else b2)
  }

  // ---------------------------------------------------------------------
  // The "labl" section as the assembler writes it, and reading it back.

  /** One entry: the offset, the name's length, the name. */
  function EncodeLabel(l: Label): (bs: seq<byte>)
    requires IsStorable(l)
    ensures |bs| == 5 + |l.name|
  {
    Pow256Values();
    LeBytes(l.offset, 4) + [|l.name| as byte] + l.name
  }

  predicate AllStorable(ls: seq<Label>) {
    forall i :: 0 <= i < |ls| ==> IsStorable(ls[i])
  }

  function EncodeLabels(ls: seq<Label>): (bs: seq<byte>)
    requires AllStorable(ls)
  {
    if |ls| == 0 then [] else EncodeLabel(ls[0]) + EncodeLabels(ls[1..])
  }

  /** A section that the size and count fields can describe. */
  predicate IsSectionSized(ls: seq<Label>) {
    AllStorable(ls) && IsU32(|ls|) && IsU32(4 + |EncodeLabels(ls)|)
  }

  /** The whole "labl" section: magic, size of what follows the size field,
      label count, entries. */
  function LabelSection(ls: seq<Label>): (bs: seq<byte>)
    requires IsSectionSized(ls)
    ensures |bs| == 12 + |EncodeLabels(ls)|
  {
    Pow256Values();
    LABELS_MAGIC + LeBytes(4 + |EncodeLabels(ls)|, 4) + LeBytes(|ls|, 4) + EncodeLabels(ls)
  }

  /** A name without NUL decodes to itself. */
  lemma UpToNulOfName(bs: seq<byte>)
    requires NoNul(bs)
    ensures UpToNul(bs) == bs
  {
  }

  /** Splicing a name over a buffer, neither holding NUL, gives no NUL. */
  lemma NoNulSplice(a: seq<byte>, b: seq<byte>)
    requires NoNul(a) && NoNul(b)
    ensures NoNul(Spliced(a, b))
  {
    var k := Spliced(a, b);
    forall i | 0 <= i < |k| ensures k[i] != 0 {
      if i >= |a| { assert k[i] == b[i]; }
    }
  }

  /** `rest` is what the stream holds at its cursor. */
  predicate Following(s: Stream, rest: seq<byte>)
    requires s.Valid()
  {
    s.cursor + |rest| <= s.count && s.Contents()[s.cursor..s.cursor + |rest|] == rest
  }

  /** The bytes at the cursor, as a stream predicate. */
  lemma FollowingAt(s: Stream, rest: seq<byte>)
    requires s.Valid() && s.cursor + |rest| <= s.count
    requires s.Contents()[s.cursor..s.cursor + |rest|] == rest
    ensures Following(s, rest)
  {
  }

  /** What `Following` says about the stream's bytes. */
  lemma FollowingSlice(s: Stream, rest: seq<byte>)
    requires s.Valid() && Following(s, rest)
    ensures s.cursor + |rest| <= s.count && s.Contents()[s.cursor..s.cursor + |rest|] == rest
  {
  }

  /** Bytes that hold a + b at p hold a at p and b right after it. */
  lemma SliceConcat(c: seq<byte>, p: nat, a: seq<byte>, b: seq<byte>)
    requires p + |a| + |b| <= |c| && c[p..p + |a| + |b|] == a + b
    ensures c[p..p + |a|] == a
    ensures c[p + |a|..p + |a| + |b|] == b
  {
    assert c[p..p + |a|] == (a + b)[..|a|];
    assert c[p + |a|..p + |a| + |b|] == (a + b)[|a|..];
  }

  /** Reading an encoded entry recovers its offset and its name; as
      written, the name is spliced over the front of the buffer. The stream
      is left at what follows the entry. */
  lemma ReadEncodedEntry(s: Stream, l: Label, rest: seq<byte>, buffer: seq<byte>, asWritten: bool)
    requires s.Valid() && IsStorable(l) && (asWritten ==> NoNul(buffer))
    requires Following(s, EncodeLabel(l) + rest)
    ensures ReadEntry(s, buffer, asWritten).ok
    ensures ReadEntry(s, buffer, asWritten).offset == l.offset
    ensures ReadEntry(s, buffer, asWritten).buffer
            == (if asWritten then Spliced(l.name, buffer) else l.name)
    ensures ReadEntry(s, buffer, asWritten).name == ReadEntry(s, buffer, asWritten).buffer
    ensures NoNul(ReadEntry(s, buffer, asWritten).buffer)
    ensures ReadEntry(s, buffer, asWritten).stream.cursor == s.cursor + |EncodeLabel(l)|
    ensures Following(ReadEntry(s, buffer, asWritten).stream, rest)
  {
    hide UpToNul, Spliced, Following;
    Pow256Values();
    var c := s.Contents();
    var p := s.cursor;
    var n := |l.name|;
    FollowingSlice(s, EncodeLabel(l) + rest);
    SliceConcat(c, p, EncodeLabel(l), rest);
    SliceConcat(c, p, LeBytes(l.offset, 4) + [n as byte], l.name);
    SliceConcat(c, p, LeBytes(l.offset, 4), [n as byte]);
    ReadStored(s, 4, l.offset);
    var s1 := GetU32(s).1;
    LeBytesOne(n);
    ReadStored(s1, 1, n);
    var s2 := GetU8(s1).1;
    var (got, s3) := GetBytes(s2, n);
    assert got == l.name;
    var kept := if asWritten then Spliced(l.name, buffer) else l.name;
    if asWritten {
      NoNulSplice(l.name, buffer);
    }
    UpToNulOfName(kept);
    UpToNulOfName(l.name);
    assert ReadEntry(s, buffer, asWritten) == Entry(true, s3, kept, l.offset, kept);
    assert s3.cursor == p + |EncodeLabel(l)|;
    FollowingAt(s3, rest);
  }

  lemma AllStorableTail(ls: seq<Label>)
    requires |ls| > 0 && AllStorable(ls)
    ensures AllStorable(ls[1..])
  {
    forall i | 0 <= i < |ls| - 1 ensures IsStorable(ls[1..][i]) {
      assert ls[1..][i] == ls[i + 1];
    }
  }

  /** A section pass at a "labl" magic reads the section after it. */
  lemma LabelsPass(b: Bytecode, asWritten: bool)
    requires b.Valid() && Following(b.code, LABELS_MAGIC)
    ensures var b1 := b.(code := Skip(b.code, 4));
            var r := ReadLabels(b1, asWritten);
            b1.Valid() && SectionPass(b, asWritten) == if r.0 then Next(r.1) else Stop(false, r.1)
  {
    var (magic, s1) := GetBytes(b.code, 4);
    assert magic == LABELS_MAGIC;
  }

  /** A section pass at any other magic stops, marking the input invalid
      and naming the section's offset. */
  lemma UnknownPass(b: Bytecode, magic: seq<byte>, asWritten: bool)
    requires b.Valid() && |magic| == 4 && magic != LABELS_MAGIC && Following(b.code, magic)
    ensures SectionPass(b, asWritten)
            == Stop(false, Fail(b.(code := Skip(b.code, 4)), ErrInvalidBinary, UnknownSection(b.code.cursor)))
  {
    var (got, s1) := GetBytes(b.code, 4);
    assert got == magic;
  }

  /** `read_labels` once its size and count fields are known: the entries
      start after the count, and the section's end is counted from the end
      of the size field. */
  lemma ReadLabelsOf(b: Bytecode, size: nat, count: nat, asWritten: bool)
    requires b.Valid() && b.code.cursor + 8 <= b.code.count
    requires GetU32(b.code).0 == size && GetU32(Skip(b.code, 4)).0 == count
    ensures ReadLabels(b, asWritten)
            == LabelEntries(b, ReadEntries(Skip(b.code, 8), count, [], [], asWritten),
                            b.code.cursor + 4 + size, asWritten)
  {
    hide ReadEntries;
    var s1 := GetU32(b.code).1;
    assert s1 == Skip(b.code, 4);
    var s2 := GetU32(s1).1;
    assert s2 == Skip(b.code, 8);
  }

  /** Two uint32 fields followed by `rest`: reading them yields the stored
      values, and `rest` follows them. */
  lemma StoredFields(s: Stream, size: nat, count: nat, rest: seq<byte>)
    requires s.Valid() && IsU32(size) && IsU32(count)
    requires Following(s, LeBytes(size, 4) + LeBytes(count, 4) + rest)
    ensures s.cursor + 8 <= s.count
    ensures GetU32(s).0 == size && GetU32(Skip(s, 4)).0 == count
    ensures Following(Skip(s, 8), rest)
  {
    Pow256Values();
    var c := s.Contents();
    var head := LeBytes(size, 4) + LeBytes(count, 4);
    SliceConcat(c, s.cursor, head, rest);
    SliceConcat(c, s.cursor, LeBytes(size, 4), LeBytes(count, 4));
    ReadStored(s, 4, size);
    ReadStored(Skip(s, 4), 4, count);
  }




  /** The corrected entry reader reads back what was encoded: the labels are
      added in order, and the cursor ends after the last entry. */
  lemma {:induction false} ReadEncodedEntries(s: Stream, ls: seq<Label>, buffer: seq<byte>,
                                              labels: seq<Label>)
    requires s.Valid() && AllStorable(ls)
    requires Following(s, EncodeLabels(ls))
    ensures var r := ReadEntries(s, |ls|, buffer, labels, false);
            r.ok && r.stream.cursor == s.cursor + |EncodeLabels(ls)|
            && r.labels == AddLabels(labels, ls)
    decreases |ls|
  {
    if |ls| > 0 {
      var l := ls[0];
      var rest := EncodeLabels(ls[1..]);
      assert EncodeLabels(ls) == EncodeLabel(l) + rest;
      ReadEncodedEntry(s, l, rest, buffer, false);
      var e := ReadEntry(s, buffer, false);
      var next := AddLabel(labels, l.name, l.offset);
      assert ReadEntries(s, |ls|, buffer, labels, false)
             == ReadEntries(e.stream, |ls| - 1, e.buffer, next, false);
      AllStorableTail(ls);
      ReadEncodedEntries(e.stream, ls[1..], e.buffer, next);
    }
  }


  /** `read_labels` whose entries all read, up to the section's end: it
      succeeds with the labels the entries gave, at the end of the section. */
  lemma ReadLabelsComplete(b: Bytecode, size: nat, count: nat)
    requires b.Valid() && b.code.cursor + 8 <= b.code.count
    requires GetU32(b.code).0 == size && GetU32(Skip(b.code, 4)).0 == count
    requires var r := ReadEntries(Skip(b.code, 8), count, [], [], false);
             r.ok && r.stream.cursor == b.code.cursor + 4 + size
    ensures ReadLabels(b, false).0 && ReadLabels(b, false).1.state == b.state
    ensures ReadLabels(b, false).1.labels == ReadEntries(Skip(b.code, 8), count, [], [], false).labels
    ensures ReadLabels(b, false).1.code.cursor == b.code.cursor + 4 + size
  {
    hide ReadLabels, ReadEntries, LabelEntries;
    ReadLabelsOf(b, size, count, false);
  }

  /** `read_labels` on a section the assembler wrote: with distinct names
      every label comes back, in order, with its offset, and the cursor ends
      at the end of the section. */
  lemma ReadLabelSection(b: Bytecode, ls: seq<Label>)
    requires b.Valid() && IsSectionSized(ls) && DistinctNames(ls)
    requires Following(b.code, LeBytes(4 + |EncodeLabels(ls)|, 4) + LeBytes(|ls|, 4) + EncodeLabels(ls))
    ensures ReadLabels(b, false).0
    ensures ReadLabels(b, false).1.labels == ls
    ensures ReadLabels(b, false).1.code.cursor == b.code.cursor + 8 + |EncodeLabels(ls)|
    ensures ReadLabels(b, false).1.state == b.state
  {
    hide ReadLabels, ReadEntries, AddLabels, EncodeLabels, Following, LeBytes;
    var e := EncodeLabels(ls);
    StoredFields(b.code, 4 + |e|, |ls|, e);
    ReadEncodedEntries(Skip(b.code, 8), ls, [], []);
    assert [] + ls == ls;
    AddLabelsDistinct([], ls);
    ReadLabelsComplete(b, 4 + |e|, |ls|);
  }

  /** A complete image as the assembler lays it out: the header, the code,
      and a label section when there are labels to publish. */
  function Image(code: seq<byte>, ls: seq<Label>): (bs: seq<byte>)
    requires IsU32(|code|) && IsSectionSized(ls)
    ensures |bs| >= HEADER_SIZE + |code|
    ensures bs[..HEADER_SIZE] == HeaderBytes(|code|)
    ensures bs[HEADER_SIZE..HEADER_SIZE + |code|] == code
  {
    var bs := HeaderBytes(|code|) + code + (if |ls| == 0 then [] else LabelSection(ls));
    assert bs[..HEADER_SIZE] == HeaderBytes(|code|);
    assert bs[HEADER_SIZE..HEADER_SIZE + |code|] == code;
    bs
  }

  /** The header of an image passes every check and announces the code's
      size; the cursor is left at the start of the code. */
  lemma ReadImageHeader(b: Bytecode, data: seq<byte>, n: nat)
    requires b.Valid() && IsU32(n)
    requires |data| >= HEADER_SIZE && data[..HEADER_SIZE] == HeaderBytes(n)
    ensures var r := ReadHeader(b.(code := ByteStream.SetBytes(data)));
            r.0 && r.1.code.cursor == HEADER_SIZE && r.1.CodeSectionSize() == n
            && r.1.state == b.state && r.1.failure == b.failure && r.1.labels == b.labels
  {
    var b0 := b.(code := ByteStream.SetBytes(data));
    var h := b0.code.Contents()[b0.code.cursor..];
    assert h == data;
    assert h[..4] == data[..HEADER_SIZE][..4];
    assert h[8..12] == data[..HEADER_SIZE][8..12];
    assert h[4] == data[..HEADER_SIZE][4];
    var r := ReadHeader(b0);
    assert r.1.header == HeaderBytes(n);
  }

  /** Where `set_bytes` stands after an image's header: at the end of the
      code, facing the rest of the input, with the rest of the outcome
      decided by the section loop. */
  lemma SetBytesAfterHeader(b: Bytecode, code: seq<byte>, rest: seq<byte>)
    requires b.Valid() && IsU32(|code|)
    ensures var data := HeaderBytes(|code|) + code + rest;
            var b1 := ReadHeader(b.(code := ByteStream.SetBytes(data))).1;
            var b2 := b1.(code := Seek(b1.code, b1.code.cursor + b1.CodeSectionSize()));
            var (ok, b3) := SectionLoop(b2);
            b2.Valid() && b2.code.cursor == HEADER_SIZE + |code| && b2.code.Contents() == data
            && Following(b2.code, rest) && b2.code.cursor + |rest| == b2.code.count
            && b2.state == b.state && b2.failure == b.failure && b2.labels == b.labels
            && SetBytes(b, data) == if ok then b3.(code := Seek(b3.code, HEADER_SIZE)) else b3
  {
    hide SectionLoop;
    var data := HeaderBytes(|code|) + code + rest;
    assert data[..HEADER_SIZE] == HeaderBytes(|code|);
    assert data[HEADER_SIZE + |code|..] == rest;
    ReadImageHeader(b, data, |code|);
  }

  /** With no bytes left the section loop succeeds at once. */
  lemma SectionLoopAtEnd(b: Bytecode)
    requires b.Valid() && b.code.Available() == 0
    ensures SectionLoop(b) == (true, b)
  {
  }

  /** With bytes left the section loop runs one pass, then goes on or
      stops as the pass says. */
  lemma SectionLoopStep(b: Bytecode)
    requires b.Valid() && b.code.Available() > 0
    ensures SectionLoop(b) == match SectionPass(b, false)
                              case Next(b1) => SectionLoop(b1)
                              case Stop(ok, b1) => (ok, b1)
  {
  }

  /** The section loop over one label section that runs to the end of the
      input: it succeeds, and the labels are the section's. */
  lemma SectionLoopOnLabels(b: Bytecode, ls: seq<Label>)
    requires b.Valid() && IsSectionSized(ls) && DistinctNames(ls)
    requires Following(b.code, LabelSection(ls)) && b.code.cursor + |LabelSection(ls)| == b.code.count
    ensures SectionLoop(b).0 && SectionLoop(b).1.labels == ls
    ensures SectionLoop(b).1.state == b.state && SectionLoop(b).1.code.cursor == b.code.count
  {
    hide SectionPass, ReadLabels, LeBytes, EncodeLabels, Following;
    Pow256Values();
    var e := EncodeLabels(ls);
    var tail := LeBytes(4 + |e|, 4) + LeBytes(|ls|, 4) + e;
    assert LabelSection(ls) == LABELS_MAGIC + tail;
    FollowingSlice(b.code, LabelSection(ls));
    SliceConcat(b.code.Contents(), b.code.cursor, LABELS_MAGIC, tail);
    FollowingAt(b.code, LABELS_MAGIC);
    LabelsPass(b, false);
    var b1 := b.(code := Skip(b.code, 4));
    FollowingAt(b1.code, tail);
    ReadLabelSection(b1, ls);
    SectionLoopStep(b);
    SectionLoopAtEnd(ReadLabels(b1, false).1);
  }

  /** Reading an image back: the object becomes valid again (if it was), the
      code size is the code's length, the published labels come back in
      order, and the cursor rests at the start of the code. Without a label
      section the previous labels stay. */
  lemma ImageRoundTrip(b: Bytecode, code: seq<byte>, ls: seq<Label>)
    requires b.Valid() && IsU32(|code|) && IsSectionSized(ls) && DistinctNames(ls)
    ensures var r := SetBytes(b, Image(code, ls));
            r.state == b.state && r.CodeSectionSize() == |code|
            && r.code.cursor == HEADER_SIZE
            && r.labels == (if |ls| == 0 then b.labels else ls)
  {
    hide SectionLoop, SetBytes, ReadHeader, SectionPass, LabelSection, HeaderBytes, Following;
    var rest := if |ls| == 0 then [] else LabelSection(ls);
    SetBytesAfterHeader(b, code, rest);
    ReadImageHeader(b, Image(code, ls), |code|);
    var b1 := ReadHeader(b.(code := ByteStream.SetBytes(Image(code, ls)))).1;
    var b2 := b1.(code := Seek(b1.code, b1.code.cursor + b1.CodeSectionSize()));
    if |ls| > 0 {
      SectionLoopOnLabels(b2, ls);
    } else {
      SectionLoopAtEnd(b2);
    }
  }

  /** Up to three bytes after the last section stop the section loop
      without an error being recorded: the state and the labels stay, and
      the cursor is left at the end of the input instead of at the code. */
  lemma TrailingFragmentIgnored(b: Bytecode, code: seq<byte>, frag: seq<byte>)
    requires b.Valid() && IsU32(|code|) && 0 < |frag| < 4
    ensures var r := SetBytes(b, HeaderBytes(|code|) + code + frag);
            r.state == b.state && r.labels == b.labels && r.code.cursor == r.code.count
  {
    SetBytesAfterHeader(b, code, frag);
  }

  /** Four bytes after the code that are not "labl" mark the input invalid,
      naming the offset where the section starts. */
  lemma UnknownSectionRejected(b: Bytecode, code: seq<byte>, magic: seq<byte>, rest: seq<byte>)
    requires b.Valid() && IsU32(|code|) && |magic| == 4 && magic != LABELS_MAGIC
    ensures var r := SetBytes(b, HeaderBytes(|code|) + code + (magic + rest));
            r.state == ErrInvalidBinary && r.failure == UnknownSection(HEADER_SIZE + |code|)
  {
    hide SetBytes, SectionLoop, SectionPass, ReadHeader;
    SetBytesAfterHeader(b, code, magic + rest);
    var data := HeaderBytes(|code|) + code + (magic + rest);
    var b1 := ReadHeader(b.(code := ByteStream.SetBytes(data))).1;
    var b2 := b1.(code := Seek(b1.code, b1.code.cursor + b1.CodeSectionSize()));
    SliceConcat(b2.code.Contents(), b2.code.cursor, magic, rest);
    UnknownPass(b2, magic, false);
    SectionLoopStep(b2);
  }

  /** An entry whose name runs past the end of the input is incomplete. */
  lemma ShortEntryFails(s: Stream, offset: nat, size: nat, name: seq<byte>, buffer: seq<byte>,
                        asWritten: bool)
    requires s.Valid() && IsU32(offset) && |name| < size < 256
    requires Following(s, LeBytes(offset, 4) + [size as byte] + name)
    requires s.cursor + 5 + |name| == s.count
    ensures !ReadEntry(s, buffer, asWritten).ok
  {
    hide UpToNul, Spliced;
    Pow256Values();
    var c := s.Contents();
    var p := s.cursor;
    SliceConcat(c, p, LeBytes(offset, 4) + [size as byte], name);
    SliceConcat(c, p, LeBytes(offset, 4), [size as byte]);
    ReadStored(s, 4, offset);
    var s1 := GetU32(s).1;
    LeBytesOne(size);
    ReadStored(s1, 1, size);
  }

  /** A one-entry section whose name is cut off fails to read. */
  lemma ShortSectionFails(b: Bytecode, offset: nat, size: nat, name: seq<byte>, asWritten: bool)
    requires b.Valid() && IsU32(offset) && |name| < size < 256
    requires Following(b.code, LeBytes(5 + size, 4) + LeBytes(1, 4)
                               + (LeBytes(offset, 4) + [size as byte] + name))
    requires b.code.cursor + 13 + |name| == b.code.count
    ensures !ReadLabels(b, asWritten).0
  {
    hide ReadLabels, LabelEntries, ReadEntry, LeBytes, Following;
    Pow256Values();
    var entry := LeBytes(offset, 4) + [size as byte] + name;
    StoredFields(b.code, 5 + size, 1, entry);
    var s2 := Skip(b.code, 8);
    ShortEntryFails(s2, offset, size, name, [], asWritten);
    ReadLabelsOf(b, 5 + size, 1, asWritten);
    assert !ReadEntries(s2, 1, [], [], asWritten).ok;
  }

  /** The section loop at a one-entry section whose name is cut off stops
      with the input marked invalid. */
  lemma ShortSectionStopsLoop(b: Bytecode, offset: nat, size: nat, name: seq<byte>)
    requires b.Valid() && IsU32(offset) && |name| < size < 256
    requires Following(b.code, LABELS_MAGIC + (LeBytes(5 + size, 4) + LeBytes(1, 4)
                                               + (LeBytes(offset, 4) + [size as byte] + name)))
    requires b.code.cursor + 17 + |name| == b.code.count
    ensures !SectionLoop(b).0
    ensures SectionLoop(b).1.state == ErrInvalidBinary && SectionLoop(b).1.failure == TruncatedLabel
  {
    hide ReadLabels, SectionPass;
    Pow256Values();
    var tail := LeBytes(5 + size, 4) + LeBytes(1, 4) + (LeBytes(offset, 4) + [size as byte] + name);
    SliceConcat(b.code.Contents(), b.code.cursor, LABELS_MAGIC, tail);
    LabelsPass(b, false);
    var b1 := b.(code := Skip(b.code, 4));
    ShortSectionFails(b1, offset, size, name, false);
  }

  /** A label entry whose name is cut off by the end of the input marks the
      input invalid. */
  lemma TruncatedLabelRejected(b: Bytecode, code: seq<byte>, offset: nat, size: nat,
                               name: seq<byte>)
    requires b.Valid() && IsU32(|code|) && IsU32(offset) && |name| < size < 256
    ensures var r := SetBytes(b, HeaderBytes(|code|) + code
                                 + (LABELS_MAGIC + (LeBytes(5 + size, 4) + LeBytes(1, 4)
                                    + (LeBytes(offset, 4) + [size as byte] + name))));
            r.state == ErrInvalidBinary && r.failure == TruncatedLabel
  {
    hide SectionLoop, SetBytes, ReadHeader;
    Pow256Values();
    var section := LABELS_MAGIC + (LeBytes(5 + size, 4) + LeBytes(1, 4)
                                   + (LeBytes(offset, 4) + [size as byte] + name));
    var data := HeaderBytes(|code|) + code + section;
    SetBytesAfterHeader(b, code, section);
    var b1 := ReadHeader(b.(code := ByteStream.SetBytes(data))).1;
    var b2 := b1.(code := Seek(b1.code, b1.code.cursor + b1.CodeSectionSize()));
    ShortSectionStopsLoop(b2, offset, size, name);
  }

  /** FindLabel on a sequence extended by one label. */
  lemma FindLabelAppend(labels: seq<Label>, l: Label, name: seq<byte>)
    ensures FindLabel(labels + [l], name)
            == if FindLabel(labels, name) >= 0 then FindLabel(labels, name)
               else if l.name == name then |labels| else -1
  {
    assert (labels + [l])[..|labels|] == labels;
    FindLabelSpec(labels, name);
  }

  /** FindLabel on a sequence without its first label. */
  lemma FindLabelTail(ls: seq<Label>, name: seq<byte>)
    requires |ls| > 0
    ensures ls[0].name == name ==> FindLabel(ls, name) == 0
    ensures ls[0].name != name && FindLabel(ls[1..], name) == -1 ==> FindLabel(ls, name) == -1
    ensures ls[0].name != name && FindLabel(ls[1..], name) >= 0 ==>
              FindLabel(ls, name) == FindLabel(ls[1..], name) + 1
  {
    var i := FindLabel(ls, name);
    var j := FindLabel(ls[1..], name);
    FindLabelSpec(ls, name);
    FindLabelSpec(ls[1..], name);
    if ls[0].name != name {
      if j >= 0 {
        assert ls[j + 1] == ls[1..][j];
        forall k | 0 <= k < j + 1 ensures ls[k].name != name {
          if k > 0 { assert ls[k] == ls[1..][k - 1]; }
        }
      } else {
        forall k | 0 <= k < |ls| ensures ls[k].name != name {
          if k > 0 { assert ls[k] == ls[1..][k - 1]; }
        }
      }
    }
  }

  /** Duplicate names in the section: the first entry with a name wins. A
      name already known keeps its label; a new name gets the label of its
      first entry; a name absent from both stays absent. Earlier labels are
      kept as a prefix. */
  lemma {:induction false} AddLabelsFirstWins(labels: seq<Label>, ls: seq<Label>, name: seq<byte>)
    ensures var r := AddLabels(labels, ls);
            labels <= r
            && (FindLabel(labels, name) >= 0 ==> FindLabel(r, name) == FindLabel(labels, name))
            && (FindLabel(labels, name) == -1 && FindLabel(ls, name) >= 0 ==>
                  FindLabel(r, name) >= 0 && r[FindLabel(r, name)] == ls[FindLabel(ls, name)])
            && (FindLabel(labels, name) == -1 && FindLabel(ls, name) == -1 ==>
                  FindLabel(r, name) == -1)
    decreases |ls|
  {
    if |ls| > 0 {
      var next := AddLabel(labels, ls[0].name, ls[0].offset);
      FindLabelAppend(labels, ls[0], name);
      FindLabelTail(ls, name);
      AddLabelsFirstWins(next, ls[1..], name);
      if FindLabel(labels, name) == -1 && ls[0].name == name {
        assert next == labels + [ls[0]];
        assert FindLabel(next, name) == |labels|;
      }
    }
  }

  /** The labels read from any section have distinct names. */
  lemma {:induction false} AddLabelsKeepsDistinct(labels: seq<Label>, ls: seq<Label>)
    requires DistinctNames(labels)
    ensures DistinctNames(AddLabels(labels, ls))
    decreases |ls|
  {
    if |ls| > 0 {
      var next := AddLabel(labels, ls[0].name, ls[0].offset);
      FindLabelSpec(labels, ls[0].name);
      if FindLabel(labels, ls[0].name) == -1 {
        forall i, j | 0 <= i < j < |next| ensures next[i].name != next[j].name {
          if j == |labels| { assert next[i] == labels[i]; }
        }
      }
      AddLabelsKeepsDistinct(next, ls[1..]);
    }
  }

  // ---------------------------------------------------------------------
  // Two defects of `read_labels` as written, each with an input that shows
  // it; the corrected reader above is the one `SetBytes` uses.

  /** The names the as-written reader produces for the entries `ls`,
      starting from `buffer`: each name is copied over the front of the
      buffer, and a name shorter than the buffer keeps the buffer's tail. */
  function StaleNames(ls: seq<Label>, buffer: seq<byte>): (r: seq<Label>)
    ensures |r| == |ls|
    decreases |ls|
  {
    if |ls| == 0 then []
    else
      var kept := Spliced(ls[0].name, buffer);
      [Label(kept, ls[0].offset)] + StaleNames(ls[1..], kept)
  }

  /** The entry reader as written on encoded entries: it succeeds, and the
      labels it adds are the stale names, not the names written. */
  lemma {:induction false} ReadEncodedEntriesAsWritten(s: Stream, ls: seq<Label>,
                                                       buffer: seq<byte>, labels: seq<Label>)
    requires s.Valid() && AllStorable(ls) && NoNul(buffer)
    requires Following(s, EncodeLabels(ls))
    ensures var r := ReadEntries(s, |ls|, buffer, labels, true);
            r.ok && r.stream.cursor == s.cursor + |EncodeLabels(ls)|
            && r.labels == AddLabels(labels, StaleNames(ls, buffer))
    decreases |ls|
  {
    if |ls| > 0 {
      var l := ls[0];
      var rest := EncodeLabels(ls[1..]);
      assert EncodeLabels(ls) == EncodeLabel(l) + rest;
      ReadEncodedEntry(s, l, rest, buffer, true);
      var e := ReadEntry(s, buffer, true);
      var next := AddLabel(labels, e.name, l.offset);
      assert ReadEntries(s, |ls|, buffer, labels, true)
             == ReadEntries(e.stream, |ls| - 1, e.buffer, next, true);
      var stale := StaleNames(ls, buffer);
      assert stale[0] == Label(e.name, l.offset) && stale[1..] == StaleNames(ls[1..], e.buffer);
      assert AddLabels(labels, stale) == AddLabels(next, stale[1..]);
      AllStorableTail(ls);
      ReadEncodedEntriesAsWritten(e.stream, ls[1..], e.buffer, next);
    }
  }


  /** Entry "ab" followed by entry "c" is read back as "ab" and "cb". */
  lemma StaleNameExample()
    ensures var ls := [Label([0x61, 0x62], 0), Label([0x63], 0)];
            StaleNames(ls, []) == [Label([0x61, 0x62], 0), Label([0x63, 0x62], 0)]
  {
    var ls := [Label([0x61, 0x62], 0), Label([0x63], 0)];
    assert ls[1..] == [Label([0x63], 0)];
    var ab: seq<byte> := [0x61, 0x62];
    assert [0x63] + ab[1..] == [0x63, 0x62];
    assert StaleNames([Label([0x63], 0)], [0x61, 0x62])
           == [Label([0x63, 0x62], 0)] + StaleNames([], [0x63, 0x62]);
  }

  /** Whenever a name is shorter than the one before it, the as-written
      reader gets it wrong: the name it produces is longer than the name
      written. */
  lemma StaleNameDiffers(l0: Label, l1: Label)
    requires |l1.name| < |l0.name|
    ensures StaleNames([l0, l1], [])[1].name == l1.name + l0.name[|l1.name|..] != l1.name
  {
    assert [l0, l1][1..] == [l1];
    assert StaleNames([l0, l1], []) == [l0] + StaleNames([l1], l0.name);
  }

  /** With the corrected reader every name comes back exactly, whatever the
      names before it: reading one encoded entry after any other entries
      yields that entry's name and offset. */
  lemma NameIndependentOfHistory(s: Stream, l: Label, buffer: seq<byte>, labels: seq<Label>)
    requires s.Valid() && IsStorable(l) && FindLabel(labels, l.name) == -1
    requires s.cursor + 5 + |l.name| <= s.count
    requires s.Contents()[s.cursor..s.cursor + 5 + |l.name|] == EncodeLabel(l)
    ensures ReadEntries(s, 1, buffer, labels, false).labels == labels + [l]
  {
    assert EncodeLabels([l]) == EncodeLabel(l);
    ReadEncodedEntries(s, [l], buffer, labels);
  }

  /** A pass that hands back the object unchanged makes the as-written loop
      run until the fuel is gone, whatever the fuel. */
  lemma {:induction false} StuckPassNeverEnds(b: Bytecode, fuel: nat)
    requires b.Valid() && b.code.Available() > 0 && SectionPass(b, true) == Next(b)
    ensures SectionLoopAsWritten(b, fuel).None?
    decreases fuel
  {
    if fuel > 0 {
      StuckPassNeverEnds(b, fuel - 1);
    }
  }

  /** The input of the second defect: a "labl" section after the code
      whose size field makes the uint32 end wrap back to the section's own
      start. */
  function WrappingImage(code: seq<byte>): (bs: seq<byte>)
    requires IsU32(|code|)
    ensures |bs| == HEADER_SIZE + |code| + 12
  {
    Pow256Values();
    HeaderBytes(|code|) + code + (LABELS_MAGIC + LeBytes(0xffff_fff8, 4) + LeBytes(0, 4))
  }

  /** 0xfffffff8 added 8 bytes after `p` comes back to `p` in uint32. */
  lemma WrapBack(p: nat)
    requires IsU32(p)
    ensures WrapU32(p + 8 + 0xffff_fff8) == p
  {
  }

  /** The fields of the wrapping section, read from just after its magic
      at `p + 4`: as written the section's end wraps back to `p`; corrected,
      it is clamped to the end of the input. Either way no label is read. */
  lemma WrappingFields(b: Bytecode, p: nat)
    requires b.Valid() && b.labels == [] && IsU32(p)
    requires b.code.cursor == p + 4 && b.code.count == p + 12
    requires Following(b.code, LeBytes(0xffff_fff8, 4) + LeBytes(0, 4))
    ensures ReadLabels(b, true) == (true, b.(code := Seek(b.code, p)))
    ensures ReadLabels(b, false).0 && ReadLabels(b, false).1.labels == []
    ensures ReadLabels(b, false).1.code.cursor == p + 12
  {
    hide ReadLabels, LeBytes, Following;
    assert LeBytes(0xffff_fff8, 4) + LeBytes(0, 4) + [] == LeBytes(0xffff_fff8, 4) + LeBytes(0, 4);
    StoredFields(b.code, 0xffff_fff8, 0, []);
    ReadLabelsOf(b, 0xffff_fff8, 0, true);
    ReadLabelsOf(b, 0xffff_fff8, 0, false);
    var s2 := Skip(b.code, 8);
    var e := Entries(true, s2, [], []);
    assert ReadEntries(s2, 0, [], [], true) == e;
    assert ReadEntries(s2, 0, [], [], false) == e;
    WrapBack(p);
    assert Seek(s2, p) == Seek(b.code, p);
  }

  /** At the "labl" section of a wrapping image, one as-written pass reads
      an empty section and seeks back to where the pass began; the corrected
      pass seeks to the end of the input. */
  lemma WrappingPass(b: Bytecode, code: seq<byte>)
    requires b.Valid() && b.labels == [] && IsU32(HEADER_SIZE + |code|)
    requires b.code.Contents() == WrappingImage(code) && b.code.cursor == HEADER_SIZE + |code|
    ensures SectionPass(b, true) == Next(b)
    ensures SectionPass(b, false).Next? && SectionPass(b, false).b.labels == []
    ensures SectionPass(b, false).b.code.cursor == b.code.count
  {
    hide ReadLabels, SectionPass, LeBytes, HeaderBytes, Following;
    Pow256Values();
    var p := b.code.cursor;
    var tail := LeBytes(0xffff_fff8, 4) + LeBytes(0, 4);
    assert b.code.Contents() == (HeaderBytes(|code|) + code) + (LABELS_MAGIC + tail);
    assert b.code.Contents()[p..p + 4 + |tail|] == LABELS_MAGIC + tail;
    SliceConcat(b.code.Contents(), p, LABELS_MAGIC, tail);
    FollowingAt(b.code, LABELS_MAGIC);
    LabelsPass(b, true);
    LabelsPass(b, false);
    var b1 := b.(code := Skip(b.code, 4));
    FollowingAt(b1.code, tail);
    WrappingFields(b1, p);
    assert b1.(code := Seek(b1.code, p)) == b;
  }

  /** The end of a section is computed in uint32, so the wrapping image's
      section sends the cursor back to its own start, where the same section
      is read again, forever: `set_bytes` never returns. */
  lemma WrappingSectionAsWritten(b: Bytecode, code: seq<byte>, fuel: nat)
    requires b.Valid() && b.labels == [] && IsU32(HEADER_SIZE + |code|)
    ensures SetBytesAsWritten(b, WrappingImage(code), fuel).None?
  {
    hide ReadHeader, SectionLoopAsWritten, SectionPass, ReadLabels;
    var data := WrappingImage(code);
    assert data[..HEADER_SIZE] == HeaderBytes(|code|);
    ReadImageHeader(b, data, |code|);
    var b1 := ReadHeader(b.(code := ByteStream.SetBytes(data))).1;
    var start := b1.(code := Seek(b1.code, WrapU32(b1.code.cursor + b1.CodeSectionSize())));
    WrappingPass(start, code);
    StuckPassNeverEnds(start, fuel);
  }

  /** The corrected reader accepts the same input: the section is empty and
      its end is clamped to the end of the input. */
  lemma WrappingSectionCorrected(b: Bytecode, code: seq<byte>)
    requires b.Valid() && b.labels == [] && IsU32(HEADER_SIZE + |code|)
    ensures SetBytes(b, WrappingImage(code)).state == b.state
    ensures SetBytes(b, WrappingImage(code)).labels == []
  {
    hide SectionLoop, SetBytes, ReadHeader;
    var data := WrappingImage(code);
    Pow256Values();
    SetBytesAfterHeader(b, code, LABELS_MAGIC + LeBytes(0xffff_fff8, 4) + LeBytes(0, 4));
    var b1 := ReadHeader(b.(code := ByteStream.SetBytes(data))).1;
    var b2 := b1.(code := Seek(b1.code, b1.code.cursor + b1.CodeSectionSize()));
    WrappingPass(b2, code);
    SectionLoopStep(b2);
    SectionLoopAtEnd(SectionPass(b2, false).b);
  }

  // ---------------------------------------------------------------------
  // Where the reader as written is right: names that never get shorter,
  // and an image whose every offset fits in uint32.

  /** No name is shorter than a name before it. */
  predicate NonShrinking(ls: seq<Label>) {
    forall i, j :: 0 <= i < j < |ls| ==> |ls[i].name| <= |ls[j].name|
  }

  /** When no name is shorter than the buffer or than a name before it,
      every name is copied over the whole buffer and nothing stale is
      left: the as-written names are the names written. */
  lemma {:induction false} StaleNamesExact(ls: seq<Label>, buffer: seq<byte>)
    requires NonShrinking(ls)
    requires forall k :: 0 <= k < |ls| ==> |buffer| <= |ls[k].name|
    ensures StaleNames(ls, buffer) == ls
    decreases |ls|
  {
    if |ls| > 0 {
      var tail := ls[1..];
      assert Spliced(ls[0].name, buffer) == ls[0].name;
      forall i, j | 0 <= i < j < |tail| ensures |tail[i].name| <= |tail[j].name| {
        assert tail[i] == ls[i + 1] && tail[j] == ls[j + 1];
      }
      forall k | 0 <= k < |tail| ensures |ls[0].name| <= |tail[k].name| {
        assert tail[k] == ls[k + 1];
      }
      StaleNamesExact(tail, ls[0].name);
      assert StaleNames(ls, buffer) == [ls[0]] + tail;
    }
  }

  /** `read_labels` as written on a section the assembler wrote, when the
      names never get shorter and the input fits in uint32: every label
      comes back, in order, and the cursor ends at the end of the section. */
  lemma ReadLabelSectionAsWritten(b: Bytecode, ls: seq<Label>)
    requires b.Valid() && IsSectionSized(ls) && DistinctNames(ls) && NonShrinking(ls)
    requires IsU32(b.code.count)
    requires Following(b.code, LeBytes(4 + |EncodeLabels(ls)|, 4) + LeBytes(|ls|, 4) + EncodeLabels(ls))
    ensures ReadLabels(b, true).0
    ensures ReadLabels(b, true).1.labels == ls
    ensures ReadLabels(b, true).1.code.cursor == b.code.cursor + 8 + |EncodeLabels(ls)|
    ensures ReadLabels(b, true).1.state == b.state
  {
    hide ReadLabels, ReadEntries, AddLabels, EncodeLabels, Following, LeBytes, StaleNames, LabelEntries;
    var e := EncodeLabels(ls);
    StoredFields(b.code, 4 + |e|, |ls|, e);
    ReadEncodedEntriesAsWritten(Skip(b.code, 8), ls, [], []);
    StaleNamesExact(ls, []);
    assert [] + ls == ls;
    AddLabelsDistinct([], ls);
    ReadLabelsOf(b, 4 + |e|, |ls|, true);
    var r := ReadEntries(Skip(b.code, 8), |ls|, [], [], true);
    assert r.stream.cursor == b.code.cursor + 8 + |e| <= b.code.count;
  }

  /** The as-written section loop over one label section that runs to the
      end of the input: one pass reads it, and the loop stops at the end. */
  lemma SectionLoopAsWrittenOnLabels(b: Bytecode, ls: seq<Label>, fuel: nat)
    requires b.Valid() && IsSectionSized(ls) && DistinctNames(ls) && NonShrinking(ls)
    requires IsU32(b.code.count) && fuel > 0
    requires Following(b.code, LabelSection(ls)) && b.code.cursor + |LabelSection(ls)| == b.code.count
    ensures var r := SectionLoopAsWritten(b, fuel);
            r.Some? && r.value.0 && r.value.1.labels == ls && r.value.1.state == b.state
            && r.value.1.header == b.header && r.value.1.code.Contents() == b.code.Contents()
  {
    hide SectionPass, ReadLabels, LeBytes, EncodeLabels, Following;
    Pow256Values();
    var e := EncodeLabels(ls);
    var tail := LeBytes(4 + |e|, 4) + LeBytes(|ls|, 4) + e;
    assert LabelSection(ls) == LABELS_MAGIC + tail;
    FollowingSlice(b.code, LabelSection(ls));
    SliceConcat(b.code.Contents(), b.code.cursor, LABELS_MAGIC, tail);
    FollowingAt(b.code, LABELS_MAGIC);
    LabelsPass(b, true);
    var b1 := b.(code := Skip(b.code, 4));
    FollowingAt(b1.code, tail);
    ReadLabelSectionAsWritten(b1, ls);
    var b3 := ReadLabels(b1, true).1;
    assert SectionLoopAsWritten(b, fuel) == SectionLoopAsWritten(b3, fuel - 1);
    assert b3.code.Available() == 0;
  }

  /** Reading an image back with the reader as written: when the names never
      get shorter and the image fits in uint32, the loop ends after one pass
      over the label section and the outcome is the corrected reader's. */
  lemma ImageRoundTripAsWritten(b: Bytecode, code: seq<byte>, ls: seq<Label>, fuel: nat)
    requires b.Valid() && IsU32(|code|) && IsSectionSized(ls) && DistinctNames(ls)
    requires NonShrinking(ls) && IsU32(|Image(code, ls)|) && fuel > 0
    ensures var r := SetBytesAsWritten(b, Image(code, ls), fuel);
            r.Some? && r.value.state == b.state && r.value.CodeSectionSize() == |code|
            && r.value.code.cursor == HEADER_SIZE
            && r.value.labels == (if |ls| == 0 then b.labels else ls)
  {
    hide SectionLoop, SetBytes, ReadHeader, SectionPass, LabelSection, HeaderBytes, Following;
    var data := Image(code, ls);
    var rest := if |ls| == 0 then [] else LabelSection(ls);
    assert data == HeaderBytes(|code|) + code + rest;
    SetBytesAfterHeader(b, code, rest);
    ReadImageHeader(b, data, |code|);
    var b1 := ReadHeader(b.(code := ByteStream.SetBytes(data))).1;
    var b2 := b1.(code := Seek(b1.code, b1.code.cursor + b1.CodeSectionSize()));
    assert WrapU32(b1.code.cursor + b1.CodeSectionSize()) == b1.code.cursor + b1.CodeSectionSize();
    if |ls| > 0 {
      SectionLoopAsWrittenOnLabels(b2, ls, fuel);
    } else {
      assert SectionLoopAsWritten(b2, fuel) == Some((true, b2));
    }
  }
}

=== FILE: bytes.dfy ===
/** Fixed-width integers and their little-endian byte encodings.

    The byte streams store every integer least significant byte first; signed
    values use two's complement. Integers are unbounded here, so the C++
    widths (uint8, uint16, uint32, int32) and their wrap-around are written
    out explicitly. */
module Bytes {

  /** One stored byte. */
  newtype byte = b: int | 0 <= b < 256

  const U8_LIMIT: nat := 0x100
  const U16_LIMIT: nat := 0x1_0000
  const U32_LIMIT: nat := 0x1_0000_0000
  const I32_MIN: int := -0x8000_0000
  const I32_MAX: int := 0x7fff_ffff

  predicate IsU16(v: int) { 0 <= v < U16_LIMIT }
  predicate IsU32(v: int) { 0 <= v < U32_LIMIT }
  predicate IsI32(v: int) { I32_MIN <= v <= I32_MAX }

  /** 256 to the power n: the number of values n bytes can hold. */
  function Pow256(n: nat): (r: nat)
    ensures r >= 1
  {
    if n == 0 then 1 else 256 * Pow256(n - 1)
  }

  /** The unsigned value of `bs` read little-endian: byte i weighs 256^i. */
  function LeValue(bs: seq<byte>): (v: nat)
    ensures v < Pow256(|bs|)
  {
    if |bs| == 0 then 0 else bs[0] as nat + 256 * LeValue(bs[1..])
  }

  /** The n-byte little-endian encoding of v. */
  function LeBytes(v: nat, n: nat): (bs: seq<byte>)
    requires v < Pow256(n)
    ensures |bs| == n
    ensures n > 0 ==> bs[0] as nat == v % 256
  {
    if n == 0 then [] else [(v % 256) as byte] + LeBytes(v / 256, n - 1)
  }

  /** Decoding an encoding gives the value back. */
  lemma {:induction false} LeValueOfBytes(v: nat, n: nat)
    requires v < Pow256(n)
    ensures LeValue(LeBytes(v, n)) == v
  {
    if n > 0 {
      var bs := LeBytes(v, n);
      assert bs[1..] == LeBytes(v / 256, n - 1);
      LeValueOfBytes(v / 256, n - 1);
    }
  }

  /** Encoding a decoded value gives the bytes back. */
  lemma {:induction false} LeBytesOfValue(bs: seq<byte>)
    ensures LeBytes(LeValue(bs), |bs|) == bs
  {
    if |bs| > 0 {
      var w := LeValue(bs[1..]);
      var v := LeValue(bs);
      assert v == bs[0] as nat + 256 * w;
      DivModByte(bs[0] as nat, w);
      LeBytesOfValue(bs[1..]);
      assert LeBytes(v, |bs|) == [(v % 256) as byte] + LeBytes(w, |bs| - 1);
      assert ((v % 256) as byte) == bs[0];
      assert bs == [bs[0]] + bs[1..];
    }
  }

  /** Splitting a + 256 * w into its low byte and the rest. */
  lemma DivModByte(a: nat, w: nat)
    requires a < 256
    ensures (a + 256 * w) % 256 == a
    ensures (a + 256 * w) / 256 == w
  {
  }

  /** A value of n bytes is determined by its encoding: distinct values have
      distinct encodings. */
  lemma LeBytesInjective(v: nat, w: nat, n: nat)
    requires v < Pow256(n) && w < Pow256(n)
    requires LeBytes(v, n) == LeBytes(w, n)
    ensures v == w
  {
    LeValueOfBytes(v, n);
    LeValueOfBytes(w, n);
  }

  /** Two's complement: the unsigned n-byte pattern of a signed value. */
  function ToUnsigned(v: int, n: nat): (u: nat)
    requires 0 < n
    requires -(Pow256(n) / 2) <= v < Pow256(n) / 2
    ensures u < Pow256(n)
    ensures v >= 0 ==> u == v
    ensures v < 0 ==> u == v + Pow256(n)
  {
    if v >= 0 then v else v + Pow256(n)
  }

  /** Two's complement: the signed value of an unsigned n-byte pattern. */
  function ToSigned(u: nat, n: nat): (v: int)
    requires 0 < n && u < Pow256(n)
    ensures -(Pow256(n) / 2) <= v < Pow256(n) / 2
    ensures ToUnsigned(v, n) == u
  {
    if u < Pow256(n) / 2 then u else u - Pow256(n)
  }

  lemma Pow256Values()
    ensures Pow256(1) == U8_LIMIT && Pow256(2) == U16_LIMIT && Pow256(4) == U32_LIMIT
  {
  }

  /** A one-byte encoding is the byte itself. */
  lemma LeBytesOne(v: nat)
    requires v < U8_LIMIT
    ensures Pow256(1) == U8_LIMIT && LeBytes(v, 1) == [v as byte]
  {
  }

  /** The 4-byte encoding of an int32, as `put_s32` stores it. */
  function EncodeS32(v: int): (bs: seq<byte>)
    requires IsI32(v)
    ensures |bs| == 4
  {
    Pow256Values();
    LeBytes(ToUnsigned(v, 4), 4)
  }

  /** The int32 that 4 stored bytes hold, as `get_s32` reads it. */
  function DecodeS32(bs: seq<byte>): (v: int)
    requires |bs| == 4
    ensures IsI32(v)
  {
    Pow256Values();
    ToSigned(LeValue(bs), 4)
  }

  /** Reading back a stored int32 gives the same value. */
  lemma S32RoundTrip(v: int)
    requires IsI32(v)
    ensures DecodeS32(EncodeS32(v)) == v
  {
    Pow256Values();
    LeValueOfBytes(ToUnsigned(v, 4), 4);
  }

  /** Truncation of an integer to uint32, as a C++ cast or unsigned
      overflow does. */
  function WrapU32(v: int): (u: nat)
    ensures IsU32(u)
    ensures (u - v) % U32_LIMIT == 0
    ensures IsU32(v) ==> u == v
  {
    v % U32_LIMIT
  }

  /** Truncation of an integer to int32 (two's complement wrap-around). */
  function WrapI32(v: int): (r: int)
    ensures IsI32(r)
    ensures (r - v) % U32_LIMIT == 0
    ensures IsI32(v) ==> r == v
  {
    var u := v % U32_LIMIT;
    if u <= I32_MAX then u else u - U32_LIMIT
  }

  /** Truncation of an integer to its low byte, as a uint8_t cast does. */
  function WrapU8(v: int): (b: byte)
    ensures (b as int - v) % U8_LIMIT == 0
    ensures 0 <= v < U8_LIMIT ==> b as int == v
  {
    (v % U8_LIMIT) as byte
  }

  function Min(a: int, b: int): (r: int)
    ensures r <= a && r <= b && (r == a || r == b)
  {
    if a < b then a else b
  }

  function Max(a: int, b: int): (r: int)
    ensures r >= a && r >= b && (r == a || r == b)
  {
    if a < b then b else a
  }

  /** Godot's CLAMP(v, lo, hi) for lo <= hi. */
  function Clamp(v: int, lo: int, hi: int): (r: int)
    requires lo <= hi
    ensures lo <= r <= hi
    ensures lo <= v <= hi ==> r == v
    ensures v < lo ==> r == lo
    ensures v > hi ==> r == hi
  {
    if v < lo then lo else if v > hi then hi else v
  }
}

=== FILE: bytestream.dfy ===
/** The growable byte buffer with a cursor behind both byte-stream classes.

    `data` holds the meaningful bytes (its length is the stream's size),
    `capacity` the allocated storage and `cursor` the read/write position.
    Storage past the size is never observable: a write lands at the cursor,
    which never passes the size, and raises the size to its end. The current
    tree splits the stream into a reader (whose storage is exactly its input)
    and a writer (which grows its storage); the older tree has a single class
    doing both. All of them follow the same rules, so one record serves for
    the three. */
module ByteStream {
  import opened Bytes

  /** Storage never shrinks below this many bytes once it grows. */
  const MIN_CAPACITY: nat := 128

  datatype Stream = Stream(data: seq<byte>, capacity: nat, cursor: nat) {
    /** The number of meaningful bytes (`get_size`). */
    const count: nat := |data|

    /** The cursor never passes the size, and the size never passes the
        capacity. */
    predicate Valid() {
      cursor <= count <= capacity
    }

    function Capacity(): nat {
      capacity
    }

    /** `get_available_bytes`: the bytes left to read. */
    function Available(): (n: nat)
      requires Valid()
      ensures cursor + n == count
    {
      count - cursor
    }

    /** The meaningful bytes; for a writer this is what `get_bytes()`
        returns. */
    function Contents(): (c: seq<byte>)
      ensures |c| == count
    {
      data
    }
  }

  /** A freshly constructed stream: empty, cursor at 0. */
  function Empty(): (s: Stream)
    ensures s.Valid() && s.Contents() == [] && s.cursor == 0
  {
    Stream([], 0, 0)
  }

  /** Reader `set_bytes`: the stream holds exactly `data`, rewound to 0. */
  function SetBytes(data: seq<byte>): (s: Stream)
    ensures s.Valid()
    ensures s.Contents() == data && s.count == |data| && s.cursor == 0
  {
    Stream(data, |data|, 0)
  }

  /** `seek`: the cursor moves to `offset`, but never past the size. */
  function Seek(s: Stream, offset: int): (r: Stream)
    requires s.Valid()
    ensures r.Valid() && r.Contents() == s.Contents() && r.capacity == s.capacity
    ensures r.cursor == if offset <= 0 then 0 else Min(offset, s.count)
  {
    s.(cursor := if offset <= 0 then 0 else Min(offset, s.count))
  }

  /** The stream moved `n` bytes forward, as a successful read moves it. */
  function Skip(s: Stream, n: nat): (r: Stream)
    requires s.Valid() && s.cursor + n <= s.count
    ensures r.Valid() && r.Contents() == s.Contents() && r.cursor == s.cursor + n
  {
    s.(cursor := s.cursor + n)
  }

  /** The smallest power of two that is at least p (Godot's
      `next_power_of_2`, which maps 0 to 0). */
  function NextPowerOfTwo(p: nat): (r: nat)
    ensures p == 0 ==> r == 0
    ensures p > 0 ==> IsPowerOfTwo(r) && p <= r < 2 * p
  {
    if p == 0 then 0 else PowerAtLeast(p, 1)
  }

  predicate IsPowerOfTwo(n: nat)
    decreases n
  {
    n == 1 || (n > 1 && n % 2 == 0 && IsPowerOfTwo(n / 2))
  }

  function PowerAtLeast(p: nat, acc: nat): (r: nat)
    requires IsPowerOfTwo(acc) && 0 < p && acc < 2 * p
    ensures IsPowerOfTwo(r) && p <= r < 2 * p
    decreases p - acc
  {
    if acc >= p then acc else PowerAtLeast(p, 2 * acc)
  }

  /** `reserve`: grow the storage to max(128, next power of two >= p) if
      that is larger than the current capacity. */
  function Reserve(s: Stream, p: nat): (r: Stream)
    requires s.Valid()
    ensures r.Valid() && r.Contents() == s.Contents() && r.cursor == s.cursor
    ensures r.Capacity() == Max(s.Capacity(), Max(MIN_CAPACITY, NextPowerOfTwo(p)))
    ensures r.Capacity() >= p
  {
    var wanted := Max(MIN_CAPACITY, NextPowerOfTwo(p));
    if wanted > s.capacity then s.(capacity := wanted) else s
  }

  /** Both `write<T>` and `put_bytes(ptr, n)`: grow the storage if the bytes
      would not fit, store them at the cursor, advance the cursor past them
      and raise the size to the cursor if it passed it. */
  function Write(s: Stream, bs: seq<byte>): (r: Stream)
    requires s.Valid()
    ensures r.Valid()
    ensures r.cursor == s.cursor + |bs|
    ensures r.count == Max(s.count, s.cursor + |bs|)
    ensures r.Capacity() >= s.Capacity()
    ensures r.Contents()[s.cursor..r.cursor] == bs
    ensures r.Contents()[..s.cursor] == s.Contents()[..s.cursor]
    ensures r.cursor < s.count ==> r.Contents()[r.cursor..] == s.Contents()[r.cursor..]
  {
    var end := s.cursor + |bs|;
    var t := if end > s.capacity then Reserve(s, end) else s;
    var kept := if end < s.count then s.data[end..] else [];
    var d := s.data[..s.cursor] + bs + kept;
    assert d[s.cursor..end] == bs;
    assert d[..s.cursor] == s.data[..s.cursor];
    assert end < s.count ==> d[end..] == kept;
    Stream(d, t.capacity, end)
  }

  /** Writing at the end of the stream appends. */
  lemma WriteAppends(s: Stream, data: seq<byte>)
    requires s.Valid() && s.cursor == s.count
    ensures Write(s, data).Contents() == s.Contents() + data
    ensures Write(s, data).cursor == Write(s, data).count
  {
    var r := Write(s, data);
    assert r.Contents() == r.Contents()[..s.cursor] + r.Contents()[s.cursor..r.cursor];
  }

  /** Writing inside the stream overwrites in place and keeps the size. */
  lemma WriteOverwrites(s: Stream, data: seq<byte>)
    requires s.Valid() && s.cursor + |data| <= s.count
    ensures Write(s, data).count == s.count
    ensures Write(s, data).Contents()
         == s.Contents()[..s.cursor] + data + s.Contents()[s.cursor + |data|..]
  {
    var r := Write(s, data);
    var e := s.cursor + |data|;
    if e < s.count {
      assert r.Contents() == r.Contents()[..s.cursor] + r.Contents()[s.cursor..e] + r.Contents()[e..];
    } else {
      assert r.Contents() == r.Contents()[..s.cursor] + r.Contents()[s.cursor..e];
    }
  }

  /** `read<T>` for an n-byte T: with fewer than n bytes left it yields 0 and
      does not move; otherwise it decodes the next n bytes little-endian and
      moves past them. */
  function Read(s: Stream, n: nat): (r: (nat, Stream))
    requires s.Valid()
    ensures r.1.Valid() && r.1.Contents() == s.Contents() && r.1 == s.(cursor := r.1.cursor)
    ensures r.0 < Pow256(n)
    ensures s.cursor + n > s.count ==> r.0 == 0 && r.1 == s
    ensures s.cursor + n <= s.count ==>
              LeBytes(r.0, n) == s.Contents()[s.cursor..s.cursor + n]
              && r.0 == LeValue(s.Contents()[s.cursor..s.cursor + n])
              && r.1.cursor == s.cursor + n
  {
    if s.cursor + n > s.count then (0, s)
    else
      var bytes := s.data[s.cursor..s.cursor + n];
      LeBytesOfValue(bytes);
      (LeValue(bytes), s.(cursor := s.cursor + n))
  }

  /** Reading n bytes where the value v is stored yields v. */
  lemma ReadStored(s: Stream, n: nat, v: nat)
    requires s.Valid() && v < Pow256(n) && s.cursor + n <= s.count
    requires s.Contents()[s.cursor..s.cursor + n] == LeBytes(v, n)
    ensures Read(s, n).0 == v && Read(s, n).1.cursor == s.cursor + n
  {
    LeBytesInjective(Read(s, n).0, v, n);
  }

  /** `get_u8`: the byte at the cursor, or 0 without moving at the end. */
  function GetU8(s: Stream): (r: (nat, Stream))
    requires s.Valid()
    ensures r.1.Valid() && r.0 < U8_LIMIT && r.1 == Read(s, 1).1
    ensures s.cursor < s.count ==> r.0 == s.Contents()[s.cursor] as nat
    ensures s.cursor >= s.count ==> r.0 == 0 && r.1 == s
  {
    Pow256Values();
    assert s.cursor < s.count ==> LeValue(s.Contents()[s.cursor..s.cursor + 1]) == s.Contents()[s.cursor] as nat;
    Read(s, 1)
  }

  /** `get_u16`: the next 2 bytes little-endian, or 0 without moving when
      fewer are left. */
  function GetU16(s: Stream): (r: (nat, Stream))
    requires s.Valid()
    ensures r.1.Valid() && IsU16(r.0) && r == Read(s, 2)
    ensures s.cursor + 2 > s.count ==> r.0 == 0 && r.1 == s
    ensures s.cursor + 2 <= s.count ==>
              LeBytes(r.0, 2) == s.Contents()[s.cursor..s.cursor + 2] && r.1.cursor == s.cursor + 2
  {
    Pow256Values();
    Read(s, 2)
  }

  /** `get_u32`: the next 4 bytes little-endian, or 0 without moving when
      fewer are left. */
  function GetU32(s: Stream): (r: (nat, Stream))
    requires s.Valid()
    ensures r.1.Valid() && IsU32(r.0)
    ensures s.cursor + 4 > s.count ==> r.0 == 0 && r.1 == s
    ensures s.cursor + 4 <= s.count ==>
              LeBytes(r.0, 4) == s.Contents()[s.cursor..s.cursor + 4] && r.1.cursor == s.cursor + 4
  {
    Pow256Values();
    Read(s, 4)
  }

  /** `get_s32`: the next 4 bytes as a two's complement int32 (0 if short). */
  function GetS32(s: Stream): (r: (int, Stream))
    requires s.Valid()
    ensures r.1.Valid() && IsI32(r.0)
    ensures r.1 == Read(s, 4).1
    ensures s.cursor + 4 <= s.count ==> r.0 == DecodeS32(s.Contents()[s.cursor..s.cursor + 4])
    ensures s.cursor + 4 > s.count ==> r.0 == 0 && r.1 == s
  {
    Pow256Values();
    var (u, t) := Read(s, 4);
    if s.cursor + 4 <= s.count then
      LeValueOfBytes(u, 4);
      (ToSigned(u, 4), t)
    else (0, t)
  }

  /** `put_u8`: one byte at the cursor; the cursor moves past it. */
  function PutU8(s: Stream, v: byte): (r: Stream)
    requires s.Valid()
    ensures r.Valid() && r.cursor == s.cursor + 1 && r.count == Max(s.count, s.cursor + 1)
            && r.Contents()[s.cursor..r.cursor] == [v]
            && r.Contents()[..s.cursor] == s.Contents()[..s.cursor]
  {
    Write(s, [v])
  }

  /** `put_u16`: the value's 2 little-endian bytes at the cursor. */
  function PutU16(s: Stream, v: nat): (r: Stream)
    requires s.Valid() && IsU16(v)
    ensures r.Valid() && r.cursor == s.cursor + 2 && r.count == Max(s.count, s.cursor + 2)
            && r.Contents()[s.cursor..r.cursor] == LeBytes(v, 2)
            && r.Contents()[..s.cursor] == s.Contents()[..s.cursor]
  {
    Pow256Values();
    Write(s, LeBytes(v, 2))
  }

  /** `put_u32`: the value's 4 little-endian bytes at the cursor. */
  function PutU32(s: Stream, v: nat): (r: Stream)
    requires s.Valid() && IsU32(v)
    ensures r.Valid()
  {
    Pow256Values();
    Write(s, LeBytes(v, 4))
  }

  /** `put_s32`: the int32's two's complement bytes, little-endian, at the
      cursor. */
  function PutS32(s: Stream, v: int): (r: Stream)
    requires s.Valid() && IsI32(v)
    ensures r.Valid()
  {
    Write(s, EncodeS32(v))
  }

  /** `get_bytes(ptr, n)`: copy min(n, available) bytes and move past them;
      the count copied is the length of the result. */
  function GetBytes(s: Stream, n: nat): (r: (seq<byte>, Stream))
    requires s.Valid()
    ensures r.1.Valid() && r.1.Contents() == s.Contents() && r.1 == s.(cursor := r.1.cursor)
    ensures |r.0| == Min(n, s.Available())
    ensures r.1.cursor == s.cursor + |r.0|
    ensures r.0 == s.Contents()[s.cursor..r.1.cursor]
  {
    var k := Min(n, s.count - s.cursor);
    (s.data[s.cursor..s.cursor + k], s.(cursor := s.cursor + k))
  }

  /** `put_bytes(vector, from, size)`: clamp `from` to the source length and
      `size` to what is left after it, write that slice and return its
      length. */
  function PutBytesRange(s: Stream, src: seq<byte>, from: nat, size: nat): (r: (nat, Stream))
    requires s.Valid()
    ensures r.1.Valid()
    ensures from <= |src| ==> r.0 == Min(size, |src| - from)
    ensures from > |src| ==> r.0 == 0
    ensures r.1.cursor == s.cursor + r.0
    ensures r.1.Contents()[s.cursor..r.1.cursor] == src[Min(from, |src|)..Min(from, |src|) + r.0]
    ensures r.1.Contents()[..s.cursor] == s.Contents()[..s.cursor]
  {
    var f := Min(from, |src|);
    var n := Min(size, |src| - f);
    (n, Write(s, src[f..f + n]))
  }

  /** The default size argument of `put_bytes(vector, ...)`. */
  const INT_MAX: nat := 0x7fff_ffff

  /** `clear`: forget the contents but keep the storage. */
  function Clear(s: Stream): (r: Stream)
    requires s.Valid()
    ensures r.Valid() && r.count == 0 && r.cursor == 0 && r.Capacity() == s.Capacity()
  {
    s.(data := [], cursor := 0)
  }

  /** Writing an n-byte value, seeking back to where it started and reading
      n bytes returns the value. */
  lemma WriteSeekReadRoundTrip(s: Stream, v: nat, n: nat)
    requires s.Valid() && v < Pow256(n)
    ensures Read(Seek(Write(s, LeBytes(v, n)), s.cursor), n).0 == v
  {
    var data := LeBytes(v, n);
    var w := Write(s, data);
    var e := w.cursor;
    assert e == s.cursor + n;
    assert w.Contents()[s.cursor..e] == data;
    var t := Seek(w, s.cursor);
    assert t.cursor == s.cursor && t.Contents() == w.Contents();
    ReadStored(t, n, v);
  }

  /** A writer's contents handed to a fresh reader decode to the same
      values: after writing v at the end of a writer, a reader over its
      `get_bytes()` finds v at that position. */
  lemma WriterToReaderRoundTrip(s: Stream, v: nat, n: nat)
    requires s.Valid() && s.cursor == s.count && v < Pow256(n)
    ensures Read(Seek(SetBytes(Write(s, LeBytes(v, n)).Contents()), s.count), n).0 == v
  {
    var data := LeBytes(v, n);
    WriteAppends(s, data);
    var all := Write(s, data).Contents();
    assert all == s.Contents() + data;
    var rd := Seek(SetBytes(all), s.count);
    assert rd.cursor == s.count && rd.Contents() == all;
    assert all[s.count..s.count + n] == data;
    ReadStored(rd, n, v);
  }

  /** What `put_u32` writes: the value's 4 little-endian bytes at the old
      cursor, which moves past them; the bytes before it are kept. */
  lemma PutU32Writes(s: Stream, v: nat)
    requires s.Valid() && IsU32(v)
    ensures var r := PutU32(s, v);
            r.cursor == s.cursor + 4 && r.count == Max(s.count, s.cursor + 4)
            && r.Contents()[s.cursor..r.cursor] == LeBytes(v, 4)
            && r.Contents()[..s.cursor] == s.Contents()[..s.cursor]
  {
    Pow256Values();
  }

  /** What `put_s32` writes: the int32's two's complement bytes at the old
      cursor, which moves past them; the bytes before it are kept. */
  lemma PutS32Writes(s: Stream, v: int)
    requires s.Valid() && IsI32(v)
    ensures var r := PutS32(s, v);
            r.cursor == s.cursor + 4 && r.count == Max(s.count, s.cursor + 4)
            && r.Contents()[s.cursor..r.cursor] == EncodeS32(v)
            && r.Contents()[..s.cursor] == s.Contents()[..s.cursor]
  {
  }

  /** A byte put and read back from where it was put is the same byte. */
  lemma U8PutGetRoundTrip(s: Stream, v: byte)
    requires s.Valid()
    ensures GetU8(Seek(PutU8(s, v), s.cursor)).0 == v as nat
  {
  }

  /** A uint16 put and read back from where it was put is the same value. */
  lemma U16PutGetRoundTrip(s: Stream, v: nat)
    requires s.Valid() && IsU16(v)
    ensures GetU16(Seek(PutU16(s, v), s.cursor)).0 == v
  {
    Pow256Values();
    var t := Seek(PutU16(s, v), s.cursor);
    ReadStored(t, 2, v);
  }

  /** A uint32 put and read back from where it was put is the same value. */
  lemma U32PutGetRoundTrip(s: Stream, v: nat)
    requires s.Valid() && IsU32(v)
    ensures GetU32(Seek(PutU32(s, v), s.cursor)).0 == v
  {
    Pow256Values();
    var t := Seek(PutU32(s, v), s.cursor);
    ReadStored(t, 4, v);
  }

  /** Reading an int32 back after writing it at the end of a stream. */
  lemma S32WriteReadRoundTrip(s: Stream, v: int)
    requires s.Valid() && IsI32(v)
    ensures GetS32(Seek(PutS32(s, v), s.cursor)).0 == v
  {
    var t := Seek(PutS32(s, v), s.cursor);
    assert t.Contents()[s.cursor..s.cursor + 4] == EncodeS32(v);
    S32RoundTrip(v);
  }
}

=== FILE: delays.dfy ===
/** The delay register of the current tree's interpreter.

    A run of DELAY_TICK/DELAY_STEP instructions followed by a TICK or STEP
    is executed twice. On the first (recording) pass every delay is pushed
    into the register and the instructions between them are skipped; the
    closing TICK/STEP pushes its own length and seeks back to the first
    delay. On the second (replay) pass the instructions are executed, and
    each delay shifts its buffered length out of the register, so the notes
    between the delays start at the buffered times while the whole run
    still lasts exactly as long as the closing TICK/STEP.

    Tick counts are uint32 values; `index` and `delays` stand for
    `delay_index` and the first `delay_size` entries of the fixed array
    (entries past `delay_size` are never read before they are written). */
module Delays {
  import opened Wrappers
  import opened Bytes

  /** `DelayRegister::MAX_DELAYS`. */
  const MAX_DELAYS: nat := 8

  /** `DelayState`: no run in progress, recording, replaying. */
  datatype DelayState = NoDelay | Recording | Replaying

  datatype DelayRegister = DelayRegister(codeOffset: nat, ticks: nat, state: DelayState,
                                         index: nat, delays: seq<nat>)
  {
    /** What every register the interpreter builds satisfies: at most
        MAX_DELAYS entries, the index inside them, uint32 tick counts, an
        idle register empty, and a recording register one entry short of
        full and not yet shifted. */
    predicate Valid() {
      |delays| <= MAX_DELAYS && index <= |delays|
      && IsU32(ticks) && IsU32(codeOffset)
      && (forall i :: 0 <= i < |delays| ==> IsU32(delays[i]))
      && (state == NoDelay ==> |delays| == 0 && index == 0)
      && (state == Recording ==> |delays| < MAX_DELAYS && index == 0)
    }
  }

  /** A default-constructed register. */
  const NO_DELAYS: DelayRegister := DelayRegister(0, 0, NoDelay, 0, [])

  /** `exec_delay_shift`: hand out the next buffered entry, cut to the
      ticks still left. */
  function Shift(d: DelayRegister): (r: (nat, DelayRegister))
    requires d.Valid() && d.state == Replaying
    ensures r.1.Valid()
    ensures r.0 <= d.ticks && r.1.ticks == d.ticks - r.0
    ensures r.1.state == d.state && r.1.delays == d.delays && r.1.codeOffset == d.codeOffset
    ensures d.index < |d.delays| ==>
              r.1.index == d.index + 1 && r.0 <= d.delays[d.index]
              && (r.0 == d.delays[d.index] || r.1.ticks == 0)
    ensures d.index >= |d.delays| ==> r == (0, d)
  {
    if d.index >= |d.delays| then (0, d)
    else
      var t := Min(d.delays[d.index], d.ticks);
      (t, d.(index := d.index + 1, ticks := d.ticks - t))
  }

  /** Whether a delay of t ticks is buffered while recording: it must be
      non-zero, and one entry stays free for the closing TICK/STEP. */
  predicate Buffers(d: DelayRegister, t: nat) {
    t != 0 && |d.delays| < MAX_DELAYS - 1
  }

  /** `exec_delay_begin` for a delay of t ticks at code offset `at`. While
      replaying, the code shifts the next entry for every delay; the
      corrected register shifts only for the delays recording buffered (a
      non-zero delay while an entry other than the closing one is left). */
  function Begin(d: DelayRegister, t: nat, at: nat, asWritten: bool): (r: (nat, DelayRegister))
    requires d.Valid() && IsU32(t) && IsU32(at)
    ensures r.1.Valid()
    ensures d.state != Replaying ==> r.0 == 0 && r.1.index == d.index
    ensures d.state != Replaying && Buffers(d, t) ==>
              r.1.state == Recording && r.1.delays == d.delays + [t]
              && r.1.codeOffset == (if |d.delays| == 0 then at else d.codeOffset)
    ensures d.state != Replaying && !Buffers(d, t) ==> r.1 == d
    ensures d.state == Replaying ==> r.1.state == Replaying && r.1.delays == d.delays
  {
    if d.state == Replaying then
      if asWritten || (t != 0 && d.index + 1 < |d.delays|) then Shift(d) else (0, d)
    else if !Buffers(d, t) then (0, d)
    else
      var d1 := if |d.delays| == 0 then d.(state := Recording, codeOffset := at) else d;
      (0, d1.(ticks := WrapU32(d.ticks + t), delays := d.delays + [t]))
  }

  /** What `exec_delay_step` asks of the stream: nothing, or a seek back to
      the start of the run. */
  datatype Stepped = Stepped(ticks: nat, register: DelayRegister, seek: Option<nat>)

  /** `exec_delay_step` for a closing TICK/STEP of t ticks. Replaying: the
      last shift ends the run. Recording: the step's length becomes the
      run's total (the buffered delays are cut to it), its entry is pushed
      and the stream goes back to the first delay. A zero-length step, or a
      full register, empties the buffer instead. */
  function StepDelay(d: DelayRegister, t: nat): (r: Stepped)
    requires d.Valid() && IsU32(t)
    ensures r.register.Valid()
    ensures d.state == Replaying ==>
              r.seek.None? && r.register.state == NoDelay && r.ticks == Shift(d).0
    ensures d.state != Replaying && t != 0 && |d.delays| < MAX_DELAYS ==>
              r.ticks == 0 && r.seek == Some(d.codeOffset)
              && r.register == d.(state := Replaying, ticks := t, delays := d.delays + [t])
    ensures d.state != Replaying && !(t != 0 && |d.delays| < MAX_DELAYS) ==>
              r.ticks == 0 && r.seek.None? && r.register.delays == [] && r.register.state == d.state
  {
    if d.state == Replaying then
      var (ticks, _) := Shift(d);
      Stepped(ticks, d.(state := NoDelay, index := 0, delays := [], ticks := Shift(d).1.ticks), None)
    else if t == 0 || |d.delays| >= MAX_DELAYS then
      Stepped(0, d.(index := 0, delays := []), None)
    else
      var limited := Min(d.ticks, t);
      Stepped(0, d.(ticks := limited + (t - limited), state := Replaying, delays := d.delays + [t]),
              Some(d.codeOffset))
  }

  // ---------------------------------------------------------------------
  // A delay run, pass by pass.

  predicate AllU32(ts: seq<nat>) {
    forall i :: 0 <= i < |ts| ==> IsU32(ts[i])
  }

  function Sum(ts: seq<nat>): nat {
    if |ts| == 0 then 0 else ts[0] + Sum(ts[1..])
  }

  /** The recording pass over the delays ts of a run. */
  function Record(d: DelayRegister, ts: seq<nat>, at: nat, asWritten: bool): (r: DelayRegister)
    requires d.Valid() && AllU32(ts) && IsU32(at)
    ensures r.Valid()
    decreases |ts|
  {
    if |ts| == 0 then d
    else Record(Begin(d, ts[0], at, asWritten).1, ts[1..], at, asWritten)
  }

  /** The replay pass over the same delays: the ticks each delay waits. */
  function Replay(d: DelayRegister, ts: seq<nat>, at: nat, asWritten: bool): (r: (seq<nat>, DelayRegister))
    requires d.Valid() && AllU32(ts) && IsU32(at)
    ensures r.1.Valid() && |r.0| == |ts|
    decreases |ts|
  {
    if |ts| == 0 then ([], d)
    else
      var (t, d1) := Begin(d, ts[0], at, asWritten);
      var (rest, d2) := Replay(d1, ts[1..], at, asWritten);
      ([t] + rest, d2)
  }

  /** The entries recording buffers for ts when `room` entries are free
      (the closing one aside). */
  function Entries(ts: seq<nat>, room: nat): (es: seq<nat>)
    ensures |es| <= room && |es| <= |ts|
  {
    if |ts| == 0 then []
    else if ts[0] != 0 && room > 0 then [ts[0]] + Entries(ts[1..], room - 1)
    else Entries(ts[1..], room)
  }

  /** The intended wait of each delay of ts: its length when recording
      buffered it, nothing when recording skipped it. */
  function Kept(ts: seq<nat>, room: nat): (ks: seq<nat>)
    ensures |ks| == |ts|
  {
    if |ts| == 0 then []
    else if ts[0] != 0 && room > 0 then [ts[0]] + Kept(ts[1..], room - 1)
    else [0] + Kept(ts[1..], room)
  }

  /** A whole run: record the delays ts started at `at`, close with a step
      of t ticks, replay the delays and close again. The result is the wait
      of each delay on replay, the closing step's wait, and the register
      afterwards. */
  function Run(ts: seq<nat>, t: nat, at: nat, asWritten: bool): (r: (seq<nat>, nat, DelayRegister))
    requires AllU32(ts) && IsU32(t) && IsU32(at)
    ensures r.2.Valid() && |r.0| == |ts|
  {
    var recorded := Record(NO_DELAYS, ts, at, asWritten);
    var closed := StepDelay(recorded, t).register;
    var (waits, replayed) := Replay(closed, ts, at, asWritten);
    var last := StepDelay(replayed, t);
    (waits, last.ticks, last.register)
  }

  // ---------------------------------------------------------------------
  // Recording.

  /** Recording buffers exactly the entries of ts that fit, from a
      register that is idle or recording. */
  lemma {:induction false} RecordBuffers(d: DelayRegister, ts: seq<nat>, at: nat, asWritten: bool)
    requires d.Valid() && AllU32(ts) && IsU32(at) && d.state != Replaying
    ensures var r := Record(d, ts, at, asWritten);
            r.delays == d.delays + Entries(ts, MAX_DELAYS - 1 - |d.delays|)
            && r.index == 0
            && (r.delays == [] ==> r.state == d.state)
            && (r.delays != [] ==> r.state == Recording)
            && (d.delays != [] ==> r.codeOffset == d.codeOffset)
    decreases |ts|
  {
    if |ts| > 0 {
      var (_, d1) := Begin(d, ts[0], at, asWritten);
      RecordBuffers(d1, ts[1..], at, asWritten);
      if Buffers(d, ts[0]) {
        assert d1.delays == d.delays + [ts[0]];
        assert d.delays + [ts[0]] + Entries(ts[1..], MAX_DELAYS - 1 - |d1.delays|)
            == d.delays + Entries(ts, MAX_DELAYS - 1 - |d.delays|);
      } else {
        assert Entries(ts, MAX_DELAYS - 1 - |d.delays|) == Entries(ts[1..], MAX_DELAYS - 1 - |d.delays|);
      }
    }
  }

  /** A run whose first delay is non-zero records from that delay on. */
  lemma RecordFromFirst(ts: seq<nat>, at: nat, asWritten: bool)
    requires AllU32(ts) && IsU32(at) && |ts| > 0 && ts[0] != 0
    ensures var r := Record(NO_DELAYS, ts, at, asWritten);
            r.state == Recording && r.index == 0 && r.codeOffset == at
            && r.delays == Entries(ts, MAX_DELAYS - 1) && |r.delays| > 0
  {
    var (_, d1) := Begin(NO_DELAYS, ts[0], at, asWritten);
    RecordBuffers(d1, ts[1..], at, asWritten);
    assert Entries(ts, MAX_DELAYS - 1) == [ts[0]] + Entries(ts[1..], MAX_DELAYS - 2);
  }

  // ---------------------------------------------------------------------
  // Replaying.

  /** What a replaying register keeps: its last entry (the closing step's)
      covers the ticks left, and once every entry is shifted nothing is
      left. */
  predicate Covered(d: DelayRegister) {
    d.state == Replaying && |d.delays| > 0 && d.ticks <= d.delays[|d.delays| - 1]
    && (d.index == |d.delays| ==> d.ticks == 0)
  }

  lemma ShiftCovered(d: DelayRegister)
    requires d.Valid() && Covered(d)
    ensures Covered(Shift(d).1)
  {
  }

  /** Replaying hands out exactly the ticks it takes from the register, and
      keeps it covered. */
  lemma {:induction false} ReplayConserves(d: DelayRegister, ts: seq<nat>, at: nat, asWritten: bool)
    requires d.Valid() && AllU32(ts) && IsU32(at) && Covered(d)
    ensures var (waits, r) := Replay(d, ts, at, asWritten);
            Sum(waits) + r.ticks == d.ticks && Covered(r) && r.delays == d.delays
            && d.index <= r.index
    ensures asWritten ==> Replay(d, ts, at, asWritten).1.index == Min(d.index + |ts|, |d.delays|)
    decreases |ts|
  {
    if |ts| > 0 {
      var (t, d1) := Begin(d, ts[0], at, asWritten);
      ShiftCovered(d);
      ReplayConserves(d1, ts[1..], at, asWritten);
    }
  }

  /** The corrected replay shifts exactly for the buffered delays, so while
      the buffered lengths fit in the ticks left each delay waits its
      intended time. */
  lemma {:induction false} ReplayKept(d: DelayRegister, ts: seq<nat>, at: nat, room: nat)
    requires d.Valid() && AllU32(ts) && IsU32(at) && d.state == Replaying
    requires d.index < |d.delays| && d.delays[d.index..|d.delays| - 1] == Entries(ts, room)
    ensures var (waits, r) := Replay(d, ts, at, false);
            r.index == d.index + |Entries(ts, room)| && r.delays == d.delays && r.state == Replaying
            && (Sum(Kept(ts, room)) <= d.ticks ==> waits == Kept(ts, room) && r.ticks == d.ticks - Sum(waits))
    decreases |ts|
  {
    if |ts| > 0 {
      var (t, d1) := Begin(d, ts[0], at, false);
      if ts[0] != 0 && room > 0 {
        assert Entries(ts, room) == [ts[0]] + Entries(ts[1..], room - 1);
        assert d.delays[d.index] == d.delays[d.index..|d.delays| - 1][0] == ts[0];
        assert d1.delays == d.delays && d1.index == d.index + 1;
        assert d.delays[d.index + 1..|d.delays| - 1] == d.delays[d.index..|d.delays| - 1][1..];
        assert d1.delays[d1.index..|d1.delays| - 1] == Entries(ts[1..], room - 1);
        ReplayKept(d1, ts[1..], at, room - 1);
      } else {
        if ts[0] != 0 {
          assert Entries(ts, room) == [];
        }
        assert d1 == d;
        ReplayKept(d1, ts[1..], at, room);
      }
    }
  }

  // ---------------------------------------------------------------------
  // Whole runs.

  /** Both registers: recording the run of ts (first delay non-zero)
      buffers its entries, the closing step seeks back to the first delay,
      and after the replay the delays' waits and the final step's add up to
      exactly the step's t ticks, leaving the register idle. */
  lemma RunLastsStep(ts: seq<nat>, t: nat, at: nat, asWritten: bool)
    requires AllU32(ts) && IsU32(t) && IsU32(at) && |ts| > 0 && ts[0] != 0 && t != 0
    ensures var recorded := Record(NO_DELAYS, ts, at, asWritten);
            |recorded.delays| <= MAX_DELAYS - 1
            && StepDelay(recorded, t).seek == Some(at)
    ensures var (waits, last, r) := Run(ts, t, at, asWritten);
            Sum(waits) + last == t && r.state == NoDelay && r.delays == []
  {
    RecordFromFirst(ts, at, asWritten);
    var recorded := Record(NO_DELAYS, ts, at, asWritten);
    var closed := StepDelay(recorded, t).register;
    assert Covered(closed);
    ReplayConserves(closed, ts, at, asWritten);
    var (waits, replayed) := Replay(closed, ts, at, asWritten);
    if !asWritten {
      assert closed.delays[closed.index..|closed.delays| - 1] == Entries(ts, MAX_DELAYS - 1);
      ReplayKept(closed, ts, at, MAX_DELAYS - 1);
    }
    assert replayed.index >= |replayed.delays| - 1;
  }

  /** The corrected register: when the buffered delays fit in the step,
      every delay waits exactly its intended time (skipped ones not at all)
      and the step waits the rest. */
  lemma RunWaitsKept(ts: seq<nat>, t: nat, at: nat)
    requires AllU32(ts) && IsU32(t) && IsU32(at) && |ts| > 0 && ts[0] != 0 && t != 0
    requires Sum(Kept(ts, MAX_DELAYS - 1)) <= t
    ensures var (waits, last, _) := Run(ts, t, at, false);
            waits == Kept(ts, MAX_DELAYS - 1) && last == t - Sum(Kept(ts, MAX_DELAYS - 1))
  {
    hide Record, Replay, Begin, Entries, Kept, Sum;
    RecordFromFirst(ts, at, false);
    var recorded := Record(NO_DELAYS, ts, at, false);
    var closed := StepDelay(recorded, t).register;
    assert closed == recorded.(state := Replaying, ticks := t, delays := recorded.delays + [t]);
    assert closed.delays[closed.index..|closed.delays| - 1] == Entries(ts, MAX_DELAYS - 1);
    ReplayKept(closed, ts, at, MAX_DELAYS - 1);
    var (waits, replayed) := Replay(closed, ts, at, false);
    assert replayed.index == |closed.delays| - 1;
    assert Shift(replayed).0 == replayed.ticks;
  }

  /** As written, a delay that recording skipped still shifts an entry on
      replay: with delays of 1, 0 and 2 ticks closed by a 24-tick step, the
      zero delay waits the 2 ticks meant for the next one, that one waits
      the step's remaining 21, and the step does not wait at all. */
  lemma SkippedDelayShifts()
    ensures Run([1, 0, 2], 24, 16, true).0 == [1, 2, 21] && Run([1, 0, 2], 24, 16, true).1 == 0
  {
    RecordFromFirst([1, 0, 2], 16, true);
    assert Entries([1, 0, 2], MAX_DELAYS - 1) == [1, 2] by {
      assert [1, 0, 2][1..] == [0, 2] && [0, 2][1..] == [2] && [2][1..] == [];
    }
    var closed := StepDelay(Record(NO_DELAYS, [1, 0, 2], 16, true), 24).register;
    assert closed == DelayRegister(16, 24, Replaying, 0, [1, 2, 24]);
    hide Record, Entries;
    ReplayShifting();
  }

  /** The replay pass of that run, delay by delay. */
  lemma ReplayShifting()
    ensures var r := Replay(DelayRegister(16, 24, Replaying, 0, [1, 2, 24]), [1, 0, 2], 16, true);
            r.0 == [1, 2, 21] && r.1 == DelayRegister(16, 0, Replaying, 3, [1, 2, 24])
  {
    var d0 := DelayRegister(16, 23, Replaying, 1, [1, 2, 24]);
    var d1 := DelayRegister(16, 21, Replaying, 2, [1, 2, 24]);
    var d2 := DelayRegister(16, 0, Replaying, 3, [1, 2, 24]);
    assert Begin(d1, 2, 16, true) == (21, d2);
    assert Replay(d2, [], 16, true).0 == [];
    var r2 := Replay(d1, [2], 16, true);
    assert r2.0 == [21] && r2.1 == d2 by {
      assert [2][1..] == [];
    }
    assert Begin(d0, 0, 16, true) == (2, d1);
    var r1 := Replay(d0, [0, 2], 16, true);
    assert r1.0 == [2, 21] && r1.1 == d2 by {
      assert [0, 2][1..] == [2];
    }
    var r0 := Replay(DelayRegister(16, 24, Replaying, 0, [1, 2, 24]), [1, 0, 2], 16, true);
    assert r0.0 == [1, 2, 21] && r0.1 == d2 by {
      assert [1, 0, 2][1..] == [0, 2];
    }
  }

  /** The corrected register on the same run: the zero delay does not
      wait, and the step waits what the delays leave of it. */
  lemma SkippedDelayWaitsNothing()
    ensures Run([1, 0, 2], 24, 16, false).0 == [1, 0, 2] && Run([1, 0, 2], 24, 16, false).1 == 21
  {
    assert Kept([1, 0, 2], MAX_DELAYS - 1) == [1, 0, 2] by {
      assert [1, 0, 2][1..] == [0, 2] && [0, 2][1..] == [2] && [2][1..] == [];
      assert Kept([2], 6) == [2] + Kept([], 5) == [2];
      assert Kept([0, 2], 6) == [0] + Kept([2], 6) == [0, 2];
    }
    assert Sum([1, 0, 2]) == 3 by {
      assert [1, 0, 2][1..] == [0, 2] && [0, 2][1..] == [2] && [2][1..] == [];
    }
    RunWaitsKept([1, 0, 2], 24, 16);
  }

  /** Without skipped delays the code and the corrected register agree:
      every delay of a run of at most seven non-zero delays waits its full
      length when they fit in the step. */
  lemma {:induction false} KeptAll(ts: seq<nat>, room: nat)
    requires |ts| <= room && forall i :: 0 <= i < |ts| ==> ts[i] != 0
    ensures Kept(ts, room) == ts && Entries(ts, room) == ts
    decreases |ts|
  {
    if |ts| > 0 {
      KeptAll(ts[1..], room - 1);
    }
  }
}

=== FILE: divider.dfy ===
/** Divider groups: countdown counters that call a script callback every
    so many beat ticks.

    A divider holds an interval and a counter. Each beat tick of the group
    decrements every counter; a divider whose counter reaches zero calls its
    callback, and the callback's result decides what happens next: a
    positive result becomes the new interval, a negative one removes the
    divider, and zero keeps the interval. The counter is then reloaded from
    the interval.

    The current group keys dividers by a numeric ID drawn from a counter
    shared by every group; the older group keys them by name. Both share the
    divider itself and every operation except adding one.

    Callbacks are scripts this model cannot see: the value a callback would
    return is a parameter (`answer`), consulted only when the divider
    fires. */
module Dividers {
  import opened Bytes

  datatype Divider = Divider(interval: int, counter: int)

  /** Whether the next tick calls the callback. */
  predicate Fires(d: Divider) {
    d.counter - 1 <= 0
  }

  /** `Divider::tick`: the value it returns (0 without calling back, the
      callback's result otherwise) and the divider after it. */
  function Tick(d: Divider, answer: int): (r: (int, Divider))
    ensures !Fires(d) ==> r == (0, d.(counter := d.counter - 1))
    ensures Fires(d) ==> r.0 == answer
    ensures Fires(d) && answer > 0 ==> r.1 == Divider(answer, answer)
    ensures Fires(d) && answer <= 0 ==> r.1 == Divider(d.interval, d.interval)
  {
    var counter := d.counter - 1;
    if counter > 0 then (0, d.(counter := counter))
    else
      var interval := if answer > 0 then answer else d.interval;
      (answer, Divider(interval, interval))
  }

  /** `Divider::initialize` on a default divider: the interval as given and
      a zero counter, so it fires on its first tick. */
  function Fresh(interval: int): (d: Divider)
    ensures d.interval == interval && Fires(d)
  {
    Divider(interval, 0)
  }

  /** `Divider::reset`: the counter goes to zero and a positive interval
      replaces the old one. */
  function Reset(d: Divider, interval: int): (r: Divider)
    ensures r.counter == 0 && Fires(r)
    ensures r.interval == (if interval > 0 then interval else d.interval)
  {
    Divider(if interval > 0 then interval else d.interval, 0)
  }

  /** Ticks in a row; `answers[i]` is what the callback would return at
      tick i. Gives the values the ticks return and the divider after. */
  function Run(d: Divider, answers: seq<int>): (r: (seq<int>, Divider))
    ensures |r.0| == |answers|
    decreases |answers|
  {
    if |answers| == 0 then ([], d)
    else
      var (v, d1) := Tick(d, answers[0]);
      var (vs, d2) := Run(d1, answers[1..]);
      ([v] + vs, d2)
  }

  /** A divider keeping interval p, with c ticks to go, calls back at
      exactly the ticks i where (i + 1 - c) is a multiple of p: first
      after c ticks, then every p ticks. */
  lemma {:induction false} RunPeriodic(d: Divider, answers: seq<int>)
    requires 1 <= d.counter <= d.interval
    requires forall i :: 0 <= i < |answers| ==> answers[i] == d.interval
    ensures var p := d.interval;
            var vs := Run(d, answers).0;
            forall i :: 0 <= i < |answers| ==> (vs[i] != 0 <==> (i + 1 - d.counter) % p == 0)
    decreases |answers|
  {
    var p := d.interval;
    if |answers| > 0 {
      var (v, d1) := Tick(d, answers[0]);
      var rest := Run(d1, answers[1..]).0;
      var vs := Run(d, answers).0;
      assert vs == [v] + rest;
      var c1 := if d.counter > 1 then d.counter - 1 else p;
      assert d1 == Divider(p, c1);
      assert v != 0 <==> d.counter == 1;
      RunPeriodic(d1, answers[1..]);
      hide Run, Tick;
      assert d1.counter == c1 && d1.interval == p;
      assert forall j :: 0 <= j < |answers[1..]| ==> (Run(d1, answers[1..]).0[j] != 0 <==> (j + 1 - d1.counter) % d1.interval == 0);
      PeriodShift(p, d.counter);
      forall i | 1 <= i < |answers|
        ensures vs[i] != 0 <==> (i + 1 - d.counter) % p == 0
      {
        assert vs[i] == rest[i - 1];
        PeriodShiftAt(p, d.counter, c1, i);
      }
    }
  }

  /** The first tick is a callback tick exactly when one tick is to go. */
  lemma PeriodShift(p: int, c: int)
    requires 1 <= c <= p
    ensures (1 - c) % p == 0 <==> c == 1
  {
    if c > 1 {
      ModUnique(1 - c, p, -1, 1 - c + p);
    }
  }

  /** Tick i counted from a divider c ticks away is tick i - 1 counted
      from the divider one tick later. */
  lemma PeriodShiftAt(p: int, c: int, c1: int, i: int)
    requires 1 <= c <= p && 1 <= i
    requires c1 == if c > 1 then c - 1 else p
    ensures ((i - 1) + 1 - c1) % p == (i + 1 - c) % p
  {
    if c == 1 {
      ModShift(i, p);
    }
  }

  lemma {:induction false} MulAtLeast(a: int, p: int)
    requires a >= 1 && p > 0
    ensures a * p >= p
    decreases a
  {
    if a > 1 {
      MulAtLeast(a - 1, p);
      assert a * p == (a - 1) * p + p;
    }
  }

  /** The remainder is the unique r in [0, p) with x = q * p + r. */
  lemma ModUnique(x: int, p: int, q: int, r: int)
    requires p > 0 && 0 <= r < p && x == q * p + r
    ensures x % p == r
  {
    var q0 := x / p;
    var r0 := x % p;
    assert x == q0 * p + r0;
    if q0 > q {
      assert (q0 - q) * p == q0 * p - q * p;
      MulAtLeast(q0 - q, p);
    } else if q0 < q {
      assert (q - q0) * p == q * p - q0 * p;
      MulAtLeast(q - q0, p);
    }
  }

  lemma ModShift(x: int, p: int)
    requires p > 0
    ensures (x - p) % p == x % p
  {
    var q := x / p;
    assert x - p == (q - 1) * p + x % p;
    ModUnique(x - p, p, q - 1, x % p);
  }

  /** A group of dividers under keys of type K. */
  datatype Group<K> = Group(dividers: map<K, Divider>)

  function Empty<K(!new)>(): (g: Group<K>)
    ensures |g.dividers| == 0
  {
    Group(map[])
  }

  /** `has_divider`. */
  predicate Has<K(!new)>(g: Group<K>, key: K) {
    key in g.dividers
  }

  /** `remove_divider`: that key goes, nothing else changes. */
  function Remove<K(!new)>(g: Group<K>, key: K): (r: Group<K>)
    ensures !Has(r, key)
    ensures forall k :: k != key ==> (Has(r, k) <==> Has(g, k))
    ensures forall k :: k != key && k in g.dividers ==> k in r.dividers && r.dividers[k] == g.dividers[k]
  {
    Group(g.dividers - {key})
  }

  /** `reset_divider`: an unknown key changes nothing. */
  function ResetDivider<K(!new)>(g: Group<K>, key: K, interval: int): (r: Group<K>)
    ensures r.dividers.Keys == g.dividers.Keys
    ensures !Has(g, key) ==> r == g
    ensures Has(g, key) ==> r.dividers[key] == Reset(g.dividers[key], interval)
    ensures forall k :: k != key && Has(g, k) ==> r.dividers[k] == g.dividers[k]
  {
    if key in g.dividers then Group(g.dividers[key := Reset(g.dividers[key], interval)]) else g
  }

  /** `reset`: every counter to zero, every interval kept. */
  function ResetAll<K(!new)>(g: Group<K>): (r: Group<K>)
    ensures r.dividers.Keys == g.dividers.Keys
    ensures forall k :: k in r.dividers ==> r.dividers[k] == g.dividers[k].(counter := 0)
  {
    Group(map k | k in g.dividers :: Reset(g.dividers[k], 0))
  }

  /** `clear`. */
  function Clear<K(!new)>(g: Group<K>): (r: Group<K>)
    ensures forall k :: !Has(r, k)
  {
    Group(map[])
  }

  /** The keys `get_dividers` and `get_divider_names` list (in hash-map
      order, which this model does not fix). */
  function Keys<K(!new)>(g: Group<K>): (ks: set<K>)
    ensures forall k :: k in ks <==> Has(g, k)
  {
    g.dividers.Keys
  }

  /** `divider_callback`: tick every divider once, then remove those whose
      tick returned a negative value. */
  function Callback<K(!new)>(g: Group<K>, answer: K -> int): (r: Group<K>)
    ensures forall k :: Has(r, k) <==> Has(g, k) && (!Fires(g.dividers[k]) || answer(k) >= 0)
    ensures forall k :: k in r.dividers ==> k in g.dividers && r.dividers[k] == Tick(g.dividers[k], answer(k)).1
  {
    var ticked := map k | k in g.dividers :: Tick(g.dividers[k], answer(k));
    Group(map k | k in ticked && ticked[k].0 >= 0 :: ticked[k].1)
  }

  /** After `reset`, the next beat calls every callback: each divider
      stays exactly when its callback does not ask for removal, and
      restarts from the interval it has then. */
  lemma ResetThenCallback<K(!new)>(g: Group<K>, answer: K -> int)
    ensures var r := Callback(ResetAll(g), answer);
            forall k :: (Has(r, k) <==> Has(g, k) && answer(k) >= 0)
                        && (Has(r, k) ==> r.dividers[k].counter == r.dividers[k].interval
                                          && (answer(k) > 0 ==> r.dividers[k].interval == answer(k)))
  {
    var g1 := ResetAll(g);
    forall k | Has(g1, k)
      ensures Fires(g1.dividers[k])
    {
      assert g1.dividers[k].counter == 0;
    }
  }

  /** A callback on dividers that are counting down calls nobody and
      removes nothing. */
  lemma QuietCallbackKeepsAll<K(!new)>(g: Group<K>, answer: K -> int)
    requires forall k :: k in g.dividers ==> !Fires(g.dividers[k])
    ensures Keys(Callback(g, answer)) == Keys(g)
  {
  }

  // ---------------------------------------------------------------------
  // Adding, by ID (the current group) and by name (the older one).

  /** `add_divider` by ID. `last` is the shared atomic counter; the new ID
      is its pre-increment, wrapped to uint32. The entry is found or made
      by `operator[]`, so an ID that wrapped onto a live divider keeps that
      divider's counter. */
  function AddById(g: Group<nat>, last: nat, interval: int): (r: (nat, Group<nat>))
    requires IsU32(last)
    ensures IsU32(r.0) && r.0 == WrapU32(last + 1)
    ensures last + 1 < U32_LIMIT ==> r.0 == last + 1
    ensures Has(r.1, r.0) && r.1.dividers[r.0].interval == interval
    ensures !Has(g, r.0) ==> r.1.dividers[r.0] == Fresh(interval)
    ensures forall k :: k != r.0 ==> (Has(r.1, k) <==> Has(g, k))
    ensures forall k :: k != r.0 && k in g.dividers ==> k in r.1.dividers && r.1.dividers[k] == g.dividers[k]
  {
    var id := WrapU32(last + 1);
    var d := if id in g.dividers then g.dividers[id].(interval := interval) else Fresh(interval);
    (id, Group(g.dividers[id := d]))
  }

  /** IDs handed out one after another start at 1 and increase strictly
      until the counter wraps. */
  lemma IdsIncrease(g: Group<nat>, last: nat, interval1: int, interval2: int)
    requires IsU32(last) && last + 2 < U32_LIMIT
    ensures var (a, g1) := AddById(g, last, interval1);
            var (b, _) := AddById(g1, a, interval2);
            0 < a < b && b == a + 1
  {
  }

  /** The int32 values `get_dividers` returns for the IDs (IDs above
      INT32_MAX come out negative). */
  function ListedIds(g: Group<nat>): (ids: set<int>)
    ensures forall id: nat :: Has(g, id) ==> WrapI32(id) in ids
    ensures forall v :: v in ids ==> IsI32(v)
  {
    set id | id in g.dividers :: WrapI32(id)
  }

  /** `add_divider` by name: a name already present changes nothing. */
  function AddByName(g: Group<string>, name: string, interval: int): (r: Group<string>)
    ensures Has(g, name) ==> r == g
    ensures !Has(g, name) ==> Has(r, name) && r.dividers[name] == Fresh(interval)
    ensures forall k :: k != name ==> (Has(r, k) <==> Has(g, k))
    ensures forall k :: k != name && k in g.dividers ==> k in r.dividers && r.dividers[k] == g.dividers[k]
  {
    if name in g.dividers then g else Group(g.dividers[name := Fresh(interval)])
  }

  /** A divider added by either route fires on the group's next beat. */
  lemma AddedFiresFirst(g: Group<string>, name: string, interval: int, answer: string -> int)
    requires !Has(g, name)
    ensures var r := Callback(AddByName(g, name, interval), answer);
            Has(r, name) <==> answer(name) >= 0
  {
  }

  /** Adding then removing a name restores the group. */
  lemma AddRemoveByName(g: Group<string>, name: string, interval: int)
    requires !Has(g, name)
    ensures Remove(AddByName(g, name, interval), name) == g
  {
    assert Remove(AddByName(g, name, interval), name).dividers == g.dividers;
  }
}

=== FILE: half.dfy ===
/** Bit-level conversion between IEEE 754 binary32 and binary16 (section 3.6
    of IEEE 754-2008), as used to store f16 operands in bytecode.

    Floats are handled only as their bit patterns. The float-to-half
    direction deviates from the standard in two ways: it truncates the
    significand instead of rounding, and every result that would be
    subnormal (or zero) becomes +0, losing the sign. */
module Half {

  // Field masks, written as literals throughout:
  //   half:  sign 0x8000, exponent 0x7c00, significand 0x03ff
  //   float: sign 0x8000_0000, exponent 0x7f80_0000, significand 0x007f_ffff
  // Float exponent bits at or above 0x4780_0000 overflow the half range;
  // at or below 0x3800_0000 they underflow to zero.

  /** Classification of a half by its exponent and significand fields. */
  predicate IsZeroHalf(h: bv16) { h & 0x7fff == 0 }
  predicate IsSubnormalHalf(h: bv16) { h & 0x7c00 == 0 && h & 0x03ff != 0 }
  predicate IsNormalHalf(h: bv16) { h & 0x7c00 != 0 && h & 0x7c00 != 0x7c00 }
  predicate IsInfHalf(h: bv16) { h & 0x7fff == 0x7c00 }
  predicate IsNanHalf(h: bv16) { h & 0x7c00 == 0x7c00 && h & 0x03ff != 0 }

  /** A float whose exponent lies strictly inside the half's normal range. */
  predicate InHalfNormalRange(x: bv32) {
    0x3800_0000 < x & 0x7f80_0000 < 0x4780_0000
  }

  // ---------------------------------------------------------------------
  // half_to_float

  /** `half_to_float`: the binary32 pattern of a binary16 pattern, by the
      four cases of its exponent field. */
  function HalfToFloat(h: bv16): (f: bv32)
  {
    var fSign: bv32 := ((h as bv32) & 0x8000) << 16;
    if h & 0x7c00 == 0 then
      if h & 0x03ff == 0 then fSign else SubnormalToFloat(h)
    else if h & 0x7c00 == 0x7c00 then
      fSign + 0x7f80_0000 + (((h & 0x03ff) as bv32) << 13)
    else
      NormalToFloat(h)
  }

  /** The normal case: rebias the exponent by adding 0x1c000 to the
      exponent-and-significand bits and shift them into place. */
  function NormalToFloat(h: bv16): (f: bv32)
  {
    var fSign: bv32 := ((h as bv32) & 0x8000) << 16;
    fSign + ((((h & 0x7fff) as bv32) + 0x1c000) << 13)
  }

  /** The subnormal loop: `h_sig` starts as the significand m shifted left
      once and is shifted again until bit 10 is set, counting the extra
      shifts in `h_exp`; after k extra shifts it equals `(m << 1) << k`. The
      result is the final count. (`h_sig` is a uint16 in C++; it never
      exceeds 0x7ff, so the wider type changes nothing.) */
  function Renormalize(m: bv32, shifts: bv32): (r: bv32)
    requires 0 < m < 0x400 && shifts <= 9 && (m << 1) << shifts < 0x800
    ensures shifts <= r <= 9
    decreases 9 - shifts
  {
    if ((m << 1) << shifts) & 0x400 != 0 then shifts
    else
      RenormalizeStep(m, shifts);
      Renormalize(m, shifts + 1)
  }

  /** While bit 10 is clear another shift stays below 0x800, so the loop
      runs at most nine extra times. */
  lemma RenormalizeStep(m: bv32, shifts: bv32)
    requires 0 < m < 0x400 && shifts <= 9 && (m << 1) << shifts < 0x800
    requires ((m << 1) << shifts) & 0x400 == 0
    ensures shifts < 9 && (m << 1) << (shifts + 1) < 0x800
  {
  }

  /** The loop stops exactly when the leading one of the significand has
      reached bit 10. */
  lemma {:induction false} RenormalizeReachesBit10(m: bv32, shifts: bv32)
    requires 0 < m < 0x400 && shifts <= 9 && (m << 1) << shifts < 0x800
    ensures var r := Renormalize(m, shifts);
            ((m << 1) << r) & 0x400 != 0 && (m << 1) << r < 0x800
    decreases 9 - shifts
  {
    var r := Renormalize(m, shifts);
    if ((m << 1) << shifts) & 0x400 == 0 {
      RenormalizeStep(m, shifts);
      RenormalizeReachesBit10(m, shifts + 1);
      assert r == Renormalize(m, shifts + 1);
    } else {
      assert r == shifts;
    }
  }

  /** The subnormal case: the float exponent is 127 - 15 - shifts and the
      renormalised significand drops its leading bit. */
  function SubnormalToFloat(h: bv16): (f: bv32)
    requires IsSubnormalHalf(h)
  {
    var m := (h as bv32) & 0x3ff;
    SubnormalParts(h);
    SubnormalAssemble(((h as bv32) & 0x8000) << 16, m, Renormalize(m, 0))
  }

  /** `f_sgn + f_exp + f_sig` after `shifts` extra shifts of m. */
  function SubnormalAssemble(fSign: bv32, m: bv32, shifts: bv32): (f: bv32)
    requires shifts <= 9
  {
    var sig := (m << 1) << shifts;
    fSign + ((112 - shifts) << 23) + ((sig & 0x3ff) << 13)
  }

  lemma SubnormalParts(h: bv16)
    requires IsSubnormalHalf(h)
    ensures 0 < (h as bv32) & 0x3ff < 0x400
    ensures (((h as bv32) & 0x8000) << 16) & 0x7fff_ffff == 0
    ensures (((h as bv32) & 0x8000) << 16) >> 31 == (h >> 15) as bv32
  {
  }

  // ---------------------------------------------------------------------
  // float_to_half

  /** `float_to_half`: the binary16 pattern stored for a binary32 pattern. */
  function FloatToHalf(x: bv32): (h: bv16)
  {
    var sign := x >> 31;
    var mantissa := x & 0x007f_ffff;
    var exponent := x & 0x7f80_0000;
    if exponent >= 0x4780_0000 then
      var m: bv32 := if mantissa != 0 && exponent == 0x7f80_0000 then 0x7f_ffff else 0;
      ((sign as bv16) << 15) | 0x7c00 | (((m >> 13) & 0xffff) as bv16)
    else if exponent <= 0x3800_0000 then
      0
    else
      NormalFields(sign, exponent, mantissa)
  }

  /** The normal case: unbias the exponent and keep the top 10 significand
      bits (truncation). */
  function NormalFields(sign: bv32, exponent: bv32, mantissa: bv32): (h: bv16)
    requires sign <= 1
  {
    ((sign as bv16) << 15)
    | ((((exponent - 0x3800_0000) >> 13) & 0xffff) as bv16)
    | (((mantissa >> 13) & 0xffff) as bv16)
  }

  // ---------------------------------------------------------------------
  // Field lemmas (small bit-vector facts the round trips are built from)

  lemma NormalToFloatFields(h: bv16)
    requires IsNormalHalf(h)
    ensures NormalToFloat(h) >> 31 == (h >> 15) as bv32
    ensures NormalToFloat(h) & 0x007f_ffff == ((h & 0x03ff) as bv32) << 13
    ensures NormalToFloat(h) & 0x7f80_0000 == (((h & 0x7c00) as bv32) << 13) + 0x3800_0000
    ensures 0x3800_0000 < NormalToFloat(h) & 0x7f80_0000 < 0x4780_0000
  {
  }

  lemma NormalFieldsParts(sign: bv32, exponent: bv32, mantissa: bv32)
    requires sign <= 1 && mantissa <= 0x007f_ffff
    requires exponent & 0x7f80_0000 == exponent
    requires 0x3800_0000 < exponent < 0x4780_0000
    ensures IsNormalHalf(NormalFields(sign, exponent, mantissa))
    ensures NormalFields(sign, exponent, mantissa) >> 15 == sign as bv16
    ensures NormalFields(sign, exponent, mantissa) & 0x03ff == (mantissa >> 13) as bv16
    ensures ((NormalFields(sign, exponent, mantissa) & 0x7c00) as bv32) << 13
            == exponent - 0x3800_0000
  {
  }

  // ---------------------------------------------------------------------
  // Properties

  /** The zero and Inf/NaN cases of `half_to_float`: every half keeps its
      sign, a zero becomes the float zero of that sign, and an all-ones
      exponent becomes the float all-ones exponent with the significand
      copied into the top bits. */
  lemma HalfToFloatSpecial(h: bv16)
    ensures HalfToFloat(h) >> 31 == (h >> 15) as bv32
    ensures IsZeroHalf(h) ==> HalfToFloat(h) & 0x7fff_ffff == 0
    ensures h & 0x7c00 == 0x7c00 ==>
              HalfToFloat(h) & 0x7f80_0000 == 0x7f80_0000
              && HalfToFloat(h) & 0x007f_ffff == ((h & 0x03ff) as bv32) << 13
  {
    if IsNormalHalf(h) {
      HalfToFloatIsNormal(h);
      NormalToFloatFields(h);
    } else if IsSubnormalHalf(h) {
      SubnormalExact(h);
    } else if IsZeroHalf(h) {
      HalfToFloatZero(h);
      ZeroFields(h);
    } else {
      HalfToFloatIsSpecial(h);
      SpecialFields(h);
    }
  }

  lemma ZeroFields(h: bv16)
    requires IsZeroHalf(h)
    ensures var f := ((h as bv32) & 0x8000) << 16;
            f >> 31 == (h >> 15) as bv32 && f & 0x7fff_ffff == 0
  {
  }

  lemma SpecialFields(h: bv16)
    requires h & 0x7c00 == 0x7c00
    ensures var f := (((h as bv32) & 0x8000) << 16) + 0x7f80_0000 + (((h & 0x03ff) as bv32) << 13);
            f >> 31 == (h >> 15) as bv32
            && f & 0x7f80_0000 == 0x7f80_0000
            && f & 0x007f_ffff == ((h & 0x03ff) as bv32) << 13
  {
  }

  /** The normal case of `half_to_float` moves the sign, rebiases the
      exponent by 127 - 15 and keeps the significand. */
  lemma HalfToFloatNormal(h: bv16)
    requires IsNormalHalf(h)
    ensures HalfToFloat(h) >> 31 == (h >> 15) as bv32
    ensures (HalfToFloat(h) >> 23) & 0xff == (((h >> 10) & 0x1f) as bv32) + 112
    ensures HalfToFloat(h) & 0x007f_ffff == ((h & 0x03ff) as bv32) << 13
  {
    HalfToFloatIsNormal(h);
    NormalToFloatFields(h);
    ExponentField(NormalToFloat(h), h);
  }

  lemma ExponentField(f: bv32, h: bv16)
    requires h & 0x7c00 != 0x7c00
    requires f & 0x7f80_0000 == (((h & 0x7c00) as bv32) << 13) + 0x3800_0000
    ensures (f >> 23) & 0xff == (((h >> 10) & 0x1f) as bv32) + 112
  {
  }

  /** `float_to_half` saturates: exponent bits at or above 0x47800000 give
      an all-ones half exponent with the float's sign, a NaN input gives the
      all-ones significand and anything else the zero significand (Inf). */
  lemma FloatToHalfOverflow(x: bv32)
    requires x & 0x7f80_0000 >= 0x4780_0000
    ensures FloatToHalf(x) >> 15 == (x >> 31) as bv16
    ensures FloatToHalf(x) & 0x7c00 == 0x7c00
    ensures x & 0x7f80_0000 == 0x7f80_0000 && x & 0x007f_ffff != 0 ==>
              FloatToHalf(x) & 0x03ff == 0x03ff
    ensures !(x & 0x7f80_0000 == 0x7f80_0000 && x & 0x007f_ffff != 0) ==>
              FloatToHalf(x) & 0x03ff == 0
  {
  }

  /** `float_to_half` flushes: exponent bits at or below 0x38000000 give +0
      whatever the sign and significand. */
  lemma FloatToHalfUnderflow(x: bv32)
    requires x & 0x7f80_0000 <= 0x3800_0000
    ensures FloatToHalf(x) == 0
  {
  }

  /** In the normal range `float_to_half` keeps the sign, rebiases the
      exponent and truncates the significand to its top 10 bits. */
  lemma FloatToHalfNormal(x: bv32)
    requires InHalfNormalRange(x)
    ensures IsNormalHalf(FloatToHalf(x))
    ensures FloatToHalf(x) >> 15 == (x >> 31) as bv16
    ensures FloatToHalf(x) & 0x03ff == ((x & 0x007f_ffff) >> 13) as bv16
  {
    NormalFieldsParts(x >> 31, x & 0x7f80_0000, x & 0x007f_ffff);
  }

  /** A normal half survives the trip through float unchanged. */
  lemma NormalRoundTrip(h: bv16)
    requires IsNormalHalf(h)
    ensures FloatToHalf(HalfToFloat(h)) == h
  {
    HalfToFloatIsNormal(h);
    NormalToFloatThenBack(h);
  }

  lemma NormalToFloatThenBack(h: bv16)
    requires h & 0x7c00 != 0 && h & 0x7c00 != 0x7c00
    ensures FloatToHalf(NormalToFloat(h)) == h
  {
    // one case per normal exponent, each checked with a constant exponent
    var e := h & 0x7c00;
    if e == 0x0400 {}
    else if e == 0x0800 {}
    else if e == 0x0c00 {}
    else if e == 0x1000 {}
    else if e == 0x1400 {}
    else if e == 0x1800 {}
    else if e == 0x1c00 {}
    else if e == 0x2000 {}
    else if e == 0x2400 {}
    else if e == 0x2800 {}
    else if e == 0x2c00 {}
    else if e == 0x3000 {}
    else if e == 0x3400 {}
    else if e == 0x3800 {}
    else if e == 0x3c00 {}
    else if e == 0x4000 {}
    else if e == 0x4400 {}
    else if e == 0x4800 {}
    else if e == 0x4c00 {}
    else if e == 0x5000 {}
    else if e == 0x5400 {}
    else if e == 0x5800 {}
    else if e == 0x5c00 {}
    else if e == 0x6000 {}
    else if e == 0x6400 {}
    else if e == 0x6800 {}
    else if e == 0x6c00 {}
    else if e == 0x7000 {}
    else if e == 0x7400 {}
    else {}
  }

  /** Infinities survive the round trip. */
  lemma InfRoundTrip(h: bv16)
    requires IsInfHalf(h)
    ensures FloatToHalf(HalfToFloat(h)) == h
  {
    HalfToFloatIsSpecial(h);
    SpecialFields(h);
  }

  /** A NaN comes back as the NaN of the same sign with the all-ones
      significand. */
  lemma NanRoundTrip(h: bv16)
    requires IsNanHalf(h)
    ensures FloatToHalf(HalfToFloat(h)) == (h & 0x8000) | 0x7fff
  {
    HalfToFloatIsSpecial(h);
    SpecialFields(h);
  }

  /** Both zeros and every subnormal come back as +0. */
  lemma SmallFlushToZero(h: bv16)
    requires IsZeroHalf(h) || IsSubnormalHalf(h)
    ensures FloatToHalf(HalfToFloat(h)) == 0
  {
    if IsSubnormalHalf(h) {
      SubnormalExact(h);
      ExponentAtMost112(HalfToFloat(h));
    } else {
      HalfToFloatZero(h);
    }
  }

  lemma ExponentAtMost112(f: bv32)
    requires (f >> 23) & 0xff <= 112
    ensures f & 0x7f80_0000 <= 0x3800_0000
  {
  }

  /** Truncation instead of rounding: in the normal range, going to half and
      back clears exactly the 13 low significand bits of the float. */
  lemma NormalRangeTruncates(x: bv32)
    requires InHalfNormalRange(x)
    ensures HalfToFloat(FloatToHalf(x)) == x & 0xffff_e000
  {
    NormalFieldsParts(x >> 31, x & 0x7f80_0000, x & 0x007f_ffff);
    FloatToHalfIsNormal(x);
    HalfToFloatIsNormal(FloatToHalf(x));
    TruncateThroughHalf(x);
  }

  /** Splitting on the 30 exponents of the normal range lets each case be
      checked with a constant exponent. */
  lemma TruncateThroughHalf(x: bv32)
    requires 0x3800_0000 < x & 0x7f80_0000 < 0x4780_0000
    ensures NormalToFloat(NormalFields(x >> 31, x & 0x7f80_0000, x & 0x007f_ffff)) == x & 0xffff_e000
  {
    var e := x & 0x7f80_0000;
    if e == 0x38800000 {}
    else if e == 0x39000000 {}
    else if e == 0x39800000 {}
    else if e == 0x3a000000 {}
    else if e == 0x3a800000 {}
    else if e == 0x3b000000 {}
    else if e == 0x3b800000 {}
    else if e == 0x3c000000 {}
    else if e == 0x3c800000 {}
    else if e == 0x3d000000 {}
    else if e == 0x3d800000 {}
    else if e == 0x3e000000 {}
    else if e == 0x3e800000 {}
    else if e == 0x3f000000 {}
    else if e == 0x3f800000 {}
    else if e == 0x40000000 {}
    else if e == 0x40800000 {}
    else if e == 0x41000000 {}
    else if e == 0x41800000 {}
    else if e == 0x42000000 {}
    else if e == 0x42800000 {}
    else if e == 0x43000000 {}
    else if e == 0x43800000 {}
    else if e == 0x44000000 {}
    else if e == 0x44800000 {}
    else if e == 0x45000000 {}
    else if e == 0x45800000 {}
    else if e == 0x46000000 {}
    else if e == 0x46800000 {}
    else {}
  }

  lemma FloatToHalfIsNormal(x: bv32)
    requires InHalfNormalRange(x)
    ensures FloatToHalf(x) == NormalFields(x >> 31, x & 0x7f80_0000, x & 0x007f_ffff)
  {
  }

  /** The subnormal branch is exact. A subnormal half with significand m
      denotes m * 2^-24; the float produced has exponent field E and
      significand field M and denotes (2^23 + M) * 2^(E - 150). They agree:
      E lies in 103..112, the leading one of m sits at bit E - 103 (so m is
      below 2^(E - 102) and no bit is lost by the shift), and
      2^23 + M == m * 2^(126 - E). */
  predicate ExactSubnormalImage(m: bv32, f: bv32) {
    var e := (f >> 23) & 0xff;
    103 <= e <= 112
    && m >> (e - 103) == 1
    && 0x80_0000 | (f & 0x007f_ffff) == m << (126 - e)
  }

  lemma SubnormalExact(h: bv16)
    requires IsSubnormalHalf(h)
    ensures HalfToFloat(h) >> 31 == (h >> 15) as bv32
    ensures ExactSubnormalImage((h as bv32) & 0x3ff, HalfToFloat(h))
  {
    HalfToFloatIsSubnormal(h);
    SubnormalToFloatExact(h);
  }

  lemma SubnormalToFloatExact(h: bv16)
    requires IsSubnormalHalf(h)
    ensures SubnormalToFloat(h) >> 31 == (h >> 15) as bv32
    ensures ExactSubnormalImage((h as bv32) & 0x3ff, SubnormalToFloat(h))
  {
    SubnormalParts(h);
    var m := (h as bv32) & 0x3ff;
    RenormalizeReachesBit10(m, 0);
    AssembleExact(((h as bv32) & 0x8000) << 16, m, Renormalize(m, 0));
  }

  /** The fields of the assembled float once the loop has stopped. */
  lemma AssembleExact(fSign: bv32, m: bv32, shifts: bv32)
    requires 0 < m < 0x400 && fSign & 0x7fff_ffff == 0 && shifts <= 9
    requires ((m << 1) << shifts) & 0x400 != 0 && (m << 1) << shifts < 0x800
    ensures SubnormalAssemble(fSign, m, shifts) >> 31 == fSign >> 31
    ensures ExactSubnormalImage(m, SubnormalAssemble(fSign, m, shifts))
  {
  }

  // ---------------------------------------------------------------------
  // Unfolding half_to_float one case at a time

  lemma HalfToFloatZero(h: bv16)
    requires IsZeroHalf(h)
    ensures HalfToFloat(h) == ((h as bv32) & 0x8000) << 16
  {
  }

  lemma HalfToFloatIsSubnormal(h: bv16)
    requires IsSubnormalHalf(h)
    ensures HalfToFloat(h) == SubnormalToFloat(h)
  {
  }

  lemma HalfToFloatIsSpecial(h: bv16)
    requires h & 0x7c00 == 0x7c00
    ensures HalfToFloat(h) == (((h as bv32) & 0x8000) << 16) + 0x7f80_0000 + (((h & 0x03ff) as bv32) << 13)
  {
  }

  lemma HalfToFloatIsNormal(h: bv16)
    requires IsNormalHalf(h)
    ensures HalfToFloat(h) == NormalToFloat(h)
  {
  }

  // ---------------------------------------------------------------------
  // The software float16 struct

  /** The `float16` struct used when the compiler has no native half type:
      it holds the 16 raw bits. */
  datatype Float16 = Float16(bits: bv16) {
    /** `operator uint16_t`. */
    function ToBits(): bv16 { bits }

    /** `operator float`: the same conversion as `half_to_float`. */
    function ToFloat(): (f: bv32)
      ensures f >> 31 == (bits >> 15) as bv32
    {
      HalfToFloatSpecial(bits);
      HalfToFloat(bits)
    }
  }

  /** `operator=(uint16_t)`: storing raw bits, read back unchanged. */
  function AssignBits(u: bv16): (h: Float16)
    ensures h.ToBits() == u
  {
    Float16(u)
  }

  /** `operator=(float)`: the same conversion as `float_to_half`. */
  function AssignFloat(x: bv32): (h: Float16)
    ensures InHalfNormalRange(x) ==> h.ToFloat() == x & 0xffff_e000
    ensures x & 0x7f80_0000 <= 0x3800_0000 ==> h.ToBits() == 0
    ensures x & 0x7f80_0000 >= 0x4780_0000 ==> h.ToBits() & 0x7c00 == 0x7c00
  {
    FloatToHalfCases(x);
    Float16(FloatToHalf(x))
  }

  lemma FloatToHalfCases(x: bv32)
    ensures InHalfNormalRange(x) ==> HalfToFloat(FloatToHalf(x)) == x & 0xffff_e000
    ensures x & 0x7f80_0000 >= 0x4780_0000 ==> FloatToHalf(x) & 0x7c00 == 0x7c00
  {
    if InHalfNormalRange(x) {
      NormalRangeTruncates(x);
    } else if x & 0x7f80_0000 >= 0x4780_0000 {
      FloatToHalfOverflow(x);
    }
  }

  /** Converting a normal half to float and assigning it back reproduces the
      same bits. */
  lemma StructNormalRoundTrip(h: Float16)
    requires IsNormalHalf(h.bits)
    ensures AssignFloat(h.ToFloat()) == h
  {
    NormalRoundTrip(h.bits);
  }
}

=== FILE: instrument.dfy ===
/** `BlipKitInstrument`: four envelopes (volume, panning, pitch, duty
    cycle), each a list of values with optional step counts and a sustain
    cycle.

    The instrument keeps a copy of what it handed to BlipKit so that it can
    be read back and saved; the library call itself is returned as a value,
    and whether the library accepts it is a parameter. The current and the
    older implementation are one model; `older` selects the older
    behaviour where the two differ. */
module Instruments {
  import opened Wrappers
  import opened Bytes
  import Levels

  datatype EnvelopeType = Volume | Panning | Pitch | DutyCycle

  /** BlipKit's `BK_MAX_SEQUENCES`, the number of envelope types. */
  const ENVELOPE_MAX: nat := 4

  /** BlipKit's `BK_MAX_VOLUME`. */
  const MAX_VOLUME: int := 0x7fff

  /** BlipKit's `BK_FINT20_UNIT`, one semitone in 20-bit fixed point. */
  const FINT20_UNIT: int := 0x10_0000

  /** The enum value, which is also BlipKit's sequence index. */
  function Ordinal(t: EnvelopeType): (n: nat)
    ensures n < ENVELOPE_MAX
  {
    match t
    case Volume => 0
    case Panning => 1
    case Pitch => 2
    case DutyCycle => 3
  }

  /** `ERR_FAIL_INDEX(p_type, ENVELOPE_MAX)`: an envelope type from a
      script integer, or nothing when it is out of range. */
  function TypeOf(n: int): (r: Option<EnvelopeType>)
    ensures r.Some? <==> 0 <= n < ENVELOPE_MAX
    ensures r.Some? ==> Ordinal(r.value) == n
  {
    if n == 0 then Some(Volume)
    else if n == 1 then Some(Panning)
    else if n == 2 then Some(Pitch)
    else if n == 3 then Some(DutyCycle)
    else None
  }

  lemma TypeRoundTrip(t: EnvelopeType)
    ensures TypeOf(Ordinal(t)) == Some(t)
  {
  }

  /** What each value is multiplied by before the library sees it. */
  function Multiplier(t: EnvelopeType): (m: real)
    ensures m >= 1.0
  {
    match t
    case Volume => MAX_VOLUME as real
    case Panning => MAX_VOLUME as real
    case Pitch => FINT20_UNIT as real
    case DutyCycle => 1.0
  }

  /** The copy an instrument keeps of one envelope. */
  datatype Sequence = Sequence(steps: seq<int>, values: seq<real>, sustainOffset: int, sustainLength: int)
  {
    /** The sustain cycle lies inside the values. */
    predicate Valid() {
      0 <= sustainOffset <= |values| && 0 <= sustainLength <= |values| - sustainOffset
    }

    /** Steps are absent or one per value (the current code rejects
        anything else). */
    predicate Matched() {
      |steps| == 0 || |steps| == |values|
    }
  }

  const EMPTY: Sequence := Sequence([], [], 0, 0)

  datatype Instrument = Instrument(sequences: seq<Sequence>)
  {
    predicate Valid() {
      |sequences| == ENVELOPE_MAX && forall i :: 0 <= i < |sequences| ==> sequences[i].Valid()
    }

    /** Every envelope also satisfies the current code's step check. */
    predicate Matched() {
      forall i :: 0 <= i < |sequences| ==> sequences[i].Matched()
    }

    function Get(t: EnvelopeType): Sequence
      requires Valid()
    {
      sequences[Ordinal(t)]
    }
  }

  /** A new instrument: every envelope empty. */
  function New(): (ins: Instrument)
    ensures ins.Valid() && ins.Matched()
    ensures forall t :: ins.Get(t) == EMPTY
  {
    Instrument([EMPTY, EMPTY, EMPTY, EMPTY])
  }

  /** One phase of a stepped envelope as the library receives it: the step
      count cast to unsigned and the scaled value truncated. `steps` is
      `None` where the older code indexes past the end of the steps array,
      which godot-cpp's checked `operator[]` answers with a null
      dereference, so no step count reaches the library. */
  datatype Phase = Phase(steps: Option<nat>, value: int)

  /** The library call `set_envelope` ends with. */
  datatype Call =
    | SetEnvelopeCall(sequence: nat, phases: seq<Phase>, offset: int, length: int)
    | SetSequenceCall(sequence: nat, values: seq<int>, offset: int, length: int)

  /** The sustain offset after the adjustment for negative values (current
      code only: -1 means the end) and the clamp to the values. */
  function SustainOffset(offset: int, size: nat, older: bool): (r: int)
    ensures 0 <= r <= size
    ensures 0 <= offset <= size ==> r == offset
    ensures offset > size ==> r == size
    ensures !older && -(size as int) - 1 <= offset < 0 ==> r == offset + size + 1
    ensures older && offset < 0 ==> r == 0
    ensures !older && offset < -(size as int) - 1 ==> r == 0
  {
    var o := if !older && offset < 0 then offset + size + 1 else offset;
    Clamp(o, 0, size)
  }

  /** The sustain length clamped to what follows the offset. */
  function SustainLength(length: int, offset: int, size: nat): (r: int)
    requires 0 <= offset <= size
    ensures 0 <= r <= size - offset
    ensures 0 <= length <= size - offset ==> r == length
  {
    Clamp(length, 0, size - offset)
  }

  /** The step count the older code reads for value `i`. */
  function StepRead(steps: seq<int>, i: nat): (r: Option<nat>)
    ensures r.Some? <==> i < |steps|
    ensures r.Some? ==> IsU32(r.value) && (r.value - steps[i]) % U32_LIMIT == 0
  {
    if i < |steps| then Some(WrapU32(steps[i])) else None
  }

  /** The library call for the given envelope; one phase per value. */
  function LibraryCall(t: EnvelopeType, values: seq<real>, steps: seq<int>, offset: int, length: int): (c: Call)
    ensures c.sequence == Ordinal(t) && c.offset == offset && c.length == length
    ensures c.SetEnvelopeCall? <==> |steps| > 0
    ensures c.SetEnvelopeCall? ==> |c.phases| == |values|
    ensures c.SetSequenceCall? ==> |c.values| == |values|
  {
    var m := Multiplier(t);
    if |steps| > 0 then
      SetEnvelopeCall(Ordinal(t), seq(|values|, i requires 0 <= i < |values| =>
        Phase(StepRead(steps, i), Levels.Truncate(values[i] * m))), offset, length)
    else
      SetSequenceCall(Ordinal(t), seq(|values|, i requires 0 <= i < |values| => Levels.Truncate(values[i] * m)),
        offset, length)
  }

  /** What `set_envelope` would store and hand to the library, or nothing
      when it fails before that: an unknown type, or (current code only)
      steps that are neither absent nor one per value. */
  function Plan(typeIndex: int, values: seq<real>, steps: seq<int>, offset: int, length: int, older: bool): (r: Option<(Sequence, Call)>)
    ensures r.Some? <==> 0 <= typeIndex < ENVELOPE_MAX && (older || |steps| == 0 || |steps| == |values|)
    ensures r.Some? ==> var (s, c) := r.value;
                        s.Valid() && s.steps == steps && s.values == values
                        && s.sustainOffset == SustainOffset(offset, |values|, older)
                        && s.sustainLength == SustainLength(length, s.sustainOffset, |values|)
                        && c == LibraryCall(TypeOf(typeIndex).value, values, steps, s.sustainOffset, s.sustainLength)
  {
    match TypeOf(typeIndex)
    case None => None
    case Some(t) =>
      if !older && |steps| > 0 && |steps| != |values| then None
      else
        var o := SustainOffset(offset, |values|, older);
        var l := SustainLength(length, o, |values|);
        Some((Sequence(steps, values, o, l), LibraryCall(t, values, steps, o, l)))
  }

  /** `set_envelope`. `accepted` says whether BlipKit took the call; only
      then is the envelope's copy replaced. Returns the instrument and the
      library call made, if any. */
  function SetEnvelope(ins: Instrument, typeIndex: int, values: seq<real>, steps: seq<int>, offset: int, length: int,
                       older: bool, accepted: bool): (r: (Instrument, Option<Call>))
    requires ins.Valid()
    ensures r.0.Valid()
    ensures r.1.Some? <==> Plan(typeIndex, values, steps, offset, length, older).Some?
    ensures r.1.Some? ==> r.1.value == Plan(typeIndex, values, steps, offset, length, older).value.1
    ensures !(r.1.Some? && accepted) ==> r.0 == ins
    ensures r.1.Some? && accepted ==>
              forall t :: r.0.Get(t) == if Ordinal(t) == typeIndex then Plan(typeIndex, values, steps, offset, length, older).value.0
                                        else ins.Get(t)
  {
    match Plan(typeIndex, values, steps, offset, length, older)
    case None => (ins, None)
    case Some((s, c)) =>
      if accepted then (Instrument(ins.sequences[typeIndex := s]), Some(c)) else (ins, Some(c))
  }

  /** The current code keeps every envelope's steps matched to its values. */
  lemma SetEnvelopeKeepsMatched(ins: Instrument, typeIndex: int, values: seq<real>, steps: seq<int>, offset: int,
                                length: int, accepted: bool)
    requires ins.Valid() && ins.Matched()
    ensures SetEnvelope(ins, typeIndex, values, steps, offset, length, false, accepted).0.Matched()
  {
  }

  /** `has_envelope`: false for an unknown type. */
  function HasEnvelope(ins: Instrument, typeIndex: int): (r: bool)
    requires ins.Valid()
    ensures r <==> 0 <= typeIndex < ENVELOPE_MAX && |ins.sequences[typeIndex].values| > 0
  {
    match TypeOf(typeIndex)
    case None => false
    case Some(t) => |ins.Get(t).values| > 0
  }

  /** `get_envelope_steps`, `get_envelope_values`,
      `get_envelope_sustain_offset`, `get_envelope_sustain_length`: the
      stored copy, or an empty envelope for an unknown type. */
  function GetEnvelope(ins: Instrument, typeIndex: int): (s: Sequence)
    requires ins.Valid()
    ensures s.Valid()
    ensures !(0 <= typeIndex < ENVELOPE_MAX) ==> s == EMPTY
  {
    match TypeOf(typeIndex)
    case None => EMPTY
    case Some(t) => ins.Get(t)
  }

  /** What was stored is what is read back; other envelopes are unchanged. */
  lemma SetThenGet(ins: Instrument, t: EnvelopeType, values: seq<real>, steps: seq<int>, offset: int, length: int,
                   older: bool, other: EnvelopeType)
    requires ins.Valid() && (older || |steps| == 0 || |steps| == |values|)
    ensures var ins2 := SetEnvelope(ins, Ordinal(t), values, steps, offset, length, older, true).0;
            var s := GetEnvelope(ins2, Ordinal(t));
            s.values == values && s.steps == steps
            && s.sustainOffset == SustainOffset(offset, |values|, older)
            && HasEnvelope(ins2, Ordinal(t)) == (|values| > 0)
            && (other != t ==> GetEnvelope(ins2, Ordinal(other)) == GetEnvelope(ins, Ordinal(other)))
  {
  }

  /** Storing an envelope that is already valid and matched stores it
      unchanged: the clamps are idempotent. */
  lemma StoreStored(s: Sequence, t: EnvelopeType, older: bool)
    requires s.Valid() && s.Matched()
    ensures var p := Plan(Ordinal(t), s.values, s.steps, s.sustainOffset, s.sustainLength, older);
            p.Some? && p.value.0 == s
  {
  }

  /** `clear_envelope`: once the library accepts, the envelope is gone. */
  function ClearEnvelope(ins: Instrument, typeIndex: int, older: bool, accepted: bool): (r: (Instrument, Option<Call>))
    requires ins.Valid()
    ensures r.0.Valid()
    ensures 0 <= typeIndex < ENVELOPE_MAX && accepted ==>
              !HasEnvelope(r.0, typeIndex) && GetEnvelope(r.0, typeIndex) == EMPTY
    ensures forall t :: Ordinal(t) != typeIndex ==> r.0.Get(t) == ins.Get(t)
  {
    SetEnvelope(ins, typeIndex, [], [], 0, 0, older, accepted)
  }

  /** `set_adsr` (and `create_with_adsr` on a new instrument): a volume
      envelope rising to 1 in `attack` steps, falling to `sustain` in
      `decay` steps, holding it in a one-phase sustain cycle of 240 steps
      and falling to 0 in `release` steps. */
  function SetAdsr(ins: Instrument, attack: int, decay: int, sustain: real, release: int, older: bool, accepted: bool)
    : (r: (Instrument, Option<Call>))
    requires ins.Valid()
    ensures r.0.Valid() && r.1.Some?
    ensures r.1.value.SetEnvelopeCall? && r.1.value.sequence == Ordinal(Volume)
    ensures accepted ==> r.0.Get(Volume) == Sequence([attack, decay, 240, release], [1.0, sustain, sustain, 0.0], 2, 1)
    ensures !accepted ==> r.0 == ins
    ensures forall t :: t != Volume ==> r.0.Get(t) == ins.Get(t)
  {
    SetEnvelope(ins, Ordinal(Volume), [1.0, sustain, sustain, 0.0], [attack, decay, 240, release], 2, 1, older, accepted)
  }

  /** The indices the older code reads from the steps array. */
  function OlderStepReads(steps: seq<int>, values: seq<real>): (r: seq<nat>)
    ensures |steps| > 0 ==> |r| == |values|
  {
    if |steps| > 0 then seq(|values|, i requires 0 <= i < |values| => i) else []
  }

  /** As written, the older `set_envelope` indexes `steps` past its end
      whenever there are fewer steps than values; godot-cpp's checked
      `operator[]` then dereferences null instead of yielding a step count. */
  lemma OlderReadsPastSteps(t: EnvelopeType, steps: seq<int>, values: seq<real>)
    requires 0 < |steps| < |values|
    ensures |steps| in OlderStepReads(steps, values)
    ensures var p := Plan(Ordinal(t), values, steps, 0, 0, true);
            p.Some? && p.value.1.SetEnvelopeCall? && p.value.1.phases[|steps|].steps.None?
  {
    assert OlderStepReads(steps, values)[|steps|] == |steps|;
  }

  /** Concrete instance: one step count for two values. */
  lemma OlderReadsPastStepsExample()
    ensures Plan(0, [1.0, 0.5], [4], 0, 0, true).value.1.phases[1].steps.None?
  {
    OlderReadsPastSteps(Volume, [4], [1.0, 0.5]);
  }

  /** The current code refuses mismatched steps, so every step count the
      library receives was read from inside the array. */
  lemma StepReadsInBounds(typeIndex: int, values: seq<real>, steps: seq<int>, offset: int, length: int)
    ensures var p := Plan(typeIndex, values, steps, offset, length, false);
            p.Some? && p.value.1.SetEnvelopeCall? ==>
              forall i :: 0 <= i < |p.value.1.phases| ==>
                p.value.1.phases[i].steps == Some(WrapU32(steps[i]))
  {
  }

  /** One element of a stored property array. */
  datatype Field = StepsField(steps: seq<int>) | ValuesField(values: seq<real>) | IntField(n: int) | OtherField

  /** Variant conversions to the expected element types; anything else
      converts to an empty array or 0. */
  function AsSteps(f: Field): seq<int> {
    if f.StepsField? then f.steps else []
  }

  function AsValues(f: Field): seq<real> {
    if f.ValuesField? then f.values else []
  }

  function AsInt(f: Field): int {
    if f.IntField? then f.n else 0
  }

  /** The stored properties, one per envelope type. */
  function PropertyName(t: EnvelopeType): string {
    match t
    case Volume => "envelope/volume"
    case Panning => "envelope/panning"
    case Pitch => "envelope/pitch"
    case DutyCycle => "envelope/duty_cycle"
  }

  /** The envelope type a property name denotes. */
  function PropertyType(name: string): (r: Option<EnvelopeType>)
    ensures r.Some? ==> PropertyName(r.value) == name
    ensures forall t :: PropertyName(t) == name ==> r == Some(t)
  {
    if name == "envelope/volume" then Some(Volume)
    else if name == "envelope/panning" then Some(Panning)
    else if name == "envelope/pitch" then Some(Pitch)
    else if name == "envelope/duty_cycle" then Some(DutyCycle)
    else None
  }

  /** `_get`: [steps, values, offset, length] for a non-empty envelope, an
      empty array for an empty one, nothing for another name. */
  function GetProperty(ins: Instrument, name: string): (r: Option<seq<Field>>)
    requires ins.Valid()
    ensures r.Some? <==> PropertyType(name).Some?
    ensures r.Some? ==> var s := ins.Get(PropertyType(name).value);
                        (|r.value| == 4 <==> |s.values| > 0) && (|r.value| != 4 ==> r.value == [])
  {
    match PropertyType(name)
    case None => None
    case Some(t) =>
      var s := ins.Get(t);
      if |s.values| > 0 then Some([StepsField(s.steps), ValuesField(s.values), IntField(s.sustainOffset), IntField(s.sustainLength)])
      else Some([])
  }

  /** `_set`: an array of four elements goes through `set_envelope`. An
      array of another size is refused; the current code reports the
      property as not handled, the older one as handled. */
  function SetProperty(ins: Instrument, name: string, data: seq<Field>, older: bool, accepted: bool): (r: (bool, Instrument))
    requires ins.Valid()
    ensures r.1.Valid()
    ensures r.0 <==> PropertyType(name).Some? && (older || |data| == 4)
    ensures |data| != 4 || PropertyType(name).None? ==> r.1 == ins
    ensures PropertyType(name).Some? && |data| == 4 ==>
              r.1 == SetEnvelope(ins, Ordinal(PropertyType(name).value), AsValues(data[1]), AsSteps(data[0]),
                                 AsInt(data[2]), AsInt(data[3]), older, accepted).0
  {
    match PropertyType(name)
    case None => (false, ins)
    case Some(t) =>
      if |data| != 4 then (older, ins)
      else
        var ins2 := SetEnvelope(ins, Ordinal(t), AsValues(data[1]), AsSteps(data[0]), AsInt(data[2]), AsInt(data[3]),
                                older, accepted).0;
        (true, ins2)
  }

  /** Saving an envelope through its property and loading it into any
      instrument copies it over and leaves the other envelopes alone; an
      empty envelope saves as an empty array, which loads as nothing. */
  lemma PropertyRoundTrip(ins: Instrument, target: Instrument, t: EnvelopeType, older: bool)
    requires ins.Valid() && ins.Matched() && target.Valid()
    ensures var saved := GetProperty(ins, PropertyName(t)).value;
            var (handled, loaded) := SetProperty(target, PropertyName(t), saved, older, true);
            (|ins.Get(t).values| > 0 ==> handled && loaded.Get(t) == ins.Get(t))
            && (|ins.Get(t).values| == 0 ==> loaded == target)
            && forall u :: u != t ==> loaded.Get(u) == target.Get(u)
  {
    var s := ins.Get(t);
    assert s.Valid() && s.Matched();
    if |s.values| > 0 {
      StoreStored(s, t, older);
    }
  }
}

=== FILE: interpreter.dfy ===
/** `BlipKitInterpreter` of the current tree: executes the code section of
    a bytecode object instruction by instruction, sending commands to a
    track, until a wait, the end of the code or an error.

    The track is an event log: a step returns the commands it sends.
    Instrument, waveform and sample slots are looked up by the track side,
    so a command names the slot. The float product `steps * step_ticks` of
    the slide, vibrato, tremolo, portamento and DELAY_STEP operands is
    floating-point work; it is the parameter `scale`, applied to the
    binary16 bits of the operand and the step length, and truncated to
    uint32 as the conversion stores it. Binary16 operands are their 16 bits
    read as a uint16. */
module Interpreter {
  import opened Wrappers
  import opened Bytes
  import opened ByteStream
  import opened Delays
  import opened Variants
  import Bytecode
  import Assembler

  /** `STACK_SIZE_MAX`. */
  const STACK_SIZE_MAX: nat := 16
  /** `SLOT_COUNT`: the instrument, waveform and sample slots. */
  const SLOT_COUNT: nat := 256
  /** `STEP_TICKS_DEFAULT`. */
  const STEP_TICKS_DEFAULT: nat := 24
  /** `BlipKitTrack::ARPEGGIO_MAX`: the length the constructor gives the
      arpeggio buffer. */
  const ARPEGGIO_MAX: nat := 8
  const UINT16_MAX: nat := 0xffff

  /** `State`, in declaration order. */
  datatype RunState =
    | Running
    | Finished
    | ErrInvalidBinary
    | ErrInvalidOpcode
    | ErrInvalidLabel
    | ErrStackOverflow
    | ErrStackUnderflow

  /** The enumerator's value. */
  function Ordinal(s: RunState): nat {
    match s
    case Running => 0
    case Finished => 1
    case ErrInvalidBinary => 2
    case ErrInvalidOpcode => 3
    case ErrInvalidLabel => 4
    case ErrStackOverflow => 5
    case ErrStackUnderflow => 6
  }

  /** The states that are errors. */
  predicate IsError(s: RunState) {
    !s.Running? && !s.Finished?
  }

  /** Errors are exactly the states from ERR_INVALID_BINARY on, the test
      `advance` makes at the end of the code. */
  lemma ErrorsFromInvalidBinary(s: RunState)
    ensures IsError(s) <==> Ordinal(s) >= Ordinal(ErrInvalidBinary)
    ensures forall t: RunState :: Ordinal(t) == Ordinal(s) ==> t == s
  {
  }

  /** What the interpreter sends to the track. */
  datatype Command =
    | SetNote(note: nat)
    | Release
    | Mute
    | SetVolume(volume: nat)
    | SetMasterVolume(volume: nat)
    | SetPanning(panning: nat)
    | SetWaveform(waveform: nat)
    | SetDutyCycle(dutyCycle: nat)
    | SetPitch(pitch: nat)
    | SetPhaseWrap(phaseWrap: nat)
    | SetPortamento(ticks: nat)
    | SetVibrato(ticks: nat, delta: nat, slideTicks: nat)
    | SetTremolo(ticks: nat, delta: nat, slideTicks: nat)
    | SetVolumeSlide(ticks: nat)
    | SetPanningSlide(ticks: nat)
    | SetEffectDivider(divider: nat)
    | SetArpeggio(notes: seq<nat>)
    | SetArpeggioDivider(divider: nat)
    | ResetTrack
    | SetInstrument(slot: nat)
    | SetInstrumentDivider(divider: nat)
    | SetCustomWaveform(slot: nat)
    | SetSample(slot: nat)
    | SetSamplePitch(pitch: nat)

  /** The float product of a binary16 step count and the step length. */
  type Scale = (nat, nat) -> nat

  /** The interpreter: the code being run, the bytecode it came from, the
      return stack, the delay register, the arpeggio buffer, the step
      length and the state. */
  datatype Machine = Machine(code: Stream, program: Option<Bytecode.Bytecode>, stack: seq<nat>,
                             delay: DelayRegister, arpeggio: seq<nat>, stepTicks: nat,
                             state: RunState)
  {
    /** What every operation keeps: a valid stream and delay register, a
        bounded stack of uint32 positions, a step length in [1, 65535],
        and an error state only with the code read to its end. */
    predicate Valid() {
      code.Valid() && delay.Valid()
      && |stack| <= STACK_SIZE_MAX && (forall i :: 0 <= i < |stack| ==> IsU32(stack[i]))
      && 1 <= stepTicks <= UINT16_MAX
      && (IsError(state) ==> code.cursor == code.count)
      && (program.Some? ==> program.value.Valid())
    }
  }

  /** The constructor: no code, an empty stack, eight zero arpeggio notes,
      24 ticks per step, running. */
  function Init(): (m: Machine)
    ensures m.Valid() && m.state == Running && m.stepTicks == STEP_TICKS_DEFAULT
    ensures m.code.count == 0 && m.stack == [] && m.delay == NO_DELAYS && |m.arpeggio| == ARPEGGIO_MAX
  {
    Machine(Empty(), None, [], NO_DELAYS, seq(ARPEGGIO_MAX, _ => 0), STEP_TICKS_DEFAULT, Running)
  }

  /** `fail_with_error`: record the state and skip to the end of the code,
      so that nothing more executes. */
  function Fail(m: Machine, state: RunState): (r: Machine)
    requires m.Valid() && IsError(state)
    ensures r.Valid() && r.state == state && r.code.cursor == r.code.count
    ensures r.code.Contents() == m.code.Contents()
    ensures r == m.(code := r.code, state := state)
  {
    m.(code := Seek(m.code, m.code.count), state := state)
  }

  /** `set_step_ticks` (an int argument). */
  function SetStepTicks(m: Machine, stepTicks: int): (r: Machine)
    requires m.Valid() && IsI32(stepTicks)
    ensures r.Valid() && 1 <= r.stepTicks <= UINT16_MAX
    ensures 1 <= stepTicks <= UINT16_MAX ==> r.stepTicks == stepTicks
    ensures stepTicks < 1 ==> r.stepTicks == 1
    ensures stepTicks > UINT16_MAX ==> r.stepTicks == UINT16_MAX
    ensures r == m.(stepTicks := r.stepTicks)
  {
    m.(stepTicks := Clamp(stepTicks, 1, UINT16_MAX))
  }

  // ---------------------------------------------------------------------
  // Loading and resetting.

  /** `reset`: start at the code section, or at a label's offset from it;
      clear the stack, the delay register, the arpeggio and the error. An
      unknown label is an error; without bytecode nothing happens. */
  function Reset(m: Machine, start: seq<byte>): (r: Machine)
    requires m.Valid()
    ensures r.Valid() && r.code.Contents() == m.code.Contents()
    ensures m.program.None? ==> r == m
    ensures m.program.Some? && start != [] && !m.program.value.HasLabel(start) ==>
              r == Fail(m, ErrInvalidLabel)
    ensures m.program.Some? && (start == [] || m.program.value.HasLabel(start)) ==>
              var b := m.program.value;
              var at := if start == [] then 0 else b.labels[Bytecode.FindLabel(b.labels, start)].offset;
              r.state == Running && r.stack == [] && r.delay == NO_DELAYS && r.arpeggio == []
              && r.stepTicks == m.stepTicks && r.program == m.program
              && r.code.cursor == Min(WrapU32(b.CodeSectionOffset() + at), m.code.count)
  {
    match m.program
    case None => m
    case Some(b) =>
      if start != [] && !b.HasLabel(start) then Fail(m, ErrInvalidLabel)
      else
        var at := if start == [] then 0 else b.LabelPosition(Bytecode.FindLabel(b.labels, start));
        var position := WrapU32(b.CodeSectionOffset() + at);
        m.(code := Seek(m.code, position), stack := [], delay := NO_DELAYS, arpeggio := [], state := Running)
  }

  /** `load_byte_code`: reject a missing object, an object that did not
      parse and an unknown start label; otherwise take the object's bytes
      and reset to the label. */
  function LoadByteCode(m: Machine, b: Option<Bytecode.Bytecode>, start: seq<byte>): (r: (bool, Machine))
    requires m.Valid() && (b.Some? ==> b.value.Valid())
    ensures r.1.Valid()
    ensures b.None? ==> r == (false, m)
    ensures b.Some? && !b.value.IsValid() ==> r == (false, Fail(m, ErrInvalidBinary))
    ensures b.Some? && b.value.IsValid() && start != [] && !b.value.HasLabel(start) ==>
              r == (false, Fail(m, ErrInvalidLabel))
    ensures r.0 <==> b.Some? && b.value.IsValid() && (start == [] || b.value.HasLabel(start))
    ensures r.0 ==> r.1.program == b && r.1.code.Contents() == b.value.Bytes() && r.1.state == Running
  {
    match b
    case None => (false, m)
    case Some(bc) =>
      if !bc.IsValid() then (false, Fail(m, ErrInvalidBinary))
      else if start != [] && !bc.HasLabel(start) then (false, Fail(m, ErrInvalidLabel))
      else (true, Reset(m.(program := b, code := SetBytes(bc.Bytes()), state := Running), start))
  }

  // ---------------------------------------------------------------------
  // Operands.

  /** `count` binary16 operands. */
  function GetHalves(s: Stream, count: nat): (r: (seq<nat>, Stream))
    requires s.Valid()
    ensures r.1.Valid() && |r.0| == count && r.1.Contents() == s.Contents()
    ensures r.1 == s.(cursor := r.1.cursor) && r.1.cursor >= s.cursor
    decreases count
  {
    if count == 0 then ([], s)
    else
      var (h, t) := GetU16(s);
      var (hs, u) := GetHalves(t, count - 1);
      ([h] + hs, u)
  }

  /** The ticks of a scaled operand, stored as a uint32. */
  function Ticks(scale: Scale, steps: nat, stepTicks: nat): (t: nat)
    ensures IsU32(t)
  {
    WrapU32(scale(steps, stepTicks))
  }

  /** Where a branch goes: the position after its offset operand, plus the
      offset, minus the operand's size, computed in int32 and sought as a
      uint32. */
  function BranchTarget(position: nat, offset: int): (t: nat)
    ensures IsU32(t)
    ensures 0 <= position + offset - 4 && IsI32(position) && IsI32(position + offset - 4) ==>
              t == position + offset - 4
  {
    WrapU32(WrapI32(WrapI32(position) + offset - 4))
  }

  // ---------------------------------------------------------------------
  // One instruction.

  /** Instructions with a binary16 operand that reaches the track as is. */
  const HALF_OPS: set<byte> :=
    {Assembler.OP_ATTACK, Assembler.OP_VOLUME, Assembler.OP_MASTER_VOLUME, Assembler.OP_PANNING,
     Assembler.OP_PITCH, Assembler.OP_SAMPLE_PITCH}
  /** Instructions with a one-byte operand. */
  const BYTE_OPS: set<byte> := Assembler.BYTE_OPS
  /** Instructions with a uint16 divider operand. */
  const DIVIDER_OPS: set<byte> := Assembler.DIVIDER_OPS
  /** Instructions with a binary16 step count the track receives as ticks. */
  const SLIDE_OPS: set<byte> :=
    {Assembler.OP_PORTAMENTO, Assembler.OP_VOLUME_SLIDE, Assembler.OP_PANNING_SLIDE}
  /** Instructions without operands that send a command. */
  const PLAIN_OPS: set<byte> := {Assembler.OP_RELEASE, Assembler.OP_MUTE, Assembler.OP_RESET}

  function HalfCommand(op: byte, h: nat): Command
    requires op in HALF_OPS
  {
    if op == Assembler.OP_ATTACK then SetNote(h)
    else if op == Assembler.OP_VOLUME then SetVolume(h)
    else if op == Assembler.OP_MASTER_VOLUME then SetMasterVolume(h)
    else if op == Assembler.OP_PANNING then SetPanning(h)
    else if op == Assembler.OP_PITCH then SetPitch(h)
    else SetSamplePitch(h)
  }

  function ByteCommand(op: byte, v: nat): Command
    requires op in BYTE_OPS
  {
    if op == Assembler.OP_WAVEFORM then SetWaveform(v)
    else if op == Assembler.OP_DUTY_CYCLE then SetDutyCycle(v)
    else if op == Assembler.OP_PHASE_WRAP then SetPhaseWrap(v)
    else if op == Assembler.OP_INSTRUMENT then SetInstrument(v)
    else if op == Assembler.OP_CUSTOM_WAVEFORM then SetCustomWaveform(v)
    else SetSample(v)
  }

  function DividerCommand(op: byte, v: nat): Command
    requires op in DIVIDER_OPS
  {
    if op == Assembler.OP_EFFECT_DIV then SetEffectDivider(v)
    else if op == Assembler.OP_ARPEGGIO_DIV then SetArpeggioDivider(v)
    else SetInstrumentDivider(v)
  }

  function SlideCommand(op: byte, ticks: nat): Command
    requires op in SLIDE_OPS
  {
    if op == Assembler.OP_PORTAMENTO then SetPortamento(ticks)
    else if op == Assembler.OP_VOLUME_SLIDE then SetVolumeSlide(ticks)
    else SetPanningSlide(ticks)
  }

  function PlainCommand(op: byte): Command
    requires op in PLAIN_OPS
  {
    if op == Assembler.OP_RELEASE then Release
    else if op == Assembler.OP_MUTE then Mute
    else ResetTrack
  }

  /** The outcome of one instruction: the machine after it, the commands
      sent, and the value `advance` returns if it returns here. */
  datatype Executed = Executed(m: Machine, commands: seq<Command>, result: Option<int>)

  /** Send a command unless the delay register is recording. */
  function Send(m: Machine, execute: bool, c: Command): (r: Executed)
    ensures r.m == m && r.result == None
    ensures |r.commands| <= 1 && (r.commands != [] <==> execute)
    ensures forall k :: 0 <= k < |r.commands| ==> r.commands[k] == c
  {
    Executed(m, if execute then [c] else [], None)
  }

  /** The end of a TICK or STEP of `ticks` ticks: inside a delay run the
      delay register decides how long to wait (and may send the stream
      back to the run's start); a wait of 0 ticks does not return. */
  function Wait(m: Machine, ticks: int): (r: Executed)
    requires m.Valid() && !IsError(m.state) && IsI32(ticks)
    ensures r.m.Valid() && r.commands == [] && r.m.state == m.state
    ensures r.m.code.Contents() == m.code.Contents() && r.m.stack == m.stack
    ensures r.result.Some? ==> r.result.value != 0 && IsI32(r.result.value)
    ensures |m.delay.delays| == 0 ==> r.m == m && r.result == (if ticks != 0 then Some(ticks) else None)
  {
    if |m.delay.delays| == 0 then
      Executed(m, [], if ticks != 0 then Some(ticks) else None)
    else
      var st := StepDelay(m.delay, WrapU32(ticks));
      var code := if st.seek.Some? then Seek(m.code, st.seek.value) else m.code;
      var waited := WrapI32(st.ticks);
      Executed(m.(code := code, delay := st.register), [], if waited != 0 then Some(waited) else None)
  }

  /** A DELAY_TICK or DELAY_STEP of `ticks` ticks at code offset `at`. */
  function Delay(m: Machine, ticks: nat, at: nat, asWritten: bool): (r: Executed)
    requires m.Valid() && !IsError(m.state) && IsU32(ticks) && IsU32(at)
    ensures r.m.Valid() && r.commands == [] && r.m.state == m.state
    ensures r.m.code == m.code && r.m.stack == m.stack
  {
    var (waited, d) := Begin(m.delay, ticks, at, asWritten);
    var w := WrapI32(waited);
    Executed(m.(delay := d), [], if w != 0 then Some(w) else None)
  }

  /** CALL: push the position after the operand and branch, unless the
      stack is full. */
  function Call(m: Machine, offset: int): (r: Executed)
    requires m.Valid() && !IsError(m.state)
    ensures r.m.Valid() && r.commands == []
    ensures |m.stack| >= STACK_SIZE_MAX ==> r == Executed(Fail(m, ErrStackOverflow), [], Some(-1))
    ensures |m.stack| < STACK_SIZE_MAX ==>
              r.result.None? && r.m.state == m.state
              && r.m.stack == m.stack + [WrapU32(WrapI32(m.code.cursor))]
              && r.m.code == Seek(m.code, BranchTarget(m.code.cursor, offset))
  {
    if |m.stack| >= STACK_SIZE_MAX then Executed(Fail(m, ErrStackOverflow), [], Some(-1))
    else
      var position := m.code.cursor;
      Executed(m.(stack := m.stack + [WrapU32(WrapI32(position))],
                 code := Seek(m.code, BranchTarget(position, offset))), [], None)
  }

  /** RETURN: pop a position and go there. The code reports an empty stack
      as ERR_STACK_OVERFLOW; the corrected machine reports
      ERR_STACK_UNDERFLOW. */
  function Return(m: Machine, asWritten: bool): (r: Executed)
    requires m.Valid() && !IsError(m.state)
    ensures r.m.Valid() && r.commands == []
    ensures |m.stack| == 0 ==>
              r == Executed(Fail(m, if asWritten then ErrStackOverflow else ErrStackUnderflow), [], Some(-1))
    ensures |m.stack| > 0 ==>
              r.result.None? && r.m.state == m.state && r.m.stack == m.stack[..|m.stack| - 1]
              && r.m.code == Seek(m.code, m.stack[|m.stack| - 1])
  {
    if |m.stack| == 0 then
      Executed(Fail(m, if asWritten then ErrStackOverflow else ErrStackUnderflow), [], Some(-1))
    else
      var n := |m.stack| - 1;
      Executed(m.(stack := m.stack[..n], code := Seek(m.code, m.stack[n])), [], None)
  }

  /** Instructions that wait, set the step length or branch: TICK to
      RETURN. */
  predicate IsFlowOp(op: byte) {
    Assembler.OP_TICK <= op <= Assembler.OP_RETURN
  }

  /** Instructions that only send a command: the other opcodes from ATTACK
      up to OP_MAX. */
  predicate IsCommandOp(op: byte) {
    Assembler.OP_ATTACK <= op < Assembler.OP_MAX && !IsFlowOp(op)
  }

  /** An instruction that sends a command: read its operands and send it,
      unless the delay register records. */
  function Execute(m: Machine, op: byte, execute: bool, scale: Scale): (r: Executed)
    requires m.Valid() && !IsError(m.state) && IsCommandOp(op)
    ensures r.m.Valid() && r.m.code.Contents() == m.code.Contents() && r.result.None?
    ensures r.m == m.(code := r.m.code, arpeggio := r.m.arpeggio)
    ensures |r.commands| == (if execute then 1 else 0)
  {
    if op == Assembler.OP_ARPEGGIO then ExecuteArpeggio(m, execute)
    else if op in Assembler.EFFECT_OPS then ExecuteEffect(m, op, execute, scale)
    else
      CommandOpsCovered(op);
      ExecuteSimple(m, op, execute, scale)
  }

  /** Every command instruction other than ARPEGGIO and the effects has at
      most one operand. */
  lemma CommandOpsCovered(op: byte)
    requires IsCommandOp(op) && op != Assembler.OP_ARPEGGIO && op !in Assembler.EFFECT_OPS
    ensures op in HALF_OPS + BYTE_OPS + DIVIDER_OPS + SLIDE_OPS + PLAIN_OPS
  {
  }

  /** The instructions with at most one operand. */
  function ExecuteSimple(m: Machine, op: byte, execute: bool, scale: Scale): (r: Executed)
    requires m.Valid() && !IsError(m.state)
    requires op in HALF_OPS + BYTE_OPS + DIVIDER_OPS + SLIDE_OPS + PLAIN_OPS
    ensures r.m.Valid() && r.m.code.Contents() == m.code.Contents() && r.result.None?
    ensures r.m == m.(code := r.m.code)
    ensures |r.commands| == (if execute then 1 else 0)
  {
    var s := m.code;
    if op in HALF_OPS then
      var (h, t) := GetU16(s);
      Send(m.(code := t), execute, HalfCommand(op, h))
    else if op in BYTE_OPS then
      var (v, t) := GetU8(s);
      Send(m.(code := t), execute, ByteCommand(op, v))
    else if op in DIVIDER_OPS then
      var (v, t) := GetU16(s);
      Send(m.(code := t), execute, DividerCommand(op, v))
    else if op in SLIDE_OPS then
      var (h, t) := GetU16(s);
      Send(m.(code := t), execute, SlideCommand(op, Ticks(scale, h, m.stepTicks)))
    else
      Send(m, execute, PlainCommand(op))
  }

  /** ARPEGGIO: a note count and that many binary16 notes, which become
      the arpeggio buffer; skipped as a block while recording. */
  function ExecuteArpeggio(m: Machine, execute: bool): (r: Executed)
    requires m.Valid() && !IsError(m.state)
    ensures r.m.Valid() && r.m.code.Contents() == m.code.Contents() && r.result.None?
    ensures r.m == m.(code := r.m.code, arpeggio := r.m.arpeggio)
    ensures |r.commands| == (if execute then 1 else 0)
  {
    var (count, t) := GetU8(m.code);
    if execute then
      var (notes, u) := GetHalves(t, count);
      Executed(m.(code := u, arpeggio := notes), [SetArpeggio(notes)], None)
    else Executed(m.(code := Seek(t, WrapU32(t.cursor + count * 2))), [], None)
  }

  /** VIBRATO and TREMOLO: a step count, a delta and a slide step count. */
  function ExecuteEffect(m: Machine, op: byte, execute: bool, scale: Scale): (r: Executed)
    requires m.Valid() && !IsError(m.state) && op in Assembler.EFFECT_OPS
    ensures r.m.Valid() && r.m.code.Contents() == m.code.Contents() && r.result.None?
    ensures r.m == m.(code := r.m.code)
    ensures |r.commands| == (if execute then 1 else 0)
  {
    var (steps, t1) := GetU16(m.code);
    var (delta, t2) := GetU16(t1);
    var (slide, t3) := GetU16(t2);
    var ticks := Ticks(scale, steps, m.stepTicks);
    var slideTicks := Ticks(scale, slide, m.stepTicks);
    Send(m.(code := t3), execute,
         if op == Assembler.OP_VIBRATO then SetVibrato(ticks, delta, slideTicks)
         else SetTremolo(ticks, delta, slideTicks))
  }

  /** A wait, a delay, a step length or a branch, for the instruction at
      code offset `at`. Waits and delays run also while the delay register
      records; the others are skipped then. */
  function Flow(m: Machine, op: byte, at: nat, execute: bool, scale: Scale, asWritten: bool): (r: Executed)
    requires m.Valid() && !IsError(m.state) && IsFlowOp(op)
    requires execute <==> m.delay.state != Recording
    ensures r.m.Valid() && r.m.code.Contents() == m.code.Contents() && r.commands == []
    ensures r.m.program == m.program && r.m.arpeggio == m.arpeggio
    ensures IsError(r.m.state) ==> r.result == Some(-1)
  {
    var s := m.code;
    if op == Assembler.OP_TICK then
      var (ticks, t) := GetU16(s);
      Wait(m.(code := t), ticks)
    else if op == Assembler.OP_STEP then
      var (steps, t) := GetU16(s);
      Wait(m.(code := t), WrapI32(steps * m.stepTicks))
    else if op == Assembler.OP_STEP_TICKS then
      var (v, t) := GetU16(s);
      var m2 := m.(code := t);
      Executed(if execute then SetStepTicks(m2, v) else m2, [], None)
    else if op == Assembler.OP_DELAY_TICK then
      var (ticks, t) := GetU16(s);
      Delay(m.(code := t), ticks, WrapU32(at), asWritten)
    else if op == Assembler.OP_DELAY_STEP then
      var (h, t) := GetU16(s);
      Delay(m.(code := t), Ticks(scale, h, m.stepTicks), WrapU32(at), asWritten)
    else if op == Assembler.OP_JUMP then
      var (offset, t) := GetS32(s);
      if execute then Executed(m.(code := Seek(t, BranchTarget(t.cursor, offset))), [], None)
      else Executed(m.(code := t), [], None)
    else if op == Assembler.OP_CALL then
      var (offset, t) := GetS32(s);
      if execute then Call(m.(code := t), offset) else Executed(m.(code := t), [], None)
    else
      if execute then Return(m, asWritten) else Executed(m, [], None)
  }

  /** One pass of the `advance` loop: read an opcode at the cursor and
      execute it. While the delay register records, instructions other
      than the waits and delays read their operands and do nothing. */
  function Step(m: Machine, scale: Scale, asWritten: bool): (r: Executed)
    requires m.Valid() && m.code.cursor < m.code.count
    ensures r.m.Valid() && r.m.code.Contents() == m.code.Contents()
    ensures r.m.program == m.program
    ensures m.delay.state == Recording ==> r.commands == []
    ensures IsError(r.m.state) ==> r.result == Some(-1)
  {
    var (op, s) := GetU8(m.code);
    var execute := m.delay.state != Recording;
    var m1 := m.(code := s);
    if op == Assembler.OP_NOOP as nat then Executed(m1, [], None)
    else if op == Assembler.OP_HALT as nat then Executed(m1.(state := Finished), [], Some(0))
    else if op < U8_LIMIT && IsFlowOp(op as byte) then
      Flow(m1, op as byte, m.code.cursor, execute, scale, asWritten)
    else if op < U8_LIMIT && IsCommandOp(op as byte) then Execute(m1, op as byte, execute, scale)
    else Executed(Fail(m1, ErrInvalidOpcode), [], Some(-1))
  }

  // ---------------------------------------------------------------------
  // The loop.

  /** What a call of `advance` ends with: the machine, the commands sent,
      and the returned value (ticks to wait, 0 when finished, -1 on an
      error). */
  datatype Advanced = Advanced(m: Machine, commands: seq<Command>, result: int)

  /** The end of the code: a running machine has finished; -1 iff the
      state is an error. */
  function AtEnd(m: Machine): (r: Advanced)
    requires m.Valid()
    ensures r.m.Valid() && r.commands == []
    ensures r.result == -1 <==> IsError(m.state)
    ensures r.result == 0 <==> !IsError(m.state)
    ensures r.m.state == (if m.state == Running then Finished else m.state)
    ensures r.m == m.(state := r.m.state)
  {
    var m1 := if m.state == Running then m.(state := Finished) else m;
    Advanced(m1, [], if IsError(m1.state) then -1 else 0)
  }

  /** `advance`, for at most `fuel` instructions (a program can loop
      forever without waiting): None when the fuel runs out. */
  function Advance(m: Machine, scale: Scale, asWritten: bool, fuel: nat): (r: Option<Advanced>)
    requires m.Valid()
    ensures r.Some? ==> r.value.m.Valid() && r.value.m.code.Contents() == m.code.Contents()
    ensures IsError(m.state) ==> r == Some(Advanced(m, [], -1))
    ensures r.Some? && IsError(r.value.m.state) ==> r.value.result == -1
    decreases fuel
  {
    if m.code.cursor == m.code.count then Some(AtEnd(m))
    else if fuel == 0 then None
    else
      var st := Step(m, scale, asWritten);
      match st.result
      case Some(v) => Some(Advanced(st.m, st.commands, v))
      case None =>
        match Advance(st.m, scale, asWritten, fuel - 1)
        case None => None
        case Some(rest) => Some(Advanced(rest.m, st.commands + rest.commands, rest.result))
  }

  // ---------------------------------------------------------------------
  // Running what the assembler writes.

  /** The code holds `bs` at the cursor. */
  predicate Holds(s: Stream, bs: seq<byte>) {
    s.cursor + |bs| <= s.count && s.Contents()[s.cursor..s.cursor + |bs|] == bs
  }

  /** Binary16 bit patterns as the uint16 values the stream reads. */
  function Naturals(hs: seq<bv16>): (ns: seq<nat>)
    ensures |ns| == |hs|
  {
    seq(|hs|, i requires 0 <= i < |hs| => hs[i] as nat)
  }

  /** The command an instruction's assembler arguments ask the track for,
      at step length `stepTicks`. */
  function Intended(op: byte, args: Assembler.Args, scale: Scale, stepTicks: nat): Command
    requires IsCommandOp(op)
  {
    var v := args.arg1;
    if op in HALF_OPS then HalfCommand(op, HalfOf(v) as nat)
    else if op in BYTE_OPS then ByteCommand(op, WrapU8(IntOf(v)) as nat)
    else if op in DIVIDER_OPS then DividerCommand(op, Assembler.ClampedU16(v, 0))
    else if op in SLIDE_OPS then SlideCommand(op, Ticks(scale, HalfOf(v) as nat, stepTicks))
    else if op in PLAIN_OPS then PlainCommand(op)
    else if op == Assembler.OP_ARPEGGIO then SetArpeggio(IntendedNotes(args))
    else IntendedEffect(op, args, scale, stepTicks)
  }

  /** The notes of an arpeggio: the array's first eight elements. */
  function IntendedNotes(args: Assembler.Args): seq<nat> {
    var hs := HalvesOf(args.arg1);
    Naturals(hs[..Min(|hs|, Assembler.MAX_ARPEGGIO)])
  }

  function IntendedEffect(op: byte, args: Assembler.Args, scale: Scale, stepTicks: nat): Command {
    var ticks := Ticks(scale, HalfOf(args.arg1) as nat, stepTicks);
    var delta := HalfOf(args.arg2) as nat;
    var slideTicks := Ticks(scale, HalfOf(args.arg3) as nat, stepTicks);
    if op == Assembler.OP_VIBRATO then SetVibrato(ticks, delta, slideTicks)
    else SetTremolo(ticks, delta, slideTicks)
  }

  /** Reading the halves the assembler stores for an arpeggio gives their
      bit patterns back, in order. */
  lemma {:induction false} ReadsHalves(s: Stream, hs: seq<bv16>)
    requires s.Valid() && Holds(s, Assembler.HalvesBytes(hs))
    ensures GetHalves(s, |hs|).0 == Naturals(hs)
    ensures GetHalves(s, |hs|).1.cursor == s.cursor + 2 * |hs|
    decreases |hs|
  {
    if |hs| > 0 {
      var bs := Assembler.HalvesBytes(hs);
      var first := Assembler.HalfBytes(hs[0]);
      var rest := Assembler.HalvesBytes(hs[1..]);
      assert bs == first + rest;
      hide Assembler.HalvesBytes, Assembler.HalfBytes, LeValue, Read, Holds, GetU16;
      HoldsSplit(s, first, rest);
      ReadsU16(s, first);
      var (h, t) := GetU16(s);
      ReadsHalves(t, hs[1..]);
      assert Naturals(hs) == [hs[0] as nat] + Naturals(hs[1..]);
    }
  }

  /** The bytes `put` writes after a command instruction's opcode, by
      operand class. */
  lemma EncodedHalf(op: byte, args: Assembler.Args)
    requires op in HALF_OPS || op in SLIDE_OPS
    ensures var bs := Assembler.Encode(op, args);
            |bs| > 0 && bs[1..] == Assembler.HalfBytes(HalfOf(args.arg1))
  {
  }

  lemma EncodedByte(op: byte, args: Assembler.Args)
    requires op in BYTE_OPS
    ensures var bs := Assembler.Encode(op, args);
            |bs| > 0 && bs[1..] == [WrapU8(IntOf(args.arg1))]
  {
  }

  lemma EncodedDivider(op: byte, args: Assembler.Args)
    requires op in DIVIDER_OPS
    ensures var bs := Assembler.Encode(op, args);
            |bs| > 0 && bs[1..] == Assembler.U16Bytes(Assembler.ClampedU16(args.arg1, 0))
  {
  }

  lemma EncodedPlain(op: byte, args: Assembler.Args)
    requires op in PLAIN_OPS
    ensures Assembler.Encode(op, args) == [op]
  {
  }

  lemma EncodedArpeggio(args: Assembler.Args)
    ensures var bs := Assembler.Encode(Assembler.OP_ARPEGGIO, args);
            var hs := HalvesOf(args.arg1);
            var n := Min(|hs|, Assembler.MAX_ARPEGGIO);
            |bs| > 0 && bs[1..] == [n as byte] + Assembler.HalvesBytes(hs[..n])
  {
  }

  lemma EncodedEffect(op: byte, args: Assembler.Args)
    requires op in Assembler.EFFECT_OPS
    ensures var bs := Assembler.Encode(op, args);
            |bs| > 0
            && bs[1..] == Assembler.HalfBytes(HalfOf(args.arg1)) + Assembler.HalfBytes(HalfOf(args.arg2))
                          + Assembler.HalfBytes(HalfOf(args.arg3))
  {
  }

  /** Bytes held in two parts. */
  lemma HoldsSplit(s: Stream, a: seq<byte>, b: seq<byte>)
    requires Holds(s, a + b)
    ensures Holds(s, a) && Holds(s.(cursor := s.cursor + |a|), b)
  {
    var c := s.Contents();
    assert c[s.cursor..s.cursor + |a|] == (a + b)[..|a|] == a;
    assert c[s.cursor + |a|..s.cursor + |a| + |b|] == (a + b)[|a|..] == b;
  }

  /** Reading a uint16 where its two little-endian bytes are. */
  lemma ReadsU16(s: Stream, bs: seq<byte>)
    requires s.Valid() && |bs| == 2 && Holds(s, bs)
    ensures GetU16(s).0 == LeValue(bs) && GetU16(s).1 == s.(cursor := s.cursor + 2)
  {
  }

  /** A binary16 operand (the note, volume, panning and pitch
      instructions and the slides). */
  lemma ExecutesHalf(m: Machine, op: byte, args: Assembler.Args, execute: bool, scale: Scale)
    requires m.Valid() && !IsError(m.state) && (op in HALF_OPS || op in SLIDE_OPS)
    requires Holds(m.code, Assembler.HalfBytes(HalfOf(args.arg1)))
    ensures var r := ExecuteSimple(m, op, execute, scale);
            r.m.code.cursor == m.code.cursor + 2 && r.m.arpeggio == m.arpeggio
            && r.commands == (if execute then [Intended(op, args, scale, m.stepTicks)] else [])
  {
  }

  /** A one-byte operand (waveform, duty cycle, phase wrap and the slots). */
  lemma ExecutesByte(m: Machine, op: byte, args: Assembler.Args, execute: bool, scale: Scale)
    requires m.Valid() && !IsError(m.state) && op in BYTE_OPS
    requires Holds(m.code, [WrapU8(IntOf(args.arg1))])
    ensures var r := ExecuteSimple(m, op, execute, scale);
            r.m.code.cursor == m.code.cursor + 1 && r.m.arpeggio == m.arpeggio
            && r.commands == (if execute then [Intended(op, args, scale, m.stepTicks)] else [])
  {
  }

  /** A uint16 divider operand. */
  lemma ExecutesDivider(m: Machine, op: byte, args: Assembler.Args, execute: bool, scale: Scale)
    requires m.Valid() && !IsError(m.state) && op in DIVIDER_OPS
    requires Holds(m.code, Assembler.U16Bytes(Assembler.ClampedU16(args.arg1, 0)))
    ensures var r := ExecuteSimple(m, op, execute, scale);
            r.m.code.cursor == m.code.cursor + 2 && r.m.arpeggio == m.arpeggio
            && r.commands == (if execute then [Intended(op, args, scale, m.stepTicks)] else [])
  {
  }

  /** The three binary16 operands of a vibrato or tremolo. */
  lemma ExecutesEffect(m: Machine, op: byte, args: Assembler.Args, execute: bool, scale: Scale)
    requires m.Valid() && !IsError(m.state) && op in Assembler.EFFECT_OPS
    requires Holds(m.code, Assembler.HalfBytes(HalfOf(args.arg1)) + Assembler.HalfBytes(HalfOf(args.arg2))
                           + Assembler.HalfBytes(HalfOf(args.arg3)))
    ensures var r := ExecuteEffect(m, op, execute, scale);
            r.m.code.cursor == m.code.cursor + 6 && r.m.arpeggio == m.arpeggio
            && r.commands == (if execute then [IntendedEffect(op, args, scale, m.stepTicks)] else [])
  {
    var s0 := m.code;
    var h1 := Assembler.HalfBytes(HalfOf(args.arg1));
    var h2 := Assembler.HalfBytes(HalfOf(args.arg2));
    var h3 := Assembler.HalfBytes(HalfOf(args.arg3));
    hide Assembler.HalfBytes, LeValue, Read, Holds;
    HoldsSplit(s0, h1 + h2, h3);
    HoldsSplit(s0, h1, h2);
    ReadsU16(s0, h1);
    ReadsU16(s0.(cursor := s0.cursor + 2), h2);
    ReadsU16(s0.(cursor := s0.cursor + 4), h3);
  }

  /** An arpeggio: its note count and that many binary16 notes. */
  lemma ExecutesArpeggio(m: Machine, args: Assembler.Args, execute: bool)
    requires m.Valid() && !IsError(m.state) && IsU32(m.code.count)
    requires var hs := HalvesOf(args.arg1);
             var n := Min(|hs|, Assembler.MAX_ARPEGGIO);
             Holds(m.code, [n as byte] + Assembler.HalvesBytes(hs[..n]))
    ensures var r := ExecuteArpeggio(m, execute);
            var n := Min(|HalvesOf(args.arg1)|, Assembler.MAX_ARPEGGIO);
            r.m.code.cursor == m.code.cursor + 1 + 2 * n
            && r.commands == (if execute then [SetArpeggio(IntendedNotes(args))] else [])
            && (execute ==> r.m.arpeggio == IntendedNotes(args))
            && (!execute ==> r.m.arpeggio == m.arpeggio)
  {
    var hs := HalvesOf(args.arg1);
    var n := Min(|hs|, Assembler.MAX_ARPEGGIO);
    var stored := Assembler.HalvesBytes(hs[..n]);
    HoldsSplit(m.code, [n as byte], stored);
    var (count, t) := GetU8(m.code);
    assert count == n by {
      assert m.code.Contents()[m.code.cursor..m.code.cursor + 1] == [n as byte];
    }
    assert t == m.code.(cursor := m.code.cursor + 1);
    assert |stored| == 2 * n;
    assert t.cursor + 2 * n <= t.count;
    hide Assembler.HalvesBytes, Read, LeValue;
    if execute {
      ReadsHalves(t, hs[..n]);
    } else {
      assert WrapU32(t.cursor + count * 2) == t.cursor + 2 * n;
    }
  }

  /** What `ExecutesEncoded` states, for one operand class. */
  predicate RunsEncoded(m: Machine, op: byte, args: Assembler.Args, execute: bool, scale: Scale)
    requires m.Valid() && !IsError(m.state) && IsCommandOp(op)
  {
    var r := Execute(m, op, execute, scale);
    r.m.code.cursor == m.code.cursor + |Assembler.Encode(op, args)| - 1
    && r.commands == (if execute then [Intended(op, args, scale, m.stepTicks)] else [])
    && (op != Assembler.OP_ARPEGGIO || !execute ==> r.m.arpeggio == m.arpeggio)
  }

  lemma RunsEncodedHalf(m: Machine, op: byte, args: Assembler.Args, execute: bool, scale: Scale)
    requires m.Valid() && !IsError(m.state) && (op in HALF_OPS || op in SLIDE_OPS)
    requires Holds(m.code, Assembler.Encode(op, args)[1..])
    ensures RunsEncoded(m, op, args, execute, scale)
  {
    hide Assembler.Encode, Assembler.HalfBytes, ExecuteSimple, HalfCommand, SlideCommand, Holds;
    EncodedHalf(op, args);
    ExecutesHalf(m, op, args, execute, scale);
  }

  lemma RunsEncodedByte(m: Machine, op: byte, args: Assembler.Args, execute: bool, scale: Scale)
    requires m.Valid() && !IsError(m.state) && op in BYTE_OPS
    requires Holds(m.code, Assembler.Encode(op, args)[1..])
    ensures RunsEncoded(m, op, args, execute, scale)
  {
    hide Assembler.Encode, ExecuteSimple, ByteCommand, Holds;
    EncodedByte(op, args);
    ExecutesByte(m, op, args, execute, scale);
  }

  lemma RunsEncodedDivider(m: Machine, op: byte, args: Assembler.Args, execute: bool, scale: Scale)
    requires m.Valid() && !IsError(m.state) && op in DIVIDER_OPS
    requires Holds(m.code, Assembler.Encode(op, args)[1..])
    ensures RunsEncoded(m, op, args, execute, scale)
  {
    hide Assembler.Encode, Assembler.U16Bytes, ExecuteSimple, DividerCommand, Holds;
    EncodedDivider(op, args);
    ExecutesDivider(m, op, args, execute, scale);
  }

  lemma RunsEncodedPlain(m: Machine, op: byte, args: Assembler.Args, execute: bool, scale: Scale)
    requires m.Valid() && !IsError(m.state) && op in PLAIN_OPS
    ensures RunsEncoded(m, op, args, execute, scale)
  {
    EncodedPlain(op, args);
    hide Assembler.Encode, PlainCommand, ExecuteArpeggio, ExecuteEffect, HalfCommand, ByteCommand,
      DividerCommand, SlideCommand, IntendedNotes, IntendedEffect, GetU8, GetU16;
  }

  lemma RunsEncodedArpeggio(m: Machine, args: Assembler.Args, execute: bool, scale: Scale)
    requires m.Valid() && !IsError(m.state) && IsU32(m.code.count)
    requires Holds(m.code, Assembler.Encode(Assembler.OP_ARPEGGIO, args)[1..])
    ensures RunsEncoded(m, Assembler.OP_ARPEGGIO, args, execute, scale)
  {
    hide Assembler.Encode, Assembler.HalvesBytes, ExecuteArpeggio, IntendedNotes, Holds;
    EncodedArpeggio(args);
    ExecutesArpeggio(m, args, execute);
  }

  lemma RunsEncodedEffect(m: Machine, op: byte, args: Assembler.Args, execute: bool, scale: Scale)
    requires m.Valid() && !IsError(m.state) && op in Assembler.EFFECT_OPS
    requires Holds(m.code, Assembler.Encode(op, args)[1..])
    ensures RunsEncoded(m, op, args, execute, scale)
  {
    hide Assembler.Encode, Assembler.HalfBytes, ExecuteEffect, IntendedEffect, Holds;
    EncodedEffect(op, args);
    ExecutesEffect(m, op, args, execute, scale);
  }

  /** The operands the assembler writes after a command instruction's
      opcode are read back whole: the track receives the command the
      arguments ask for (nothing while the delay register records), and the
      cursor ends after the instruction. */
  lemma ExecutesEncoded(m: Machine, op: byte, args: Assembler.Args, execute: bool, scale: Scale)
    requires m.Valid() && !IsError(m.state) && IsU32(m.code.count) && IsCommandOp(op)
    requires Holds(m.code, Assembler.Encode(op, args)[1..])
    ensures var r := Execute(m, op, execute, scale);
            r.m.code.cursor == m.code.cursor + |Assembler.Encode(op, args)| - 1
            && r.commands == (if execute then [Intended(op, args, scale, m.stepTicks)] else [])
            && (op != Assembler.OP_ARPEGGIO || !execute ==> r.m.arpeggio == m.arpeggio)
  {
    hide Execute, Intended, Assembler.Encode, Holds;
    if op in HALF_OPS || op in SLIDE_OPS {
      RunsEncodedHalf(m, op, args, execute, scale);
    } else if op in BYTE_OPS {
      RunsEncodedByte(m, op, args, execute, scale);
    } else if op in DIVIDER_OPS {
      RunsEncodedDivider(m, op, args, execute, scale);
    } else if op in PLAIN_OPS {
      RunsEncodedPlain(m, op, args, execute, scale);
    } else if op == Assembler.OP_ARPEGGIO {
      RunsEncodedArpeggio(m, args, execute, scale);
    } else {
      RunsEncodedEffect(m, op, args, execute, scale);
    }
  }

  /** The opcode read at the cursor, and the stream after it. */
  lemma ReadsOpcode(m: Machine)
    requires m.Valid() && m.code.cursor < m.code.count
    ensures GetU8(m.code).0 == m.code.Contents()[m.code.cursor] as nat
    ensures GetU8(m.code).1 == m.code.(cursor := m.code.cursor + 1)
    ensures !IsError(m.state)
  {
  }

  /** One pass of the loop with a command opcode at the cursor. */
  lemma StepExecutes(m: Machine, scale: Scale, asWritten: bool)
    requires m.Valid() && m.code.cursor < m.code.count
    requires IsCommandOp(m.code.Contents()[m.code.cursor])
    ensures var op := m.code.Contents()[m.code.cursor];
            var m1 := m.(code := m.code.(cursor := m.code.cursor + 1));
            !IsError(m.state) && m1.Valid()
            && Step(m, scale, asWritten) == Execute(m1, op, m.delay.state != Recording, scale)
  {
    ReadsOpcode(m);
    hide Execute, Flow, GetU8, Fail;
  }

  /** One pass of the loop with a flow opcode at the cursor. */
  lemma StepFlows(m: Machine, scale: Scale, asWritten: bool)
    requires m.Valid() && m.code.cursor < m.code.count
    requires IsFlowOp(m.code.Contents()[m.code.cursor])
    ensures var op := m.code.Contents()[m.code.cursor];
            var m1 := m.(code := m.code.(cursor := m.code.cursor + 1));
            !IsError(m.state) && m1.Valid()
            && Step(m, scale, asWritten)
               == Flow(m1, op, m.code.cursor, m.delay.state != Recording, scale, asWritten)
  {
    ReadsOpcode(m);
    hide Execute, Flow, GetU8, Fail;
  }

  /** An instruction the assembler emitted runs as its arguments ask: the
      track receives the intended command (nothing while the delay register
      records), the cursor lands after the instruction, and the loop goes
      on with the stack, delay register, step length and state unchanged. */
  lemma StepRunsEncoded(m: Machine, op: byte, args: Assembler.Args, scale: Scale, asWritten: bool)
    requires m.Valid() && IsU32(m.code.count) && IsCommandOp(op)
    requires Holds(m.code, Assembler.Encode(op, args))
    ensures var r := Step(m, scale, asWritten);
            r.result.None? && r.m.code.cursor == m.code.cursor + |Assembler.Encode(op, args)|
            && r.m.stack == m.stack && r.m.delay == m.delay && r.m.stepTicks == m.stepTicks
            && r.m.state == m.state
            && r.commands == (if m.delay.state == Recording then []
                              else [Intended(op, args, scale, m.stepTicks)])
  {
    hide Assembler.Encode, Execute, Intended, Flow, Step;
    var bs := Assembler.Encode(op, args);
    EncodedStartsWithOp(op, args);
    HoldsSplit(m.code, [op], bs[1..]);
    assert [op] + bs[1..] == bs;
    StepExecutes(m, scale, asWritten);
    var m1 := m.(code := m.code.(cursor := m.code.cursor + 1));
    ExecutesEncoded(m1, op, args, m.delay.state != Recording, scale);
  }

  /** An encoded command instruction starts with its opcode. */
  lemma EncodedStartsWithOp(op: byte, args: Assembler.Args)
    requires IsCommandOp(op)
    ensures var bs := Assembler.Encode(op, args);
            |bs| > 0 && bs[0] == op
  {
    if op == Assembler.OP_ARPEGGIO { EncodedArpeggio(args); }
    else if op in Assembler.EFFECT_OPS { EncodedEffect(op, args); }
    else if op in PLAIN_OPS { EncodedPlain(op, args); }
    else if op in DIVIDER_OPS { EncodedDivider(op, args); }
    else if op in BYTE_OPS { EncodedByte(op, args); }
    else { CommandOpsCovered(op); EncodedHalf(op, args); }
  }

  /** JUMP and CALL with their four offset bytes in the code: both go to
      the position after the offset plus the offset minus four; CALL first
      pushes that position, or fails on a full stack. */
  lemma StepBranches(m: Machine, scale: Scale, asWritten: bool)
    requires m.Valid() && m.code.cursor + 5 <= m.code.count && m.delay.state != Recording
    requires m.code.Contents()[m.code.cursor] in Assembler.BRANCH_OPS
    ensures var c := m.code.cursor;
            var op := m.code.Contents()[c];
            var offset := DecodeS32(m.code.Contents()[c + 1..c + 5]);
            var r := Step(m, scale, asWritten);
            var lands := Seek(m.code, BranchTarget(c + 5, offset));
            r.commands == []
            && (op == Assembler.OP_JUMP ==>
                  r == Executed(m.(code := lands), [], None))
            && (op == Assembler.OP_CALL && |m.stack| < STACK_SIZE_MAX ==>
                  r == Executed(m.(code := lands, stack := m.stack + [WrapU32(WrapI32(c + 5))]), [], None))
            && (op == Assembler.OP_CALL && |m.stack| >= STACK_SIZE_MAX ==>
                  r.m.state == ErrStackOverflow && r.result == Some(-1))
  {
    var c := m.code.cursor;
    StepFlows(m, scale, asWritten);
    var m1 := m.(code := m.code.(cursor := c + 1));
    FlowBranches(m1, m.code.Contents()[c], c, scale, asWritten);
    var (offset, t) := GetS32(m1.code);
    assert t == m.code.(cursor := c + 5);
  }

  /** The JUMP and CALL cases of `Flow`, outside a recording. */
  lemma FlowBranches(m: Machine, op: byte, at: nat, scale: Scale, asWritten: bool)
    requires m.Valid() && !IsError(m.state) && m.delay.state != Recording
    requires op == Assembler.OP_JUMP || op == Assembler.OP_CALL
    ensures IsFlowOp(op)
    ensures var (offset, t) := GetS32(m.code);
            var r := Flow(m, op, at, true, scale, asWritten);
            (op == Assembler.OP_JUMP ==> r == Executed(m.(code := Seek(t, BranchTarget(t.cursor, offset))), [], None))
            && (op == Assembler.OP_CALL ==> r == Call(m.(code := t), offset))
  {
    hide Call, Return, Wait, Delay, SetStepTicks, Ticks;
  }

  /** The bytes a compiled assembler leaves around placeholder k: a CALL
      or JUMP opcode, then the distance to the label's offset, which is
      defined. */
  lemma CompiledBranch(a: Assembler.Assembler, k: nat)
    requires a.Valid() && Assembler.HasRoom(a) && Assembler.Compile(a).0 == Assembler.Ok
    requires k < |a.addresses|
    ensures var ad := a.addresses[k];
            var L := a.labels[ad.labelIndex];
            var data := Assembler.Compile(a).1.data;
            var c := Assembler.CODE_SECTION_OFFSET + ad.offset - 1;
            0 <= c && c + 5 <= |data| && c + 5 <= I32_MAX && data[c] in Assembler.BRANCH_OPS
            && 0 <= L.offset <= I32_MAX
            && DecodeS32(data[c + 1..c + 5]) == L.offset - ad.offset
  {
    var ad := a.addresses[k];
    var c := Assembler.CODE_SECTION_OFFSET + ad.offset - 1;
    Assembler.PatchKeepsValid(a);
    Assembler.CompiledJumps(a);
    var p := Assembler.Patched(a).0;
    var data := Assembler.Compile(a).1.data;
    hide Assembler.Compile, Assembler.Patch, Assembler.Terminate, Assembler.WriteLabels, DecodeS32,
      Assembler.HasRoom, Assembler.Patched;
    assert data == p + Assembler.WriteLabels(a.labels);
    assert Assembler.AddressValid(ad, |a.labels|, p);
    assert data[c] == p[c];
    assert data[c + 1..c + 5] == Assembler.Slot(data, ad);
  }

  /** A branch whose offset operand reaches `target`. */
  lemma BranchReaches(m: Machine, scale: Scale, asWritten: bool, target: int)
    requires m.Valid() && m.delay.state != Recording
    requires var c := m.code.cursor;
             c + 5 <= m.code.count && c + 5 <= I32_MAX && m.code.Contents()[c] in Assembler.BRANCH_OPS
             && 0 <= target && c + 1 + DecodeS32(m.code.Contents()[c + 1..c + 5]) == target
    ensures var op := m.code.Contents()[m.code.cursor];
            var r := Step(m, scale, asWritten);
            (op == Assembler.OP_JUMP || |m.stack| < STACK_SIZE_MAX ==>
               r.result.None? && r.commands == [] && r.m.state == m.state
               && (target <= I32_MAX ==> r.m.code.cursor == Min(target, m.code.count)))
            && (op == Assembler.OP_JUMP ==> r.m.stack == m.stack)
            && (op == Assembler.OP_CALL && |m.stack| < STACK_SIZE_MAX ==>
                  r.m.stack == m.stack + [m.code.cursor + 5])
  {
    hide Step, DecodeS32;
    StepBranches(m, scale, asWritten);
  }

  /** A branch the assembler compiled lands on its label: with the code of
      a compiled assembler, the JUMP or CALL in front of placeholder k goes
      to the code section offset plus the label's offset (while that fits
      an int32), and a CALL pushes the position after its operand. */
  lemma CompiledBranchLands(a: Assembler.Assembler, k: nat, m: Machine, scale: Scale, asWritten: bool)
    requires a.Valid() && Assembler.HasRoom(a) && Assembler.Compile(a).0 == Assembler.Ok
    requires k < |a.addresses|
    requires m.Valid() && m.delay.state != Recording
    requires m.code.Contents() == Assembler.Compile(a).1.data
    requires m.code.cursor == Assembler.CODE_SECTION_OFFSET + a.addresses[k].offset - 1
    ensures var ad := a.addresses[k];
            var target := Assembler.CODE_SECTION_OFFSET + a.labels[ad.labelIndex].offset;
            var op := m.code.Contents()[m.code.cursor];
            var r := Step(m, scale, asWritten);
            op in Assembler.BRANCH_OPS
            && (op == Assembler.OP_JUMP || |m.stack| < STACK_SIZE_MAX ==>
                  r.result.None? && r.commands == [] && r.m.state == m.state
                  && (target <= I32_MAX ==> r.m.code.cursor == Min(target, m.code.count)))
            && (op == Assembler.OP_JUMP ==> r.m.stack == m.stack)
            && (op == Assembler.OP_CALL && |m.stack| < STACK_SIZE_MAX ==>
                  r.m.stack == m.stack + [m.code.cursor + 5])
  {
    var ad := a.addresses[k];
    var target := Assembler.CODE_SECTION_OFFSET + a.labels[ad.labelIndex].offset;
    CompiledBranch(a, k);
    hide Assembler.Compile, Assembler.Patched, Assembler.WriteLabels, Assembler.Patch,
      Assembler.Terminate, Step, DecodeS32, Assembler.HasRoom;
    BranchReaches(m, scale, asWritten, target);
  }

  /** RETURN with something on the stack pops it and goes there; on an
      empty stack it fails, and the error it reports is the one asked
      for. */
  lemma StepReturns(m: Machine, scale: Scale, asWritten: bool)
    requires m.Valid() && m.code.cursor < m.code.count && m.delay.state != Recording
    requires m.code.Contents()[m.code.cursor] == Assembler.OP_RETURN
    ensures var r := Step(m, scale, asWritten);
            var n := |m.stack|;
            r.commands == []
            && (n > 0 ==> r.result.None? && r.m.state == m.state && r.m.stack == m.stack[..n - 1]
                          && r.m.code.cursor == Min(m.stack[n - 1], m.code.count))
            && (n == 0 ==> r.result == Some(-1) && r.m.code.cursor == r.m.code.count
                           && r.m.state == (if asWritten then ErrStackOverflow else ErrStackUnderflow))
  {
    StepFlows(m, scale, asWritten);
  }

  /** A RETURN reached with the stack a CALL left comes back to the
      instruction after the CALL, with the stack as before the CALL. */
  lemma CallThenReturn(m: Machine, m2: Machine, scale: Scale, asWritten: bool)
    requires m.Valid() && m.delay.state != Recording && |m.stack| < STACK_SIZE_MAX
    requires m.code.cursor + 5 <= m.code.count && m.code.cursor + 5 <= I32_MAX
    requires m.code.Contents()[m.code.cursor] == Assembler.OP_CALL
    requires m2.Valid() && m2.delay.state != Recording && m2.code.cursor < m2.code.count
    requires m2.code.Contents() == m.code.Contents()
    requires m2.stack == Step(m, scale, asWritten).m.stack
    requires m2.code.Contents()[m2.code.cursor] == Assembler.OP_RETURN
    ensures var r := Step(m2, scale, asWritten);
            r.result.None? && r.m.state == m2.state
            && r.m.code.cursor == m.code.cursor + 5 && r.m.stack == m.stack
  {
    StepBranches(m, scale, asWritten);
    assert m2.stack == m.stack + [m.code.cursor + 5];
    hide Step;
    StepReturns(m2, scale, asWritten);
    assert m2.stack[..|m2.stack| - 1] == m.stack;
  }

  /** The code reports a RETURN on an empty stack as a stack overflow. */
  lemma EmptyReturnOverflows(m: Machine, scale: Scale)
    requires m.Valid() && m.code.cursor < m.code.count && m.delay.state != Recording && m.stack == []
    requires m.code.Contents()[m.code.cursor] == Assembler.OP_RETURN
    ensures Step(m, scale, true).m.state == ErrStackOverflow
  {
    StepReturns(m, scale, true);
  }

  /** The corrected interpreter reports it as the stack underflow the
      state list has a name for, and the stack underflow error is then
      reachable. */
  lemma EmptyReturnUnderflows(m: Machine, scale: Scale)
    requires m.Valid() && m.code.cursor < m.code.count && m.delay.state != Recording && m.stack == []
    requires m.code.Contents()[m.code.cursor] == Assembler.OP_RETURN
    ensures Step(m, scale, false).m.state == ErrStackUnderflow
    ensures Step(m, scale, false).result == Some(-1)
  {
    StepReturns(m, scale, false);
  }

  /** A wait or step-ticks instruction the assembler emitted: the opcode
      and the stored uint16. */
  lemma EncodedU16(op: byte, args: Assembler.Args, lo: nat)
    requires (op in Assembler.WAIT_OPS && lo == 0 && Assembler.ClampedU16(args.arg1, 0) > 0)
             || (op == Assembler.OP_STEP_TICKS && lo == 1)
    ensures Assembler.Encode(op, args) == [op] + Assembler.U16Bytes(Assembler.ClampedU16(args.arg1, lo))
  {
  }

  /** A positive product of two uint16 values fits 32 bits, so its int32
      truncation is never zero; above INT32_MAX it turns negative. */
  lemma StepProduct(steps: nat, stepTicks: nat)
    requires 1 <= steps <= UINT16_MAX && 1 <= stepTicks <= UINT16_MAX
    ensures WrapI32(steps * stepTicks) != 0
    ensures steps * stepTicks <= I32_MAX ==> WrapI32(steps * stepTicks) == steps * stepTicks
    ensures steps * stepTicks > I32_MAX ==> WrapI32(steps * stepTicks) == steps * stepTicks - U32_LIMIT < 0
  {
    var p := steps * stepTicks;
    ProductBelow(steps, stepTicks);
    assert 0 < p < U32_LIMIT;
    assert p % U32_LIMIT == p;
  }

  /** Two uint16 factors of at least 1 give a product from 1 up to below
      2^32. */
  lemma ProductBelow(a: nat, b: nat)
    requires 1 <= a <= UINT16_MAX && 1 <= b <= UINT16_MAX
    ensures 1 <= a * b < U32_LIMIT
  {
    assert a * b <= UINT16_MAX * b;
    assert UINT16_MAX * b <= UINT16_MAX * UINT16_MAX;
  }

  /** TICK and STEP as the assembler emits them, with no delay pending:
      the loop returns the ticks to wait (for STEP, the steps times the
      step length, truncated to int32) and the cursor moves past the
      operand. */
  lemma StepWaitsEncoded(m: Machine, op: byte, args: Assembler.Args, scale: Scale, asWritten: bool)
    requires m.Valid() && |m.delay.delays| == 0
    requires op == Assembler.OP_TICK || op == Assembler.OP_STEP
    requires Assembler.ClampedU16(args.arg1, 0) > 0
    requires Holds(m.code, Assembler.Encode(op, args))
    ensures var r := Step(m, scale, asWritten);
            var t := Assembler.ClampedU16(args.arg1, 0);
            r.commands == [] && r.m == m.(code := m.code.(cursor := m.code.cursor + 3))
            && r.result == Some(if op == Assembler.OP_TICK then t else WrapI32(t * m.stepTicks))
  {
    var t := Assembler.ClampedU16(args.arg1, 0);
    var bs := Assembler.U16Bytes(t);
    EncodedU16(op, args, 0);
    HoldsSplit(m.code, [op], bs);
    assert m.code.Contents()[m.code.cursor] == op;
    StepFlows(m, scale, asWritten);
    var m1 := m.(code := m.code.(cursor := m.code.cursor + 1));
    ReadsU16(m1.code, bs);
    StepProduct(t, m.stepTicks);
  }

  /** STEP_TICKS as the assembler emits it sets the step length to the
      clamped operand (outside a recording) and waits for nothing. */
  lemma StepTicksEncoded(m: Machine, args: Assembler.Args, scale: Scale, asWritten: bool)
    requires m.Valid()
    requires Holds(m.code, Assembler.Encode(Assembler.OP_STEP_TICKS, args))
    ensures var r := Step(m, scale, asWritten);
            var m3 := m.(code := m.code.(cursor := m.code.cursor + 3));
            r.commands == [] && r.result.None?
            && r.m == (if m.delay.state == Recording then m3
                       else m3.(stepTicks := Assembler.ClampedU16(args.arg1, 1)))
  {
    var t := Assembler.ClampedU16(args.arg1, 1);
    var bs := Assembler.U16Bytes(t);
    EncodedU16(Assembler.OP_STEP_TICKS, args, 1);
    HoldsSplit(m.code, [Assembler.OP_STEP_TICKS], bs);
    assert m.code.Contents()[m.code.cursor] == Assembler.OP_STEP_TICKS;
    StepFlows(m, scale, asWritten);
    var m1 := m.(code := m.code.(cursor := m.code.cursor + 1));
    ReadsU16(m1.code, bs);
  }

  /** STEP truncates its product to int32: 40000 steps of 60000 ticks
      come back as a negative wait, which the caller reads as an error. */
  lemma LongStepTurnsNegative(m: Machine, scale: Scale, asWritten: bool)
    requires m.Valid() && |m.delay.delays| == 0 && m.stepTicks == 60000
    requires Holds(m.code, Assembler.Encode(Assembler.OP_STEP, Assembler.Args(Int(40000, 0), Nil, Nil)))
    ensures Step(m, scale, asWritten).result == Some(40000 * 60000 - U32_LIMIT)
    ensures Step(m, scale, asWritten).result.value < 0
  {
    var args := Assembler.Args(Int(40000, 0), Nil, Nil);
    assert Assembler.ClampedU16(args.arg1, 0) == 40000;
    StepWaitsEncoded(m, Assembler.OP_STEP, args, scale, asWritten);
    StepProduct(40000, 60000);
  }

  /** `advance` on a TICK the assembler emitted, with no delay pending,
      stops right after it and returns its ticks. */
  lemma AdvanceWaitsEncoded(m: Machine, args: Assembler.Args, scale: Scale, asWritten: bool, fuel: nat)
    requires m.Valid() && |m.delay.delays| == 0 && Assembler.ClampedU16(args.arg1, 0) > 0
    requires Holds(m.code, Assembler.Encode(Assembler.OP_TICK, args))
    ensures Advance(m, scale, asWritten, fuel + 1)
            == Some(Advanced(m.(code := m.code.(cursor := m.code.cursor + 3)), [], Assembler.ClampedU16(args.arg1, 0)))
  {
    StepWaitsEncoded(m, Assembler.OP_TICK, args, scale, asWritten);
  }

  /** `advance` on a HALT stops there with 0 and the machine finished. */
  lemma AdvanceHalts(m: Machine, scale: Scale, asWritten: bool, fuel: nat)
    requires m.Valid() && m.code.cursor < m.code.count
    requires m.code.Contents()[m.code.cursor] == Assembler.OP_HALT
    ensures Advance(m, scale, asWritten, fuel + 1)
            == Some(Advanced(m.(code := m.code.(cursor := m.code.cursor + 1), state := Finished), [], 0))
  {
    ReadsOpcode(m);
  }
}

=== FILE: legacy_assembler.dfy ===
/** The older tree's `BlipKitAssembler`.

    It differs from the current assembler in its opcode numbering, in
    writing the header lazily on the first instruction or label, in
    registering branch labels without any check, in the STORE instruction
    for the interpreter's registers, and in `compile`: positions are
    absolute stream offsets, and the labels follow the code in a footer
    (`write_meta`). Every write goes through the stream's cursor, so the
    stream is kept whole here, cursor included. */
module LegacyAssembler {
  import opened Bytes
  import opened Wrappers
  import opened Variants
  import opened ByteStream
  import CurrentAssembler = Assembler
  import CurrentBytecode = Bytecode
  import LegacyBytecode

  // ---------------------------------------------------------------------
  // Opcodes, in declaration order.

  const OP_NOOP: byte := 0
  const OP_ATTACK: byte := 1
  const OP_RELEASE: byte := 2
  const OP_MUTE: byte := 3
  const OP_WAVEFORM: byte := 4
  const OP_CUSTOM_WAVEFORM: byte := 5
  const OP_DUTY_CYCLE: byte := 6
  const OP_EFFECT_DIV: byte := 7
  const OP_VOLUME: byte := 8
  const OP_VOLUME_SLIDE: byte := 9
  const OP_MASTER_VOLUME: byte := 10
  const OP_PANNING: byte := 11
  const OP_PANNING_SLIDE: byte := 12
  const OP_PITCH: byte := 13
  const OP_PHASE_WRAP: byte := 14
  const OP_PORTAMENTO: byte := 15
  const OP_VIBRATO: byte := 16
  const OP_TREMOLO: byte := 17
  const OP_ARPEGGIO: byte := 18
  const OP_ARPEGGIO_DIV: byte := 19
  const OP_INSTRUMENT: byte := 20
  const OP_INSTRUMENT_DIV: byte := 21
  const OP_TICK: byte := 22
  const OP_CALL: byte := 23
  const OP_RETURN: byte := 24
  const OP_JUMP: byte := 25
  const OP_RESET: byte := 26
  const OP_STORE: byte := 27
  const OP_HALT: byte := 28
  const OP_MAX: byte := 29

  /** `BlipKitInterpreter::REGISTER_COUNT`, the number of registers. */
  const REGISTER_COUNT: nat := 16
  /** The space reserved before the header is written. */
  const INITIAL_SPACE: nat := 256
  const UINT16_MAX: nat := 0xffff
  /** BlipKit's `BK_MAX_ARPEGGIO`. */
  const MAX_ARPEGGIO: nat := 8
  /** The bound on a label's UTF-8 size, terminating NUL included. */
  const LABEL_MAX_SIZE: nat := 255
  /** Stream sizes up to which no position the assembler stores wraps
      around as an int32, with the footer still fitting. */
  const ROOM: nat := CurrentAssembler.ROOM

  /** How `put` treats an opcode: the operand layout of its case, or no
      case at all (NOOP and HALT). */
  datatype Kind = HalfOp | ByteOp | WordOp | EffectOp | ArpeggioOp | BranchOp | PlainOp | StoreOp | NoCase

  function KindOf(op: byte): (k: Kind)
    ensures k == NoCase <==> op == OP_NOOP || op == OP_HALT || op >= OP_MAX
    ensures k == BranchOp <==> op == OP_CALL || op == OP_JUMP
    ensures k == StoreOp <==> op == OP_STORE
  {
    if op == OP_ATTACK || op == OP_VOLUME || op == OP_MASTER_VOLUME || op == OP_PANNING || op == OP_PITCH then HalfOp
    else if op == OP_WAVEFORM || op == OP_CUSTOM_WAVEFORM || op == OP_DUTY_CYCLE || op == OP_PHASE_WRAP
            || op == OP_INSTRUMENT then ByteOp
    else if op == OP_EFFECT_DIV || op == OP_VOLUME_SLIDE || op == OP_PANNING_SLIDE || op == OP_PORTAMENTO
            || op == OP_ARPEGGIO_DIV || op == OP_INSTRUMENT_DIV || op == OP_TICK then WordOp
    else if op == OP_TREMOLO || op == OP_VIBRATO then EffectOp
    else if op == OP_ARPEGGIO then ArpeggioOp
    else if op == OP_CALL || op == OP_JUMP then BranchOp
    else if op == OP_RELEASE || op == OP_MUTE || op == OP_RETURN || op == OP_RESET then PlainOp
    else if op == OP_STORE then StoreOp
    else NoCase
  }

  // ---------------------------------------------------------------------
  // State.

  datatype Error =
    | Ok
    | ErrInvalidState
    | ErrInvalidOpcode
    | ErrInvalidArgument
    | ErrDuplicateLabel
    | ErrUndefinedLabel
    | ErrInvalidLabel
    | ErrParserError

  datatype AsmState = Assemble | Compiled | Failed

  /** The error message, by kind. */
  datatype Message =
    | NoMessage
    | WrongArgumentType(index: nat, expected: VariantType)
    | InvalidOpcode(op: byte)
    | AlreadyDefined(name: seq<byte>)
    | NotDefined(name: seq<byte>, at: int)

  /** A label: its name and its stream offset, -1 while only referenced. */
  datatype Label = Label(name: seq<byte>, offset: int)

  /** A placeholder: the label it refers to and the stream offset of its
      four bytes. */
  datatype Address = Address(labelIndex: nat, offset: int)

  /** The assembler, with the header layout and the template header it
      writes. */
  datatype Assembler = Assembler(layout: LegacyBytecode.Layout, template: seq<byte>, state: AsmState,
                                 code: Stream, labels: seq<Label>, addresses: seq<Address>,
                                 message: Message)
  {
    /** The stream is empty or holds at least a header, placeholders lie
        inside it and refer to labels, and label names are distinct. */
    predicate Valid() {
      layout.Valid() && |template| == layout.size <= INITIAL_SPACE && code.Valid()
      && (code.count == 0 ==> code.cursor == 0 && addresses == [])
      && (code.count > 0 ==> layout.size <= code.count)
      && SlotsInside(addresses, |labels|, code.count)
      && LabelTable(labels, addresses, code.count)
    }
  }

  /** Every placeholder refers to one of n labels and lies inside a stream
      of `count` bytes. */
  predicate SlotsInside(addresses: seq<Address>, n: nat, count: nat) {
    forall k :: 0 <= k < |addresses| ==>
      addresses[k].labelIndex < n && 0 <= addresses[k].offset && addresses[k].offset + 4 <= count
  }

  /** Label names are distinct; a defined label has a name `put_label`
      accepts and an offset inside the stream; an undefined one has a
      placeholder referring to it. */
  predicate LabelTable(labels: seq<Label>, addresses: seq<Address>, count: nat) {
    (forall i, j :: 0 <= i < j < |labels| ==> labels[i].name != labels[j].name)
    && (forall k :: 0 <= k < |labels| && labels[k].offset >= 0 ==>
          0 < |labels[k].name| && |labels[k].name| + 1 <= LABEL_MAX_SIZE && labels[k].offset <= count)
    && (forall k :: 0 <= k < |labels| && labels[k].offset < 0 ==> Referenced(addresses, k))
  }

  lemma SlotsGrow(addresses: seq<Address>, n: nat, count: nat, n': nat, count': nat)
    requires SlotsInside(addresses, n, count) && n <= n' && count <= count'
    ensures SlotsInside(addresses, n', count')
  {
  }

  lemma SlotsAppend(addresses: seq<Address>, n: nat, count: nat, ad: Address)
    requires SlotsInside(addresses, n, count)
    requires ad.labelIndex < n && 0 <= ad.offset && ad.offset + 4 <= count
    ensures SlotsInside(addresses + [ad], n, count)
  {
  }

  lemma TableGrows(labels: seq<Label>, addresses: seq<Address>, count: nat, count': nat)
    requires LabelTable(labels, addresses, count) && count <= count'
    ensures LabelTable(labels, addresses, count')
  {
  }

  /** Some placeholder refers to the label at index k. */
  predicate Referenced(addresses: seq<Address>, k: nat) {
    exists j :: 0 <= j < |addresses| && addresses[j].labelIndex == k
  }

  /** Room for one more instruction or the footer without int32
      wrap-around. */
  predicate HasRoom(a: Assembler) {
    a.code.count <= ROOM
  }

  /** The constructor: nothing written, ready to assemble. */
  function New(layout: LegacyBytecode.Layout, template: seq<byte>): (a: Assembler)
    requires layout.Valid() && |template| == layout.size <= INITIAL_SPACE
    ensures a.Valid() && a.state == Assemble && a.code.count == 0 && a.labels == [] && a.addresses == []
    ensures Appending(a)
  {
    Assembler(layout, template, Assemble, Empty(), [], [], NoMessage)
  }

  /** `clear`: back to the constructor's state. */
  function Clear(a: Assembler): (r: Assembler)
    requires a.Valid()
    ensures r.Valid() && r.state == Assemble && r.message == NoMessage
    ensures r.code.count == 0 && r.labels == [] && r.addresses == []
    ensures Appending(r)
  {
    a.(state := Assemble, code := ByteStream.Clear(a.code), labels := [], addresses := [],
       message := NoMessage)
  }

  /** `init_byte_code`: write the template header, but only into an empty
      stream. */
  function Init(a: Assembler): (r: Assembler)
    requires a.Valid()
    ensures r.Valid() && r.code.count > 0
    ensures r.state == a.state && r.labels == a.labels && r.addresses == a.addresses
    ensures r.message == a.message && r.layout == a.layout && r.template == a.template
    ensures a.code.count > 0 ==> r == a
    ensures a.code.count == 0 ==>
              r.code.Contents() == a.template && r.code.cursor == r.code.count
  {
    if a.code.count > 0 then a
    else
      var s := Write(Reserve(a.code, INITIAL_SPACE), a.template);
      assert s.Contents() == s.Contents()[0..|a.template|];
      a.(code := s)
  }

  /** `fail_with_error`-style failure: the state and the message. */
  function Fail(a: Assembler, message: Message): (r: Assembler)
    ensures a.Valid() ==> r.Valid()
    ensures r.state == Failed && r.message == message
    ensures r.code == a.code && r.labels == a.labels && r.addresses == a.addresses
    ensures r.layout == a.layout && r.template == a.template
  {
    a.(state := Failed, message := message)
  }

  /** Write bytes at the cursor. */
  function Emit(a: Assembler, bs: seq<byte>): (r: Assembler)
    requires a.Valid() && a.code.count > 0
    ensures r.Valid() && r.code == Write(a.code, bs)
    ensures r.state == a.state && r.labels == a.labels && r.addresses == a.addresses
    ensures r.message == a.message && r.layout == a.layout && r.template == a.template
  {
    a.(code := Write(a.code, bs))
  }

  // ---------------------------------------------------------------------
  // Labels.

  /** The index of the label called `name`, or -1. */
  function IndexOf(labels: seq<Label>, name: seq<byte>): (i: int)
    ensures -1 <= i < |labels|
    ensures i >= 0 ==> labels[i].name == name
    ensures i == -1 <==> forall k :: 0 <= k < |labels| ==> labels[k].name != name
  {
    if |labels| == 0 then -1
    else
      var i := IndexOf(labels[..|labels| - 1], name);
      if i >= 0 then i
      else if labels[|labels| - 1].name == name then |labels| - 1
      else -1
  }

  /** `get_or_add_label`: the index of an existing label, or of a new one
      that is referenced but undefined. No name is refused. */
  function GetOrAddLabel(labels: seq<Label>, name: seq<byte>): (r: (nat, seq<Label>))
    ensures r.0 < |r.1| && r.1[r.0].name == name
    ensures IndexOf(labels, name) >= 0 ==> r == (IndexOf(labels, name) as nat, labels)
    ensures IndexOf(labels, name) == -1 ==> r.0 == |labels| && r.1 == labels + [Label(name, -1)]
  {
    var i := IndexOf(labels, name);
    if i >= 0 then (i as nat, labels) else (|labels|, labels + [Label(name, -1)])
  }

  /** `put_label`: reject empty names and names whose UTF-8 size with its
      NUL passes 255 bytes, then look the label up (adding it); an already
      defined label is a duplicate, which sets the message but does not
      fail the assembler. Otherwise the header is written if it was not,
      and the label is defined at the cursor. */
  function PutLabel(a: Assembler, name: seq<byte>): (r: (Error, Assembler))
    requires a.Valid() && HasRoom(a)
    ensures r.1.Valid() && r.1.state == a.state
    ensures a.state != Assemble ==> r == (ErrInvalidState, a)
    ensures a.state == Assemble && (|name| == 0 || |name| + 1 > LABEL_MAX_SIZE) ==> r == (ErrInvalidLabel, a)
    ensures r.0 != Ok ==> r.1.code == a.code
    ensures r.0 == ErrDuplicateLabel <==>
              a.state == Assemble && 0 < |name| && |name| + 1 <= LABEL_MAX_SIZE
              && IndexOf(a.labels, name) >= 0 && a.labels[IndexOf(a.labels, name)].offset >= 0
    ensures r.0 == ErrDuplicateLabel ==> r.1 == a.(message := AlreadyDefined(name))
    ensures r.0 == Ok ==>
              r.1.code == Init(a).code && r.1.addresses == a.addresses
              && Label(name, r.1.code.cursor) in r.1.labels
              && forall l :: l in a.labels && l.name != name ==> l in r.1.labels
  {
    if a.state != Assemble then (ErrInvalidState, a)
    else if |name| == 0 || |name| + 1 > LABEL_MAX_SIZE then (ErrInvalidLabel, a)
    else
      var (i, labels) := GetOrAddLabel(a.labels, name);
      if labels[i].offset >= 0 then (ErrDuplicateLabel, a.(message := AlreadyDefined(name)))
      else
        var a1 := Init(a);
        var l := Label(name, WrapI32(a1.code.cursor));
        DefineLabel(a1, name);
        (Ok, a1.(labels := labels[i := l]))
  }

  /** Defining a label that is new or only referenced, at the cursor, keeps
      the assembler valid and every other label. */
  lemma DefineLabel(a: Assembler, name: seq<byte>)
    requires a.Valid() && HasRoom(a) && 0 < |name| && |name| + 1 <= LABEL_MAX_SIZE
    requires IndexOf(a.labels, name) == -1 || a.labels[IndexOf(a.labels, name)].offset < 0
    ensures var (i, labels) := GetOrAddLabel(a.labels, name);
            var l := Label(name, a.code.cursor);
            WrapI32(a.code.cursor) == a.code.cursor
            && a.(labels := labels[i := l]).Valid() && l in labels[i := l]
            && forall m :: m in a.labels && m.name != name ==> m in labels[i := l]
  {
    hide LabelTable, SlotsInside, IndexOf, GetOrAddLabel;
    var (i, labels) := GetOrAddLabel(a.labels, name);
    var l := Label(name, a.code.cursor);
    TableDefine(a.labels, a.addresses, a.code.count, name, a.code.cursor);
    Relabel(a, labels[i := l]);
  }

  /** Another label table over the same placeholders, at least as long,
      keeps the assembler valid. */
  lemma Relabel(a: Assembler, labels: seq<Label>)
    requires a.Valid() && |a.labels| <= |labels| && LabelTable(labels, a.addresses, a.code.count)
    ensures a.(labels := labels).Valid()
  {
    SlotsGrow(a.addresses, |a.labels|, a.code.count, |labels|, a.code.count);
  }

  lemma TableDefine(labels: seq<Label>, addresses: seq<Address>, count: nat, name: seq<byte>, at: nat)
    requires LabelTable(labels, addresses, count) && at <= count
    requires 0 < |name| && |name| + 1 <= LABEL_MAX_SIZE
    requires IndexOf(labels, name) == -1 || labels[IndexOf(labels, name)].offset < 0
    ensures var (i, labels') := GetOrAddLabel(labels, name);
            var l := Label(name, at);
            LabelTable(labels'[i := l], addresses, count) && l in labels'[i := l] && |labels| <= |labels'|
            && forall m :: m in labels && m.name != name ==> m in labels'[i := l]
  {
    var (i, labels') := GetOrAddLabel(labels, name);
    var l := Label(name, at);
    var defined := labels'[i := l];
    assert defined[i] == l;
    forall k | 0 <= k < |defined| && defined[k].offset < 0
      ensures Referenced(addresses, k)
    {
      assert k != i && k < |labels| && labels[k] == defined[k];
    }
    forall m | m in labels && m.name != name
      ensures m in defined
    {
      var k :| 0 <= k < |labels| && labels[k] == m;
      assert defined[k] == m;
    }
  }

  /** Referring to a label (adding it if new) through a new placeholder
      keeps the table. */
  lemma TableReference(labels: seq<Label>, addresses: seq<Address>, count: nat, name: seq<byte>, at: int)
    requires LabelTable(labels, addresses, count)
    ensures var (i, labels') := GetOrAddLabel(labels, name);
            LabelTable(labels', addresses + [Address(i, at)], count)
  {
    var (i, labels') := GetOrAddLabel(labels, name);
    var addresses' := addresses + [Address(i, at)];
    assert addresses'[|addresses|].labelIndex == i;
    forall k | 0 <= k < |labels'| && labels'[k].offset < 0
      ensures Referenced(addresses', k)
    {
      if k != i {
        var j :| 0 <= j < |addresses| && addresses[j].labelIndex == k;
        assert addresses'[j].labelIndex == k;
      }
    }
  }

  // ---------------------------------------------------------------------
  // Instructions.

  /** The argument types of each case. */
  function Signature(k: Kind): (types: seq<VariantType>)
    ensures |types| == 3
  {
    match k
    case HalfOp => [FloatType, NilType, NilType]
    case ByteOp => [IntType, NilType, NilType]
    case WordOp => [IntType, NilType, NilType]
    case EffectOp => [IntType, FloatType, IntType]
    case ArpeggioOp => [FloatArrayType, NilType, NilType]
    case BranchOp => [StringType, NilType, NilType]
    case PlainOp => [NilType, NilType, NilType]
    case StoreOp => [IntType, IntType, NilType]
    case NoCase => [NilType, NilType, NilType]
  }

  /** `check_arg_types`: the message naming the first argument (1-based)
      of the wrong type, or None. */
  function CheckArgs(op: byte, args: CurrentAssembler.Args): (r: Option<Message>)
    ensures r.None? <==>
              forall k :: 0 <= k < 3 ==> TypeOf(CurrentAssembler.Slots(args)[k]) == Signature(KindOf(op))[k]
    ensures r.Some? ==> r.value.WrongArgumentType? && 1 <= r.value.index <= 3
  {
    var types := Signature(KindOf(op));
    match CurrentAssembler.MismatchFrom(CurrentAssembler.Slots(args), types, 0)
    case None => None
    case Some(i) => Some(WrongArgumentType(i, types[i - 1]))
  }

  /** The register number STORE emits: the int argument as an int32,
      clamped to [0, REGISTER_COUNT]; the bound is inclusive. */
  function StoreNumber(v: Variant): (n: nat)
    ensures n <= REGISTER_COUNT
    ensures IsI32(IntOf(v)) && 0 <= IntOf(v) <= REGISTER_COUNT ==> n == IntOf(v)
    ensures REGISTER_COUNT <= IntOf(v) <= I32_MAX ==> n == REGISTER_COUNT
  {
    Clamp(WrapI32(IntOf(v)), 0, REGISTER_COUNT)
  }

  /** The bytes `put` writes for an instruction of a case other than CALL
      and JUMP whose arguments passed the check. Every uint16 operand is
      written, 0 included. */
  function Encode(op: byte, args: CurrentAssembler.Args): (bs: seq<byte>)
    ensures |bs| > 0 && bs[0] == op
  {
    var v := args.arg1;
    match KindOf(op)
    case HalfOp => [op] + CurrentAssembler.HalfBytes(HalfOf(v))
    case ByteOp => [op, WrapU8(IntOf(v))]
    case WordOp => [op] + CurrentAssembler.U16Bytes(CurrentAssembler.ClampedU16(v, 0))
    case EffectOp =>
      [op] + CurrentAssembler.U16Bytes(CurrentAssembler.ClampedU16(v, 0))
      + CurrentAssembler.HalfBytes(HalfOf(args.arg2))
      + CurrentAssembler.U16Bytes(CurrentAssembler.ClampedU16(args.arg3, 0))
    case ArpeggioOp =>
      var hs := HalvesOf(v);
      var n := Min(|hs|, MAX_ARPEGGIO);
      [op, n as byte] + CurrentAssembler.HalvesBytes(hs[..n])
    case StoreOp => [op, StoreNumber(v) as byte] + EncodeS32(WrapI32(IntOf(args.arg2)))
    case _ => [op]
  }

  /** CALL/JUMP: look the label up (adding it), write the opcode and a zero
      placeholder, and remember where the placeholder is. */
  function PutBranch(a: Assembler, op: byte, name: seq<byte>): (r: Assembler)
    requires a.Valid() && HasRoom(a) && a.code.count > 0
    ensures r.Valid()
    ensures var (i, labels) := GetOrAddLabel(a.labels, name);
            r == a.(code := Write(a.code, [op, 0, 0, 0, 0]), labels := labels,
                    addresses := a.addresses + [Address(i, a.code.cursor + 1)])
  {
    var (i, labels) := GetOrAddLabel(a.labels, name);
    var at := WrapI32(a.code.cursor + 1);
    var code := Write(a.code, [op, 0, 0, 0, 0]);
    assert at == a.code.cursor + 1;
    TableReference(a.labels, a.addresses, a.code.count, name, at);
    TableGrows(labels, a.addresses + [Address(i, at)], a.code.count, code.count);
    SlotsGrow(a.addresses, |a.labels|, a.code.count, |labels|, code.count);
    SlotsAppend(a.addresses, |labels|, code.count, Address(i, at));
    hide LabelTable, SlotsInside, Write, GetOrAddLabel, IndexOf, WrapI32;
    a.(code := code, labels := labels, addresses := a.addresses + [Address(i, at)])
  }

  /** `put`: check the opcode, then the state; write the header if needed;
      then check the arguments and write the instruction. NOOP and HALT
      have no case and fail the assembler, as does a wrong argument. */
  function Put(a: Assembler, op: byte, args: CurrentAssembler.Args): (r: (Error, Assembler))
    requires a.Valid() && HasRoom(a)
    ensures r.1.Valid()
    ensures op >= OP_MAX ==> r == (ErrInvalidOpcode, a)
    ensures op < OP_MAX && a.state != Assemble ==> r == (ErrInvalidState, a)
    ensures op < OP_MAX && a.state == Assemble && KindOf(op) == NoCase ==>
              r == (ErrInvalidOpcode, Fail(Init(a), InvalidOpcode(op)))
    ensures op < OP_MAX && a.state == Assemble && KindOf(op) != NoCase && CheckArgs(op, args).Some? ==>
              r == (ErrInvalidArgument, Fail(Init(a), CheckArgs(op, args).value))
    ensures op < OP_MAX && a.state == Assemble && KindOf(op) != NoCase && CheckArgs(op, args).None?
            && KindOf(op) != BranchOp ==>
              r == (Ok, Emit(Init(a), Encode(op, args)))
    ensures r.0 == Ok <==>
              op < OP_MAX && a.state == Assemble && KindOf(op) != NoCase && CheckArgs(op, args).None?
    ensures r.0 == Ok ==> r.1.state == Assemble
  {
    if op >= OP_MAX then (ErrInvalidOpcode, a)
    else if a.state != Assemble then (ErrInvalidState, a)
    else
      var a1 := Init(a);
      hide Assembler.Valid, Encode, Emit, PutBranch, CheckArgs;
      if KindOf(op) == NoCase then (ErrInvalidOpcode, Fail(a1, InvalidOpcode(op)))
      else
        match CheckArgs(op, args)
        case Some(m) => (ErrInvalidArgument, Fail(a1, m))
        case None =>
          if KindOf(op) == BranchOp then (Ok, PutBranch(a1, op, Utf8Of(args.arg1)))
          else (Ok, Emit(a1, Encode(op, args)))
  }

  /** `put_code`: after the state check the header is written, and the
      call always fails: the text parser was never written. */
  function PutCode(a: Assembler, text: string): (r: (Error, Assembler))
    requires a.Valid()
    ensures r.1.Valid() && r.1.state == a.state
    ensures a.state != Assemble ==> r == (ErrInvalidState, a)
    ensures a.state == Assemble ==> r == (ErrParserError, Init(a))
  {
    if a.state != Assemble then (ErrInvalidState, a) else (ErrParserError, Init(a))
  }

  // ---------------------------------------------------------------------
  // Compiling.

  /** Each placeholder lies before the next, at least one opcode byte
      apart. */
  predicate Ascending(addresses: seq<Address>) {
    forall j, k :: 0 <= j < k < |addresses| ==> addresses[j].offset + 5 <= addresses[k].offset
  }

  /** No placeholder from index i on covers position p. */
  predicate Untouched(addresses: seq<Address>, i: nat, p: int) {
    forall j :: i <= j < |addresses| ==> p < addresses[j].offset || addresses[j].offset + 4 <= p
  }

  /** The int32 jump a placeholder receives: the label's offset relative
      to the placeholder. */
  function JumpOffset(labels: seq<Label>, ad: Address): (v: int)
    requires ad.labelIndex < |labels|
    ensures IsI32(v)
    ensures IsI32(labels[ad.labelIndex].offset - ad.offset) ==> v == labels[ad.labelIndex].offset - ad.offset
  {
    WrapI32(labels[ad.labelIndex].offset - ad.offset)
  }

  /** How the placeholder loop ends: all patched, or stopped at the first
      placeholder whose label is undefined. */
  datatype Patch = Patched(stream: Stream) | Undefined(index: nat, stream: Stream)

  /** The placeholder loop of `compile`, from index i: seek to each
      placeholder and store its jump, failing on the first undefined
      label with the cursor wherever the last store left it. */
  function PatchFrom(s: Stream, labels: seq<Label>, addresses: seq<Address>, i: nat): (r: Patch)
    requires s.Valid() && i <= |addresses| && SlotsInside(addresses, |labels|, s.count)
    ensures r.stream.Valid() && r.stream.count == s.count
    ensures r.Undefined? ==> i <= r.index < |addresses|
    decreases |addresses| - i
  {
    if i == |addresses| then Patched(s)
    else
      var ad := addresses[i];
      if labels[ad.labelIndex].offset < 0 then Undefined(i, s)
      else PatchFrom(PatchOne(s, ad.offset, JumpOffset(labels, ad)), labels, addresses, i + 1)
  }

  /** One store of the loop: the four bytes at `at`, nothing else; the
      cursor ends after them. */
  function PatchOne(s: Stream, at: int, v: int): (r: Stream)
    requires s.Valid() && 0 <= at && at + 4 <= s.count && IsI32(v)
    ensures r.Valid() && r.count == s.count && r.cursor == at + 4
    ensures r.Contents()[at..at + 4] == EncodeS32(v)
    ensures forall p :: 0 <= p < s.count && (p < at || at + 4 <= p) ==> r.Contents()[p] == s.Contents()[p]
  {
    WriteOverwrites(Seek(s, at), EncodeS32(v));
    PutS32(Seek(s, at), v)
  }

  /** The loop stops exactly at the first placeholder whose label is
      undefined, with the cursor after the last store (or where it
      started). */
  lemma {:induction false} PatchFromOutcome(s: Stream, labels: seq<Label>, addresses: seq<Address>, i: nat)
    requires s.Valid() && i <= |addresses| && SlotsInside(addresses, |labels|, s.count)
    ensures var r := PatchFrom(s, labels, addresses, i);
            (r.Undefined? ==> labels[addresses[r.index].labelIndex].offset < 0
                              && r.stream.cursor == if r.index == i then s.cursor else addresses[r.index - 1].offset + 4)
            && forall j :: i <= j < |addresses| && (r.Patched? || j < r.index) ==>
                 labels[addresses[j].labelIndex].offset >= 0
    decreases |addresses| - i
  {
    hide PatchOne, JumpOffset, EncodeS32, WrapI32;
    if i < |addresses| && labels[addresses[i].labelIndex].offset >= 0 {
      var ad := addresses[i];
      PatchFromOutcome(PatchOne(s, ad.offset, JumpOffset(labels, ad)), labels, addresses, i + 1);
    }
  }

  /** The loop changes nothing outside the placeholders from index i. */
  lemma {:induction false} PatchFromFrame(s: Stream, labels: seq<Label>, addresses: seq<Address>, i: nat)
    requires s.Valid() && i <= |addresses| && SlotsInside(addresses, |labels|, s.count)
    ensures forall p :: 0 <= p < s.count && Untouched(addresses, i, p) ==>
              PatchFrom(s, labels, addresses, i).stream.Contents()[p] == s.Contents()[p]
    decreases |addresses| - i
  {
    hide PatchOne, JumpOffset, EncodeS32, WrapI32;
    if i < |addresses| && labels[addresses[i].labelIndex].offset >= 0 {
      var ad := addresses[i];
      var s1 := PatchOne(s, ad.offset, JumpOffset(labels, ad));
      PatchFromFrame(s1, labels, addresses, i + 1);
      forall p | 0 <= p < s.count && Untouched(addresses, i, p)
        ensures PatchFrom(s, labels, addresses, i).stream.Contents()[p] == s.Contents()[p]
      {
        assert Untouched(addresses, i + 1, p);
        assert p < ad.offset || ad.offset + 4 <= p;
      }
    }
  }

  /** When every label is defined and the placeholders ascend, each one
      from index i ends up holding its jump. */
  lemma {:induction false} PatchFromSlots(s: Stream, labels: seq<Label>, addresses: seq<Address>, i: nat)
    requires s.Valid() && i <= |addresses| && SlotsInside(addresses, |labels|, s.count)
    requires Ascending(addresses)
    ensures var r := PatchFrom(s, labels, addresses, i);
            r.Patched? ==>
              forall j :: i <= j < |addresses| ==>
                r.stream.Contents()[addresses[j].offset..addresses[j].offset + 4]
                == EncodeS32(JumpOffset(labels, addresses[j]))
    decreases |addresses| - i
  {
    hide PatchOne, JumpOffset, EncodeS32, WrapI32;
    if i < |addresses| && labels[addresses[i].labelIndex].offset >= 0 {
      var ad := addresses[i];
      var s1 := PatchOne(s, ad.offset, JumpOffset(labels, ad));
      var r := PatchFrom(s1, labels, addresses, i + 1);
      PatchFromSlots(s1, labels, addresses, i + 1);
      PatchFromFrame(s1, labels, addresses, i + 1);
      forall p | ad.offset <= p < ad.offset + 4
        ensures r.stream.Contents()[p] == s1.Contents()[p]
      {
        assert Untouched(addresses, i + 1, p);
      }
      assert r.stream.Contents()[ad.offset..ad.offset + 4] == s1.Contents()[ad.offset..ad.offset + 4];
    }
  }

  /** A footer entry: the uint32 offset, the name's size as one byte, the
      name's bytes. */
  function MetaEntry(l: Label): (bs: seq<byte>)
    ensures |bs| == 5 + |l.name|
  {
    Pow256Values();
    LeBytes(WrapU32(l.offset), 4) + [WrapU8(|l.name|) as byte] + l.name
  }

  function MetaEntries(labels: seq<Label>): (bs: seq<byte>) {
    if |labels| == 0 then [] else MetaEntry(labels[0]) + MetaEntries(labels[1..])
  }

  /** `write_meta`: the label count as a uint32, then every label in the
      order it was first seen. */
  function WriteMeta(labels: seq<Label>): (bs: seq<byte>) {
    Pow256Values();
    LeBytes(WrapU32(|labels|), 4) + MetaEntries(labels)
  }

  /** The labels as the reader's entries. */
  function Entries(labels: seq<Label>): (ls: seq<CurrentBytecode.Label>)
    ensures |ls| == |labels|
    ensures forall k :: 0 <= k < |ls| ==> ls[k].name == labels[k].name && ls[k].offset == WrapU32(labels[k].offset)
  {
    seq(|labels|, k requires 0 <= k < |labels| => CurrentBytecode.Label(labels[k].name, WrapU32(labels[k].offset)))
  }

  /** Overwrite the uint32 at `at`, keeping the cursor. */
  function Store32(s: Stream, at: nat, v: nat): (r: Stream)
    requires s.Valid() && at + 4 <= s.count && IsU32(v)
    ensures r.Valid() && r.count == s.count && r.cursor == s.cursor
    ensures r.Contents()[at..at + 4] == LeBytes(v, 4)
    ensures forall p :: 0 <= p < s.count && (p < at || at + 4 <= p) ==> r.Contents()[p] == s.Contents()[p]
  {
    Pow256Values();
    WriteOverwrites(Seek(s, at), LeBytes(v, 4));
    Seek(PutU32(Seek(s, at), v), s.cursor)
  }

  /** The start of `compile`: HALT at the cursor, then the code size, the
      end less the header size as a uint32, into the header. The
      corrected form also stores the end as the footer offset. */
  function Terminate(s: Stream, l: LegacyBytecode.Layout, asWritten: bool): (r: Stream)
    requires s.Valid() && l.Valid() && l.size <= s.count && s.cursor <= ROOM
    ensures r.Valid() && r.cursor == s.cursor + 1 && r.count == Max(s.count, s.cursor + 1)
  {
    var s1 := Write(s, [OP_HALT]);
    var s2 := Store32(s1, l.codeSizeAt, WrapU32(s1.cursor - l.size));
    if asWritten then s2 else Store32(s2, l.footerAt, s1.cursor)
  }

  /** What `compile` does once the state check passed: write the header if
      needed, terminate with HALT, store the code size (as written; the
      corrected form also stores the footer offset), then patch the
      placeholders and append the footer. On an undefined label the state
      stays and the message names it; as written the cursor stays where
      the last store left it, corrected it goes back to the end. */
  function Compile(a: Assembler, asWritten: bool): (r: (Error, Assembler))
    requires a.Valid() && HasRoom(a)
    ensures r.1.Valid()
    ensures r.1.layout == a.layout && r.1.template == a.template
    ensures a.state != Assemble ==> r == (ErrInvalidState, a)
    ensures r.0 == Ok <==>
              a.state == Assemble
              && forall k :: 0 <= k < |a.addresses| ==> a.labels[a.addresses[k].labelIndex].offset >= 0
    ensures r.0 == Ok ==> r.1.state == Compiled && r.1.labels == a.labels && r.1.addresses == []
    ensures a.state == Assemble && r.0 != Ok ==>
              r.0 == ErrUndefinedLabel && r.1.state == Assemble && r.1.message.NotDefined?
              && r.1.labels == a.labels && r.1.addresses == a.addresses
  {
    if a.state != Assemble then (ErrInvalidState, a)
    else
      var a1 := Init(a);
      var end := a1.code.cursor + 1;
      var s3 := Terminate(a1.code, a.layout, asWritten);
      SlotsGrow(a1.addresses, |a1.labels|, a1.code.count, |a1.labels|, s3.count);
      PatchFromOutcome(s3, a1.labels, a1.addresses, 0);
      hide Write, WriteMeta, Terminate, Seek;
      match PatchFrom(s3, a1.labels, a1.addresses, 0)
      case Undefined(k, s4) => (ErrUndefinedLabel, Stop(a1, k, if asWritten then s4 else Seek(s4, end)))
      case Patched(s4) => (Ok, Finish(a1, Write(Seek(s4, end), WriteMeta(a1.labels))))
  }

  /** A failed compile: the new stream, the message naming the undefined
      label of placeholder k and where its placeholder is. */
  function Stop(a: Assembler, k: nat, s: Stream): (r: Assembler)
    requires a.Valid() && k < |a.addresses| && s.Valid() && 0 < a.code.count <= s.count
    ensures r.Valid() && r.code == s && r.state == a.state && r.labels == a.labels && r.addresses == a.addresses
    ensures r.layout == a.layout && r.template == a.template
    ensures r.message == NotDefined(a.labels[a.addresses[k].labelIndex].name, a.addresses[k].offset)
  {
    var ad := a.addresses[k];
    TableGrows(a.labels, a.addresses, a.code.count, s.count);
    SlotsGrow(a.addresses, |a.labels|, a.code.count, |a.labels|, s.count);
    a.(code := s, message := NotDefined(a.labels[ad.labelIndex].name, ad.offset))
  }

  /** A successful compile: the new stream, no placeholders, compiled. */
  function Finish(a: Assembler, s: Stream): (r: Assembler)
    requires a.Valid() && s.Valid() && 0 < a.code.count <= s.count
    requires forall k :: 0 <= k < |a.addresses| ==> a.labels[a.addresses[k].labelIndex].offset >= 0
    ensures r.Valid() && r.code == s && r.state == Compiled && r.labels == a.labels && r.addresses == []
    ensures r.layout == a.layout && r.template == a.template
  {
    CompiledTable(a.labels, a.addresses, a.code.count, s.count);
    a.(state := Compiled, code := s, addresses := [])
  }

  /** Once every placeholder's label is defined, every label is, and the
      table holds without placeholders. */
  lemma CompiledTable(labels: seq<Label>, addresses: seq<Address>, count: nat, count': nat)
    requires LabelTable(labels, addresses, count) && count <= count'
    requires SlotsInside(addresses, |labels|, count)
    requires forall k :: 0 <= k < |addresses| ==> labels[addresses[k].labelIndex].offset >= 0
    ensures forall k :: 0 <= k < |labels| ==> labels[k].offset >= 0
    ensures LabelTable(labels, [], count')
  {
    forall k | 0 <= k < |labels|
      ensures labels[k].offset >= 0
    {
    }
  }

  /** `get_byte_code`: null before a successful compile, otherwise the
      bytecode parsed from a copy of the stream, cursor included. */
  function GetByteCode(a: Assembler, fromStart: bool, asWritten: bool): (r: Option<LegacyBytecode.Bytecode>)
    requires a.Valid()
    ensures r.Some? <==> a.state == Compiled
    ensures r.Some? ==> r.value.code.Contents() == a.code.Contents()
  {
    if a.state != Compiled then None
    else Some(LegacyBytecode.Initialize(a.code, a.layout, a.template, fromStart, asWritten))
  }

  // ---------------------------------------------------------------------
  // The shape the public operations keep.

  /** The name and version bytes of the header are the template's. */
  predicate HeaderKept(c: seq<byte>, l: LegacyBytecode.Layout, template: seq<byte>)
    requires l.Valid() && |template| == l.size
  {
    l.size <= |c| && c[..l.nameSize] == template[..l.nameSize] && c[l.versionAt] == template[l.versionAt]
  }

  /** What `clear`, `put` and `put_label` keep: the cursor at the end of
      the stream, the header's name and version intact, and the
      placeholders past the header in ascending order. */
  predicate Appending(a: Assembler) {
    a.Valid() && a.code.cursor == a.code.count
    && (a.code.count > 0 ==> HeaderKept(a.code.Contents(), a.layout, a.template))
    && (forall k :: 0 <= k < |a.addresses| ==> a.layout.size <= a.addresses[k].offset)
    && Ascending(a.addresses)
  }

  lemma InitAppending(a: Assembler)
    requires Appending(a)
    ensures Appending(Init(a))
  {
    if a.code.count == 0 {
      var c := Init(a).code.Contents();
      assert c[..a.layout.nameSize] == a.template[..a.layout.nameSize];
    }
  }

  /** Writing at the end appends and keeps the shape. */
  lemma EmitAppending(a: Assembler, bs: seq<byte>)
    requires Appending(a) && a.code.count > 0
    ensures Appending(Emit(a, bs))
    ensures Emit(a, bs).code.Contents() == a.code.Contents() + bs
  {
    WriteAppends(a.code, bs);
    var c := a.code.Contents();
    var l := a.layout;
    assert (c + bs)[..l.nameSize] == c[..l.nameSize];
  }

  /** `put` keeps the shape; an instruction it accepts is appended to the
      stream (after the header, when the stream was empty): its encoding,
      or for CALL and JUMP the opcode and a zero placeholder. */
  lemma PutKeepsAppending(a: Assembler, op: byte, args: CurrentAssembler.Args)
    requires Appending(a) && HasRoom(a)
    ensures var r := Put(a, op, args);
            Appending(r.1)
            && (r.0 == Ok && KindOf(op) != BranchOp ==>
                  r.1.code.Contents() == Init(a).code.Contents() + Encode(op, args))
            && (r.0 == Ok && KindOf(op) == BranchOp ==>
                  r.1.code.Contents() == Init(a).code.Contents() + [op, 0, 0, 0, 0]
                  && r.1.addresses == a.addresses + [Address(IndexOf(r.1.labels, Utf8Of(args.arg1)) as nat,
                                                             Init(a).code.count + 1)])
  {
    if op < OP_MAX && a.state == Assemble {
      var a1 := Init(a);
      InitAppending(a);
      if KindOf(op) != NoCase && CheckArgs(op, args).None? {
        if KindOf(op) == BranchOp {
          BranchAppending(a1, op, Utf8Of(args.arg1));
        } else {
          EmitAppending(a1, Encode(op, args));
        }
      }
    }
  }

  lemma BranchAppending(a: Assembler, op: byte, name: seq<byte>)
    requires Appending(a) && HasRoom(a) && a.code.count > 0
    ensures var r := PutBranch(a, op, name);
            Appending(r) && r.code.Contents() == a.code.Contents() + [op, 0, 0, 0, 0]
            && r.addresses == a.addresses + [Address(IndexOf(r.labels, name) as nat, a.code.count + 1)]
  {
    var r := PutBranch(a, op, name);
    WriteAppends(a.code, [op, 0, 0, 0, 0]);
    var c := a.code.Contents();
    var l := a.layout;
    assert (c + [op, 0, 0, 0, 0])[..l.nameSize] == c[..l.nameSize];
    var (i, labels) := GetOrAddLabel(a.labels, name);
    assert IndexOf(labels, name) == i by {
      if IndexOf(a.labels, name) == -1 {
        IndexOfLast(a.labels, name);
      }
    }
    forall j, k | 0 <= j < k < |r.addresses|
      ensures r.addresses[j].offset + 5 <= r.addresses[k].offset
    {
      if k == |a.addresses| {
        assert r.addresses[j] == a.addresses[j];
      }
    }
  }

  /** A name missing from a table is found at its end once appended. */
  lemma IndexOfLast(labels: seq<Label>, name: seq<byte>)
    requires IndexOf(labels, name) == -1
    ensures IndexOf(labels + [Label(name, -1)], name) == |labels|
  {
    assert (labels + [Label(name, -1)])[..|labels|] == labels;
  }

  /** `put_label` keeps the shape; a label it defines points at the end of
      the stream, where the next instruction goes. */
  lemma PutLabelKeepsAppending(a: Assembler, name: seq<byte>)
    requires Appending(a) && HasRoom(a)
    ensures var r := PutLabel(a, name);
            Appending(r.1) && (r.0 == Ok ==> Label(name, r.1.code.count) in r.1.labels)
  {
    if a.state == Assemble && 0 < |name| && |name| + 1 <= LABEL_MAX_SIZE {
      InitAppending(a);
    }
  }

  // ---------------------------------------------------------------------
  // The compiled stream.

  /** What `Terminate` leaves in a stream whose cursor is at its end: HALT
      appended, the code size in its field, the footer offset in its field
      when corrected, every other byte as it was. */
  lemma TerminateImage(s: Stream, l: LegacyBytecode.Layout, asWritten: bool)
    requires s.Valid() && l.Valid() && l.size <= s.count <= ROOM && s.cursor == s.count
    ensures var r := Terminate(s, l, asWritten);
            var c := r.Contents();
            r.count == s.count + 1 && r.cursor == r.count && c[s.count] == OP_HALT
            && c[l.codeSizeAt..l.codeSizeAt + 4] == LeBytes(WrapU32(s.count + 1 - l.size), 4)
            && (!asWritten ==> c[l.footerAt..l.footerAt + 4] == LeBytes(s.count + 1, 4))
            && forall p :: 0 <= p < s.count && (p < l.codeSizeAt || l.codeSizeAt + 4 <= p)
                           && (asWritten || p < l.footerAt || l.footerAt + 4 <= p) ==>
                 c[p] == s.Contents()[p]
  {
    hide LeBytes, WrapU32, Store32, Pow256;
    WriteAppends(s, [OP_HALT]);
    var s1 := Write(s, [OP_HALT]);
    assert s1.Contents()[s.count] == OP_HALT;
    var s2 := Store32(s1, l.codeSizeAt, WrapU32(s1.cursor - l.size));
    if !asWritten {
      var s3 := Store32(s2, l.footerAt, s1.cursor);
      assert s3.Contents()[l.codeSizeAt..l.codeSizeAt + 4] == s2.Contents()[l.codeSizeAt..l.codeSizeAt + 4];
    }
  }

  /** The stream a successful compile leaves, from the stream after
      `init_byte_code` with its cursor at the end: terminated, patched,
      the footer appended at the end. */
  function CompiledStream(s: Stream, l: LegacyBytecode.Layout, asWritten: bool,
                          labels: seq<Label>, addresses: seq<Address>): (r: Stream)
    requires s.Valid() && l.Valid() && l.size <= s.count && s.cursor <= ROOM
    requires SlotsInside(addresses, |labels|, s.count)
    ensures r.Valid()
  {
    var s3 := Terminate(s, l, asWritten);
    SlotsGrow(addresses, |labels|, s.count, |labels|, s3.count);
    var s4 := PatchFrom(s3, labels, addresses, 0).stream;
    Write(Seek(s4, s.cursor + 1), WriteMeta(labels))
  }

  /** The stream-level facts of an appending assembler, after
      `init_byte_code`. */
  lemma AppendingFacts(a: Assembler)
    requires Appending(a) && a.code.count > 0
    ensures a.layout.Valid() && |a.template| == a.layout.size && a.code.Valid()
    ensures a.layout.size <= a.code.count == a.code.cursor
    ensures SlotsInside(a.addresses, |a.labels|, a.code.count)
    ensures forall k :: 0 <= k < |a.addresses| ==> a.layout.size <= a.addresses[k].offset
    ensures Ascending(a.addresses)
    ensures HeaderKept(a.code.Contents(), a.layout, a.template)
    ensures LabelTable(a.labels, a.addresses, a.code.count)
  {
  }

  /** A successful compile leaves `CompiledStream` of the stream after
      `init_byte_code`, whose stream-level facts hold; every placeholder's
      label is defined. */
  lemma CompiledCode(a: Assembler, asWritten: bool)
    requires Appending(a) && HasRoom(a) && Compile(a, asWritten).0 == Ok
    ensures a.Valid()
    ensures var a1 := Init(a);
            var s := a1.code;
            a1.labels == a.labels && a1.addresses == a.addresses
            && a1.layout == a.layout && a1.template == a.template
            && a.layout.Valid() && |a.template| == a.layout.size && s.Valid()
            && a.layout.size <= s.count == s.cursor <= ROOM
            && SlotsInside(a.addresses, |a.labels|, s.count)
            && (forall k :: 0 <= k < |a.addresses| ==> a.layout.size <= a.addresses[k].offset)
            && Ascending(a.addresses)
            && HeaderKept(s.Contents(), a.layout, a.template)
            && LabelTable(a.labels, a.addresses, s.count)
            && (forall k :: 0 <= k < |a.addresses| ==> a.labels[a.addresses[k].labelIndex].offset >= 0)
            && Compile(a, asWritten).1.code == CompiledStream(s, a.layout, asWritten, a.labels, a.addresses)
            && Compile(a, asWritten).1.labels == a.labels
            && LabelTable(a.labels, [], Compile(a, asWritten).1.code.count)
  {
    InitAppending(a);
    AppendingFacts(Init(a));
  }

  /** The header part of `CompiledStream`: HALT after the code, the
      header's name and version, the code size and (corrected) the footer
      offset. */
  lemma PatchedHeaderStream(s: Stream, l: LegacyBytecode.Layout, template: seq<byte>, asWritten: bool,
                            labels: seq<Label>, addresses: seq<Address>)
    requires s.Valid() && l.Valid() && |template| == l.size && l.size <= s.count <= ROOM && s.cursor == s.count
    requires SlotsInside(addresses, |labels|, s.count)
    requires forall k :: 0 <= k < |addresses| ==> l.size <= addresses[k].offset
    requires HeaderKept(s.Contents(), l, template)
    ensures var c0 := s.Contents();
            var end := |c0| + 1;
            var s3 := Terminate(s, l, asWritten);
            var c := PatchFrom(s3, labels, addresses, 0).stream.Contents();
            |c| == end && c[end - 1] == OP_HALT
            && HeaderKept(c, l, template)
            && c[l.codeSizeAt..l.codeSizeAt + 4] == LeBytes(WrapU32(end - l.size), 4)
            && (asWritten ==> c[l.footerAt..l.footerAt + 4] == c0[l.footerAt..l.footerAt + 4])
            && (!asWritten ==> c[l.footerAt..l.footerAt + 4] == LeBytes(end, 4))
  {
    hide LeBytes, WrapU32, EncodeS32, JumpOffset, WriteMeta, Store32, Terminate, Pow256, PatchFrom, PatchOne, Write, Seek;
    var c0 := s.Contents();
    var end := |c0| + 1;
    var s3 := Terminate(s, l, asWritten);
    TerminateImage(s, l, asWritten);
    SlotsGrow(addresses, |labels|, s.count, |labels|, s3.count);
    PatchKeepsHeader(s3, labels, addresses, l.size);
    var c := PatchFrom(s3, labels, addresses, 0).stream.Contents();
    var c3 := s3.Contents();
    SameSlice(c, c3, 0, l.nameSize);
    SameSlice(c, c3, l.codeSizeAt, l.codeSizeAt + 4);
    SameSlice(c, c3, l.footerAt, l.footerAt + 4);
    SameSlice(c3, c0, 0, l.nameSize);
    if asWritten {
      SameSlice(c3, c0, l.footerAt, l.footerAt + 4);
    }
  }

  /** `CompiledStream` but for the placeholders: the patched code and
      header, then the footer, the cursor at the end. */
  lemma CompiledStreamImage(s: Stream, l: LegacyBytecode.Layout, template: seq<byte>, asWritten: bool,
                            labels: seq<Label>, addresses: seq<Address>)
    requires s.Valid() && l.Valid() && |template| == l.size && l.size <= s.count <= ROOM && s.cursor == s.count
    requires SlotsInside(addresses, |labels|, s.count)
    requires forall k :: 0 <= k < |addresses| ==> l.size <= addresses[k].offset
    requires HeaderKept(s.Contents(), l, template)
    ensures var c0 := s.Contents();
            var end := |c0| + 1;
            var r := CompiledStream(s, l, asWritten, labels, addresses);
            var c := r.Contents();
            |c| == end + |WriteMeta(labels)| && r.cursor == |c|
            && c[end..] == WriteMeta(labels) && c[end - 1] == OP_HALT
            && HeaderKept(c, l, template)
            && c[l.codeSizeAt..l.codeSizeAt + 4] == LeBytes(WrapU32(end - l.size), 4)
            && (asWritten ==> c[l.footerAt..l.footerAt + 4] == c0[l.footerAt..l.footerAt + 4])
            && (!asWritten ==> c[l.footerAt..l.footerAt + 4] == LeBytes(end, 4))
  {
    hide LeBytes, WrapU32, EncodeS32, JumpOffset, WriteMeta, Store32, Terminate, Pow256, PatchOne;
    var end := s.count + 1;
    var s3 := Terminate(s, l, asWritten);
    TerminateImage(s, l, asWritten);
    SlotsGrow(addresses, |labels|, s.count, |labels|, s3.count);
    PatchedHeaderStream(s, l, template, asWritten, labels, addresses);
    var s4 := PatchFrom(s3, labels, addresses, 0).stream;
    var meta := WriteMeta(labels);
    WriteAppends(Seek(s4, end), meta);
    var c4 := s4.Contents();
    var c := c4 + meta;
    assert CompiledStream(s, l, asWritten, labels, addresses).Contents() == c;
    hide PatchFrom, CompiledStream, Write, Seek;
    assert c[..l.nameSize] == c4[..l.nameSize];
    assert c[l.codeSizeAt..l.codeSizeAt + 4] == c4[l.codeSizeAt..l.codeSizeAt + 4];
    assert c[l.footerAt..l.footerAt + 4] == c4[l.footerAt..l.footerAt + 4];
  }

  /** The placeholders of `CompiledStream`, once every label is defined:
      each holds its jump. */
  lemma CompiledStreamSlots(s: Stream, l: LegacyBytecode.Layout, asWritten: bool,
                            labels: seq<Label>, addresses: seq<Address>)
    requires s.Valid() && l.Valid() && l.size <= s.count <= ROOM && s.cursor == s.count
    requires SlotsInside(addresses, |labels|, s.count) && Ascending(addresses)
    requires forall k :: 0 <= k < |addresses| ==> labels[addresses[k].labelIndex].offset >= 0
    ensures var c := CompiledStream(s, l, asWritten, labels, addresses).Contents();
            forall k :: 0 <= k < |addresses| ==>
              c[addresses[k].offset..addresses[k].offset + 4] == EncodeS32(JumpOffset(labels, addresses[k]))
  {
    hide LeBytes, WrapU32, EncodeS32, JumpOffset, WriteMeta, Store32, Terminate, Pow256, PatchOne;
    var end := s.count + 1;
    var s3 := Terminate(s, l, asWritten);
    SlotsGrow(addresses, |labels|, s.count, |labels|, s3.count);
    PatchFromOutcome(s3, labels, addresses, 0);
    PatchFromSlots(s3, labels, addresses, 0);
    var s4 := PatchFrom(s3, labels, addresses, 0).stream;
    var meta := WriteMeta(labels);
    WriteAppends(Seek(s4, end), meta);
    var c4 := s4.Contents();
    var c := c4 + meta;
    assert CompiledStream(s, l, asWritten, labels, addresses).Contents() == c;
    hide PatchFrom, CompiledStream, Write, Seek;
    forall k | 0 <= k < |addresses|
      ensures c[addresses[k].offset..addresses[k].offset + 4] == c4[addresses[k].offset..addresses[k].offset + 4]
    {
      assert addresses[k].offset + 4 <= |c4|;
    }
  }

  /** Two sequences that agree at every index of [lo, hi) have the same
      slice there. */
  lemma SameSlice(c: seq<byte>, d: seq<byte>, lo: nat, hi: nat)
    requires lo <= hi <= |c| && hi <= |d|
    requires forall p :: lo <= p < hi ==> c[p] == d[p]
    ensures c[lo..hi] == d[lo..hi]
  {
  }

  /** Placeholders past the header leave the header, and the last byte
      when they all lie before it, as they were. */
  lemma PatchKeepsHeader(s: Stream, labels: seq<Label>, addresses: seq<Address>, size: nat)
    requires s.Valid() && 0 < s.count && SlotsInside(addresses, |labels|, s.count - 1)
    requires forall k :: 0 <= k < |addresses| ==> size <= addresses[k].offset
    ensures var c := PatchFrom(s, labels, addresses, 0).stream.Contents();
            (forall p :: 0 <= p < size && p < s.count ==> c[p] == s.Contents()[p])
            && c[s.count - 1] == s.Contents()[s.count - 1]
  {
    SlotsGrow(addresses, |labels|, s.count - 1, |labels|, s.count);
    PatchFromFrame(s, labels, addresses, 0);
    assert Untouched(addresses, 0, s.count - 1);
    forall p | 0 <= p < size && p < s.count
      ensures Untouched(addresses, 0, p)
    {
    }
  }

  // ---------------------------------------------------------------------
  // What a successful compile produces.

  /** With no placeholders left, every label is defined, with a name
      `put_label` accepted. */
  lemma AllDefined(labels: seq<Label>, count: nat)
    requires LabelTable(labels, [], count)
    ensures forall k :: 0 <= k < |labels| ==>
              0 <= labels[k].offset <= count && 0 < |labels[k].name| && |labels[k].name| < LABEL_MAX_SIZE
  {
    forall k | 0 <= k < |labels|
      ensures 0 <= labels[k].offset
    {
      assert !Referenced([], k);
    }
  }

  /** The footer entries of `write_meta` are the entries the reader
      decodes: the offsets as uint32, the name size as one byte. */
  lemma {:induction false} MetaEntriesEncode(labels: seq<Label>)
    requires forall k :: 0 <= k < |labels| ==> CurrentBytecode.IsLabelName(labels[k].name)
    ensures CurrentBytecode.AllStorable(Entries(labels))
    ensures MetaEntries(labels) == CurrentBytecode.EncodeLabels(Entries(labels))
    decreases |labels|
  {
    var ls := Entries(labels);
    assert CurrentBytecode.AllStorable(ls) by {
      forall k | 0 <= k < |ls| ensures CurrentBytecode.IsStorable(ls[k]) {
        assert CurrentBytecode.IsLabelName(labels[k].name);
      }
    }
    if |labels| > 0 {
      assert Entries(labels)[1..] == Entries(labels[1..]);
      assert forall k :: 0 <= k < |labels| - 1 ==> labels[1..][k] == labels[k + 1];
      MetaEntriesEncode(labels[1..]);
      assert MetaEntry(labels[0]) == CurrentBytecode.EncodeLabel(ls[0]);
    }
  }

  /** `write_meta` writes the footer the reader expects, for labels whose
      names it can store. */
  lemma MetaIsFooter(labels: seq<Label>)
    requires forall k :: 0 <= k < |labels| ==> CurrentBytecode.IsLabelName(labels[k].name)
    requires IsU32(|labels|)
    ensures CurrentBytecode.AllStorable(Entries(labels))
    ensures WriteMeta(labels) == LegacyBytecode.Footer(Entries(labels))
  {
    MetaEntriesEncode(labels);
  }

  /** The image of a successful compile, in terms of the assembler. */
  lemma CompiledImage(a: Assembler, asWritten: bool)
    requires Appending(a) && HasRoom(a) && Compile(a, asWritten).0 == Ok
    ensures var c0 := Init(a).code.Contents();
            var r := Compile(a, asWritten).1;
            var c := r.code.Contents();
            var l := a.layout;
            |c| == |c0| + 1 + |WriteMeta(a.labels)| && r.code.cursor == r.code.count == |c|
            && c[|c0| + 1..] == WriteMeta(a.labels)
            && HeaderKept(c, l, a.template)
            && (asWritten ==> c[l.footerAt..l.footerAt + 4] == c0[l.footerAt..l.footerAt + 4])
            && (!asWritten ==> c[l.footerAt..l.footerAt + 4] == LeBytes(|c0| + 1, 4))
  {
    hide Compile, Init, Appending, Assembler.Valid, LeBytes, WrapU32, EncodeS32, DecodeS32, WriteMeta, Pow256, CompiledStream;
    CompiledCode(a, asWritten);
    var a1 := Init(a);
    CompiledStreamImage(a1.code, a.layout, a.template, asWritten, a1.labels, a1.addresses);
  }

  /** As written, `compile` leaves the cursor at the end of the footer and
      `get_byte_code` parses the header from the cursor: the bytecode it
      returns is never valid. */
  lemma CompiledNeverValid(a: Assembler, asWritten: bool)
    requires Appending(a) && HasRoom(a) && Compile(a, asWritten).0 == Ok
    ensures !GetByteCode(Compile(a, asWritten).1, false, asWritten).value.valid
  {
    hide Compile, Init, Appending, Assembler.Valid, LeBytes, WrapU32, EncodeS32, DecodeS32, WriteMeta, Pow256, CompiledStream;
    CompiledCode(a, asWritten);
    var r := Compile(a, asWritten).1;
    CompiledImage(a, asWritten);
    LegacyBytecode.HeaderReadAtEnd(r.code, r.layout, r.template);
  }

  /** As written, `compile` never stores the footer offset: the header
      keeps what the template held there. */
  lemma CompiledFooterOffsetUnchanged(a: Assembler)
    requires Appending(a) && HasRoom(a) && Compile(a, true).0 == Ok
    ensures var c := Compile(a, true).1.code.Contents();
            var l := a.layout;
            c[l.footerAt..l.footerAt + 4] == Init(a).code.Contents()[l.footerAt..l.footerAt + 4]
            && (a.code.count == 0 ==> c[l.footerAt..l.footerAt + 4] == a.template[l.footerAt..l.footerAt + 4])
  {
    hide Compile, Init, Appending, Assembler.Valid, LeBytes, WrapU32, EncodeS32, DecodeS32, WriteMeta, Pow256, CompiledStream;
    CompiledImage(a, true);
  }

  /** A stream whose header has the template's name and version, whose
      footer offset field points at a footer of `ls`, loads from offset 0
      with the labels of `ls`. */
  lemma LoadsFromStart(s: Stream, l: LegacyBytecode.Layout, template: seq<byte>,
                       at: nat, ls: seq<CurrentBytecode.Label>)
    requires s.Valid() && LegacyBytecode.IsTemplate(l, template) && HeaderKept(s.Contents(), l, template)
    requires IsU32(at) && s.Contents()[l.footerAt..l.footerAt + 4] == LeBytes(at, 4)
    requires CurrentBytecode.AllStorable(ls) && IsU32(|ls|)
    requires at + |LegacyBytecode.Footer(ls)| <= s.count
    requires s.Contents()[at..at + |LegacyBytecode.Footer(ls)|] == LegacyBytecode.Footer(ls)
    ensures var b := LegacyBytecode.Initialize(s, l, template, true, false);
            b.valid && b.labels == LegacyBytecode.LabelMap(map[], ls)
  {
    hide LeBytes, LegacyBytecode.Footer, CurrentBytecode.EncodeLabels, LegacyBytecode.ReadFooter, LegacyBytecode.ReadHeader;
    var c := s.Contents();
    Pow256Values();
    LeValueOfBytes(at, 4);
    LegacyBytecode.HeaderReadFromStart(s, l, template);
    var h := LegacyBytecode.ReadHeader(Seek(s, 0), l, template);
    assert h.2.footerOffset == at by {
      assert c[..l.size][l.footerAt..l.footerAt + 4] == c[l.footerAt..l.footerAt + 4];
    }
    LegacyBytecode.FooterRoundTrip(h.1, at, ls);
  }

  /** Corrected (the footer offset stored, the header read from offset
      0): a compiled program loads, with every label at its offset. */
  lemma CompiledLoads(a: Assembler)
    requires Appending(a) && HasRoom(a) && LegacyBytecode.IsTemplate(a.layout, a.template)
    requires forall k :: 0 <= k < |a.labels| ==> CurrentBytecode.NoNul(a.labels[k].name)
    requires IsU32(|a.labels|)
    requires Compile(a, false).0 == Ok
    ensures var b := GetByteCode(Compile(a, false).1, true, false).value;
            b.valid && b.labels == LegacyBytecode.LabelMap(map[], Entries(a.labels))
  {
    hide Compile, Init, Appending, Assembler.Valid, LeBytes, WrapU32, EncodeS32, DecodeS32, WriteMeta, Pow256, CompiledStream;
    CompiledCode(a, false);
    var r := Compile(a, false).1;
    CompiledImage(a, false);
    AllDefined(a.labels, r.code.count);
    MetaIsFooter(a.labels);
    var end := Init(a).code.count + 1;
    var ls := Entries(a.labels);
    LoadsFromStart(r.code, a.layout, a.template, end, ls);
  }

  /** Every placeholder of a successful compile holds, as an int32, the
      distance from itself to its label, a label inside the code. */
  lemma CompiledJumpLands(a: Assembler, asWritten: bool)
    requires Appending(a) && HasRoom(a) && Compile(a, asWritten).0 == Ok
    ensures var c := Compile(a, asWritten).1.code.Contents();
            forall k :: 0 <= k < |a.addresses| ==>
              var ad := a.addresses[k];
              var target := a.labels[ad.labelIndex].offset;
              0 <= ad.offset && ad.offset + 4 <= |c| && 0 <= target < |c|
              && DecodeS32(c[ad.offset..ad.offset + 4]) == target - ad.offset
  {
    hide Compile, Init, Appending, Assembler.Valid, LeBytes, WrapU32, EncodeS32, DecodeS32, WriteMeta, Pow256, CompiledStream;
    CompiledCode(a, asWritten);
    var a1 := Init(a);
    CompiledImage(a, asWritten);
    CompiledStreamSlots(a1.code, a.layout, asWritten, a1.labels, a1.addresses);
    var c := Compile(a, asWritten).1.code.Contents();
    forall k | 0 <= k < |a.addresses|
      ensures var ad := a.addresses[k];
              var target := a.labels[ad.labelIndex].offset;
              0 <= ad.offset && ad.offset + 4 <= |c| && 0 <= target < |c|
              && DecodeS32(c[ad.offset..ad.offset + 4]) == target - ad.offset
    {
      var ad := a.addresses[k];
      var target := a.labels[ad.labelIndex].offset;
      assert LabelTable(a1.labels, a1.addresses, a1.code.count);
      assert 0 <= target <= a1.code.count;
      S32RoundTrip(target - ad.offset);
    }
  }

  // ---------------------------------------------------------------------
  // What a failed compile leaves.

  /** The stream a compile that stops at an undefined label leaves: as
      written, where the last store left the cursor; corrected, with the
      cursor back at the end. */
  function FailedStream(s: Stream, l: LegacyBytecode.Layout, asWritten: bool,
                        labels: seq<Label>, addresses: seq<Address>): (r: Stream)
    requires s.Valid() && l.Valid() && l.size <= s.count && s.cursor <= ROOM
    requires SlotsInside(addresses, |labels|, s.count)
    ensures r.Valid()
  {
    var s3 := Terminate(s, l, asWritten);
    SlotsGrow(addresses, |labels|, s.count, |labels|, s3.count);
    var s4 := PatchFrom(s3, labels, addresses, 0).stream;
    if asWritten then s4 else Seek(s4, s.cursor + 1)
  }

  /** A failed compile leaves `FailedStream` of the stream after
      `init_byte_code`, and some placeholder's label is undefined. */
  lemma FailedCode(a: Assembler, asWritten: bool)
    requires Appending(a) && HasRoom(a) && a.state == Assemble && Compile(a, asWritten).0 != Ok
    ensures a.Valid()
    ensures var a1 := Init(a);
            var s := a1.code;
            var r := Compile(a, asWritten).1;
            a1.labels == a.labels && a1.addresses == a.addresses
            && a1.layout == a.layout && a1.template == a.template
            && a.layout.Valid() && |a.template| == a.layout.size && s.Valid()
            && a.layout.size <= s.count == s.cursor <= ROOM
            && SlotsInside(a.addresses, |a.labels|, s.count)
            && (forall k :: 0 <= k < |a.addresses| ==> a.layout.size <= a.addresses[k].offset)
            && Ascending(a.addresses)
            && HeaderKept(s.Contents(), a.layout, a.template)
            && r.code == FailedStream(s, a.layout, asWritten, a.labels, a.addresses)
            && r.state == Assemble && r.layout == a.layout && r.template == a.template
            && r.addresses == a.addresses
            && exists k :: 0 <= k < |a.addresses| && a.labels[a.addresses[k].labelIndex].offset < 0
  {
    InitAppending(a);
    AppendingFacts(Init(a));
  }

  /** Where a failed compile leaves the cursor: as written after the last
      store, so inside the code once the first placeholder was patched;
      corrected at the end, the header intact. */
  lemma FailedStreamCursor(s: Stream, l: LegacyBytecode.Layout, template: seq<byte>, asWritten: bool,
                           labels: seq<Label>, addresses: seq<Address>)
    requires s.Valid() && l.Valid() && |template| == l.size && l.size <= s.count <= ROOM && s.cursor == s.count
    requires SlotsInside(addresses, |labels|, s.count)
    requires forall k :: 0 <= k < |addresses| ==> l.size <= addresses[k].offset
    requires HeaderKept(s.Contents(), l, template)
    requires exists k :: 0 <= k < |addresses| && labels[addresses[k].labelIndex].offset < 0
    ensures var r := FailedStream(s, l, asWritten, labels, addresses);
            r.count == s.count + 1
            && (asWritten && labels[addresses[0].labelIndex].offset >= 0 ==> r.cursor < r.count)
            && (!asWritten ==> r.cursor == r.count && HeaderKept(r.Contents(), l, template))
  {
    hide LeBytes, WrapU32, EncodeS32, JumpOffset, WriteMeta, Store32, Pow256, PatchOne;
    var s3 := Terminate(s, l, asWritten);
    SlotsGrow(addresses, |labels|, s.count, |labels|, s3.count);
    PatchFromOutcome(s3, labels, addresses, 0);
    PatchedHeaderStream(s, l, template, asWritten, labels, addresses);
  }

  /** As written, a compile that fails on a later placeholder leaves the
      cursor inside the code, where the next `put` overwrites it; the
      assembler stays in the assembling state. */
  lemma FailedCompileRewinds(a: Assembler)
    requires Appending(a) && HasRoom(a) && a.state == Assemble && Compile(a, true).0 != Ok
    requires |a.addresses| > 0 && a.labels[a.addresses[0].labelIndex].offset >= 0
    ensures var r := Compile(a, true).1;
            r.state == Assemble && r.code.cursor < r.code.count
  {
    hide Compile, Init, Appending, Assembler.Valid, FailedStream;
    FailedCode(a, true);
    FailedStreamCursor(Init(a).code, a.layout, a.template, true, a.labels, a.addresses);
  }

  /** Corrected, a failed compile keeps the shape `put` and `put_label`
      need: the cursor at the end, the header and placeholders as they
      were. */
  lemma FailedCompileKeepsAppending(a: Assembler)
    requires Appending(a) && HasRoom(a) && Compile(a, false).0 != Ok
    ensures Appending(Compile(a, false).1)
  {
    hide Compile, Init, FailedStream;
    if a.state == Assemble {
      FailedCode(a, false);
      FailedStreamCursor(Init(a).code, a.layout, a.template, false, a.labels, a.addresses);
    }
  }
}

=== FILE: legacy_bytecode.dfy ===
/** The older tree's `BlipKitBytecode`: a header, the code, and a footer
    that lists the labels.

    The older `Header` struct is declared with the older interpreter's
    private types in a header file that is not part of this model, so its
    layout is a parameter (`Layout`): a name at the front, a version byte,
    and the uint32 code size and footer offset, none of them overlapping.
    The header the assembler writes is likewise a parameter (`template`),
    the bytes of the static default header.

    A footer is a uint32 label count followed by entries in the same form
    as the current "labl" section's entries (uint32 offset, length byte,
    name bytes), so the entry reader of the current `Bytecode` module is shared. */
module LegacyBytecode {
  import opened Bytes
  import opened ByteStream
  import Current = Bytecode

  /** `BlipKitBytecode::VERSION`: the only version `read_header` accepts. */
  const VERSION: nat := 1

  /** Where the header's fields lie. */
  datatype Layout = Layout(size: nat, nameSize: nat, versionAt: nat, codeSizeAt: nat, footerAt: nat)
  {
    /** All fields inside the header, the name first, none overlapping. */
    predicate Valid() {
      nameSize <= versionAt < size
      && nameSize <= codeSizeAt && codeSizeAt + 4 <= size
      && nameSize <= footerAt && footerAt + 4 <= size
      && (versionAt < codeSizeAt || codeSizeAt + 4 <= versionAt)
      && (versionAt < footerAt || footerAt + 4 <= versionAt)
      && (codeSizeAt + 4 <= footerAt || footerAt + 4 <= codeSizeAt)
    }
  }

  /** The header fields the reader inspects. */
  datatype Header = Header(name: seq<byte>, version: nat, footerOffset: nat)

  function DecodeHeader(l: Layout, h: seq<byte>): (r: Header)
    requires l.Valid() && |h| == l.size
    ensures |r.name| == l.nameSize && r.version < U8_LIMIT && IsU32(r.footerOffset)
  {
    Pow256Values();
    Header(h[..l.nameSize], h[l.versionAt] as nat, LeValue(h[l.footerAt..l.footerAt + 4]))
  }

  /** A template header `read_header` accepts: the right size and version
      1. */
  predicate IsTemplate(l: Layout, template: seq<byte>) {
    l.Valid() && |template| == l.size && template[l.versionAt] as nat == VERSION
  }

  /** A parsed bytecode object: its stream, the labels by name and
      whether it parsed. */
  datatype Bytecode = Bytecode(code: Stream, labels: map<seq<byte>, nat>, valid: bool)

  /** `read_header`: copy a header's worth of bytes from the cursor; too few
      bytes, a different name or a version other than 1 reject it. The
      name expected is the template's. */
  function ReadHeader(s: Stream, l: Layout, template: seq<byte>): (r: (bool, Stream, Header))
    requires s.Valid() && l.Valid() && |template| == l.size
    ensures r.1.Valid() && r.1.Contents() == s.Contents()
    ensures s.cursor + l.size > s.count ==> !r.0
    ensures r.0 ==> r.1.cursor == s.cursor + l.size
                    && r.2 == DecodeHeader(l, s.Contents()[s.cursor..s.cursor + l.size])
    ensures r.0 <==> s.cursor + l.size <= s.count
                     && var h := DecodeHeader(l, s.Contents()[s.cursor..s.cursor + l.size]);
                        h.name == template[..l.nameSize] && h.version == VERSION
  {
    var (got, s1) := GetBytes(s, l.size);
    if |got| != l.size then (false, s1, Header([], 0, 0))
    else
      var h := DecodeHeader(l, got);
      (h.name == template[..l.nameSize] && h.version == VERSION, s1, h)
  }

  /** The outcome of reading footer entries. */
  datatype Entries = Entries(ok: bool, stream: Stream, labels: map<seq<byte>, nat>, buffer: seq<byte>)

  /** The entry loop of `read_footer`: `count` entries, each stored under
      its name, replacing an earlier entry of the same name. */
  function ReadEntries(s: Stream, count: nat, buffer: seq<byte>, labels: map<seq<byte>, nat>,
                       asWritten: bool): (r: Entries)
    requires s.Valid()
    ensures r.stream.Valid() && r.stream.Contents() == s.Contents() && r.stream.cursor >= s.cursor
    ensures labels.Keys <= r.labels.Keys
    decreases count
  {
    if count == 0 then Entries(true, s, labels, buffer)
    else
      var e := Current.ReadEntry(s, buffer, asWritten);
      if !e.ok then Entries(false, e.stream, labels, buffer)
      else ReadEntries(e.stream, count - 1, e.buffer, labels[e.name := e.offset], asWritten)
  }

  /** `read_footer`: remember the cursor, seek to the footer, read a count
      (capped at the stream size) and that many entries. A truncated name
      fails and leaves the cursor where the read stopped; otherwise the
      cursor goes back to where it was. */
  function ReadFooter(s: Stream, footerOffset: nat, labels: map<seq<byte>, nat>, asWritten: bool)
    : (r: (bool, Stream, map<seq<byte>, nat>))
    requires s.Valid()
    ensures r.1.Valid() && r.1.Contents() == s.Contents()
    ensures r.0 ==> r.1.cursor == s.cursor
    ensures labels.Keys <= r.2.Keys
  {
    var position := s.cursor;
    var (n, s1) := GetU32(Seek(s, footerOffset));
    var e := ReadEntries(s1, Min(n, s.count), [], labels, asWritten);
    if !e.ok then (false, e.stream, e.labels)
    else (true, Seek(e.stream, position), e.labels)
  }

  /** `initialize`: the stream is copied with its cursor; the bytecode is
      valid when the header and then the footer parse. As written the
      header is read from the copied cursor; `fromStart` reads it from
      offset 0 instead. `asWritten` is passed on to the footer reader,
      where it keeps one name buffer across entries. */
  function Initialize(s: Stream, l: Layout, template: seq<byte>, fromStart: bool, asWritten: bool): (b: Bytecode)
    requires s.Valid() && l.Valid() && |template| == l.size
    ensures b.code.Valid() && b.code.Contents() == s.Contents()
    ensures b.valid ==> ReadHeader(if fromStart then Seek(s, 0) else s, l, template).0
    ensures var (ok, s1, h) := ReadHeader(if fromStart then Seek(s, 0) else s, l, template);
            ok ==> b.valid == ReadFooter(s1, h.footerOffset, map[], asWritten).0
                   && b.labels == ReadFooter(s1, h.footerOffset, map[], asWritten).2
  {
    var s0 := if fromStart then Seek(s, 0) else s;
    var (ok, s1, h) := ReadHeader(s0, l, template);
    if !ok then Bytecode(s1, map[], false)
    else
      var (found, s2, labels) := ReadFooter(s1, h.footerOffset, map[], asWritten);
      Bytecode(s2, labels, found)
  }

  /** `set_bytes`: new bytes, but the labels and the validity stay as they
      were. */
  function SetBytes(b: Bytecode, bytes: seq<byte>): (r: Bytecode)
    ensures r.code.Contents() == bytes && r.code.cursor == 0
    ensures r.labels == b.labels && r.valid == b.valid
  {
    b.(code := ByteStream.SetBytes(bytes))
  }

  /** `get_labels`: the names of the labels read. */
  function GetLabels(b: Bytecode): (names: set<seq<byte>>)
    ensures forall name :: name in names <==> name in b.labels
  {
    b.labels.Keys
  }

  /** `get_byte_array`: the stream's bytes. */
  function GetByteArray(b: Bytecode): (bytes: seq<byte>)
    ensures |bytes| == b.code.count
  {
    b.code.Contents()
  }

  // ---------------------------------------------------------------------
  // Footer round trip.

  /** The labels entries define, later entries replacing earlier ones of
      the same name. */
  function LabelMap(labels: map<seq<byte>, nat>, ls: seq<Current.Label>): (m: map<seq<byte>, nat>)
    decreases |ls|
  {
    if |ls| == 0 then labels else LabelMap(labels[ls[0].name := ls[0].offset], ls[1..])
  }

  /** A name entries define maps to the offset of its last entry. */
  lemma {:induction false} LabelMapLastWins(labels: map<seq<byte>, nat>, ls: seq<Current.Label>)
    ensures forall i :: 0 <= i < |ls| && (forall j :: i < j < |ls| ==> ls[j].name != ls[i].name) ==>
              ls[i].name in LabelMap(labels, ls) && LabelMap(labels, ls)[ls[i].name] == ls[i].offset
    decreases |ls|
  {
    if |ls| > 0 {
      var next := labels[ls[0].name := ls[0].offset];
      LabelMapLastWins(next, ls[1..]);
      LabelMapKeepsOthers(next, ls[1..]);
      forall i | 0 <= i < |ls| && (forall j :: i < j < |ls| ==> ls[j].name != ls[i].name)
        ensures ls[i].name in LabelMap(labels, ls) && LabelMap(labels, ls)[ls[i].name] == ls[i].offset
      {
        if i > 0 {
          assert ls[1..][i - 1] == ls[i];
          assert forall j :: i - 1 < j < |ls| - 1 ==> ls[1..][j].name != ls[1..][i - 1].name by {
            forall j | i - 1 < j < |ls| - 1 ensures ls[1..][j].name != ls[i].name {
              assert ls[1..][j] == ls[j + 1];
            }
          }
        } else {
          forall j | 0 <= j < |ls| - 1 ensures ls[1..][j].name != ls[0].name {
            assert ls[1..][j] == ls[j + 1];
          }
        }
      }
    }
  }

  /** A name no entry defines keeps what it had. */
  lemma {:induction false} LabelMapKeepsOthers(labels: map<seq<byte>, nat>, ls: seq<Current.Label>)
    ensures forall name :: (forall j :: 0 <= j < |ls| ==> ls[j].name != name) ==>
              (name in LabelMap(labels, ls) <==> name in labels)
              && (name in labels ==> LabelMap(labels, ls)[name] == labels[name])
    decreases |ls|
  {
    if |ls| > 0 {
      var next := labels[ls[0].name := ls[0].offset];
      LabelMapKeepsOthers(next, ls[1..]);
      forall name | (forall j :: 0 <= j < |ls| ==> ls[j].name != name)
        ensures (name in LabelMap(labels, ls) <==> name in labels)
                && (name in labels ==> LabelMap(labels, ls)[name] == labels[name])
      {
        forall j | 0 <= j < |ls| - 1 ensures ls[1..][j].name != name {
          assert ls[1..][j] == ls[j + 1];
        }
      }
    }
  }

  /** The entries of `ls` encoded take at least one byte each. */
  lemma {:induction false} EncodedLength(ls: seq<Current.Label>)
    requires Current.AllStorable(ls)
    ensures |Current.EncodeLabels(ls)| >= 5 * |ls|
    decreases |ls|
  {
    if |ls| > 0 {
      Current.AllStorableTail(ls);
      EncodedLength(ls[1..]);
    }
  }

  /** Reading encoded entries recovers them, later names replacing
      earlier ones. */
  lemma {:induction false} ReadEncodedEntries(s: Stream, ls: seq<Current.Label>, buffer: seq<byte>,
                                              labels: map<seq<byte>, nat>)
    requires s.Valid() && Current.AllStorable(ls)
    requires Current.Following(s, Current.EncodeLabels(ls))
    ensures var r := ReadEntries(s, |ls|, buffer, labels, false);
            r.ok && r.labels == LabelMap(labels, ls)
            && r.stream.cursor == s.cursor + |Current.EncodeLabels(ls)|
    decreases |ls|
  {
    if |ls| > 0 {
      var l := ls[0];
      var rest := Current.EncodeLabels(ls[1..]);
      assert Current.EncodeLabels(ls) == Current.EncodeLabel(l) + rest;
      Current.ReadEncodedEntry(s, l, rest, buffer, false);
      var e := Current.ReadEntry(s, buffer, false);
      Current.AllStorableTail(ls);
      ReadEncodedEntries(e.stream, ls[1..], e.buffer, labels[l.name := l.offset]);
    }
  }

  /** The footer `write_meta` produces: the label count, then the entries. */
  function Footer(ls: seq<Current.Label>): (bs: seq<byte>)
    requires Current.AllStorable(ls) && IsU32(|ls|)
    ensures |bs| == 4 + |Current.EncodeLabels(ls)|
  {
    Pow256Values();
    LeBytes(|ls|, 4) + Current.EncodeLabels(ls)
  }

  /** A footer read where it was written yields its labels, the last entry
      of a name winning, and the cursor goes back. */
  lemma FooterRoundTrip(s: Stream, at: nat, ls: seq<Current.Label>)
    requires s.Valid() && Current.AllStorable(ls) && IsU32(|ls|)
    requires at + |Footer(ls)| <= s.count && s.Contents()[at..at + |Footer(ls)|] == Footer(ls)
    ensures var r := ReadFooter(s, at, map[], false);
            r.0 && r.1.cursor == s.cursor && r.2 == LabelMap(map[], ls)
  {
    Pow256Values();
    var body := Current.EncodeLabels(ls);
    var t := Seek(s, at);
    Current.SliceConcat(s.Contents(), at, LeBytes(|ls|, 4), body);
    ReadStored(t, 4, |ls|);
    var s1 := GetU32(t).1;
    EncodedLength(ls);
    assert Min(|ls|, s.count) == |ls|;
    Current.FollowingAt(s1, body);
    ReadEncodedEntries(s1, ls, [], map[]);
    hide Current.EncodeLabels, Current.Following, LabelMap, ReadEntries, Read;
    assert ReadFooter(s, at, map[], false).2 == ReadEntries(s1, |ls|, [], map[], false).labels;
  }

  // ---------------------------------------------------------------------
  // The footer reader as written keeps one name buffer across entries,
  // like the current `read_labels`.

  /** The entry loop as written on encoded entries: it succeeds, and the
      names it stores are the stale names, not the names written. */
  lemma {:induction false} ReadEncodedEntriesAsWritten(s: Stream, ls: seq<Current.Label>, buffer: seq<byte>,
                                                       labels: map<seq<byte>, nat>)
    requires s.Valid() && Current.AllStorable(ls) && Current.NoNul(buffer)
    requires Current.Following(s, Current.EncodeLabels(ls))
    ensures var r := ReadEntries(s, |ls|, buffer, labels, true);
            r.ok && r.labels == LabelMap(labels, Current.StaleNames(ls, buffer))
            && r.stream.cursor == s.cursor + |Current.EncodeLabels(ls)|
    decreases |ls|
  {
    if |ls| > 0 {
      var l := ls[0];
      var rest := Current.EncodeLabels(ls[1..]);
      assert Current.EncodeLabels(ls) == Current.EncodeLabel(l) + rest;
      Current.ReadEncodedEntry(s, l, rest, buffer, true);
      var e := Current.ReadEntry(s, buffer, true);
      var stale := Current.StaleNames(ls, buffer);
      assert stale[0] == Current.Label(e.name, l.offset) && stale[1..] == Current.StaleNames(ls[1..], e.buffer);
      Current.AllStorableTail(ls);
      ReadEncodedEntriesAsWritten(e.stream, ls[1..], e.buffer, labels[e.name := l.offset]);
    }
  }

  /** A footer read as written yields the stale names: each name is read
      over the front of the names before it. Names that never get shorter
      come back exactly. */
  lemma FooterRoundTripAsWritten(s: Stream, at: nat, ls: seq<Current.Label>)
    requires s.Valid() && Current.AllStorable(ls) && IsU32(|ls|)
    requires at + |Footer(ls)| <= s.count && s.Contents()[at..at + |Footer(ls)|] == Footer(ls)
    ensures var r := ReadFooter(s, at, map[], true);
            r.0 && r.1.cursor == s.cursor && r.2 == LabelMap(map[], Current.StaleNames(ls, []))
    ensures Current.NonShrinking(ls) ==> ReadFooter(s, at, map[], true).2 == LabelMap(map[], ls)
  {
    Pow256Values();
    var body := Current.EncodeLabels(ls);
    var t := Seek(s, at);
    Current.SliceConcat(s.Contents(), at, LeBytes(|ls|, 4), body);
    ReadStored(t, 4, |ls|);
    var s1 := GetU32(t).1;
    EncodedLength(ls);
    assert Min(|ls|, s.count) == |ls|;
    Current.FollowingAt(s1, body);
    ReadEncodedEntriesAsWritten(s1, ls, [], map[]);
    if Current.NonShrinking(ls) {
      Current.StaleNamesExact(ls, []);
    }
    hide Current.EncodeLabels, Current.Following, LabelMap, ReadEntries, Read;
    assert ReadFooter(s, at, map[], true).2 == ReadEntries(s1, |ls|, [], map[], true).labels;
  }

  /** As written, a name shorter than the name before it is lost: the
      footer of `l0` then `l1` loads `l1` under its name followed by the
      tail of `l0`'s name, and `l1`'s own name is missing. The corrected
      reader finds it. */
  lemma FooterLosesShorterName(s: Stream, at: nat, l0: Current.Label, l1: Current.Label)
    requires s.Valid() && Current.IsStorable(l0) && Current.IsStorable(l1) && |l1.name| < |l0.name|
    requires at + |Footer([l0, l1])| <= s.count && s.Contents()[at..at + |Footer([l0, l1])|] == Footer([l0, l1])
    ensures var r := ReadFooter(s, at, map[], true);
            r.0 && l1.name + l0.name[|l1.name|..] in r.2 && l1.name !in r.2
    ensures var r := ReadFooter(s, at, map[], false);
            r.0 && l1.name in r.2 && r.2[l1.name] == l1.offset
  {
    var ls := [l0, l1];
    FooterRoundTripAsWritten(s, at, ls);
    FooterRoundTrip(s, at, ls);
    Current.StaleNameDiffers(l0, l1);
    var stale := Current.StaleNames(ls, []);
    assert stale[0] == l0 by {
      assert stale == [Current.Label(Current.Spliced(l0.name, []), l0.offset)] + Current.StaleNames(ls[1..], l0.name);
    }
    assert LabelMap(map[], stale) == map[l0.name := l0.offset][stale[1].name := stale[1].offset] by {
      var m1 := map[][l0.name := l0.offset];
      assert LabelMap(map[], stale) == LabelMap(m1, stale[1..]);
      assert stale[1..][0] == stale[1] && stale[1..][1..] == [];
      assert LabelMap(m1, stale[1..]) == LabelMap(m1[stale[1].name := stale[1].offset], []);
    }
    assert LabelMap(map[], ls) == map[l0.name := l0.offset][l1.name := l1.offset] by {
      var m1 := map[][l0.name := l0.offset];
      assert LabelMap(map[], ls) == LabelMap(m1, ls[1..]);
      assert ls[1..] == [l1] && ls[1..][1..] == [];
      assert LabelMap(m1, [l1]) == LabelMap(m1[l1.name := l1.offset], []);
    }
  }

  // ---------------------------------------------------------------------
  // The header is read from the copied cursor.

  /** As written, a stream whose cursor is at its end (where compiling
      leaves the assembler's stream) never parses: the header read comes
      up short. */
  lemma HeaderReadAtEnd(s: Stream, l: Layout, template: seq<byte>)
    requires s.Valid() && l.Valid() && |template| == l.size && s.cursor == s.count
    ensures !Initialize(s, l, template, false, false).valid
    ensures !Initialize(s, l, template, false, true).valid
  {
  }

  /** Read from offset 0, a stream that starts with a header of the
      template's name and version passes the header check, wherever its
      cursor was. */
  lemma HeaderReadFromStart(s: Stream, l: Layout, template: seq<byte>)
    requires s.Valid() && IsTemplate(l, template) && l.size <= s.count
    requires s.Contents()[..l.nameSize] == template[..l.nameSize]
    requires s.Contents()[l.versionAt] == template[l.versionAt]
    ensures ReadHeader(Seek(s, 0), l, template).0
  {
    var h := s.Contents()[..l.size];
    assert h[..l.nameSize] == s.Contents()[..l.nameSize];
  }
}

=== FILE: legacy_interpreter.dfy ===
/** The older tree's `BlipKitInterpreter`: runs the code of an older
    bytecode object from its start or from a label, sending commands to a
    track, until a TICK, the end of the code or an error.

    It has no delay register, no step length and no samples, but sixteen
    int32 registers that STORE writes. Its track commands are the current
    interpreter's (`Interpreter.Command`), with every operand passed as it
    was read. The bytecode object's start position, label lookup and
    error message belong to methods the older bytecode class declares
    but does not define, so they are the `Source` a caller loads. */
module LegacyInterpreter {
  import opened Wrappers
  import opened Bytes
  import opened ByteStream
  import opened Variants
  import Interpreter
  import LegacyBytecode
  import LegacyAssembler
  import CurrentAssembler = Assembler

  /** `REGISTER_COUNT`, the number of registers. */
  const REGISTER_COUNT: nat := LegacyAssembler.REGISTER_COUNT
  /** `STACK_SIZE_MAX`, the depth of the return stack. */
  const STACK_SIZE_MAX: nat := 16
  /** `SLOT_COUNT`, the instrument and waveform slots. */
  const SLOT_COUNT: nat := 256

  /** `Status`, in declaration order. */
  datatype Status =
    | Running
    | Finished
    | ErrInvalidBinary
    | ErrInvalidOpcode
    | ErrStackOverflow
    | ErrStackUnderflow

  /** The enumerator's value. */
  function Ordinal(s: Status): nat {
    match s
    case Running => 0
    case Finished => 1
    case ErrInvalidBinary => 2
    case ErrInvalidOpcode => 3
    case ErrStackOverflow => 4
    case ErrStackUnderflow => 5
  }

  /** The test `reset` makes: a status from ERR_INVALID_BINARY on. */
  predicate IsError(s: Status) {
    Ordinal(s) >= Ordinal(ErrInvalidBinary)
  }

  /** The statuses from ERR_INVALID_BINARY on are exactly the four error
      statuses, and the ordinals tell the statuses apart. */
  lemma ErrorsFromInvalidBinary(s: Status)
    ensures IsError(s) <==> !s.Running? && !s.Finished?
    ensures forall t: Status :: Ordinal(t) == Ordinal(s) ==> t == s
  {
  }

  /** The error message, by the failure that set it. */
  datatype Message =
    | NoMessage
      /** The bytecode object's own message. */
    | BinaryMessage(text: string)
    | LabelMissing(name: seq<byte>)
    | StackOverflowText
    | StackUnderflowText
    | OpcodeInvalid(op: nat, at: nat)

  /** Whether the message is the empty string. */
  predicate IsEmpty(msg: Message) {
    msg == NoMessage || msg == BinaryMessage("")
  }

  /** A loaded bytecode object: the parsed object, where its code starts
      and its error message. */
  datatype Source = Source(bytecode: LegacyBytecode.Bytecode, start: nat, message: string)
  {
    /** `has_label`. */
    predicate HasLabel(name: seq<byte>) {
      name in bytecode.labels
    }
  }

  /** The interpreter: the code being run, the object it came from, the
      return stack, the registers, the arpeggio buffer, the status and the
      error message. */
  datatype Machine = Machine(code: Stream, program: Option<Source>, stack: seq<nat>,
                             registers: seq<int>, arpeggio: seq<nat>, status: Status,
                             message: Message)
  {
    /** A valid stream, at most STACK_SIZE_MAX uint32 positions on the
        stack, REGISTER_COUNT int32 registers. */
    predicate Valid() {
      code.Valid()
      && |stack| <= STACK_SIZE_MAX && (forall i :: 0 <= i < |stack| ==> IsU32(stack[i]))
      && |registers| == REGISTER_COUNT && (forall i :: 0 <= i < |registers| ==> IsI32(registers[i]))
    }
  }

  /** The registers `Registers()` starts with. */
  function ZeroRegisters(): (rs: seq<int>)
    ensures |rs| == REGISTER_COUNT && forall i :: 0 <= i < |rs| ==> rs[i] == 0
  {
    seq(REGISTER_COUNT, _ => 0)
  }

  /** The constructor: no code, an empty stack, zero registers, running. */
  function New(): (m: Machine)
    ensures m.Valid() && m.status == Running && IsEmpty(m.message)
    ensures m.code.count == 0 && m.stack == [] && m.program.None?
    ensures forall n :: 0 <= n < REGISTER_COUNT ==> GetRegister(m, n) == 0
  {
    Machine(Empty(), None, [], ZeroRegisters(), [], Running, NoMessage)
  }

  /** `fail_with_error`: the status and the message, and the cursor at the
      end of the code so that the loop stops. */
  function Fail(m: Machine, status: Status, msg: Message): (r: Machine)
    requires m.Valid()
    ensures r.Valid() && r.status == status && r.message == msg
    ensures r.code.cursor == r.code.count && r.code.Contents() == m.code.Contents()
    ensures r == m.(code := r.code, status := status, message := msg)
  {
    m.(code := Seek(m.code, m.code.count), status := status, message := msg)
  }

  // ---------------------------------------------------------------------
  // Registers.

  /** `set_register`: a number outside [0, REGISTER_COUNT) changes
      nothing. */
  function SetRegister(m: Machine, number: int, value: int): (r: Machine)
    requires m.Valid() && IsI32(value)
    ensures r.Valid() && r == m.(registers := r.registers)
    ensures !(0 <= number < REGISTER_COUNT) ==> r == m
  {
    if 0 <= number < REGISTER_COUNT then m.(registers := m.registers[number := value]) else m
  }

  /** `get_register`: 0 for a number outside [0, REGISTER_COUNT). */
  function GetRegister(m: Machine, number: int): (v: int)
    requires m.Valid()
    ensures IsI32(v)
    ensures !(0 <= number < REGISTER_COUNT) ==> v == 0
  {
    if 0 <= number < REGISTER_COUNT then m.registers[number] else 0
  }

  /** A register reads back what was set in it; every other register is
      unchanged, and a number out of range sets nothing. */
  lemma SetThenGet(m: Machine, number: int, value: int, other: int)
    requires m.Valid() && IsI32(value)
    ensures 0 <= number < REGISTER_COUNT ==> GetRegister(SetRegister(m, number, value), number) == value
    ensures other != number ==> GetRegister(SetRegister(m, number, value), other) == GetRegister(m, other)
    ensures !(0 <= number < REGISTER_COUNT) ==> SetRegister(m, number, value) == m
  {
  }

  // ---------------------------------------------------------------------
  // Loading and resetting.

  /** Where `reset` starts: the object's start position, or a label's
      position. */
  function StartPosition(src: Source, start: seq<byte>): nat
    requires start == [] || src.HasLabel(start)
  {
    if start == [] then src.start else src.bytecode.labels[start]
  }

  /** `reset`: refused once the status is an error. Otherwise an unknown
      label fails with ERR_INVALID_BINARY; a known one (or none) moves the
      cursor to the start, clears the stack, the registers, the arpeggio
      and the message, and sets the status running. Without a loaded
      object the source dereferences a null reference, so that case is
      not part of the model. */
  function Reset(m: Machine, start: seq<byte>): (r: Machine)
    requires m.Valid() && (m.program.Some? || IsError(m.status))
    ensures r.Valid() && r.code.Contents() == m.code.Contents() && r.program == m.program
    ensures IsError(m.status) ==> r == m
    ensures !IsError(m.status) && start != [] && !m.program.value.HasLabel(start) ==>
              r == Fail(m, ErrInvalidBinary, LabelMissing(start))
    ensures !IsError(m.status) && (start == [] || m.program.value.HasLabel(start)) ==>
              r.status == Running && IsEmpty(r.message) && r.stack == [] && r.arpeggio == []
              && r.registers == ZeroRegisters()
              && r.code.cursor == Min(StartPosition(m.program.value, start), m.code.count)
  {
    if IsError(m.status) then m
    else
      var src := m.program.value;
      if start != [] && !src.HasLabel(start) then Fail(m, ErrInvalidBinary, LabelMissing(start))
      else
        m.(code := Seek(m.code, StartPosition(src, start)), stack := [], registers := ZeroRegisters(),
           arpeggio := [], status := Running, message := NoMessage)
  }

  /** `load_byte_code`: no object changes nothing; an object that did not
      parse fails with its message; an unknown start label fails with
      ERR_INVALID_BINARY; otherwise the object's bytes are taken, rewound,
      and `reset` runs. As written that `reset` is refused after an error;
      corrected, loading starts from a running status. */
  function LoadByteCode(m: Machine, src: Option<Source>, start: seq<byte>, asWritten: bool): (r: (bool, Machine))
    requires m.Valid()
    ensures r.1.Valid()
    ensures src.None? ==> r == (false, m)
    ensures src.Some? && !src.value.bytecode.valid ==>
              r == (false, Fail(m, ErrInvalidBinary, BinaryMessage(src.value.message)))
    ensures src.Some? && src.value.bytecode.valid && start != [] && !src.value.HasLabel(start) ==>
              r == (false, Fail(m, ErrInvalidBinary, LabelMissing(start)))
    ensures r.0 <==> src.Some? && src.value.bytecode.valid && (start == [] || src.value.HasLabel(start))
    ensures r.0 ==> r.1.program == src && r.1.code.Contents() == src.value.bytecode.code.Contents()
  {
    match src
    case None => (false, m)
    case Some(s) =>
      if !s.bytecode.valid then (false, Fail(m, ErrInvalidBinary, BinaryMessage(s.message)))
      else if start != [] && !s.HasLabel(start) then (false, Fail(m, ErrInvalidBinary, LabelMissing(start)))
      else
        var m1 := m.(program := src, code := SetBytes(s.bytecode.code.Contents()));
        (true, Reset(if asWritten then m1 else m1.(status := Running), start))
  }

  /** As written, an interpreter that has failed cannot be brought back:
      `reset` changes nothing, and `load_byte_code` reports success but
      keeps the error status and message, with the cursor at offset 0
      rather than at the start. */
  lemma LoadAfterErrorStaysFailed(m: Machine, src: Source, start: seq<byte>)
    requires m.Valid() && IsError(m.status) && src.bytecode.valid && (start == [] || src.HasLabel(start))
    ensures Reset(m, start) == m
    ensures var r := LoadByteCode(m, Some(src), start, true);
            r.0 && r.1.status == m.status && r.1.message == m.message && r.1.code.cursor == 0
  {
  }

  /** Corrected, a successful load always starts the program: running,
      no message, at the start position, with an empty stack and zero
      registers. */
  lemma LoadStarts(m: Machine, src: Source, start: seq<byte>)
    requires m.Valid() && src.bytecode.valid && (start == [] || src.HasLabel(start))
    ensures var r := LoadByteCode(m, Some(src), start, false);
            r.0 && r.1.status == Running && IsEmpty(r.1.message) && r.1.stack == []
            && r.1.registers == ZeroRegisters()
            && r.1.code.cursor == Min(StartPosition(src, start), |src.bytecode.code.Contents()|)
  {
  }

  // ---------------------------------------------------------------------
  // One instruction.

  /** The command an instruction with a binary16 operand sends. */
  function HalfCommand(op: byte, h: nat): Interpreter.Command
    requires LegacyAssembler.KindOf(op) == LegacyAssembler.HalfOp
  {
    if op == LegacyAssembler.OP_ATTACK then Interpreter.SetNote(h)
    else if op == LegacyAssembler.OP_VOLUME then Interpreter.SetVolume(h)
    else if op == LegacyAssembler.OP_MASTER_VOLUME then Interpreter.SetMasterVolume(h)
    else if op == LegacyAssembler.OP_PANNING then Interpreter.SetPanning(h)
    else Interpreter.SetPitch(h)
  }

  /** The command an instruction with a one-byte operand sends; the slot
      instructions name the slot. */
  function ByteCommand(op: byte, v: nat): Interpreter.Command
    requires LegacyAssembler.KindOf(op) == LegacyAssembler.ByteOp
  {
    if op == LegacyAssembler.OP_WAVEFORM then Interpreter.SetWaveform(v)
    else if op == LegacyAssembler.OP_CUSTOM_WAVEFORM then Interpreter.SetCustomWaveform(v)
    else if op == LegacyAssembler.OP_DUTY_CYCLE then Interpreter.SetDutyCycle(v)
    else if op == LegacyAssembler.OP_PHASE_WRAP then Interpreter.SetPhaseWrap(v)
    else Interpreter.SetInstrument(v)
  }

  /** The command an instruction with a uint16 operand sends (TICK sends
      none). */
  function WordCommand(op: byte, v: nat): Interpreter.Command
    requires LegacyAssembler.KindOf(op) == LegacyAssembler.WordOp && op != LegacyAssembler.OP_TICK
  {
    if op == LegacyAssembler.OP_EFFECT_DIV then Interpreter.SetEffectDivider(v)
    else if op == LegacyAssembler.OP_VOLUME_SLIDE then Interpreter.SetVolumeSlide(v)
    else if op == LegacyAssembler.OP_PANNING_SLIDE then Interpreter.SetPanningSlide(v)
    else if op == LegacyAssembler.OP_PORTAMENTO then Interpreter.SetPortamento(v)
    else if op == LegacyAssembler.OP_ARPEGGIO_DIV then Interpreter.SetArpeggioDivider(v)
    else Interpreter.SetInstrumentDivider(v)
  }

  /** The command an instruction without operands sends. */
  function PlainCommand(op: byte): Interpreter.Command
    requires op == LegacyAssembler.OP_RELEASE || op == LegacyAssembler.OP_MUTE || op == LegacyAssembler.OP_RESET
  {
    if op == LegacyAssembler.OP_RELEASE then Interpreter.Release
    else if op == LegacyAssembler.OP_MUTE then Interpreter.Mute
    else Interpreter.ResetTrack
  }

  /** The instructions that only send a command. */
  predicate IsCommandOp(op: byte) {
    var k := LegacyAssembler.KindOf(op);
    k == LegacyAssembler.HalfOp || k == LegacyAssembler.ByteOp || k == LegacyAssembler.EffectOp
    || k == LegacyAssembler.ArpeggioOp || (k == LegacyAssembler.WordOp && op != LegacyAssembler.OP_TICK)
    || op == LegacyAssembler.OP_RELEASE || op == LegacyAssembler.OP_MUTE || op == LegacyAssembler.OP_RESET
  }

  /** The outcome of one instruction: the machine after it, the commands
      sent, and the value `advance` returns if it returns here. */
  datatype Executed = Executed(m: Machine, commands: seq<Interpreter.Command>, result: Option<int>)

  /** An instruction that sends a command: read its operands, send it. */
  function Execute(m: Machine, op: byte): (r: Executed)
    requires m.Valid() && IsCommandOp(op)
    ensures r.m.Valid() && r.m.code.Contents() == m.code.Contents() && r.result.None?
    ensures r.m == m.(code := r.m.code, arpeggio := r.m.arpeggio)
    ensures |r.commands| == 1
    ensures r.m.code.cursor >= m.code.cursor
  {
    var k := LegacyAssembler.KindOf(op);
    var s := m.code;
    if k == LegacyAssembler.HalfOp then
      var (h, t) := GetU16(s);
      Executed(m.(code := t), [HalfCommand(op, h)], None)
    else if k == LegacyAssembler.ByteOp then
      var (v, t) := GetU8(s);
      Executed(m.(code := t), [ByteCommand(op, v)], None)
    else if k == LegacyAssembler.WordOp then
      var (v, t) := GetU16(s);
      Executed(m.(code := t), [WordCommand(op, v)], None)
    else if k == LegacyAssembler.EffectOp then
      var (ticks, t1) := GetU16(s);
      var (delta, t2) := GetU16(t1);
      var (slide, t3) := GetU16(t2);
      Executed(m.(code := t3), [if op == LegacyAssembler.OP_VIBRATO then Interpreter.SetVibrato(ticks, delta, slide)
                                 else Interpreter.SetTremolo(ticks, delta, slide)], None)
    else if k == LegacyAssembler.ArpeggioOp then
      var (count, t) := GetU8(s);
      var (notes, u) := Interpreter.GetHalves(t, count);
      Executed(m.(code := u, arpeggio := notes), [Interpreter.SetArpeggio(notes)], None)
    else
      Executed(m, [PlainCommand(op)], None)
  }

  /** The register STORE writes: its operand clamped to
      [0, REGISTER_COUNT] as written, which lets it reach REGISTER_COUNT,
      one past the last register; corrected, clamped to the last
      register. */
  function StoreIndex(b: nat, asWritten: bool): (n: nat)
    ensures n <= REGISTER_COUNT
    ensures !asWritten ==> n < REGISTER_COUNT
    ensures b < REGISTER_COUNT ==> n == b
  {
    Clamp(b, 0, if asWritten then REGISTER_COUNT else REGISTER_COUNT - 1)
  }

  /** STORE: a register number and an int32. The write past the last
      register, which the code as written performs, is not part of the
      model: the registers stay as they are then. */
  function Store(m: Machine, asWritten: bool): (r: Executed)
    requires m.Valid()
    ensures r.m.Valid() && r.m.code.Contents() == m.code.Contents() && r.commands == [] && r.result.None?
    ensures r.m == m.(code := r.m.code, registers := r.m.registers)
  {
    var (b, t) := GetU8(m.code);
    var number := StoreIndex(b, asWritten);
    var (value, u) := GetS32(t);
    Executed(m.(code := u, registers := if number < REGISTER_COUNT then m.registers[number := value]
                                         else m.registers), [], None)
  }

  /** CALL: read the offset, then push the position after it and branch,
      unless the stack is full. */
  function Call(m: Machine): (r: Executed)
    requires m.Valid()
    ensures r.m.Valid() && r.commands == [] && r.m.code.Contents() == m.code.Contents()
    ensures |m.stack| >= STACK_SIZE_MAX ==>
              r == Executed(Fail(m, ErrStackOverflow, StackOverflowText), [], Some(-1))
    ensures |m.stack| < STACK_SIZE_MAX ==>
              var (offset, t) := GetS32(m.code);
              r.result.None? && r.m == m.(code := Seek(t, Interpreter.BranchTarget(t.cursor, offset)),
                                          stack := m.stack + [WrapU32(WrapI32(t.cursor))])
  {
    var (offset, t) := GetS32(m.code);
    if |m.stack| >= STACK_SIZE_MAX then Executed(Fail(m, ErrStackOverflow, StackOverflowText), [], Some(-1))
    else
      Executed(m.(code := Seek(t, Interpreter.BranchTarget(t.cursor, offset)),
                  stack := m.stack + [WrapU32(WrapI32(t.cursor))]), [], None)
  }

  /** RETURN: pop a position and go there. An empty stack fails with the
      message "Stack underflow." but, as written, the status
      ERR_STACK_OVERFLOW; corrected, ERR_STACK_UNDERFLOW. */
  function Return(m: Machine, asWritten: bool): (r: Executed)
    requires m.Valid()
    ensures r.m.Valid() && r.commands == [] && r.m.code.Contents() == m.code.Contents()
    ensures |m.stack| == 0 ==>
              r == Executed(Fail(m, if asWritten then ErrStackOverflow else ErrStackUnderflow, StackUnderflowText),
                            [], Some(-1))
    ensures |m.stack| > 0 ==>
              r.result.None? && r.m == m.(stack := m.stack[..|m.stack| - 1],
                                          code := Seek(m.code, m.stack[|m.stack| - 1]))
  {
    if |m.stack| == 0 then
      Executed(Fail(m, if asWritten then ErrStackOverflow else ErrStackUnderflow, StackUnderflowText), [], Some(-1))
    else
      var n := |m.stack| - 1;
      Executed(m.(stack := m.stack[..n], code := Seek(m.code, m.stack[n])), [], None)
  }

  /** One pass of the `advance` loop: read the opcode at the cursor and
      run its case. TICK returns its operand; HALT moves to the end of the
      code; an opcode without a case fails with ERR_INVALID_OPCODE. */
  function Step(m: Machine, asWritten: bool): (r: Executed)
    requires m.Valid() && m.code.cursor < m.code.count
    ensures r.m.Valid() && r.m.code.Contents() == m.code.Contents() && r.m.program == m.program
    ensures IsError(r.m.status) && !IsError(m.status) ==> r.result == Some(-1) && !IsEmpty(r.m.message)
  {
    var at := m.code.cursor;
    var (op, s) := GetU8(m.code);
    var m1 := m.(code := s);
    var b := op as byte;
    if IsCommandOp(b) then Execute(m1, b)
    else if b == LegacyAssembler.OP_NOOP then Executed(m1, [], None)
    else if b == LegacyAssembler.OP_TICK then
      var (ticks, t) := GetU16(s);
      Executed(m1.(code := t), [], Some(ticks))
    else if b == LegacyAssembler.OP_CALL then Call(m1)
    else if b == LegacyAssembler.OP_JUMP then
      var (offset, t) := GetS32(s);
      Executed(m1.(code := Seek(t, Interpreter.BranchTarget(t.cursor, offset))), [], None)
    else if b == LegacyAssembler.OP_RETURN then Return(m1, asWritten)
    else if b == LegacyAssembler.OP_STORE then Store(m1, asWritten)
    else if b == LegacyAssembler.OP_HALT then Executed(m1.(code := Seek(s, s.count)), [], None)
    else Executed(Fail(m1, ErrInvalidOpcode, OpcodeInvalid(op, at)), [], Some(-1))
  }

  // ---------------------------------------------------------------------
  // The loop.

  /** What a call of `advance` ends with: the machine, the commands sent,
      and the returned value (a TICK's ticks, 0 at the end, -1 on an
      error). */
  datatype Advanced = Advanced(m: Machine, commands: seq<Interpreter.Command>, result: int)

  /** The end of the code: a running machine has finished; -1 iff an
      error message is set. */
  function AtEnd(m: Machine): (r: Advanced)
    requires m.Valid()
    ensures r.m.Valid() && r.commands == []
    ensures r.result == -1 <==> !IsEmpty(m.message)
    ensures r.result == 0 <==> IsEmpty(m.message)
    ensures r.m.status == (if m.status == Running then Finished else m.status)
    ensures r.m == m.(status := r.m.status)
  {
    Advanced(m.(status := if m.status == Running then Finished else m.status), [],
             if IsEmpty(m.message) then 0 else -1)
  }

  /** `advance`, for at most `fuel` instructions (a program can loop
      forever without a TICK): None when the fuel runs out. */
  function Advance(m: Machine, asWritten: bool, fuel: nat): (r: Option<Advanced>)
    requires m.Valid()
    ensures r.Some? ==> r.value.m.Valid() && r.value.m.code.Contents() == m.code.Contents()
    ensures m.code.cursor == m.code.count ==> r == Some(AtEnd(m))
    decreases fuel
  {
    if m.code.cursor == m.code.count then Some(AtEnd(m))
    else if fuel == 0 then None
    else
      var st := Step(m, asWritten);
      match st.result
      case Some(v) => Some(Advanced(st.m, st.commands, v))
      case None =>
        match Advance(st.m, asWritten, fuel - 1)
        case None => None
        case Some(rest) => Some(Advanced(rest.m, st.commands + rest.commands, rest.result))
  }

  /** `advance` gives up on an interpreter that has failed: the cursor is
      at the end, so it sends nothing and returns -1 whenever a message
      is set. */
  lemma AdvanceAfterFailure(m: Machine, status: Status, msg: Message, asWritten: bool, fuel: nat)
    requires m.Valid() && IsError(status) && !IsEmpty(msg)
    ensures var r := Advance(Fail(m, status, msg), asWritten, fuel);
            r.Some? && r.value.result == -1 && r.value.commands == [] && r.value.m.status == status
  {
  }

  // ---------------------------------------------------------------------
  // Running what the older assembler writes.

  /** The command an instruction's assembler arguments ask the track for. */
  function Intended(op: byte, args: CurrentAssembler.Args): Interpreter.Command
    requires IsCommandOp(op)
  {
    var v := args.arg1;
    match LegacyAssembler.KindOf(op)
    case HalfOp => HalfCommand(op, HalfOf(v) as nat)
    case ByteOp => ByteCommand(op, WrapU8(IntOf(v)) as nat)
    case WordOp => WordCommand(op, CurrentAssembler.ClampedU16(v, 0))
    case EffectOp =>
      var ticks := CurrentAssembler.ClampedU16(v, 0);
      var delta := HalfOf(args.arg2) as nat;
      var slide := CurrentAssembler.ClampedU16(args.arg3, 0);
      if op == LegacyAssembler.OP_VIBRATO then Interpreter.SetVibrato(ticks, delta, slide)
      else Interpreter.SetTremolo(ticks, delta, slide)
    case ArpeggioOp => Interpreter.SetArpeggio(IntendedNotes(args))
    case _ => PlainCommand(op)
  }

  /** The notes of an arpeggio: the array's first MAX_ARPEGGIO elements. */
  function IntendedNotes(args: CurrentAssembler.Args): seq<nat> {
    var hs := HalvesOf(args.arg1);
    Interpreter.Naturals(hs[..Min(|hs|, LegacyAssembler.MAX_ARPEGGIO)])
  }

  /** Reading the opcode moves one byte on. */
  lemma ReadsOpcode(m: Machine)
    requires m.Valid() && m.code.cursor < m.code.count
    ensures GetU8(m.code) == (m.code.Contents()[m.code.cursor] as nat, m.code.(cursor := m.code.cursor + 1))
  {
  }

  /** One pass of the loop with a command opcode at the cursor. */
  lemma StepExecutes(m: Machine, asWritten: bool)
    requires m.Valid() && m.code.cursor < m.code.count && IsCommandOp(m.code.Contents()[m.code.cursor])
    ensures Step(m, asWritten) == Execute(m.(code := m.code.(cursor := m.code.cursor + 1)),
                                          m.code.Contents()[m.code.cursor])
  {
    ReadsOpcode(m);
    hide Execute, Call, Return, Store, Fail;
  }

  /** One pass of the loop with any other opcode at the cursor: what the
      flow instructions and the opcodes without a case do. */
  lemma StepFlows(m: Machine, asWritten: bool)
    requires m.Valid() && m.code.cursor < m.code.count && !IsCommandOp(m.code.Contents()[m.code.cursor])
    ensures var at := m.code.cursor;
            var b := m.code.Contents()[at];
            var s := m.code.(cursor := at + 1);
            var m1 := m.(code := s);
            var r := Step(m, asWritten);
            (b == LegacyAssembler.OP_NOOP ==> r == Executed(m1, [], None))
            && (b == LegacyAssembler.OP_TICK ==> r == Executed(m1.(code := GetU16(s).1), [], Some(GetU16(s).0)))
            && (b == LegacyAssembler.OP_CALL ==> r == Call(m1))
            && (b == LegacyAssembler.OP_JUMP ==>
                  var (offset, t) := GetS32(s);
                  r == Executed(m1.(code := Seek(t, Interpreter.BranchTarget(t.cursor, offset))), [], None))
            && (b == LegacyAssembler.OP_RETURN ==> r == Return(m1, asWritten))
            && (b == LegacyAssembler.OP_STORE ==> r == Store(m1, asWritten))
            && (b == LegacyAssembler.OP_HALT ==> r == Executed(m1.(code := Seek(s, s.count)), [], None))
            && (b >= LegacyAssembler.OP_MAX ==>
                  r == Executed(Fail(m1, ErrInvalidOpcode, OpcodeInvalid(b as nat, at)), [], Some(-1)))
  {
    ReadsOpcode(m);
    hide Execute, Call, Return, Store, Fail;
  }

  /** A binary16 operand. */
  lemma ExecutesHalf(m: Machine, op: byte, args: CurrentAssembler.Args)
    requires m.Valid() && LegacyAssembler.KindOf(op) == LegacyAssembler.HalfOp
    requires Interpreter.Holds(m.code, CurrentAssembler.HalfBytes(HalfOf(args.arg1)))
    ensures Execute(m, op) == Executed(m.(code := m.code.(cursor := m.code.cursor + 2)), [Intended(op, args)], None)
  {
    Interpreter.ReadsU16(m.code, CurrentAssembler.HalfBytes(HalfOf(args.arg1)));
  }

  /** A one-byte operand. */
  lemma ExecutesByte(m: Machine, op: byte, args: CurrentAssembler.Args)
    requires m.Valid() && LegacyAssembler.KindOf(op) == LegacyAssembler.ByteOp
    requires Interpreter.Holds(m.code, [WrapU8(IntOf(args.arg1))])
    ensures Execute(m, op) == Executed(m.(code := m.code.(cursor := m.code.cursor + 1)), [Intended(op, args)], None)
  {
  }

  /** A uint16 operand. */
  lemma ExecutesWord(m: Machine, op: byte, args: CurrentAssembler.Args)
    requires m.Valid() && LegacyAssembler.KindOf(op) == LegacyAssembler.WordOp && op != LegacyAssembler.OP_TICK
    requires Interpreter.Holds(m.code, CurrentAssembler.U16Bytes(CurrentAssembler.ClampedU16(args.arg1, 0)))
    ensures Execute(m, op) == Executed(m.(code := m.code.(cursor := m.code.cursor + 2)), [Intended(op, args)], None)
  {
    Interpreter.ReadsU16(m.code, CurrentAssembler.U16Bytes(CurrentAssembler.ClampedU16(args.arg1, 0)));
  }

  /** The ticks, delta and slide ticks of a vibrato or tremolo. */
  lemma ExecutesEffect(m: Machine, op: byte, args: CurrentAssembler.Args)
    requires m.Valid() && LegacyAssembler.KindOf(op) == LegacyAssembler.EffectOp
    requires Interpreter.Holds(m.code, CurrentAssembler.U16Bytes(CurrentAssembler.ClampedU16(args.arg1, 0))
                                       + CurrentAssembler.HalfBytes(HalfOf(args.arg2))
                                       + CurrentAssembler.U16Bytes(CurrentAssembler.ClampedU16(args.arg3, 0)))
    ensures Execute(m, op) == Executed(m.(code := m.code.(cursor := m.code.cursor + 6)), [Intended(op, args)], None)
  {
    var s0 := m.code;
    var w1 := CurrentAssembler.U16Bytes(CurrentAssembler.ClampedU16(args.arg1, 0));
    var h2 := CurrentAssembler.HalfBytes(HalfOf(args.arg2));
    var w3 := CurrentAssembler.U16Bytes(CurrentAssembler.ClampedU16(args.arg3, 0));
    hide CurrentAssembler.HalfBytes, CurrentAssembler.U16Bytes, LeValue, Read, Interpreter.Holds;
    Interpreter.HoldsSplit(s0, w1 + h2, w3);
    Interpreter.HoldsSplit(s0, w1, h2);
    Interpreter.ReadsU16(s0, w1);
    Interpreter.ReadsU16(s0.(cursor := s0.cursor + 2), h2);
    Interpreter.ReadsU16(s0.(cursor := s0.cursor + 4), w3);
  }

  /** An arpeggio: its note count and that many binary16 notes, which
      become the arpeggio buffer. */
  lemma ExecutesArpeggio(m: Machine, args: CurrentAssembler.Args)
    requires m.Valid()
    requires var hs := HalvesOf(args.arg1);
             var n := Min(|hs|, LegacyAssembler.MAX_ARPEGGIO);
             Interpreter.Holds(m.code, [n as byte] + CurrentAssembler.HalvesBytes(hs[..n]))
    ensures var n := Min(|HalvesOf(args.arg1)|, LegacyAssembler.MAX_ARPEGGIO);
            Execute(m, LegacyAssembler.OP_ARPEGGIO)
              == Executed(m.(code := m.code.(cursor := m.code.cursor + 1 + 2 * n), arpeggio := IntendedNotes(args)),
                          [Intended(LegacyAssembler.OP_ARPEGGIO, args)], None)
  {
    var (count, t) := GetU8(m.code);
    var (notes, u) := Interpreter.GetHalves(t, count);
    assert Execute(m, LegacyAssembler.OP_ARPEGGIO)
           == Executed(m.(code := u, arpeggio := notes), [Interpreter.SetArpeggio(notes)], None);
    assert Intended(LegacyAssembler.OP_ARPEGGIO, args) == Interpreter.SetArpeggio(IntendedNotes(args));
    hide Execute, Intended, Interpreter.Holds, CurrentAssembler.HalvesBytes, Interpreter.GetHalves, GetU8;
    ReadsArpeggio(m.code, args);
  }

  /** Reading a stored arpeggio: the count, then that many notes. */
  lemma ReadsArpeggio(s: Stream, args: CurrentAssembler.Args)
    requires s.Valid()
    requires var hs := HalvesOf(args.arg1);
             var n := Min(|hs|, LegacyAssembler.MAX_ARPEGGIO);
             Interpreter.Holds(s, [n as byte] + CurrentAssembler.HalvesBytes(hs[..n]))
    ensures var n := Min(|HalvesOf(args.arg1)|, LegacyAssembler.MAX_ARPEGGIO);
            var (count, t) := GetU8(s);
            var (notes, u) := Interpreter.GetHalves(t, count);
            notes == IntendedNotes(args) && u == s.(cursor := s.cursor + 1 + 2 * n)
  {
    var hs := HalvesOf(args.arg1);
    var n := Min(|hs|, LegacyAssembler.MAX_ARPEGGIO);
    var stored := CurrentAssembler.HalvesBytes(hs[..n]);
    Interpreter.HoldsSplit(s, [n as byte], stored);
    var (count, t) := GetU8(s);
    assert count == n by {
      assert s.Contents()[s.cursor..s.cursor + 1] == [n as byte];
    }
    assert t == s.(cursor := s.cursor + 1);
    hide CurrentAssembler.HalvesBytes, Read, LeValue;
    Interpreter.ReadsHalves(t, hs[..n]);
  }

  /** The bytes the older assembler writes after a track command's
      opcode, by operand class. */
  lemma EncodedHalf(op: byte, args: CurrentAssembler.Args)
    requires LegacyAssembler.KindOf(op) == LegacyAssembler.HalfOp
    ensures LegacyAssembler.Encode(op, args)[1..] == CurrentAssembler.HalfBytes(HalfOf(args.arg1))
  {
  }

  lemma EncodedByte(op: byte, args: CurrentAssembler.Args)
    requires LegacyAssembler.KindOf(op) == LegacyAssembler.ByteOp
    ensures LegacyAssembler.Encode(op, args)[1..] == [WrapU8(IntOf(args.arg1))]
  {
  }

  lemma EncodedWord(op: byte, args: CurrentAssembler.Args)
    requires LegacyAssembler.KindOf(op) == LegacyAssembler.WordOp
    ensures LegacyAssembler.Encode(op, args)[1..] == CurrentAssembler.U16Bytes(CurrentAssembler.ClampedU16(args.arg1, 0))
  {
  }

  lemma EncodedEffect(op: byte, args: CurrentAssembler.Args)
    requires LegacyAssembler.KindOf(op) == LegacyAssembler.EffectOp
    ensures LegacyAssembler.Encode(op, args)[1..]
              == CurrentAssembler.U16Bytes(CurrentAssembler.ClampedU16(args.arg1, 0))
                 + CurrentAssembler.HalfBytes(HalfOf(args.arg2))
                 + CurrentAssembler.U16Bytes(CurrentAssembler.ClampedU16(args.arg3, 0))
  {
  }

  lemma EncodedArpeggio(args: CurrentAssembler.Args)
    ensures var hs := HalvesOf(args.arg1);
            var n := Min(|hs|, LegacyAssembler.MAX_ARPEGGIO);
            LegacyAssembler.Encode(LegacyAssembler.OP_ARPEGGIO, args)[1..]
              == [n as byte] + CurrentAssembler.HalvesBytes(hs[..n])
  {
  }

  lemma EncodedPlain(op: byte, args: CurrentAssembler.Args)
    requires LegacyAssembler.KindOf(op) == LegacyAssembler.PlainOp
    ensures LegacyAssembler.Encode(op, args) == [op]
  {
  }

  /** What `StepRunsEncoded` states: the track receives the intended
      command, the cursor lands after the instruction, and only an
      arpeggio changes anything else (the arpeggio buffer). */
  predicate RunsEncoded(m: Machine, op: byte, args: CurrentAssembler.Args, asWritten: bool)
    requires m.Valid() && m.code.cursor < m.code.count && IsCommandOp(op)
  {
    var r := Step(m, asWritten);
    var next := m.code.cursor + |LegacyAssembler.Encode(op, args)|;
    r.result.None? && r.commands == [Intended(op, args)]
    && r.m == m.(code := m.code.(cursor := next), arpeggio := r.m.arpeggio)
    && r.m.arpeggio == (if op == LegacyAssembler.OP_ARPEGGIO then IntendedNotes(args) else m.arpeggio)
  }

  /** The opcode of an encoded instruction at the cursor, and its
      operand bytes after it. */
  lemma OpensEncoded(m: Machine, op: byte, args: CurrentAssembler.Args)
    requires m.Valid() && Interpreter.Holds(m.code, LegacyAssembler.Encode(op, args))
    ensures var bs := LegacyAssembler.Encode(op, args);
            m.code.cursor < m.code.count && m.code.Contents()[m.code.cursor] == op
            && Interpreter.Holds(m.code.(cursor := m.code.cursor + 1), bs[1..])
  {
    var bs := LegacyAssembler.Encode(op, args);
    assert [op] + bs[1..] == bs;
    Interpreter.HoldsSplit(m.code, [op], bs[1..]);
    assert m.code.Contents()[m.code.cursor..m.code.cursor + 1] == [op];
  }

  /** An instruction the older assembler emitted for a track command runs
      as its arguments ask: the track receives the intended command, the
      cursor lands after the instruction, and only an arpeggio changes
      anything else (the arpeggio buffer). */
  lemma StepRunsEncoded(m: Machine, op: byte, args: CurrentAssembler.Args, asWritten: bool)
    requires m.Valid() && IsCommandOp(op)
    requires Interpreter.Holds(m.code, LegacyAssembler.Encode(op, args))
    ensures var r := Step(m, asWritten);
            var next := m.code.cursor + |LegacyAssembler.Encode(op, args)|;
            r.result.None? && r.commands == [Intended(op, args)]
            && r.m == m.(code := m.code.(cursor := next), arpeggio := r.m.arpeggio)
            && r.m.arpeggio == (if op == LegacyAssembler.OP_ARPEGGIO then IntendedNotes(args) else m.arpeggio)
  {
    var k := LegacyAssembler.KindOf(op);
    hide Step, Execute, Intended, IntendedNotes, LegacyAssembler.Encode, Interpreter.Holds;
    if k == LegacyAssembler.HalfOp {
      RunsHalf(m, op, args, asWritten);
    } else if k == LegacyAssembler.ByteOp {
      RunsByte(m, op, args, asWritten);
    } else if k == LegacyAssembler.WordOp {
      RunsWord(m, op, args, asWritten);
    } else if k == LegacyAssembler.EffectOp {
      RunsEffect(m, op, args, asWritten);
    } else if k == LegacyAssembler.ArpeggioOp {
      RunsArpeggio(m, args, asWritten);
    } else {
      RunsPlain(m, op, args, asWritten);
    }
  }

  lemma RunsHalf(m: Machine, op: byte, args: CurrentAssembler.Args, asWritten: bool)
    requires m.Valid() && IsCommandOp(op) && LegacyAssembler.KindOf(op) == LegacyAssembler.HalfOp
    requires Interpreter.Holds(m.code, LegacyAssembler.Encode(op, args))
    ensures m.code.cursor < m.code.count && RunsEncoded(m, op, args, asWritten)
  {
    OpensEncoded(m, op, args);
    EncodedHalf(op, args);
    StepExecutes(m, asWritten);
    var m1 := m.(code := m.code.(cursor := m.code.cursor + 1));
    hide Step, Execute, Intended, IntendedNotes, LegacyAssembler.Encode, Interpreter.Holds;
    ExecutesHalf(m1, op, args);
  }

  lemma RunsByte(m: Machine, op: byte, args: CurrentAssembler.Args, asWritten: bool)
    requires m.Valid() && IsCommandOp(op) && LegacyAssembler.KindOf(op) == LegacyAssembler.ByteOp
    requires Interpreter.Holds(m.code, LegacyAssembler.Encode(op, args))
    ensures m.code.cursor < m.code.count && RunsEncoded(m, op, args, asWritten)
  {
    OpensEncoded(m, op, args);
    EncodedByte(op, args);
    StepExecutes(m, asWritten);
    var m1 := m.(code := m.code.(cursor := m.code.cursor + 1));
    hide Step, Execute, Intended, IntendedNotes, LegacyAssembler.Encode, Interpreter.Holds;
    ExecutesByte(m1, op, args);
  }

  lemma RunsWord(m: Machine, op: byte, args: CurrentAssembler.Args, asWritten: bool)
    requires m.Valid() && IsCommandOp(op) && LegacyAssembler.KindOf(op) == LegacyAssembler.WordOp
    requires Interpreter.Holds(m.code, LegacyAssembler.Encode(op, args))
    ensures m.code.cursor < m.code.count && RunsEncoded(m, op, args, asWritten)
  {
    OpensEncoded(m, op, args);
    EncodedWord(op, args);
    StepExecutes(m, asWritten);
    var m1 := m.(code := m.code.(cursor := m.code.cursor + 1));
    hide Step, Execute, Intended, IntendedNotes, LegacyAssembler.Encode, Interpreter.Holds;
    ExecutesWord(m1, op, args);
  }

  lemma RunsEffect(m: Machine, op: byte, args: CurrentAssembler.Args, asWritten: bool)
    requires m.Valid() && IsCommandOp(op) && LegacyAssembler.KindOf(op) == LegacyAssembler.EffectOp
    requires Interpreter.Holds(m.code, LegacyAssembler.Encode(op, args))
    ensures m.code.cursor < m.code.count && RunsEncoded(m, op, args, asWritten)
  {
    OpensEncoded(m, op, args);
    EncodedEffect(op, args);
    StepExecutes(m, asWritten);
    var m1 := m.(code := m.code.(cursor := m.code.cursor + 1));
    hide Step, Execute, Intended, IntendedNotes, LegacyAssembler.Encode, Interpreter.Holds;
    ExecutesEffect(m1, op, args);
  }

  lemma RunsPlain(m: Machine, op: byte, args: CurrentAssembler.Args, asWritten: bool)
    requires m.Valid() && IsCommandOp(op) && LegacyAssembler.KindOf(op) == LegacyAssembler.PlainOp
    requires Interpreter.Holds(m.code, LegacyAssembler.Encode(op, args))
    ensures m.code.cursor < m.code.count && RunsEncoded(m, op, args, asWritten)
  {
    OpensEncoded(m, op, args);
    EncodedPlain(op, args);
    StepExecutes(m, asWritten);
    var m1 := m.(code := m.code.(cursor := m.code.cursor + 1));
    hide Step, Execute, Intended, IntendedNotes, LegacyAssembler.Encode, Interpreter.Holds;
    ExecutesPlain(m1, op, args);
  }

  lemma RunsArpeggio(m: Machine, args: CurrentAssembler.Args, asWritten: bool)
    requires m.Valid() && Interpreter.Holds(m.code, LegacyAssembler.Encode(LegacyAssembler.OP_ARPEGGIO, args))
    ensures m.code.cursor < m.code.count && RunsEncoded(m, LegacyAssembler.OP_ARPEGGIO, args, asWritten)
  {
    var op := LegacyAssembler.OP_ARPEGGIO;
    OpensEncoded(m, op, args);
    EncodedArpeggio(args);
    StepExecutes(m, asWritten);
    var m1 := m.(code := m.code.(cursor := m.code.cursor + 1));
    hide Step, Execute, Intended, IntendedNotes, LegacyAssembler.Encode, Interpreter.Holds;
    ExecutesArpeggio(m1, args);
  }

  /** An instruction without operands. */
  lemma ExecutesPlain(m: Machine, op: byte, args: CurrentAssembler.Args)
    requires m.Valid() && IsCommandOp(op) && LegacyAssembler.KindOf(op) == LegacyAssembler.PlainOp
    ensures Execute(m, op) == Executed(m, [Intended(op, args)], None)
  {
  }

  /** A TICK the older assembler emitted returns its ticks, which is the
      argument clamped to [0, 65535], and moves past it. */
  lemma StepTicksEncoded(m: Machine, args: CurrentAssembler.Args, asWritten: bool)
    requires m.Valid() && Interpreter.Holds(m.code, LegacyAssembler.Encode(LegacyAssembler.OP_TICK, args))
    ensures var r := Step(m, asWritten);
            r.result == Some(CurrentAssembler.ClampedU16(args.arg1, 0)) && r.commands == []
            && r.m == m.(code := m.code.(cursor := m.code.cursor + 3))
  {
    var bs := LegacyAssembler.Encode(LegacyAssembler.OP_TICK, args);
    Interpreter.HoldsSplit(m.code, [LegacyAssembler.OP_TICK], bs[1..]);
    assert [LegacyAssembler.OP_TICK] + bs[1..] == bs;
    StepFlows(m, asWritten);
    Interpreter.ReadsU16(m.code.(cursor := m.code.cursor + 1), bs[1..]);
  }

  /** A STORE the older assembler emitted writes its value, wrapped to
      int32, into the register StoreIndex picks from the stored number,
      and moves past the instruction. */
  lemma StepStoresEncoded(m: Machine, args: CurrentAssembler.Args, asWritten: bool)
    requires m.Valid() && Interpreter.Holds(m.code, LegacyAssembler.Encode(LegacyAssembler.OP_STORE, args))
    ensures var r := Step(m, asWritten);
            var n := StoreIndex(LegacyAssembler.StoreNumber(args.arg1), asWritten);
            var value := WrapI32(IntOf(args.arg2));
            r.result.None? && r.commands == []
            && r.m == m.(code := m.code.(cursor := m.code.cursor + 6), registers := r.m.registers)
            && (n < REGISTER_COUNT ==> r.m.registers == m.registers[n := value])
            && (n == REGISTER_COUNT ==> r.m.registers == m.registers)
  {
    var op := LegacyAssembler.OP_STORE;
    var bs := LegacyAssembler.Encode(op, args);
    var number := LegacyAssembler.StoreNumber(args.arg1);
    var value := WrapI32(IntOf(args.arg2));
    assert bs[1..] == [number as byte] + EncodeS32(value);
    OpensEncoded(m, op, args);
    StepFlows(m, asWritten);
    var m1 := m.(code := m.code.(cursor := m.code.cursor + 1));
    hide LegacyAssembler.Encode, Step, EncodeS32, DecodeS32, LegacyAssembler.StoreNumber, WrapI32, Store;
    StoreReads(m1, number as byte, value, asWritten);
  }

  /** STORE with its register number and int32 value in the code. */
  lemma StoreReads(m: Machine, b: byte, value: int, asWritten: bool)
    requires m.Valid() && IsI32(value) && Interpreter.Holds(m.code, [b] + EncodeS32(value))
    ensures var n := StoreIndex(b as nat, asWritten);
            var r := Store(m, asWritten);
            r.result.None? && r.commands == []
            && r.m == m.(code := m.code.(cursor := m.code.cursor + 5), registers := r.m.registers)
            && (n < REGISTER_COUNT ==> r.m.registers == m.registers[n := value])
            && (n == REGISTER_COUNT ==> r.m.registers == m.registers)
  {
    var c := m.code.Contents();
    var at := m.code.cursor;
    var bs := [b] + EncodeS32(value);
    assert c[at..at + 5] == bs;
    assert c[at] == b by { assert bs[0] == b; }
    assert c[at + 1..at + 5] == EncodeS32(value) by { assert c[at + 1..at + 5] == bs[1..]; }
    hide EncodeS32, DecodeS32;
    S32RoundTrip(value);
  }

  /** As written, the register number the older assembler stores for any
      argument from REGISTER_COUNT on is REGISTER_COUNT, and STORE clamps
      it to REGISTER_COUNT again: one past the last register of
      `registers.aux`. */
  lemma StoreWritesPastLast(args: CurrentAssembler.Args)
    requires REGISTER_COUNT <= IntOf(args.arg1) <= I32_MAX
    ensures var bs := LegacyAssembler.Encode(LegacyAssembler.OP_STORE, args);
            |bs| == 6 && bs[1] as nat == REGISTER_COUNT
            && StoreIndex(bs[1] as nat, true) == REGISTER_COUNT
  {
  }

  /** Corrected, STORE always writes one of the registers: the one its
      stored number names, or the last one for a larger number. */
  lemma StoreStaysInside(b: byte)
    ensures StoreIndex(b as nat, false) < REGISTER_COUNT
    ensures b as nat < REGISTER_COUNT ==> StoreIndex(b as nat, false) == b as nat
    ensures b as nat >= REGISTER_COUNT ==> StoreIndex(b as nat, false) == REGISTER_COUNT - 1
  {
  }

  /** JUMP and CALL with their four offset bytes in the code: both go to
      the position after the offset plus the offset minus four; CALL first
      pushes that position, or fails on a full stack. */
  lemma StepBranches(m: Machine, asWritten: bool)
    requires m.Valid() && m.code.cursor + 5 <= m.code.count
    requires m.code.Contents()[m.code.cursor] == LegacyAssembler.OP_CALL
             || m.code.Contents()[m.code.cursor] == LegacyAssembler.OP_JUMP
    ensures var c := m.code.cursor;
            var op := m.code.Contents()[c];
            var offset := DecodeS32(m.code.Contents()[c + 1..c + 5]);
            var r := Step(m, asWritten);
            var lands := Seek(m.code, Interpreter.BranchTarget(c + 5, offset));
            r.commands == []
            && (op == LegacyAssembler.OP_JUMP ==> r == Executed(m.(code := lands), [], None))
            && (op == LegacyAssembler.OP_CALL && |m.stack| < STACK_SIZE_MAX ==>
                  r == Executed(m.(code := lands, stack := m.stack + [WrapU32(WrapI32(c + 5))]), [], None))
            && (op == LegacyAssembler.OP_CALL && |m.stack| >= STACK_SIZE_MAX ==>
                  r.m.status == ErrStackOverflow && r.m.message == StackOverflowText && r.result == Some(-1))
  {
    var c := m.code.cursor;
    StepFlows(m, asWritten);
    var (offset, t) := GetS32(m.code.(cursor := c + 1));
    assert t == m.code.(cursor := c + 5);
  }

  /** A CALL or JUMP whose offset operand reaches `target` inside the
      code goes there. */
  lemma BranchReaches(m: Machine, asWritten: bool, target: int)
    requires m.Valid() && m.code.cursor + 5 <= m.code.count && IsI32(m.code.cursor + 5)
    requires var c := m.code.cursor;
             var op := m.code.Contents()[c];
             (op == LegacyAssembler.OP_JUMP || (op == LegacyAssembler.OP_CALL && |m.stack| < STACK_SIZE_MAX))
             && c + 1 + DecodeS32(m.code.Contents()[c + 1..c + 5]) == target
    requires 0 <= target < m.code.count && IsI32(target)
    ensures var r := Step(m, asWritten);
            r.result.None? && r.commands == [] && r.m.status == m.status && r.m.code.cursor == target
  {
    StepBranches(m, asWritten);
  }

  /** A CALL or JUMP whose placeholder a successful compile of the older
      assembler patched lands on the label it names. */
  lemma CompiledBranchLands(a: LegacyAssembler.Assembler, asWritten: bool, k: nat, m: Machine, runAsWritten: bool)
    requires LegacyAssembler.Appending(a) && LegacyAssembler.HasRoom(a)
    requires LegacyAssembler.Compile(a, asWritten).0 == LegacyAssembler.Ok && k < |a.addresses|
    requires m.Valid() && m.code.Contents() == LegacyAssembler.Compile(a, asWritten).1.code.Contents()
    requires m.code.cursor + 1 == a.addresses[k].offset
    requires var op := m.code.Contents()[m.code.cursor];
             op == LegacyAssembler.OP_JUMP || (op == LegacyAssembler.OP_CALL && |m.stack| < STACK_SIZE_MAX)
    ensures var r := Step(m, runAsWritten);
            r.result.None? && r.commands == [] && r.m.status == m.status
            && r.m.code.cursor == a.labels[a.addresses[k].labelIndex].offset
  {
    hide LegacyAssembler.Compile, LegacyAssembler.Appending, LegacyAssembler.HasRoom, LegacyAssembler.Assembler.Valid,
      LegacyAssembler.Init, LegacyAssembler.CompiledStream, LegacyAssembler.HeaderKept, LegacyAssembler.Ascending,
      Step, DecodeS32;
    var ad := a.addresses[k];
    LegacyAssembler.CompiledCode(a, asWritten);
    LegacyAssembler.CompiledJumpLands(a, asWritten);
    var target := a.labels[ad.labelIndex].offset;
    var s0 := LegacyAssembler.Init(a).code;
    assert ad.offset + 4 <= s0.count <= LegacyAssembler.ROOM && target <= s0.count;
    var c := m.code.Contents();
    assert 0 <= ad.offset && ad.offset + 4 <= |c| && 0 <= target < |c|
           && DecodeS32(c[ad.offset..ad.offset + 4]) == target - ad.offset;
    BranchReaches(m, runAsWritten, target);
  }

  /** A CALL followed by a RETURN comes back to the instruction after the
      CALL with the stack as it was. */
  lemma CallThenReturn(m: Machine, asWritten: bool)
    requires m.Valid() && |m.stack| < STACK_SIZE_MAX
    requires m.code.cursor + 4 <= m.code.count && IsI32(m.code.cursor + 4)
    ensures var c := Call(m);
            var r := Return(c.m, asWritten);
            c.result.None? && r.result.None? && r.m.stack == m.stack && r.m.code.cursor == m.code.cursor + 4
            && r.m.status == m.status
  {
  }

  /** As written, RETURN on an empty stack reports ERR_STACK_OVERFLOW,
      with the message "Stack underflow.". */
  lemma EmptyReturnOverflows(m: Machine)
    requires m.Valid() && m.code.cursor < m.code.count && m.stack == []
    requires m.code.Contents()[m.code.cursor] == LegacyAssembler.OP_RETURN
    ensures var r := Step(m, true);
            r.m.status == ErrStackOverflow && r.m.message == StackUnderflowText && r.result == Some(-1)
            && r.m.code.cursor == r.m.code.count
  {
    StepFlows(m, true);
  }

  /** Corrected, it reports ERR_STACK_UNDERFLOW. */
  lemma EmptyReturnUnderflows(m: Machine)
    requires m.Valid() && m.code.cursor < m.code.count && m.stack == []
    requires m.code.Contents()[m.code.cursor] == LegacyAssembler.OP_RETURN
    ensures var r := Step(m, false);
            r.m.status == ErrStackUnderflow && r.m.message == StackUnderflowText && r.result == Some(-1)
            && r.m.code.cursor == r.m.code.count
  {
    StepFlows(m, false);
  }

  /** An opcode past the last one stops `advance` with ERR_INVALID_OPCODE,
      naming the opcode and its offset, and -1. */
  lemma AdvanceRejectsOpcode(m: Machine, asWritten: bool, fuel: nat)
    requires m.Valid() && m.code.cursor < m.code.count && fuel > 0
    requires m.code.Contents()[m.code.cursor] >= LegacyAssembler.OP_MAX
    ensures var r := Advance(m, asWritten, fuel);
            var op := m.code.Contents()[m.code.cursor];
            r.Some? && r.value.result == -1 && r.value.commands == []
            && r.value.m.status == ErrInvalidOpcode
            && r.value.m.message == OpcodeInvalid(op as nat, m.code.cursor)
            && r.value.m.code.cursor == m.code.count
  {
    StepFlows(m, asWritten);
  }

  /** HALT ends the program: `advance` returns 0 (-1 if an error message
      is set), and a running interpreter has finished. */
  lemma AdvanceHalts(m: Machine, asWritten: bool, fuel: nat)
    requires m.Valid() && m.code.cursor < m.code.count && fuel > 0
    requires m.code.Contents()[m.code.cursor] == LegacyAssembler.OP_HALT
    ensures var r := Advance(m, asWritten, fuel);
            r.Some? && r.value.commands == [] && r.value.m.code.cursor == m.code.count
            && (r.value.result == 0 <==> IsEmpty(m.message))
            && r.value.m.status == (if m.status == Running then Finished else m.status)
  {
    StepFlows(m, asWritten);
    var s := m.code.(cursor := m.code.cursor + 1);
    var m2 := m.(code := Seek(s, s.count));
    assert Step(m, asWritten) == Executed(m2, [], None);
    assert Advance(m2, asWritten, fuel - 1) == Some(AtEnd(m2));
  }

  /** A TICK the older assembler emitted ends `advance` with its ticks. */
  lemma AdvanceTicksEncoded(m: Machine, args: CurrentAssembler.Args, asWritten: bool, fuel: nat)
    requires m.Valid() && fuel > 0
    requires Interpreter.Holds(m.code, LegacyAssembler.Encode(LegacyAssembler.OP_TICK, args))
    ensures var r := Advance(m, asWritten, fuel);
            r.Some? && r.value.result == CurrentAssembler.ClampedU16(args.arg1, 0) && r.value.commands == []
            && r.value.m == m.(code := m.code.(cursor := m.code.cursor + 3))
  {
    StepTicksEncoded(m, args, asWritten);
    OpensEncoded(m, LegacyAssembler.OP_TICK, args);
  }
}

=== FILE: levels.dfy ===
/** Frames and the conversion of script levels into frames, shared by
    waveforms and samples.

    A frame is BlipKit's signed 16-bit `BKFrame`; a level is a script value
    where 1.0 means full scale. Conversion optionally normalises the levels
    so that the loudest reaches the requested amplitude, clamps each to
    [-1, +1], scales by `BK_FRAME_MAX` and truncates toward zero. Levels are
    `real` here: the single-precision rounding of the C++ arithmetic is left
    out. */
module Levels {

  /** `BKFrame`. */
  type Frame = f: int | -0x8000 <= f < 0x8000

  /** BlipKit's `BK_FRAME_MAX`, the full-scale frame value. */
  const FRAME_MAX: int := 0x7fff

  /** Godot's `CMP_EPSILON`, the bound of `Math::is_zero_approx`. */
  const CMP_EPSILON: real := 0.00001

  function Abs(x: real): (r: real)
    ensures r >= 0.0 && (r == x || r == -x)
  {
    if x < 0.0 then -x else x
  }

  function ClampReal(x: real, lo: real, hi: real): (r: real)
    requires lo <= hi
    ensures lo <= r <= hi
    ensures lo <= x <= hi ==> r == x
  {
    if x < lo then lo else if x > hi then hi else x
  }

  /** A float-to-integer cast: truncation toward zero. */
  function Truncate(x: real): (n: int)
    ensures x >= 0.0 ==> 0 <= n && n as real <= x < n as real + 1.0
    ensures x < 0.0 ==> n <= 0 && n as real - 1.0 < x <= n as real
  {
    if x >= 0.0 then x.Floor else -((-x).Floor)
  }

  /** The loudest level's magnitude, starting from 0 as the loop does. */
  function MaxAbs(xs: seq<real>): (m: real)
    ensures m >= 0.0
    ensures forall i :: 0 <= i < |xs| ==> Abs(xs[i]) <= m
    ensures m == 0.0 || exists i :: 0 <= i < |xs| && Abs(xs[i]) == m
  {
    if |xs| == 0 then 0.0
    else
      var rest := MaxAbs(xs[1..]);
      assert forall i :: 1 <= i < |xs| ==> xs[i] == xs[1..][i - 1];
      if Abs(xs[0]) > rest then Abs(xs[0]) else rest
  }

  /** The factor every level is multiplied by: 1 without normalising; with
      it, the clamped amplitude over the loudest level, or 0 when that is
      (approximately) zero. */
  function Factor(xs: seq<real>, normalize: bool, amplitude: real): (k: real)
    ensures k >= 0.0
  {
    if !normalize then 1.0
    else
      var m := MaxAbs(xs);
      if m < CMP_EPSILON then 0.0 else ClampReal(amplitude, 0.0, 1.0) / m
  }

  /** A level times the factor. */
  function Scaled(x: real, k: real): real {
    x * k
  }

  /** One level, already scaled, as a frame. */
  function ToFrame(x: real): (f: Frame)
    ensures -FRAME_MAX <= f <= FRAME_MAX
  {
    var v := ClampReal(x, -1.0, 1.0);
    Truncate(v * FRAME_MAX as real)
  }

  /** The frames `set_frames` stores, one per level. */
  function Convert(xs: seq<real>, normalize: bool, amplitude: real): (fs: seq<Frame>)
    ensures |fs| == |xs|
    ensures forall i :: 0 <= i < |xs| ==> -FRAME_MAX <= fs[i] <= FRAME_MAX
  {
    var k := Factor(xs, normalize, amplitude);
    seq(|xs|, i requires 0 <= i < |xs| => ToFrame(Scaled(xs[i], k)))
  }

  /** Without normalising, levels inside [-1, +1] map to their truncated
      full-scale value and levels beyond it saturate. */
  lemma ConvertPlain(xs: seq<real>, amplitude: real, i: int)
    requires 0 <= i < |xs|
    ensures var f := Convert(xs, false, amplitude)[i];
            (-1.0 <= xs[i] <= 1.0 ==> f == Truncate(xs[i] * FRAME_MAX as real))
            && (xs[i] > 1.0 ==> f == FRAME_MAX)
            && (xs[i] < -1.0 ==> f == -FRAME_MAX)
  {
    assert Scaled(xs[i], 1.0) == xs[i];
  }

  /** Truncation is odd. */
  lemma TruncateNegate(y: real)
    requires y >= 0.0
    ensures Truncate(-y) == -Truncate(y)
  {
  }

  /** Magnitudes within [0, 1] keep their order through the scaling and
      truncation. */
  lemma ToFrameWithin(x: real, a: real)
    requires 0.0 <= Abs(x) <= a <= 1.0
    ensures -Truncate(a * FRAME_MAX as real) <= ToFrame(x) <= Truncate(a * FRAME_MAX as real)
  {
    var F := FRAME_MAX as real;
    assert ClampReal(x, -1.0, 1.0) == x;
    if x >= 0.0 {
      assert x * F <= a * F;
    } else {
      assert -x * F <= a * F;
      TruncateNegate(-x * F);
      assert x * F == -(-x * F);
    }
  }

  /** |x| <= m scales to at most a. */
  lemma ScaledWithin(x: real, m: real, a: real)
    requires 0.0 < m && Abs(x) <= m && 0.0 <= a <= 1.0
    ensures Abs(Scaled(x, a / m)) <= a
  {
    var k := a / m;
    assert k >= 0.0;
    assert Abs(x * k) == Abs(x) * k;
    assert Abs(x) * k <= m * k;
    assert m * k == a;
  }

  /** The loudest level scales to exactly plus or minus a. */
  lemma ScaledPeak(x: real, m: real, a: real)
    requires 0.0 < m && Abs(x) == m && 0.0 <= a <= 1.0
    ensures Scaled(x, a / m) == a || Scaled(x, a / m) == -a
  {
    var k := a / m;
    assert m * k == a;
  }

  /** Normalising a sequence that is not silent makes the loudest frame
      exactly the truncated full-scale amplitude, and no frame louder. */
  lemma NormalizedPeak(xs: seq<real>, amplitude: real)
    requires MaxAbs(xs) >= CMP_EPSILON
    ensures var a := ClampReal(amplitude, 0.0, 1.0);
            var peak := Truncate(a * FRAME_MAX as real);
            var fs := Convert(xs, true, amplitude);
            (forall i :: 0 <= i < |xs| ==> -peak <= fs[i] <= peak)
            && exists i :: 0 <= i < |xs| && (fs[i] == peak || fs[i] == -peak)
  {
    var a := ClampReal(amplitude, 0.0, 1.0);
    var m := MaxAbs(xs);
    var k := a / m;
    assert Factor(xs, true, amplitude) == k;
    var fs := Convert(xs, true, amplitude);
    var peak := Truncate(a * FRAME_MAX as real);
    assert forall i :: 0 <= i < |xs| ==> fs[i] == ToFrame(Scaled(xs[i], k));
    hide Scaled, Convert, MaxAbs, Factor;
    forall i | 0 <= i < |xs|
      ensures -peak <= fs[i] <= peak
    {
      ScaledWithin(xs[i], m, a);
      ToFrameWithin(Scaled(xs[i], k), a);
    }
    var j :| 0 <= j < |xs| && Abs(xs[j]) == m;
    ScaledPeak(xs[j], m, a);
    TruncateNegate(a * FRAME_MAX as real);
    assert -a * FRAME_MAX as real == -(a * FRAME_MAX as real);
  }
}

=== FILE: markdown.dfy ===
/** The class-reference generator's text core: anchor slugs, the BBCode
    rewriter with its cross-reference resolvers, method and parameter
    signatures, and the grouping of constants into enumerations and plain
    constants. Reading the XML and writing files are not part of it; the
    entities arrive already extracted, as records.

    Character classes follow Python's `str` semantics restricted to ASCII
    for letters (`\w`, `lower()`), and exactly for whitespace and line
    breaks (`str.isspace`, `str.splitlines`). */
module Markdown {
  import opened Wrappers

  // ---------------------------------------------------------------------
  // Characters and lines.

  /** Python's `str.isspace`, which is also what `\s` matches. */
  predicate IsSpace(c: char) {
    c == ' ' || '\t' <= c <= '\r' || '\U{1c}' <= c <= '\U{1f}' || c == '\U{85}' || c == '\U{a0}'
    || c == '\U{1680}' || '\U{2000}' <= c <= '\U{200a}' || c == '\U{2028}' || c == '\U{2029}'
    || c == '\U{202f}' || c == '\U{205f}' || c == '\U{3000}'
  }

  /** The characters `str.splitlines` breaks at; "\r\n" counts as one break. */
  predicate IsLineBreak(c: char) {
    '\n' <= c <= '\r' || '\U{1c}' <= c <= '\U{1e}' || c == '\U{85}' || c == '\U{2028}' || c == '\U{2029}'
  }

  /** Text without an opening bracket, which no tag can match. */
  predicate NoBracket(s: string) {
    forall i :: 0 <= i < |s| ==> s[i] != '['
  }

  predicate IsUpper(c: char) { 'A' <= c <= 'Z' }

  /** `\w` on ASCII: letters, digits and the underscore. */
  predicate IsWordChar(c: char) { 'a' <= c <= 'z' || IsUpper(c) || '0' <= c <= '9' || c == '_' }

  function LowerChar(c: char): char {
    if IsUpper(c) then (c as int + 32) as char else c
  }

  /** `str.lower()` on ASCII letters. */
  function Lower(s: string): (r: string)
    ensures |r| == |s| && forall i :: 0 <= i < |s| ==> r[i] == LowerChar(s[i])
  {
    seq(|s|, i requires 0 <= i < |s| => LowerChar(s[i]))
  }

  /** `lstrip("\t")`: leading tabs removed. */
  function StripTabs(s: string): (r: string)
    ensures |r| <= |s| && r == s[|s| - |r|..]
    ensures |r| > 0 ==> r[0] != '\t'
    ensures forall i :: 0 <= i < |s| - |r| ==> s[i] == '\t'
  {
    if |s| > 0 && s[0] == '\t' then StripTabs(s[1..]) else s
  }

  /** `rstrip()`: trailing whitespace removed. */
  function StripRight(s: string): (r: string)
    ensures |r| <= |s| && r == s[..|r|]
    ensures |r| > 0 ==> !IsSpace(r[|r| - 1])
    ensures forall i :: |r| <= i < |s| ==> IsSpace(s[i])
  {
    if |s| > 0 && IsSpace(s[|s| - 1]) then StripRight(s[..|s| - 1]) else s
  }

  /** `lstrip()`: leading whitespace removed. */
  function StripLeft(s: string): (r: string)
    ensures |r| <= |s| && r == s[|s| - |r|..]
    ensures |r| > 0 ==> !IsSpace(r[0])
    ensures forall i :: 0 <= i < |s| - |r| ==> IsSpace(s[i])
  {
    if |s| > 0 && IsSpace(s[0]) then StripLeft(s[1..]) else s
  }

  /** `strip()`. */
  function Strip(s: string): (r: string)
    ensures |r| > 0 ==> !IsSpace(r[0]) && !IsSpace(r[|r| - 1])
    ensures NoBracket(s) ==> NoBracket(r)
  {
    StripRight(StripLeft(s))
  }

  /** The index of the first line break at or after `from`, or `|s|`. */
  function BreakFrom(s: string, from: nat): (i: nat)
    requires from <= |s|
    ensures from <= i <= |s|
    ensures i < |s| ==> IsLineBreak(s[i])
    ensures forall k :: from <= k < i ==> !IsLineBreak(s[k])
    decreases |s| - from
  {
    if from == |s| || IsLineBreak(s[from]) then from else BreakFrom(s, from + 1)
  }

  /** `str.splitlines()`: the text cut at every line break, the breaks
      dropped; a break at the very end does not start another line. */
  function SplitLines(s: string): (lines: seq<string>)
    ensures forall k, i :: 0 <= k < |lines| && 0 <= i < |lines[k]| ==> !IsLineBreak(lines[k][i])
    ensures NoBracket(s) ==> forall k :: 0 <= k < |lines| ==> NoBracket(lines[k])
    decreases |s|
  {
    if |s| == 0 then []
    else
      var i := BreakFrom(s, 0);
      if i == |s| then [s]
      else
        var n := if s[i] == '\r' && i + 1 < |s| && s[i + 1] == '\n' then 2 else 1;
        [s[..i]] + SplitLines(s[i + n..])
  }

  /** `sep.join(parts)`. */
  function Join(sep: string, parts: seq<string>): (r: string)
  {
    if |parts| == 0 then []
    else if |parts| == 1 then parts[0]
    else parts[0] + sep + Join(sep, parts[1..])
  }

  /** Joining a first part to at least one more puts the separator
      between them; joining nothing gives nothing. */
  lemma JoinCons(sep: string, first: string, parts: seq<string>)
    ensures |parts| > 0 ==> Join(sep, [first] + parts) == first + sep + Join(sep, parts)
    ensures |parts| == 0 ==> Join(sep, [first] + parts) == first && Join(sep, parts) == []
  {
    assert ([first] + parts)[1..] == parts;
  }

  /** A text whose first break is a "\n" at `i` is its first line, then
      the lines after the break. */
  lemma SplitAtNewline(s: string, i: nat)
    requires i < |s| && s[i] == '\n' && BreakFrom(s, 0) == i
    ensures SplitLines(s) == [s[..i]] + SplitLines(s[i + 1..])
  {
  }

  /** Text whose only line breaks are "\n" and that does not end in one is
      recovered by joining its lines with "\n". */
  lemma {:induction false} SplitThenJoin(s: string)
    requires forall i :: 0 <= i < |s| ==> IsLineBreak(s[i]) ==> s[i] == '\n'
    requires |s| > 0 ==> s[|s| - 1] != '\n'
    ensures Join("\n", SplitLines(s)) == s
    decreases |s|
  {
    hide NoBracket, SplitLines, Join, IsLineBreak;
    if |s| == 0 {
      SplitEmpty();
      JoinCons("\n", "", []);
    } else {
      var i := BreakFrom(s, 0);
      if i == |s| {
        SplitWithoutBreak(s);
        JoinCons("\n", s, []);
        assert [s] + [] == [s];
      } else {
        var rest := s[i + 1..];
        SplitAtNewline(s, i);
        hide BreakFrom;
        assert |rest| > 0 && rest[|rest| - 1] == s[|s| - 1];
        assert forall k :: 0 <= k < |rest| ==> rest[k] == s[i + 1 + k];
        SplitThenJoin(rest);
        var tail := SplitLines(rest);
        JoinCons("\n", s[..i], tail);
        assert s == s[..i] + "\n" + rest;
      }
    }
  }

  /** The empty text has no lines. */
  lemma SplitEmpty()
    ensures SplitLines([]) == [] && Join("\n", []) == []
  {
  }

  /** Text without a line break is one line. */
  lemma SplitWithoutBreak(s: string)
    requires |s| > 0 && BreakFrom(s, 0) == |s|
    ensures SplitLines(s) == [s]
  {
  }

  // ---------------------------------------------------------------------
  // `name_to_anchor`.

  /** The first pass: everything but word characters and spaces dropped. */
  function KeepWordsAndSpaces(s: string): (r: string)
    ensures |r| <= |s|
    ensures forall i :: 0 <= i < |r| ==> IsWordChar(r[i]) || r[i] == ' '
  {
    if |s| == 0 then []
    else (if IsWordChar(s[0]) || s[0] == ' ' then [s[0]] else []) + KeepWordsAndSpaces(s[1..])
  }

  /** The second pass: spaces become hyphens. */
  function Hyphenate(s: string): (r: string)
    ensures |r| == |s| && forall i :: 0 <= i < |s| ==> r[i] == if s[i] == ' ' then '-' else s[i]
  {
    seq(|s|, i requires 0 <= i < |s| => if s[i] == ' ' then '-' else s[i])
  }

  /** The characters an anchor is made of. */
  predicate IsAnchorChar(c: char) {
    'a' <= c <= 'z' || '0' <= c <= '9' || c == '_' || c == '-'
  }

  /** `name_to_anchor`: drop everything but word characters and spaces,
      turn spaces into hyphens, lower-case. */
  function NameToAnchor(name: string): (r: string)
    ensures |r| <= |name|
    ensures forall i :: 0 <= i < |r| ==> IsAnchorChar(r[i])
  {
    var kept := KeepWordsAndSpaces(name);
    var r := Lower(Hyphenate(kept));
    assert forall i :: 0 <= i < |r| ==> r[i] == LowerChar(if kept[i] == ' ' then '-' else kept[i]);
    r
  }

  /** What one character of a name contributes to its anchor. */
  function SlugOf(c: char): (r: string)
    ensures |r| <= 1
  {
    if c == ' ' then "-" else if IsWordChar(c) then [LowerChar(c)] else []
  }

  /** The anchor character by character, as a reference definition. */
  function Slug(name: string): (r: string)
  {
    if |name| == 0 then [] else SlugOf(name[0]) + Slug(name[1..])
  }

  /** The three passes of `name_to_anchor` amount to mapping every
      character on its own. */
  lemma {:induction false} AnchorIsSlug(name: string)
    ensures NameToAnchor(name) == Slug(name)
    decreases |name|
  {
    if |name| > 0 {
      AnchorIsSlug(name[1..]);
      var c := name[0];
      var head: string := if IsWordChar(c) || c == ' ' then [c] else [];
      var kept := KeepWordsAndSpaces(name[1..]);
      assert KeepWordsAndSpaces(name) == head + kept;
      LaterPassesAppend(head, kept);
      assert Lower(Hyphenate(head)) == SlugOf(c);
      hide KeepWordsAndSpaces, Hyphenate, Lower;
      assert Slug(name) == SlugOf(c) + Slug(name[1..]);
    }
  }

  /** Hyphenating and lower-casing work character by character. */
  lemma LaterPassesAppend(a: string, b: string)
    ensures Lower(Hyphenate(a + b)) == Lower(Hyphenate(a)) + Lower(Hyphenate(b))
  {
  }

  /** Slugs of joined text are joined slugs. */
  lemma {:induction false} SlugAppend(a: string, b: string)
    ensures Slug(a + b) == Slug(a) + Slug(b)
    decreases |a|
  {
    if |a| > 0 {
      assert (a + b)[0] == a[0] && (a + b)[1..] == a[1..] + b;
      SlugAppend(a[1..], b);
      assert Slug(a + b) == SlugOf(a[0]) + Slug(a[1..] + b);
      assert Slug(a) == SlugOf(a[0]) + Slug(a[1..]);
    } else {
      assert a + b == b;
    }
  }

  /** The anchor of joined text is the joined anchors. */
  lemma AnchorAppend(a: string, b: string)
    ensures NameToAnchor(a + b) == NameToAnchor(a) + NameToAnchor(b)
  {
    AnchorIsSlug(a + b);
    AnchorIsSlug(a);
    AnchorIsSlug(b);
    SlugAppend(a, b);
  }

  /** A word character survives lower-cased, a space becomes a hyphen, and
      anything else vanishes. */
  lemma AnchorOfCharacter(c: char)
    ensures NameToAnchor([c]) == SlugOf(c)
  {
    AnchorIsSlug([c]);
    assert Slug([c]) == SlugOf(c) + Slug([]);
  }

  /** An anchor is left as it is by a second pass exactly when it holds no
      hyphen: the hyphens that spaces became are dropped the second time. */
  lemma {:induction false} AnchorFixedIffNoHyphen(name: string)
    ensures var r := NameToAnchor(name);
            NameToAnchor(r) == r <==> forall i :: 0 <= i < |r| ==> r[i] != '-'
  {
    var r := NameToAnchor(name);
    AnchorIsSlug(r);
    SlugOfAnchorChars(r);
  }

  /** On anchor characters a pass keeps everything but the hyphens. */
  lemma {:induction false} SlugOfAnchorChars(r: string)
    requires forall i :: 0 <= i < |r| ==> IsAnchorChar(r[i])
    ensures Slug(r) == r <==> forall i :: 0 <= i < |r| ==> r[i] != '-'
    ensures |Slug(r)| <= |r|
    decreases |r|
  {
    if |r| > 0 {
      SlugOfAnchorChars(r[1..]);
      if r[0] == '-' {
        assert |Slug(r)| < |r|;
      } else {
        assert SlugOf(r[0]) == [r[0]];
        assert forall i :: 1 <= i < |r| ==> r[1..][i - 1] == r[i];
        assert Slug(r) == [r[0]] + Slug(r[1..]);
      }
    }
  }

  /** The anchor of "a b" is "a-b", and a second pass gives "ab". */
  lemma AnchorNotIdempotent()
    ensures NameToAnchor("a b") == "a-b"
    ensures NameToAnchor(NameToAnchor("a b")) == "ab"
  {
    hide NameToAnchor;
    assert SlugOf('a') == "a" && SlugOf(' ') == "-" && SlugOf('b') == "b" && SlugOf('-') == [];
    AnchorOfCharacter('a');
    AnchorOfCharacter(' ');
    AnchorOfCharacter('b');
    AnchorOfCharacter('-');
    AnchorAppend("a", " b");
    AnchorAppend(" ", "b");
    assert "a b" == "a" + " b" && " b" == " " + "b";
    AnchorAppend("a", "-b");
    AnchorAppend("-", "b");
    assert "a-b" == "a" + "-b" && "-b" == "-" + "b";
  }

  // ---------------------------------------------------------------------
  // Python dicts.

  /** A dict keyed by strings: its keys in insertion order and its values.
      Assigning to a key already present keeps the key's place. */
  datatype Dict<V> = Dict(keys: seq<string>, values: map<string, V>) {
    ghost predicate Valid() {
      (forall i, j :: 0 <= i < j < |keys| ==> keys[i] != keys[j])
      && (forall k :: k in values <==> k in keys)
    }
  }

  function EmptyDict<V>(): (d: Dict<V>)
    ensures d.Valid() && d.keys == []
  {
    Dict([], map[])
  }

  /** `d[k] = v`. */
  function Put<V>(d: Dict<V>, k: string, v: V): (r: Dict<V>)
    requires d.Valid()
    ensures r.Valid() && r.values == d.values[k := v]
    ensures r.keys == if k in d.values then d.keys else d.keys + [k]
  {
    Dict(if k in d.values then d.keys else d.keys + [k], d.values[k := v])
  }

  /** The strings of `xs` without repeats, each where it first appears. */
  function FirstSeen(xs: seq<string>): (r: seq<string>)
    ensures forall k :: k in r <==> k in xs
    ensures forall i, j :: 0 <= i < j < |r| ==> r[i] != r[j]
  {
    if |xs| == 0 then []
    else
      var r := FirstSeen(xs[..|xs| - 1]);
      assert forall k :: k in xs <==> k in xs[..|xs| - 1] || k == xs[|xs| - 1];
      if xs[|xs| - 1] in r then r else r + [xs[|xs| - 1]]
  }

  /** The dict a loop `d[ks[i]] = vs[i]` builds from an empty one. */
  function Collect<V>(ks: seq<string>, vs: seq<V>): (d: Dict<V>)
    requires |ks| == |vs|
    ensures d.Valid()
    ensures forall k :: k in d.values <==> k in ks
  {
    if |ks| == 0 then EmptyDict()
    else
      assert forall k :: k in ks <==> k in ks[..|ks| - 1] || k == ks[|ks| - 1];
      Put(Collect(ks[..|ks| - 1], vs[..|vs| - 1]), ks[|ks| - 1], vs[|vs| - 1])
  }

  /** The position of the last occurrence of `k`. */
  predicate IsLast(ks: seq<string>, j: nat)
    requires j < |ks|
  {
    forall i :: j < i < |ks| ==> ks[i] != ks[j]
  }

  /** The loop keeps each key where it first appeared, and the value that
      came last. */
  lemma CollectKeepsFirstPlaceLastValue<V>(ks: seq<string>, vs: seq<V>)
    requires |ks| == |vs|
    ensures Collect(ks, vs).keys == FirstSeen(ks)
    ensures forall j :: 0 <= j < |ks| && IsLast(ks, j) ==> Collect(ks, vs).values[ks[j]] == vs[j]
  {
    CollectKeepsFirstPlace(ks, vs);
    CollectKeepsLastValue(ks, vs);
  }

  /** The keys of the loop's dict are the keys in first-seen order. */
  lemma {:induction false} CollectKeepsFirstPlace<V>(ks: seq<string>, vs: seq<V>)
    requires |ks| == |vs|
    ensures Collect(ks, vs).keys == FirstSeen(ks)
  {
    if |ks| > 0 {
      var n := |ks| - 1;
      CollectKeepsFirstPlace(ks[..n], vs[..n]);
      var d := Collect(ks[..n], vs[..n]);
      assert Collect(ks, vs) == Put(d, ks[n], vs[n]);
      assert FirstSeen(ks) == if ks[n] in FirstSeen(ks[..n]) then d.keys else d.keys + [ks[n]];
      hide Collect, FirstSeen;
      assert ks[n] in d.values <==> ks[n] in d.keys;
    }
  }

  /** Every key maps to the value assigned to it last. */
  lemma {:induction false} CollectKeepsLastValue<V>(ks: seq<string>, vs: seq<V>)
    requires |ks| == |vs|
    ensures forall j :: 0 <= j < |ks| && IsLast(ks, j) ==> Collect(ks, vs).values[ks[j]] == vs[j]
  {
    if |ks| > 0 {
      var n := |ks| - 1;
      CollectKeepsLastValue(ks[..n], vs[..n]);
      hide FirstSeen;
      forall j | 0 <= j < |ks| && IsLast(ks, j) ensures Collect(ks, vs).values[ks[j]] == vs[j] {
        if j < n {
          assert ks[j] != ks[n];
          assert IsLast(ks[..n], j);
        }
      }
    }
  }

  /** The values in key order, as `dict.values()` yields them. */
  function ValuesInOrder<V>(d: Dict<V>): (vs: seq<V>)
    requires d.Valid()
    ensures |vs| == |d.keys|
  {
    seq(|d.keys|, i requires 0 <= i < |d.keys| => d.values[d.keys[i]])
  }


  // ---------------------------------------------------------------------
  // The fixed patterns of the rewriter, matched at one position.

  /** The patterns `bbcode_to_markdown` substitutes with. */
  datatype Pattern =
    | Tagged(open: string, close: string)  // `open(.*?)close`
    | ClassName                            // `\[([A-Z]\w+)\]`
    | TypeName                             // `\[(bool|float|int)\]`
    | CodeblockLang                        // `\[codeblock\s+lang=(\w+)\]`

  /** Every pattern opens with a bracket. */
  predicate Bracketed(pat: Pattern) {
    pat.Tagged? ==> |pat.open| > 0 && pat.open[0] == '['
  }

  /** A match: where it ends and the text of its group. */
  datatype Match = Match(end: nat, group: string)

  predicate StartsAt(s: string, p: nat, t: string) {
    p + |t| <= |s| && s[p..p + |t|] == t
  }

  /** The first `t` at or after `from`. */
  function FindFrom(s: string, t: string, from: nat): (q: Option<nat>)
    ensures q.Some? ==> from <= q.value && StartsAt(s, q.value, t)
    ensures q.Some? ==> forall k :: from <= k < q.value ==> !StartsAt(s, k, t)
    ensures q.None? ==> forall k :: from <= k ==> !StartsAt(s, k, t)
    decreases |s| - from
  {
    if from + |t| > |s| then None
    else if StartsAt(s, from, t) then Some(from)
    else FindFrom(s, t, from + 1)
  }

  /** `re.search` for a fixed text. */
  predicate Contains(s: string, t: string) {
    FindFrom(s, t, 0).Some?
  }

  /** The length of the run of word characters (`\w+` taken greedily) at `p`. */
  function WordRun(s: string, p: nat): (n: nat)
    ensures p + n <= |s| || n == 0
    ensures forall k :: p <= k < p + n ==> IsWordChar(s[k])
    ensures p + n < |s| ==> !IsWordChar(s[p + n])
    decreases |s| - p
  {
    if p < |s| && IsWordChar(s[p]) then 1 + WordRun(s, p + 1) else 0
  }

  /** The length of the run of whitespace (`\s+` taken greedily) at `p`. */
  function SpaceRun(s: string, p: nat): (n: nat)
    ensures p + n <= |s| || n == 0
    ensures forall k :: p <= k < p + n ==> IsSpace(s[k])
    ensures p + n < |s| ==> !IsSpace(s[p + n])
    decreases |s| - p
  {
    if p < |s| && IsSpace(s[p]) then 1 + SpaceRun(s, p + 1) else 0
  }

  /** The match of `pat` starting exactly at `p`, if there is one. A
      greedy run followed by a closing bracket cannot match by giving
      characters back, since every character it gives back is a word or
      space character and not the bracket. */
  function MatchAt(pat: Pattern, s: string, p: nat): (r: Option<Match>)
    ensures r.Some? ==> p < r.value.end <= |s|
    ensures r.Some? && Bracketed(pat) ==> s[p] == '['
  {
    match pat
    case Tagged(open, close) =>
      if |open| > 0 && StartsAt(s, p, open) then
        match FindFrom(s, close, p + |open|)
        case Some(q) => Some(Match(q + |close|, s[p + |open|..q]))
        case None => None
      else None
    case ClassName =>
      if p + 1 < |s| && s[p] == '[' && IsUpper(s[p + 1]) then
        var n := WordRun(s, p + 2);
        if n >= 1 && p + 2 + n < |s| && s[p + 2 + n] == ']' then Some(Match(p + 3 + n, s[p + 1..p + 2 + n]))
        else None
      else None
    case TypeName =>
      if StartsAt(s, p, "[bool]") then Some(Match(p + 6, "bool"))
      else if StartsAt(s, p, "[float]") then Some(Match(p + 7, "float"))
      else if StartsAt(s, p, "[int]") then Some(Match(p + 5, "int"))
      else None
    case CodeblockLang =>
      if StartsAt(s, p, "[codeblock") then
        var q := p + 10;
        var n := SpaceRun(s, q);
        if n >= 1 && StartsAt(s, q + n, "lang=") then
          var w := WordRun(s, q + n + 5);
          if w >= 1 && q + n + 5 + w < |s| && s[q + n + 5 + w] == ']' then
            assert s[p] == s[p..p + 10][0];
            Some(Match(q + n + 6 + w, s[q + n + 5..q + n + 5 + w]))
          else None
        else None
      else None
  }

  /** `re.search`: the leftmost match at or after `from`, and where it starts. */
  function Search(pat: Pattern, s: string, from: nat): (r: Option<(nat, Match)>)
    ensures r.Some? ==> from <= r.value.0 && MatchAt(pat, s, r.value.0) == Some(r.value.1)
    ensures r.Some? ==> forall k :: from <= k < r.value.0 ==> MatchAt(pat, s, k).None?
    ensures r.None? ==> forall k :: from <= k < |s| ==> MatchAt(pat, s, k).None?
    decreases |s| - from
  {
    if from >= |s| then None
    else match MatchAt(pat, s, from)
      case Some(m) => Some((from, m))
      case None => Search(pat, s, from + 1)
  }

  // ---------------------------------------------------------------------
  // Substitution.

  /** The outcome of rewriting: the text, or the name whose lookup raised
      `KeyError` and ended the run. */
  datatype Outcome = Text(text: string) | MissingKey(name: string)

  /** `re.sub(pat, f, s)` from position `p`: scanning left to right, each
      match is replaced by `f` of its group and scanning resumes after it;
      other characters are kept. A replacement that raises ends it all. */
  function Sub(s: string, pat: Pattern, f: string -> Outcome, p: nat): (r: Outcome)
    ensures Bracketed(pat) && p <= |s| && NoBracket(s[p..]) ==> r == Text(s[p..])
    ensures (forall g :: f(g).Text?) ==> r.Text?
    ensures r.MissingKey? ==> exists g :: f(g) == r
    decreases |s| - p
  {
    if p >= |s| then
      assert p <= |s| ==> s[p..] == [];
      Text([])
    else match MatchAt(pat, s, p)
      case Some(m) =>
        (match f(m.group)
         case MissingKey(n) => MissingKey(n)
         case Text(rep) =>
           match Sub(s, pat, f, m.end)
           case Text(rest) => Text(rep + rest)
           case failed => failed)
      case None =>
        assert s[p..] == [s[p]] + s[p + 1..];
        assert NoBracket(s[p..]) ==> NoBracket(s[p + 1..]);
        match Sub(s, pat, f, p + 1)
        case Text(rest) => Text([s[p]] + rest)
        case failed => failed
  }

  /** An opening tag, a group and the nearest closing tag make one match:
      the whole text becomes the replacement of the group. */
  lemma TaggedSpanReplaced(open: string, g: string, close: string, f: string -> Outcome)
    requires |open| > 0 && f(g).Text?
    requires forall k :: |open| <= k < |open| + |g| ==> !StartsAt(open + g + close, k, close)
    ensures Sub(open + g + close, Tagged(open, close), f, 0) == f(g)
  {
    var s := open + g + close;
    assert StartsAt(s, 0, open);
    assert StartsAt(s, |open| + |g|, close);
    var q := FindFrom(s, close, |open|);
    assert q == Some(|open| + |g|);
    assert s[|open|..|open| + |g|] == g;
    assert f(g).text + [] == f(g).text;
  }


  // ---------------------------------------------------------------------
  // The documented entities and the references to them.

  /** A `<param>` element's attributes; a missing attribute reads as "". */
  datatype ParamElement = ParamElement(name: string, typeName: string, default: string)

  /** A `<method>` element: its attributes, the type of its `<return>`,
      its parameters and its description. */
  datatype MethodElement = MethodElement(name: string, qualifiers: string, returnType: string,
                                         params: seq<ParamElement>, description: string)

  /** A `<member>` element. */
  datatype MemberElement = MemberElement(name: string, typeName: string, setter: string, getter: string,
                                         default: string, description: string)

  /** A prepared method: the backticked signature, its list entry with a
      link to it, and the anchor of the signature. */
  datatype MethodDoc = MethodDoc(name: string, nameFull: string, nameLink: string, anchor: string,
                                 qualifiers: string, returnType: string, description: string)

  /** A prepared member. */
  datatype MemberDoc = MemberDoc(name: string, typeName: string, nameFull: string, nameLink: string,
                                 anchor: string, setter: string, getter: string, default: string,
                                 description: string)

  /** A `<constant>` element; `enum` is "" for a plain constant. */
  datatype ConstantDoc = ConstantDoc(name: string, value: string, enum: string, description: string)

  /** What references are resolved against: the current document's tables
      and the file of every class of the run. */
  datatype Registry = Registry(methods: Dict<MethodDoc>, members: Dict<MemberDoc>,
                               constants: Dict<ConstantDoc>, classes: map<string, string>)

  /** The link of a class that is not part of the run. */
  const ENGINE_CLASS_URL: string := "https://docs.godotengine.org/en/stable/classes/class_"

  /** "`text`". */
  function Code(text: string): string { "`" + text + "`" }

  /** "[`text`](target)". */
  function CodeLink(text: string, target: string): string { "[" + Code(text) + "](" + target + ")" }

  /** `bbcode_replace_member`, whose check asks the method table whether
      the name exists. As written, a member that is not also a method stays
      unlinked, and a method that is not a member raises `KeyError`; as
      evidently intended, the member table is asked. */
  function ReplaceMember(name: string, reg: Registry, asWritten: bool): (r: Outcome)
    ensures r.MissingKey? <==> asWritten && name in reg.methods.values && name !in reg.members.values
    ensures r.MissingKey? ==> r.name == name
    ensures r.Text? && name in reg.members.values && (!asWritten || name in reg.methods.values) ==>
              r.text == CodeLink(name, "#" + NameToAnchor(reg.members.values[name].nameFull))
    ensures r.Text? && name !in (if asWritten then reg.methods.values.Keys else reg.members.values.Keys) ==>
              r.text == Code(name)
  {
    var known := if asWritten then name in reg.methods.values else name in reg.members.values;
    if !known then Text(Code(name))
    else if name !in reg.members.values then MissingKey(name)
    else Text(CodeLink(name, "#" + NameToAnchor(reg.members.values[name].nameFull)))
  }

  /** `bbcode_replace_method`: a known method links to the anchor of its
      signature; an unknown one is shown as code. Either way the text is
      the name followed by "()". */
  function ReplaceMethod(name: string, reg: Registry): (r: string)
    ensures name in reg.methods.values <==> r != Code(name + "()")
    ensures name in reg.methods.values ==>
              r == CodeLink(name + "()", "#" + NameToAnchor(reg.methods.values[name].nameFull))
    ensures name !in reg.methods.values ==> r == Code(name + "()")
  {
    if name !in reg.methods.values then Code(name + "()")
    else CodeLink(name + "()", "#" + NameToAnchor(reg.methods.values[name].nameFull))
  }

  /** `bbcode_replace_constant`: a known constant links to the anchor of
      its bare name. */
  function ReplaceConstant(name: string, reg: Registry): (r: string)
    ensures name in reg.constants.values <==> r != Code(name)
    ensures name in reg.constants.values ==> r == CodeLink(name, "#" + NameToAnchor(name))
    ensures name !in reg.constants.values ==> r == Code(name)
  {
    if name !in reg.constants.values then Code(name) else CodeLink(name, "#" + NameToAnchor(name))
  }

  /** `bbcode_replace_enum`: always a link, to the anchor of "enum name". */
  function ReplaceEnum(name: string): (r: string)
    ensures r == CodeLink(name, "#enum-" + NameToAnchor(name))
  {
    AnchorAppend("enum ", name);
    AnchorIsSlug("enum ");
    assert Slug("enum ") == "enum-" by {
      assert "enum "[1..] == "num " && "num "[1..] == "um " && "um "[1..] == "m " && "m "[1..] == " ";
      assert Slug(" ") == "-" by { assert " "[1..] == []; }
    }
    CodeLink(name, "#" + NameToAnchor("enum " + name))
  }

  /** A constant name made of word characters, such as `WAVEFORM_SQUARE`,
      is linked to itself lower-cased. */
  lemma ConstantLinkIsLowerName(name: string, reg: Registry)
    requires name in reg.constants.values && forall i :: 0 <= i < |name| ==> IsWordChar(name[i])
    ensures ReplaceConstant(name, reg) == CodeLink(name, "#" + Lower(name))
  {
    AnchorIsSlug(name);
    SlugOfWord(name);
  }

  /** On word characters the slug is the lower-cased text. */
  lemma {:induction false} SlugOfWord(s: string)
    requires forall i :: 0 <= i < |s| ==> IsWordChar(s[i])
    ensures Slug(s) == Lower(s)
    decreases |s|
  {
    if |s| > 0 {
      SlugOfWord(s[1..]);
      assert Lower(s) == [LowerChar(s[0])] + Lower(s[1..]);
    }
  }

  /** `bbcode_replace_class`: always a link, to the class's file when it
      is part of the run and to the engine's page for it otherwise. */
  function ReplaceClass(name: string, reg: Registry): (r: string)
    ensures |r| > |name| + 4 && r[..|name| + 4] == "[" + Code(name) + "]"
  {
    if name in reg.classes then CodeLink(name, reg.classes[name])
    else CodeLink(name, ENGINE_CLASS_URL + Lower(name) + ".html")
  }

  // ---------------------------------------------------------------------
  // Rewriting one paragraph line.

  /** The next substitution, unless an earlier one raised. */
  function Then(o: Outcome, pat: Pattern, f: string -> Outcome): (r: Outcome)
    ensures o.MissingKey? ==> r == o
    ensures o.Text? && (forall g :: f(g).Text?) ==> r.Text?
    ensures r.MissingKey? ==> r == o || exists g :: f(g) == r
  {
    if o.MissingKey? then o else Sub(o.text, pat, f, 0)
  }

  /** The substitutions of a paragraph line, in their order: italic, bold,
      inline code, parameters, class names, type names, then member,
      method, constant and enum references. */
  function RewriteLine(line: string, reg: Registry, asWritten: bool): (r: Outcome)
    ensures !asWritten ==> r.Text?
    ensures r.MissingKey? ==> asWritten && r.name in reg.methods.values && r.name !in reg.members.values
  {
    var o := Then(Text(line), Tagged("[i]", "[/i]"), g => Text("*" + g + "*"));
    var o := Then(o, Tagged("[b]", "[/b]"), g => Text("**" + g + "**"));
    var o := Then(o, Tagged("[code]", "[/code]"), g => Text(Code(g)));
    var o := Then(o, Tagged("[param ", "]"), g => Text(Code(g)));
    var o := Then(o, ClassName, g => Text(ReplaceClass(g, reg)));
    var o := Then(o, TypeName, g => Text(Code(g)));
    var o := Then(o, Tagged("[member ", "]"), g => ReplaceMember(g, reg, asWritten));
    var o := Then(o, Tagged("[method ", "]"), g => Text(ReplaceMethod(g, reg)));
    var o := Then(o, Tagged("[constant ", "]"), g => Text(ReplaceConstant(g, reg)));
    Then(o, Tagged("[enum ", "]"), g => Text(ReplaceEnum(g)))
  }

  /** A line without brackets comes through every substitution unchanged. */
  lemma PlainLineUnchanged(line: string, reg: Registry, asWritten: bool)
    requires NoBracket(line)
    ensures RewriteLine(line, reg, asWritten) == Text(line)
  {
    assert line[0..] == line;
  }


  // ---------------------------------------------------------------------
  // `bbcode_to_markdown`.

  /** Between lines the rewriter is in a paragraph, or collecting a code
      block with its language. */
  datatype Mode = Paragraph | InCode(code: string, lang: string)

  /** A line as the loop first trims it: leading tabs and trailing
      whitespace removed, the indentation after the tabs kept. */
  function Trim(raw: string): (r: string)
    ensures NoBracket(raw) ==> NoBracket(r)
    ensures |r| > 0 ==> r[0] != '\t'
  {
    StripRight(StripTabs(raw))
  }

  /** `\[/codeblocks?\]`. */
  predicate ClosesBlock(line: string) {
    Contains(line, "[/codeblock]") || Contains(line, "[/codeblocks]")
  }

  /** A line that a code block collects: no language or closing tag. */
  predicate IsCodeLine(raw: string) {
    var line := Trim(raw);
    !Contains(line, "[gdscript]") && !Contains(line, "[/gdscript]") && !ClosesBlock(line)
  }

  /** A fenced Markdown code block. */
  function Fence(lang: string, code: string): string {
    "```" + lang + "\n" + code + "```"
  }

  /** The loop of `bbcode_to_markdown` over the remaining lines, with the
      lines emitted so far; at the end they are joined with newlines, and a
      code block still open is dropped. */
  function Feed(lines: seq<string>, mode: Mode, out: seq<string>, reg: Registry, asWritten: bool): (r: Outcome)
    ensures !asWritten ==> r.Text?
    ensures r.MissingKey? ==> asWritten && r.name in reg.methods.values && r.name !in reg.members.values
    decreases |lines|
  {
    if |lines| == 0 then Text(Join("\n", out))
    else
      var line := Trim(lines[0]);
      match mode
      case InCode(code, lang) =>
        if Contains(line, "[gdscript]") then Feed(lines[1..], InCode(code, "gdscript"), out, reg, asWritten)
        else if Contains(line, "[/gdscript]") then Feed(lines[1..], mode, out, reg, asWritten)
        else if ClosesBlock(line) then Feed(lines[1..], Paragraph, out + [Fence(lang, code)], reg, asWritten)
        else Feed(lines[1..], InCode(code + line + "\n", lang), out, reg, asWritten)
      case Paragraph =>
        if Contains(line, "[codeblocks]") then Feed(lines[1..], InCode("", "gdscript"), out, reg, asWritten)
        else match Search(CodeblockLang, line, 0)
          case Some((_, m)) => Feed(lines[1..], InCode("", m.group), out, reg, asWritten)
          case None =>
            // The leading tabs the paragraph branch strips again are gone already.
            match RewriteLine(StripTabs(line), reg, asWritten)
            case MissingKey(n) => MissingKey(n)
            case Text(t) => Feed(lines[1..], Paragraph, out + [t + "\n"], reg, asWritten)
  }

  /** `bbcode_to_markdown`: the text stripped, cut into lines and fed to
      the loop. */
  function BbcodeToMarkdown(text: string, reg: Registry, asWritten: bool): (r: Outcome)
    ensures !asWritten ==> r.Text?
    ensures r.MissingKey? ==> asWritten && r.name in reg.methods.values && r.name !in reg.members.values
  {
    Feed(SplitLines(Strip(text)), Paragraph, [], reg, asWritten)
  }

  /** The code a block collects from its lines: each trimmed line and a
      newline. */
  function CodeText(lines: seq<string>): string {
    if |lines| == 0 then [] else Trim(lines[0]) + "\n" + CodeText(lines[1..])
  }

  /** Inside a block, code lines are collected verbatim (once trimmed) and
      nothing is emitted. */
  lemma {:induction false} CodeLinesCollected(body: seq<string>, rest: seq<string>, code: string, lang: string,
                                              out: seq<string>, reg: Registry, asWritten: bool)
    requires forall k :: 0 <= k < |body| ==> IsCodeLine(body[k])
    ensures Feed(body + rest, InCode(code, lang), out, reg, asWritten)
            == Feed(rest, InCode(code + CodeText(body), lang), out, reg, asWritten)
    decreases |body|
  {
    hide Feed, Trim, IsCodeLine;
    if |body| == 0 {
      assert body + rest == rest;
      assert code + CodeText(body) == code;
    } else {
      assert body + rest == [body[0]] + (body[1..] + rest);
      var line := Trim(body[0]);
      CodeLineStep(body[0], body[1..] + rest, code, lang, out, reg, asWritten);
      CodeLinesCollected(body[1..], rest, code + line + "\n", lang, out, reg, asWritten);
      assert code + line + "\n" + CodeText(body[1..]) == code + CodeText(body);
    }
  }

  /** One code line: collected, nothing emitted. */
  lemma CodeLineStep(raw: string, rest: seq<string>, code: string, lang: string,
                     out: seq<string>, reg: Registry, asWritten: bool)
    requires IsCodeLine(raw)
    ensures Feed([raw] + rest, InCode(code, lang), out, reg, asWritten)
            == Feed(rest, InCode(code + Trim(raw) + "\n", lang), out, reg, asWritten)
  {
    assert ([raw] + rest)[1..] == rest;
  }

  /** A block that is never closed is dropped with all it collected. */
  lemma UnclosedBlockDropped(body: seq<string>, code: string, lang: string, out: seq<string>,
                             reg: Registry, asWritten: bool)
    requires forall k :: 0 <= k < |body| ==> IsCodeLine(body[k])
    ensures Feed(body, InCode(code, lang), out, reg, asWritten) == Text(Join("\n", out))
  {
    CodeLinesCollected(body, [], code, lang, out, reg, asWritten);
    assert body + [] == body;
  }

  /** A line that closes the block emits the collected code as one fenced
      block in its language and returns to paragraphs. */
  lemma ClosingLineEmits(line: string, rest: seq<string>, code: string, lang: string, out: seq<string>,
                         reg: Registry, asWritten: bool)
    requires ClosesBlock(Trim(line))
    requires !Contains(Trim(line), "[gdscript]") && !Contains(Trim(line), "[/gdscript]")
    ensures Feed([line] + rest, InCode(code, lang), out, reg, asWritten)
            == Feed(rest, Paragraph, out + [Fence(lang, code)], reg, asWritten)
  {
    assert ([line] + rest)[1..] == rest;
  }

  /** A fixed text starting with a bracket is not contained in text
      without one. */
  lemma NoBracketNoTag(s: string, t: string)
    requires NoBracket(s) && |t| > 0 && t[0] == '['
    ensures !Contains(s, t)
  {
  }

  /** Each line of text without brackets becomes its trimmed self and a
      newline. */
  function PlainLines(lines: seq<string>): (r: seq<string>)
    ensures |r| == |lines|
  {
    if |lines| == 0 then [] else [Trim(lines[0]) + "\n"] + PlainLines(lines[1..])
  }

  /** Lines without brackets come through as they are: trimmed, each
      followed by a newline, joined by newlines. */
  lemma {:induction false} PlainLinesPass(lines: seq<string>, out: seq<string>, reg: Registry, asWritten: bool)
    requires forall k :: 0 <= k < |lines| ==> NoBracket(lines[k])
    ensures Feed(lines, Paragraph, out, reg, asWritten) == Text(Join("\n", out + PlainLines(lines)))
    decreases |lines|
  {
    hide Feed, Join, Trim, NoBracket;
    if |lines| == 0 {
      FeedEnd(Paragraph, out, reg, asWritten);
      assert out + [] == out;
    } else {
      var line := Trim(lines[0]);
      assert lines == [lines[0]] + lines[1..];
      PlainStep(lines[0], lines[1..], out, reg, asWritten);
      PlainLinesPass(lines[1..], out + [line + "\n"], reg, asWritten);
      assert out + [line + "\n"] + PlainLines(lines[1..]) == out + PlainLines(lines);
    }
  }

  /** Once the lines run out, what was emitted is joined with newlines. */
  lemma FeedEnd(mode: Mode, out: seq<string>, reg: Registry, asWritten: bool)
    ensures Feed([], mode, out, reg, asWritten) == Text(Join("\n", out))
  {
  }

  /** One line without brackets in a paragraph: emitted trimmed, with a
      newline. */
  lemma PlainStep(raw: string, rest: seq<string>, out: seq<string>, reg: Registry, asWritten: bool)
    requires NoBracket(raw)
    ensures Feed([raw] + rest, Paragraph, out, reg, asWritten)
            == Feed(rest, Paragraph, out + [Trim(raw) + "\n"], reg, asWritten)
  {
    hide RewriteLine, Contains, Trim, Search, StripTabs, NoBracket;
    var line := Trim(raw);
    NoBracketNoTag(line, "[codeblocks]");
    NoBracketNoOpener(line);
    TrimmedKeepsNoTabs(raw);
    PlainLineUnchanged(line, reg, asWritten);
    assert ([raw] + rest)[1..] == rest;
  }

  /** Text without brackets holds no language opener. */
  lemma NoBracketNoOpener(line: string)
    requires NoBracket(line)
    ensures Search(CodeblockLang, line, 0).None?
  {
    hide Search, MatchAt;
  }

  /** A trimmed line has no leading tab left to strip. */
  lemma TrimmedKeepsNoTabs(raw: string)
    ensures StripTabs(Trim(raw)) == Trim(raw)
    ensures NoBracket(raw) ==> NoBracket(Trim(raw))
  {
  }


  /** "[codeblock lang=x]". */
  function LangOpener(x: string): string {
    "[codeblock lang=" + x + "]"
  }

  predicate IsWord(x: string) {
    |x| > 0 && forall i :: 0 <= i < |x| ==> IsWordChar(x[i])
  }

  /** Where the parts of an opener sit. */
  lemma OpenerLayout(x: string)
    ensures var line := LangOpener(x);
            |line| == 17 + |x| && line[..10] == "[codeblock" && line[10] == ' ' && line[11..16] == "lang="
            && line[16..16 + |x|] == x && line[16 + |x|] == ']'
            && (forall q :: 0 < q < 16 ==> line[q] != '[')
  {
    var line := LangOpener(x);
    var head := "[codeblock lang=";
    assert line[..16] == head;
    assert line[..10] == head[..10];
    assert line[11..16] == head[11..16];
    assert forall q :: 0 < q < 16 ==> line[q] == head[q];
  }

  /** The opener matches the language pattern at its start, with the
      language as the group. */
  lemma OpenerMatch(x: string)
    requires IsWord(x)
    ensures MatchAt(CodeblockLang, LangOpener(x), 0) == Some(Match(|LangOpener(x)|, x))
  {
    var line := LangOpener(x);
    OpenerLayout(x);
    assert StartsAt(line, 0, "[codeblock");
    assert SpaceRun(line, 11) == 0;
    assert SpaceRun(line, 10) == 1;
    assert StartsAt(line, 11, "lang=");
    assert WordRun(line, 16) == |x|;
  }

  /** "[codeblocks]" starts nowhere in an opener naming a language. */
  lemma OpenerNotBlocksAt(x: string, q: nat)
    requires IsWord(x)
    ensures !StartsAt(LangOpener(x), q, "[codeblocks]")
  {
    var line := LangOpener(x);
    var t := "[codeblocks]";
    OpenerLayout(x);
    if q + 12 <= |line| {
      assert StartsAt(line, q, t) ==> line[q] == t[0] && line[q + 10] == t[10] by {
        if StartsAt(line, q, t) {
          assert line[q..q + 12][0] == line[q] && line[q..q + 12][10] == line[q + 10];
        }
      }
      if q == 0 {
        assert line[q + 10] != t[10];
      } else if q < 16 {
        assert line[q] != t[0];
      } else {
        assert line[q] == line[16..16 + |x|][q - 16] == x[q - 16];
        assert line[q] != t[0];
      }
    }
  }

  /** An opener naming a language is found at its start, with the language
      as its group, and is not mistaken for "[codeblocks]". */
  lemma LangOpenerMatches(x: string)
    requires IsWord(x)
    ensures Trim(LangOpener(x)) == LangOpener(x)
    ensures !Contains(LangOpener(x), "[codeblocks]")
    ensures Search(CodeblockLang, LangOpener(x), 0) == Some((0, Match(|LangOpener(x)|, x)))
  {
    var line := LangOpener(x);
    OpenerLayout(x);
    OpenerMatch(x);
    hide LangOpener, MatchAt;
    forall q: nat ensures !StartsAt(line, q, "[codeblocks]") {
      OpenerNotBlocksAt(x, q);
    }
  }

  /** "[codeblocks]" opens a block in the default language. */
  lemma BlocksOpenerStarts(line: string, rest: seq<string>, out: seq<string>, reg: Registry, asWritten: bool)
    requires Contains(Trim(line), "[codeblocks]")
    ensures Feed([line] + rest, Paragraph, out, reg, asWritten)
            == Feed(rest, InCode("", "gdscript"), out, reg, asWritten)
  {
    assert ([line] + rest)[1..] == rest;
  }

  /** A block opened with a language, its code lines and a closing line
      become one fenced block of that language holding the trimmed code
      lines. */
  lemma FencedBlock(x: string, body: seq<string>, closer: string, rest: seq<string>, out: seq<string>,
                    reg: Registry, asWritten: bool)
    requires IsWord(x)
    requires forall k :: 0 <= k < |body| ==> IsCodeLine(body[k])
    requires ClosesBlock(Trim(closer))
    requires !Contains(Trim(closer), "[gdscript]") && !Contains(Trim(closer), "[/gdscript]")
    ensures Feed([LangOpener(x)] + body + [closer] + rest, Paragraph, out, reg, asWritten)
            == Feed(rest, Paragraph, out + [Fence(x, CodeText(body))], reg, asWritten)
  {
    hide Trim, Contains, Search, LangOpener, RewriteLine;
    LangOpenerMatches(x);
    var lines := [LangOpener(x)] + body + [closer] + rest;
    assert lines[0] == LangOpener(x) && lines[1..] == body + ([closer] + rest);
    assert Feed(lines, Paragraph, out, reg, asWritten)
           == Feed(body + ([closer] + rest), InCode("", x), out, reg, asWritten);
    CodeLinesCollected(body, [closer] + rest, "", x, out, reg, asWritten);
    assert "" + CodeText(body) == CodeText(body);
    ClosingLineEmits(closer, rest, CodeText(body), x, out, reg, asWritten);
  }


  /** Text without brackets comes out as its trimmed lines, each followed
      by a newline, joined by newlines. */
  lemma PlainTextPasses(text: string, reg: Registry, asWritten: bool)
    requires NoBracket(text)
    ensures BbcodeToMarkdown(text, reg, asWritten) == Text(Join("\n", PlainLines(SplitLines(Strip(text)))))
  {
    PlainLinesPass(SplitLines(Strip(text)), [], reg, asWritten);
    assert [] + PlainLines(SplitLines(Strip(text))) == PlainLines(SplitLines(Strip(text)));
  }


  // ---------------------------------------------------------------------
  // Signatures and the tables of a document.

  /** `prepare_method_param`'s full name: "name: type", and " = default"
      only when the default is not empty. */
  function ParamFull(p: ParamElement): (r: string)
  {
    p.name + ": " + p.typeName + (if p.default != "" then " = " + p.default else "")
  }

  /** Reading a parameter back from its full name: the name ends at the
      first ": ", the type at the first " = " after it. */
  function ParseParam(s: string): (r: Option<ParamElement>)
  {
    match FindFrom(s, ": ", 0)
    case None => None
    case Some(i) =>
      var rest := s[i + 2..];
      match FindFrom(rest, " = ", 0)
      case None => Some(ParamElement(s[..i], rest, ""))
      case Some(j) => Some(ParamElement(s[..i], rest[..j], rest[j + 3..]))
  }

  /** The first `t` from `from` is at `q` when it is there and nowhere
      between. */
  lemma FindFromAt(s: string, t: string, from: nat, q: nat)
    requires from <= q && StartsAt(s, q, t)
    requires forall k :: from <= k < q ==> !StartsAt(s, k, t)
    ensures FindFrom(s, t, from) == Some(q)
  {
  }

  predicate Lacks(s: string, c: char) {
    forall i :: 0 <= i < |s| ==> s[i] != c
  }

  /** The first ": " after a name without colons is right after it. */
  lemma NameEndsAtColon(name: string, rest: string)
    requires Lacks(name, ':')
    ensures FindFrom(name + ": " + rest, ": ", 0) == Some(|name|)
  {
    var s := name + ": " + rest;
    assert s[|name|..|name| + 2] == ": ";
    forall k | 0 <= k < |name| ensures !StartsAt(s, k, ": ") {
      assert s[k] == name[k];
    }
    FindFromAt(s, ": ", 0, |name|);
  }

  /** A type without an equals sign holds no " = ", and the first one
      after it is right after it. */
  lemma TypeEndsAtEquals(t: string, d: string)
    requires Lacks(t, '=')
    ensures FindFrom(t, " = ", 0).None?
    ensures FindFrom(t + " = " + d, " = ", 0) == Some(|t|)
  {
    var s := t + " = " + d;
    forall k: nat ensures !StartsAt(t, k, " = ") {
      if k + 3 <= |t| {
        assert t[k + 1] != '=';
      }
    }
    assert s[|t|..|t| + 3] == " = ";
    forall k | 0 <= k < |t| ensures !StartsAt(s, k, " = ") {
      if k + 1 < |t| {
        assert s[k + 1] == t[k + 1];
      } else {
        assert s[k + 1] == ' ';
      }
    }
    FindFromAt(s, " = ", 0, |t|);
  }

  /** A parameter whose name has no colon and whose type has no equals
      sign is read back from its full name, default included; an empty
      default reads back as empty. */
  lemma ParamRoundTrip(p: ParamElement)
    requires Lacks(p.name, ':') && Lacks(p.typeName, '=')
    ensures ParseParam(ParamFull(p)) == Some(p)
  {
    hide FindFrom, StartsAt, Lacks;
    var tail := if p.default != "" then " = " + p.default else "";
    var rest := p.typeName + tail;
    var s := ParamFull(p);
    assert s == p.name + ": " + rest;
    NameEndsAtColon(p.name, rest);
    TypeEndsAtEquals(p.typeName, p.default);
    var n := |p.name|;
    assert s[n + 2..] == rest && s[..n] == p.name;
    if p.default != "" {
      assert rest == p.typeName + " = " + p.default;
      assert rest[..|p.typeName|] == p.typeName && rest[|p.typeName| + 3..] == p.default;
    } else {
      assert rest == p.typeName;
    }
  }

  /** " qualifiers" when there are any. */
  function QualifierSuffix(qualifiers: string): string {
    if qualifiers != "" then " " + qualifiers else ""
  }

  /** The parameters' full names, comma separated. */
  function Args(params: seq<ParamElement>): string {
    Join(", ", seq(|params|, i requires 0 <= i < |params| => ParamFull(params[i])))
  }

  /** `prepare_methods` for one element: the backticked signature
      "`type name(args) qualifiers`", its anchor, and the list entry that
      links the name to that anchor. */
  function PrepareMethod(e: MethodElement): (m: MethodDoc)
    ensures m.name == e.name && m.returnType == e.returnType && m.description == e.description
    ensures m.anchor == NameToAnchor(m.nameFull)
  {
    var q := QualifierSuffix(e.qualifiers);
    var args := Args(e.params);
    var nameFull := "`" + e.returnType + " " + e.name + "(" + args + ")" + q + "`";
    var anchor := NameToAnchor(nameFull);
    var nameLink := "*" + e.returnType + "* [**`" + e.name + "`**](#" + anchor + ")(" + args + ")" + q;
    MethodDoc(e.name, nameFull, nameLink, anchor, q, e.returnType, e.description)
  }

  /** The anchor of a signature: the return type, a hyphen, the name, the
      arguments and the qualifiers after a hyphen, each slugged, with the
      backticks and parentheses gone. */
  lemma SignatureAnchor(e: MethodElement)
    ensures PrepareMethod(e).anchor
            == NameToAnchor(e.returnType) + "-" + NameToAnchor(e.name) + NameToAnchor(Args(e.params))
               + (if e.qualifiers != "" then "-" + NameToAnchor(e.qualifiers) else "")
  {
    var q := QualifierSuffix(e.qualifiers);
    var args := Args(e.params);
    SignatureSlugs(e.returnType, e.name, args, q);
    hide NameToAnchor;
    if e.qualifiers != "" {
      AnchorOfCharacter(' ');
      AnchorAppend(" ", e.qualifiers);
    } else {
      AnchorOfCharacter(' ');
      AnchorAppend(" ", "");
      assert NameToAnchor("") == [] by { AnchorAppend("", ""); }
    }
  }

  /** Backticks and parentheses vanish from an anchor; a space is a
      hyphen. */
  lemma PunctuationSlugs()
    ensures NameToAnchor("`") == [] && NameToAnchor(" ") == "-"
    ensures NameToAnchor("(") == [] && NameToAnchor(")") == []
  {
    AnchorOfCharacter('`');
    AnchorOfCharacter(' ');
    AnchorOfCharacter('(');
    AnchorOfCharacter(')');
  }

  /** The anchor of "`rt name(args)q`" is the slugs of the pieces, the
      space slugged to a hyphen and the punctuation dropped. */
  lemma SignatureSlugs(rt: string, name: string, args: string, q: string)
    ensures NameToAnchor("`" + rt + " " + name + "(" + args + ")" + q + "`")
            == NameToAnchor(rt) + "-" + NameToAnchor(name) + NameToAnchor(args) + NameToAnchor(q)
  {
    hide NameToAnchor;
    PunctuationSlugs();
    var s1 := "`" + rt;
    var s2 := s1 + " ";
    var s3 := s2 + name;
    var s4 := s3 + "(";
    var s5 := s4 + args;
    var s6 := s5 + ")";
    var s7 := s6 + q;
    var s8 := s7 + "`";
    AnchorAppend("`", rt);
    AnchorAppend(s1, " ");
    AnchorAppend(s2, name);
    AnchorAppend(s3, "(");
    AnchorAppend(s4, args);
    AnchorAppend(s5, ")");
    AnchorAppend(s6, q);
    AnchorAppend(s7, "`");
    assert s8 == "`" + rt + " " + name + "(" + args + ")" + q + "`";
  }

  /** The names of method elements, in document order. */
  function MethodNames(es: seq<MethodElement>): (ns: seq<string>)
    ensures |ns| == |es|
  {
    seq(|es|, i requires 0 <= i < |es| => es[i].name)
  }

  /** `prepare_methods`: the methods keyed by name. */
  function PrepareMethods(es: seq<MethodElement>): (d: Dict<MethodDoc>)
    ensures d.Valid()
  {
    Collect(MethodNames(es), seq(|es|, i requires 0 <= i < |es| => PrepareMethod(es[i])))
  }

  /** Overloads share one entry: it stays where the name first appeared
      and holds the method that came last. */
  lemma MethodsFirstPlaceLastWins(es: seq<MethodElement>)
    ensures PrepareMethods(es).keys == FirstSeen(MethodNames(es))
    ensures forall j :: 0 <= j < |es| && IsLast(MethodNames(es), j) ==>
              PrepareMethods(es).values[es[j].name] == PrepareMethod(es[j])
  {
    CollectKeepsFirstPlaceLastValue(MethodNames(es), seq(|es|, i requires 0 <= i < |es| => PrepareMethod(es[i])));
  }

  /** `prepare_members` for one element. */
  function PrepareMember(e: MemberElement): (m: MemberDoc)
    ensures m.name == e.name && m.default == e.default && m.description == e.description
    ensures m.anchor == NameToAnchor(m.nameFull)
  {
    var nameFull := "`" + e.typeName + " " + e.name + "`";
    var anchor := NameToAnchor(nameFull);
    var nameLink := "*" + e.typeName + "* [**`" + e.name + "`**](#" + anchor + ")";
    MemberDoc(e.name, e.typeName, nameFull, nameLink, anchor, e.setter, e.getter, e.default, e.description)
  }

  /** `prepare_members`: the members keyed by name. */
  function PrepareMembers(es: seq<MemberElement>): (d: Dict<MemberDoc>)
    ensures d.Valid()
  {
    Collect(seq(|es|, i requires 0 <= i < |es| => es[i].name),
            seq(|es|, i requires 0 <= i < |es| => PrepareMember(es[i])))
  }

  /** `prepare_constants`: the constants keyed by name. */
  function PrepareConstants(cs: seq<ConstantDoc>): (d: Dict<ConstantDoc>)
    ensures d.Valid()
  {
    Collect(seq(|cs|, i requires 0 <= i < |cs| => cs[i].name), cs)
  }

  /** Every entry of the document's tables was prepared from an element,
      so its anchor is the anchor of its signature. */
  ghost predicate Prepared(reg: Registry) {
    && (forall n :: n in reg.methods.values ==> reg.methods.values[n].anchor == NameToAnchor(reg.methods.values[n].nameFull))
    && (forall n :: n in reg.members.values ==> reg.members.values[n].anchor == NameToAnchor(reg.members.values[n].nameFull))
  }

  /** Tables built by `prepare_methods` and `prepare_members` are prepared. */
  lemma PreparedTables(ms: seq<MethodElement>, ps: seq<MemberElement>, cs: seq<ConstantDoc>, classes: map<string, string>)
    ensures Prepared(Registry(PrepareMethods(ms), PrepareMembers(ps), PrepareConstants(cs), classes))
  {
    MethodsPrepared(ms);
    MembersPrepared(ps);
  }

  /** Every method entry holds the anchor of its signature. */
  lemma MethodsPrepared(ms: seq<MethodElement>)
    ensures forall n :: n in PrepareMethods(ms).values ==>
              PrepareMethods(ms).values[n].anchor == NameToAnchor(PrepareMethods(ms).values[n].nameFull)
  {
    var vs := seq(|ms|, i requires 0 <= i < |ms| => PrepareMethod(ms[i]));
    CollectValues(MethodNames(ms), vs);
    hide PrepareMethod, NameToAnchor, Collect;
    forall n | n in PrepareMethods(ms).values
      ensures PrepareMethods(ms).values[n].anchor == NameToAnchor(PrepareMethods(ms).values[n].nameFull)
    {
      var i :| 0 <= i < |vs| && vs[i] == PrepareMethods(ms).values[n];
    }
  }

  /** Every member entry holds the anchor of its signature. */
  lemma MembersPrepared(ps: seq<MemberElement>)
    ensures forall n :: n in PrepareMembers(ps).values ==>
              PrepareMembers(ps).values[n].anchor == NameToAnchor(PrepareMembers(ps).values[n].nameFull)
  {
    var ns := seq(|ps|, i requires 0 <= i < |ps| => ps[i].name);
    var ws := seq(|ps|, i requires 0 <= i < |ps| => PrepareMember(ps[i]));
    CollectValues(ns, ws);
    hide PrepareMember, NameToAnchor, Collect;
    forall n | n in PrepareMembers(ps).values
      ensures PrepareMembers(ps).values[n].anchor == NameToAnchor(PrepareMembers(ps).values[n].nameFull)
    {
      var i :| 0 <= i < |ws| && ws[i] == PrepareMembers(ps).values[n];
    }
  }

  /** Every value of a collected dict is one of the values given. */
  lemma {:induction false} CollectValues<V>(ks: seq<string>, vs: seq<V>)
    requires |ks| == |vs|
    ensures forall k :: k in Collect(ks, vs).values ==> Collect(ks, vs).values[k] in vs
  {
    if |ks| > 0 {
      var n := |ks| - 1;
      CollectValues(ks[..n], vs[..n]);
      var d := Collect(ks[..n], vs[..n]);
      assert Collect(ks, vs).values == d.values[ks[n] := vs[n]];
      hide Collect;
      assert forall v :: v in vs[..n] ==> v in vs;
      assert vs[n] in vs;
    }
  }

  /** References and list entries agree: with prepared tables, a member
      or method reference links to the anchor stored with the entry, the
      one its list entry links to. */
  lemma ReferencesTargetEntries(name: string, reg: Registry)
    requires Prepared(reg)
    ensures name in reg.methods.values ==>
              ReplaceMethod(name, reg) == CodeLink(name + "()", "#" + reg.methods.values[name].anchor)
    ensures name in reg.members.values ==>
              ReplaceMember(name, reg, false) == Text(CodeLink(name, "#" + reg.members.values[name].anchor))
  {
  }


  /** As written, the member check asks the method table: a member that is
      not also a method stays unlinked, and a method that is not a member
      ends the run with `KeyError`. */
  lemma MemberReferenceAsWritten(name: string, reg: Registry)
    ensures name in reg.members.values && name !in reg.methods.values ==>
              ReplaceMember(name, reg, true) == Text(Code(name))
    ensures name in reg.methods.values && name !in reg.members.values ==>
              ReplaceMember(name, reg, true) == MissingKey(name)
  {
  }

  /** Asking the member table instead, a reference never raises, and it
      links exactly when the member is documented. */
  lemma MemberReferenceCorrected(name: string, reg: Registry)
    ensures ReplaceMember(name, reg, false).Text?
    ensures name in reg.members.values <==> ReplaceMember(name, reg, false).text != Code(name)
  {
    if name in reg.members.values {
      var r := ReplaceMember(name, reg, false).text;
      assert r[0] == '[' && Code(name)[0] == '`';
    }
  }

  /** An enum reference links to the anchor of its heading "enum `name`":
      the backticks vanish from the slug. */
  lemma EnumReferenceMatchesHeading(name: string)
    ensures NameToAnchor("enum " + name) == NameToAnchor("enum `" + name + "`")
  {
    AnchorOfCharacter('`');
    AnchorAppend("enum ", name);
    AnchorAppend("enum `", name);
    AnchorAppend("enum ", "`");
    AnchorAppend("enum `" + name, "`");
    assert "enum `" == "enum " + "`";
  }

  /** A class name: an upper-case letter, then word characters. */
  predicate IsClassName(name: string) {
    |name| >= 2 && IsUpper(name[0]) && forall i :: 1 <= i < |name| ==> IsWordChar(name[i])
  }

  /** "[Name]" for a class name is one match whose group is the name. */
  lemma ClassTagMatched(name: string, f: string -> Outcome)
    requires IsClassName(name) && f(name).Text?
    ensures Sub("[" + name + "]", ClassName, f, 0) == f(name)
  {
    var s := "[" + name + "]";
    assert s[1..1 + |name|] == name;
    var n := WordRun(s, 2);
    assert forall k :: 2 <= k < 1 + |name| ==> s[k] == name[k - 1];
    assert s[1 + |name|] == ']' && !IsWordChar(']');
    assert n == |name| - 1;
    assert MatchAt(ClassName, s, 0) == Some(Match(|s|, name));
    assert f(name).text + [] == f(name).text;
  }

  // ---------------------------------------------------------------------
  // Constant groups and the sections they go to.

  /** The constants of one enum (or, for "", the plain constants), in
      document order. A group's values are a dict keyed by constant name;
      the names are distinct already, so a sequence keeps the same order. */
  datatype Group = Group(name: string, values: seq<ConstantDoc>)

  /** The enums of the constants, in order. */
  function Enums(cs: seq<ConstantDoc>): (es: seq<string>)
    ensures |es| == |cs|
  {
    seq(|cs|, i requires 0 <= i < |cs| => cs[i].enum)
  }

  /** The constants of enum `e`, in order: the reference definition of a
      group. */
  function ByEnum(cs: seq<ConstantDoc>, e: string): (r: seq<ConstantDoc>)
    ensures |r| <= |cs|
  {
    if |cs| == 0 then []
    else ByEnum(cs[..|cs| - 1], e) + (if cs[|cs| - 1].enum == e then [cs[|cs| - 1]] else [])
  }

  /** The group of the given name, if there is one. */
  function GroupIndex(gs: seq<Group>, name: string): (i: int)
    ensures -1 <= i < |gs|
    ensures i >= 0 ==> gs[i].name == name
    ensures i == -1 ==> forall k :: 0 <= k < |gs| ==> gs[k].name != name
  {
    if |gs| == 0 then -1
    else if gs[|gs| - 1].name == name then |gs| - 1
    else GroupIndex(gs[..|gs| - 1], name)
  }

  /** Groups as `prepare_constant_groups` keeps them: each under its own
      name, none empty, each holding only constants of its enum. */
  predicate Grouped(gs: seq<Group>) {
    (forall i, j :: 0 <= i < j < |gs| ==> gs[i].name != gs[j].name)
    && forall i :: 0 <= i < |gs| ==>
         |gs[i].values| > 0 && forall k :: 0 <= k < |gs[i].values| ==> gs[i].values[k].enum == gs[i].name
  }

  /** One pass of the loop of `prepare_constant_groups`: a new group for a
      new enum, else the constant joins its enum's group. */
  function AddToGroups(gs: seq<Group>, c: ConstantDoc): (r: seq<Group>)
    ensures Grouped(gs) ==> Grouped(r)
    ensures |gs| <= |r| <= |gs| + 1
  {
    var i := GroupIndex(gs, c.enum);
    if i == -1 then gs + [Group(c.enum, [c])]
    else gs[i := Group(c.enum, gs[i].values + [c])]
  }

  /** `prepare_constant_groups`. */
  function GroupConstants(cs: seq<ConstantDoc>): (gs: seq<Group>)
    ensures Grouped(gs) && |gs| <= |cs|
    ensures |cs| > 0 ==> |gs| > 0
  {
    if |cs| == 0 then [] else AddToGroups(GroupConstants(cs[..|cs| - 1]), cs[|cs| - 1])
  }

  /** The groups the reference definition gives for the given names. */
  function GroupsOf(names: seq<string>, cs: seq<ConstantDoc>): (gs: seq<Group>)
    ensures |gs| == |names|
  {
    seq(|names|, i requires 0 <= i < |names| => Group(names[i], ByEnum(cs, names[i])))
  }

  /** Grouping yields one group per enum, in the order the enums first
      appear, each holding exactly that enum's constants in document
      order. */
  lemma {:induction false} GroupsByEnum(cs: seq<ConstantDoc>)
    ensures GroupConstants(cs) == GroupsOf(FirstSeen(Enums(cs)), cs)
  {
    if |cs| > 0 {
      var n := |cs| - 1;
      var c := cs[n];
      var p := cs[..n];
      assert cs == p + [c];
      GroupsByEnum(p);
      var gs := GroupConstants(p);
      var names := FirstSeen(Enums(p));
      assert Enums(cs)[..n] == Enums(p);
      var i := GroupIndex(gs, c.enum);
      if i == -1 {
        assert forall k :: 0 <= k < |names| ==> names[k] == gs[k].name;
        assert c.enum !in names;
        ByEnumAbsent(p, c.enum);
        GroupsAfterNew(names, p, c);
      } else {
        GroupsAfterJoin(names, p, c, i);
      }
    }
  }

  /** An enum no constant has groups nothing. */
  lemma {:induction false} ByEnumAbsent(cs: seq<ConstantDoc>, e: string)
    requires e !in Enums(cs)
    ensures ByEnum(cs, e) == []
  {
    if |cs| > 0 {
      var n := |cs| - 1;
      assert Enums(cs[..n]) == Enums(cs)[..n];
      assert Enums(cs)[n] == cs[n].enum;
      ByEnumAbsent(cs[..n], e);
    }
  }

  /** A constant appended to the document joins the end of its enum's
      list. */
  lemma ByEnumSnoc(p: seq<ConstantDoc>, c: ConstantDoc, e: string)
    ensures ByEnum(p + [c], e) == ByEnum(p, e) + (if c.enum == e then [c] else [])
  {
    assert (p + [c])[..|p|] == p;
  }

  /** A constant of a new enum opens a group at the end. */
  lemma GroupsAfterNew(names: seq<string>, p: seq<ConstantDoc>, c: ConstantDoc)
    requires c.enum !in names && ByEnum(p, c.enum) == []
    ensures GroupsOf(names, p) + [Group(c.enum, [c])] == GroupsOf(names + [c.enum], p + [c])
  {
    var l := GroupsOf(names, p) + [Group(c.enum, [c])];
    var r := GroupsOf(names + [c.enum], p + [c]);
    forall k | 0 <= k < |l| ensures l[k] == r[k] {
      if k < |names| {
        assert names[k] in names;
        ByEnumSnoc(p, c, names[k]);
      } else {
        ByEnumSnoc(p, c, c.enum);
      }
    }
  }

  /** A constant of a known enum joins that enum's group, and no other. */
  lemma GroupsAfterJoin(names: seq<string>, p: seq<ConstantDoc>, c: ConstantDoc, i: int)
    requires 0 <= i < |names| && names[i] == c.enum
    requires forall a, b :: 0 <= a < b < |names| ==> names[a] != names[b]
    ensures GroupsOf(names, p)[i := Group(c.enum, GroupsOf(names, p)[i].values + [c])]
            == GroupsOf(names, p + [c])
  {
    ByEnumSnoc(p, c, c.enum);
    forall k | 0 <= k < |names| && k != i ensures ByEnum(p + [c], names[k]) == ByEnum(p, names[k]) {
      ByEnumSnoc(p, c, names[k]);
    }
  }

  /** The groups of enums, or the plain group, in order. */
  function Where(gs: seq<Group>, plain: bool): (r: seq<Group>)
    ensures |r| <= |gs|
  {
    if |gs| == 0 then []
    else (if (gs[0].name == "") == plain then [gs[0]] else []) + Where(gs[1..], plain)
  }

  /** The names that are not empty, in order. */
  function NonEmpty(names: seq<string>): (r: seq<string>)
  {
    if |names| == 0 then []
    else (if names[0] != "" then [names[0]] else []) + NonEmpty(names[1..])
  }

  /** Filtering the groups of enums keeps the groups of the non-empty
      names. */
  lemma {:induction false} EnumGroupsOf(names: seq<string>, cs: seq<ConstantDoc>)
    ensures Where(GroupsOf(names, cs), false) == GroupsOf(NonEmpty(names), cs)
  {
    if |names| > 0 {
      EnumGroupsOf(names[1..], cs);
      assert GroupsOf(names, cs)[1..] == GroupsOf(names[1..], cs);
    }
  }

  /** Among distinct names, filtering the plain group finds it once, if
      "" is among them. */
  lemma {:induction false} PlainGroupOf(names: seq<string>, cs: seq<ConstantDoc>)
    requires forall i, j :: 0 <= i < j < |names| ==> names[i] != names[j]
    ensures Where(GroupsOf(names, cs), true) == if "" in names then [Group("", ByEnum(cs, ""))] else []
  {
    if |names| > 0 {
      PlainGroupOf(names[1..], cs);
      assert GroupsOf(names, cs)[1..] == GroupsOf(names[1..], cs);
      assert forall k :: k in names <==> k == names[0] || k in names[1..];
      if names[0] == "" {
        assert "" !in names[1..];
      }
    }
  }

  /** The section partition: "Enumerations" lists one group per non-empty
      enum, in first-seen order, and "Constants" the single group of plain
      constants when there are any. Every constant is in exactly one of
      them, by whether its enum is empty. */
  lemma ConstantSections(cs: seq<ConstantDoc>)
    ensures Where(GroupConstants(cs), false) == GroupsOf(NonEmpty(FirstSeen(Enums(cs))), cs)
    ensures Where(GroupConstants(cs), true)
            == if "" in Enums(cs) then [Group("", ByEnum(cs, ""))] else []
  {
    GroupsByEnum(cs);
    EnumGroupsOf(FirstSeen(Enums(cs)), cs);
    PlainGroupOf(FirstSeen(Enums(cs)), cs);
  }

  /** The sections of a class page, in the order they appear. */
  datatype Section =
    | Description | OnlineTutorials | Properties | Methods | Enumerations | Constants
    | PropertyDescriptions | MethodDescriptions

  /** The sections `make_markdown` writes: the description always, every
      other section only when what it lists is not empty. The constant
      groups are formed from the constants table, so a name given twice
      counts once, with its last constant. */
  function Sections(tutorials: nat, members: Dict<MemberDoc>, methods: Dict<MethodDoc>,
                    constants: Dict<ConstantDoc>): (r: seq<Section>)
    requires constants.Valid()
    ensures |r| > 0 && r[0] == Description
  {
    var gs := GroupConstants(ValuesInOrder(constants));
    [Description]
    + (if tutorials > 0 then [OnlineTutorials] else [])
    + (if |members.keys| > 0 then [Properties] else [])
    + (if |methods.keys| > 0 then [Methods] else [])
    + (if |gs| > 0 && |Where(gs, false)| > 0 then [Enumerations] else [])
    + (if |gs| > 0 && |Where(gs, true)| > 0 then [Constants] else [])
    + (if |members.keys| > 0 then [PropertyDescriptions] else [])
    + (if |methods.keys| > 0 then [MethodDescriptions] else [])
  }

  /** The other sections follow what they list: the tutorials section
      exactly when there are tutorials, the two property sections exactly
      when there are members, the two method sections exactly when there
      are methods. */
  lemma SectionsListed(tutorials: nat, members: Dict<MemberDoc>, methods: Dict<MethodDoc>,
                       constants: Dict<ConstantDoc>)
    requires constants.Valid()
    ensures var r := Sections(tutorials, members, methods, constants);
            (OnlineTutorials in r <==> tutorials > 0)
            && (Properties in r <==> |members.keys| > 0)
            && (PropertyDescriptions in r <==> |members.keys| > 0)
            && (Methods in r <==> |methods.keys| > 0)
            && (MethodDescriptions in r <==> |methods.keys| > 0)
  {
    hide GroupConstants, Where;
  }

  /** "Enumerations" appears exactly when some constant of the table has an
      enum, and "Constants" exactly when some constant of the table has
      none. */
  lemma SectionsOfConstants(tutorials: nat, members: Dict<MemberDoc>, methods: Dict<MethodDoc>,
                            constants: Dict<ConstantDoc>)
    requires constants.Valid()
    ensures Enumerations in Sections(tutorials, members, methods, constants)
            <==> exists n :: n in constants.values && constants.values[n].enum != ""
    ensures Constants in Sections(tutorials, members, methods, constants)
            <==> exists n :: n in constants.values && constants.values[n].enum == ""
  {
    hide Sections, GroupConstants, Where;
    var cs := ValuesInOrder(constants);
    SectionPresence(tutorials, members, methods, constants);
    ConstantSections(cs);
    var names := FirstSeen(Enums(cs));
    NonEmptyIff(names);
    assert (exists k :: k in names && k != "") <==> exists i :: 0 <= i < |cs| && cs[i].enum != "" by {
      if i :| 0 <= i < |cs| && cs[i].enum != "" {
        assert Enums(cs)[i] in names;
      }
    }
    assert "" in Enums(cs) <==> exists i :: 0 <= i < |cs| && cs[i].enum == "" by {
      if i :| 0 <= i < |cs| && cs[i].enum == "" {
        assert Enums(cs)[i] == "";
      }
    }
    TableValues(constants);
  }

  /** Some constant the table lists in order has an enum (or none)
      exactly when some value of the table has one. */
  lemma TableValues(constants: Dict<ConstantDoc>)
    requires constants.Valid()
    ensures var cs := ValuesInOrder(constants);
            (exists i :: 0 <= i < |cs| && cs[i].enum != "")
            <==> exists n :: n in constants.values && constants.values[n].enum != ""
    ensures var cs := ValuesInOrder(constants);
            (exists i :: 0 <= i < |cs| && cs[i].enum == "")
            <==> exists n :: n in constants.values && constants.values[n].enum == ""
  {
    var cs := ValuesInOrder(constants);
    forall i | 0 <= i < |cs| ensures constants.keys[i] in constants.values && cs[i] == constants.values[constants.keys[i]] {
    }
    if n :| n in constants.values && constants.values[n].enum != "" {
      var i :| 0 <= i < |constants.keys| && constants.keys[i] == n;
      assert cs[i].enum != "";
    }
    if n :| n in constants.values && constants.values[n].enum == "" {
      var i :| 0 <= i < |constants.keys| && constants.keys[i] == n;
      assert cs[i].enum == "";
    }
  }

  /** A constants section is written exactly when its groups are not
      empty. */
  lemma SectionPresence(tutorials: nat, members: Dict<MemberDoc>, methods: Dict<MethodDoc>,
                        constants: Dict<ConstantDoc>)
    requires constants.Valid()
    ensures Enumerations in Sections(tutorials, members, methods, constants)
            <==> |Where(GroupConstants(ValuesInOrder(constants)), false)| > 0
    ensures Constants in Sections(tutorials, members, methods, constants)
            <==> |Where(GroupConstants(ValuesInOrder(constants)), true)| > 0
  {
    hide GroupConstants, Where;
  }

  /** Some name survives the filter exactly when some name is not empty. */
  lemma {:induction false} NonEmptyIff(names: seq<string>)
    ensures |NonEmpty(names)| > 0 <==> exists k :: k in names && k != ""
  {
    if |names| > 0 {
      NonEmptyIff(names[1..]);
      assert NonEmpty(names) == (if names[0] != "" then [names[0]] else []) + NonEmpty(names[1..]);
      if names[0] != "" {
        assert names[0] in names;
      } else {
        assert forall k :: k in names && k != "" ==> k in names[1..];
        assert forall k :: k in names[1..] ==> k in names;
      }
    }
  }

}

=== FILE: sample.dfy ===
/** `BlipKitSample`: a sampled waveform with a sustain range and a repeat
    mode, and its import from a WAV stream.

    Frames are the signed 16-bit values the synthesizer plays; levels are
    converted into frames as the `Levels` module describes. */
module Samples {
  import opened Bytes
  import opened Wrappers
  import opened Levels

  datatype RepeatMode = RepeatNone | RepeatForward | RepeatPingPong | RepeatBackward

  /** `REPEAT_MAX`: the number of repeat modes. */
  const REPEAT_MAX: int := 4

  function RepeatOrdinal(m: RepeatMode): (n: nat)
    ensures n < REPEAT_MAX
  {
    match m
    case RepeatNone => 0
    case RepeatForward => 1
    case RepeatPingPong => 2
    case RepeatBackward => 3
  }

  datatype Sample = Sample(frames: seq<Frame>, sustainOffset: nat, sustainEnd: nat, repeat: RepeatMode)
  {
    /** The frame count fits the `int` that `size()` returns. */
    predicate Valid() {
      |frames| <= I32_MAX && sustainOffset <= I32_MAX && sustainEnd <= I32_MAX
    }
  }

  /** A new sample: no frames, sustain 0..0, no repeat. */
  function New(): (s: Sample)
    ensures s.Valid() && |s.frames| == 0
  {
    Sample([], 0, 0, RepeatNone)
  }

  /** The index normalisation both sustain setters apply: with frames, a
      negative value counts from the end (-1 is the frame count) and the
      result is clamped to [0, size]; without frames, negatives become 0
      and other values are kept. The sum is formed in uint32 and read back
      as int, hence the wrap. */
  function SustainIndex(v: int, size: nat): (r: nat)
    requires IsI32(v) && size <= I32_MAX
    ensures size > 0 ==> r <= size
    ensures size > 0 && -(size + 1) <= v < 0 ==> r == v + size + 1
    ensures v < 0 && (size == 0 || v < -(size + 1)) ==> r == 0
    ensures v >= 0 ==> r == (if size > 0 then Min(v, size) else v)
    ensures r <= I32_MAX
  {
    var w := if v < 0 && size > 0 then WrapI32(v + size + 1) else v;
    var p := Max(0, w);
    if size > 0 then Min(p, size) else p
  }

  /** Giving a setter back what its getter returns changes nothing. */
  lemma SustainIndexStable(v: int, size: nat)
    requires IsI32(v) && size <= I32_MAX
    ensures SustainIndex(SustainIndex(v, size), size) == SustainIndex(v, size)
  {
  }

  /** Counting from the end and from the start meet: -k names the same
      sustain index as size + 1 - k. */
  lemma FromEndMatchesFromStart(k: int, size: nat)
    requires 1 <= k <= size + 1 && 0 < size <= I32_MAX
    ensures SustainIndex(-k, size) == SustainIndex(size + 1 - k, size)
  {
  }

  /** `set_sustain_offset`. */
  function SetSustainOffset(s: Sample, v: int): (r: Sample)
    requires s.Valid() && IsI32(v)
    ensures r.Valid() && r == s.(sustainOffset := SustainIndex(v, |s.frames|))
  {
    s.(sustainOffset := SustainIndex(v, |s.frames|))
  }

  /** `set_sustain_end`. */
  function SetSustainEnd(s: Sample, v: int): (r: Sample)
    requires s.Valid() && IsI32(v)
    ensures r.Valid() && r == s.(sustainEnd := SustainIndex(v, |s.frames|))
  {
    s.(sustainEnd := SustainIndex(v, |s.frames|))
  }

  /** The repeat mode with ordinal v, if any. */
  function RepeatOf(v: int): (m: Option<RepeatMode>)
    ensures m.Some? <==> 0 <= v < REPEAT_MAX
    ensures m.Some? ==> RepeatOrdinal(m.value) == v
  {
    if v == 0 then Some(RepeatNone)
    else if v == 1 then Some(RepeatForward)
    else if v == 2 then Some(RepeatPingPong)
    else if v == 3 then Some(RepeatBackward)
    else None
  }

  /** `set_repeat_mode`: values outside [0, REPEAT_MAX) keep the old mode. */
  function SetRepeatMode(s: Sample, v: int): (r: Sample)
    ensures !(0 <= v < REPEAT_MAX) ==> r == s
    ensures 0 <= v < REPEAT_MAX ==> r == s.(repeat := r.repeat) && RepeatOrdinal(r.repeat) == v
  {
    match RepeatOf(v)
    case None => s
    case Some(m) => s.(repeat := m)
  }

  /** Every repeat mode survives a trip through its ordinal. */
  lemma RepeatModeRoundTrip(s: Sample, m: RepeatMode)
    ensures SetRepeatMode(s, RepeatOrdinal(m)).repeat == m
  {
  }

  /** `set_frames`: fewer than two levels are refused; otherwise the
      frames are replaced, one per level, and nothing else changes (the
      sustain range is not renormalised). */
  function SetFrames(s: Sample, levels: seq<real>, normalize: bool, amplitude: real): (r: Sample)
    requires s.Valid() && |levels| <= I32_MAX
    ensures r.Valid()
    ensures |levels| < 2 ==> r == s
    ensures |levels| >= 2 ==> r == s.(frames := r.frames) && |r.frames| == |levels|
    ensures |levels| >= 2 ==> r.frames == Convert(levels, normalize, amplitude)
    ensures forall i :: 0 <= i < |r.frames| ==> -FRAME_MAX <= r.frames[i] <= FRAME_MAX || r.frames == s.frames
  {
    if |levels| < 2 then s else s.(frames := Convert(levels, normalize, amplitude))
  }

  /** Without normalising, `set_frames` stores each level inside [-1, +1]
      as its truncated full-scale value and saturates the levels beyond. */
  lemma SetFramesPlain(s: Sample, levels: seq<real>, amplitude: real, i: int)
    requires s.Valid() && 2 <= |levels| <= I32_MAX && 0 <= i < |levels|
    ensures var f := SetFrames(s, levels, false, amplitude).frames[i];
            (-1.0 <= levels[i] <= 1.0 ==> f == Truncate(levels[i] * FRAME_MAX as real))
            && (levels[i] > 1.0 ==> f == FRAME_MAX)
            && (levels[i] < -1.0 ==> f == -FRAME_MAX)
  {
    ConvertPlain(levels, amplitude, i);
  }

  // ---------------------------------------------------------------------
  // The stored form of the frames: two bytes per frame, little-endian.

  /** The unsigned bit pattern of a frame. */
  function Bits(f: Frame): (u: nat)
    ensures u < U16_LIMIT
  {
    if f < 0 then f + U16_LIMIT else f
  }

  /** The frame whose bit pattern is `lo + 256 * hi`. */
  function FrameOf(lo: byte, hi: byte): (f: Frame)
    ensures Bits(f) == lo as int + 256 * hi as int
  {
    var u := lo as int + 256 * hi as int;
    if u < 0x8000 then u else u - U16_LIMIT
  }

  /** `get_frame_bytes`: each frame as two bytes, low byte first. */
  function FrameBytes(frames: seq<Frame>): (bs: seq<byte>)
    ensures |bs| == 2 * |frames|
    ensures forall i :: 0 <= i < |frames| ==> bs[2 * i] as int == Bits(frames[i]) % 256
    ensures forall i :: 0 <= i < |frames| ==> bs[2 * i + 1] as int == Bits(frames[i]) / 256
  {
    if |frames| == 0 then []
    else
      var u := Bits(frames[0]);
      var rest := FrameBytes(frames[1..]);
      assert forall i :: 1 <= i < |frames| ==> frames[i] == frames[1..][i - 1];
      [(u % 256) as byte, (u / 256) as byte] + rest
  }

  /** `set_frame_bytes`: a frame per whole pair of bytes; an odd last byte
      is ignored. */
  function SetFrameBytes(s: Sample, bs: seq<byte>): (r: Sample)
    requires s.Valid() && |bs| < U32_LIMIT
    ensures r.Valid() && r == s.(frames := r.frames)
    ensures |r.frames| == |bs| / 2
    ensures forall i :: 0 <= i < |r.frames| ==> Bits(r.frames[i]) == bs[2 * i] as int + 256 * bs[2 * i + 1] as int
  {
    s.(frames := seq(|bs| / 2, i requires 0 <= i < |bs| / 2 => FrameOf(bs[2 * i], bs[2 * i + 1])))
  }

  /** A frame is determined by its bit pattern. */
  lemma BitsInjective(f: Frame, g: Frame)
    requires Bits(f) == Bits(g)
    ensures f == g
  {
  }

  /** Saving frames and loading them back gives the same frames. */
  lemma FramesRoundTrip(s: Sample)
    requires s.Valid()
    ensures SetFrameBytes(s, FrameBytes(s.frames)) == s
  {
    var r := SetFrameBytes(s, FrameBytes(s.frames));
    forall i | 0 <= i < |s.frames|
      ensures r.frames[i] == s.frames[i]
    {
      BitsInjective(r.frames[i], s.frames[i]);
    }
  }

  /** Loading bytes and saving them gives the bytes back, without a
      trailing odd byte. */
  lemma BytesRoundTrip(s: Sample, bs: seq<byte>)
    requires s.Valid() && |bs| < U32_LIMIT
    ensures FrameBytes(SetFrameBytes(s, bs).frames) == bs[..|bs| / 2 * 2]
  {
    var fs := SetFrameBytes(s, bs).frames;
    var out := FrameBytes(fs);
    hide FrameBytes, SetFrameBytes;
    forall i | 0 <= i < |fs|
      ensures out[2 * i] == bs[2 * i] && out[2 * i + 1] == bs[2 * i + 1]
    {
      ByteSplit(bs[2 * i], bs[2 * i + 1]);
    }
    forall j | 0 <= j < |out|
      ensures out[j] == bs[j]
    {
      var i := j / 2;
      assert j == 2 * i || j == 2 * i + 1;
    }
  }

  /** The low and high byte of a 16-bit pattern. */
  lemma ByteSplit(lo: byte, hi: byte)
    ensures (lo as int + 256 * hi as int) % 256 == lo as int
    ensures (lo as int + 256 * hi as int) / 256 == hi as int
  {
  }

  // ---------------------------------------------------------------------
  // Import from an AudioStreamWAV.

  datatype WavFormat = Format8Bits | Format16Bits | FormatImaAdpcm | FormatQoa
  datatype LoopMode = LoopDisabled | LoopForward | LoopPingPong | LoopBackward

  datatype Wav = Wav(data: seq<byte>, format: WavFormat, stereo: bool,
                     loopMode: LoopMode, loopBegin: int, loopEnd: int)

  function Channels(w: Wav): (n: nat)
    ensures n == 1 || n == 2
  {
    if w.stereo then 2 else 1
  }

  /** Bytes per sample value of a format the import reads. */
  function Width(f: WavFormat): (n: nat)
    ensures n == 1 || n == 2
  {
    if f == Format16Bits then 2 else 1
  }

  /** The frame count: as written, the byte length over the channel count
      (the sample width is left out of it); corrected, over channels times
      width. */
  function FrameCount(w: Wav, asWritten: bool): (n: nat)
    ensures n <= |w.data|
  {
    if asWritten then |w.data| / Channels(w) else |w.data| / (Channels(w) * Width(w.format))
  }

  /** The frame count is the largest number of frames the data holds: as
      written a frame is taken to be one byte per channel, corrected one
      sample value per channel. */
  lemma FrameCountFits(w: Wav, asWritten: bool)
    ensures var n := FrameCount(w, asWritten);
            var size := if asWritten then Channels(w) else Channels(w) * Width(w.format);
            n * size <= |w.data| < (n + 1) * size
  {
  }

  /** How many sample values of the format's width the data holds. */
  function Available(w: Wav): nat {
    |w.data| / Width(w.format)
  }

  /** The conversion loop reads sample values 0 .. count * channels - 1. */
  function ValuesRead(w: Wav, asWritten: bool): nat {
    FrameCount(w, asWritten) * Channels(w)
  }

  /** The repeat mode each loop mode maps to. */
  function RepeatForLoop(m: LoopMode): (r: RepeatMode)
    ensures RepeatOrdinal(r) == match m
                                case LoopDisabled => 0
                                case LoopForward => 1
                                case LoopPingPong => 2
                                case LoopBackward => 3
  {
    match m
    case LoopDisabled => RepeatNone
    case LoopForward => RepeatForward
    case LoopPingPong => RepeatPingPong
    case LoopBackward => RepeatBackward
  }

  /** The signed value of sample value e: one byte for 8-bit data, two
      (low byte first) for 16-bit data. */
  function WavValue(w: Wav, e: nat): (v: int)
    requires e < Available(w)
    ensures w.format == Format16Bits ==> -0x8000 <= v < 0x8000
    ensures w.format != Format16Bits ==> -0x80 <= v < 0x80
  {
    if w.format == Format16Bits then
      var u := w.data[2 * e] as int + 256 * w.data[2 * e + 1] as int;
      if u < 0x8000 then u else u - U16_LIMIT
    else
      var u := w.data[e] as int;
      if u < 0x80 then u else u - U8_LIMIT
  }

  /** The level of frame i: the value over the format's maximum, or the
      two channels' sum at half that scale. */
  function WavLevel(w: Wav, i: nat): real
    requires i < FrameCount(w, false)
  {
    FrameValues(w, i);
    var top := if w.format == Format16Bits then 0x7fff as real else 0x7f as real;
    if w.stereo then (WavValue(w, 2 * i) + WavValue(w, 2 * i + 1)) as real * (0.5 / top)
    else WavValue(w, i) as real * (1.0 / top)
  }

  /** The sample values of a whole frame are all held by the data. */
  lemma FrameValues(w: Wav, i: nat)
    requires i < FrameCount(w, false)
    ensures (i + 1) * Channels(w) <= Available(w)
  {
    var c := Channels(w);
    var k := Width(w.format);
    var n := |w.data|;
    assert i + 1 <= n / (c * k);
    if c == 1 && k == 1 {
    } else if c == 2 && k == 1 {
      assert (i + 1) * 2 <= n / 2 * 2 <= n;
    } else if c == 1 && k == 2 {
    } else {
      assert (i + 1) * 2 <= n / 4 * 2 <= n / 2;
    }
  }

  /** The sample the import builds from the first n frames of `w`: the
      converted levels, the mapped repeat mode and the loop points as the
      sustain range. */
  function WavSample(w: Wav, n: nat, normalize: bool, amplitude: real): (r: Sample)
    requires 2 <= n <= FrameCount(w, false) && n <= I32_MAX && IsI32(w.loopBegin) && IsI32(w.loopEnd)
    ensures r.Valid() && |r.frames| == n
    ensures forall i :: 0 <= i < n ==> -FRAME_MAX <= r.frames[i] <= FRAME_MAX
    ensures r.repeat == RepeatForLoop(w.loopMode)
    ensures r.sustainOffset == SustainIndex(w.loopBegin, n) && r.sustainEnd == SustainIndex(w.loopEnd, n)
  {
    var s := SetFrames(New(), seq(n, i requires 0 <= i < n => WavLevel(w, i)), normalize, amplitude);
    var s := SetRepeatMode(s, RepeatOrdinal(RepeatForLoop(w.loopMode)));
    var s := SetSustainOffset(s, w.loopBegin);
    SetSustainEnd(s, w.loopEnd)
  }

  /** `create_with_wav`, with the frame count corrected: null for fewer than
      two frames or a compressed format; otherwise a frame per whole
      frame of data, the mapped repeat mode and the loop points as the
      sustain range. */
  function CreateWithWav(w: Wav, normalize: bool, amplitude: real): (r: Option<Sample>)
    requires |w.data| <= I32_MAX && IsI32(w.loopBegin) && IsI32(w.loopEnd)
    ensures r.Some? <==> FrameCount(w, false) >= 2 && (w.format == Format8Bits || w.format == Format16Bits)
    ensures r.Some? ==> var n := FrameCount(w, false);
                        r.value.Valid() && |r.value.frames| == n
                        && (forall i :: 0 <= i < n ==> -FRAME_MAX <= r.value.frames[i] <= FRAME_MAX)
                        && r.value.repeat == RepeatForLoop(w.loopMode)
                        && r.value.sustainOffset == SustainIndex(w.loopBegin, n)
                        && r.value.sustainEnd == SustainIndex(w.loopEnd, n)
  {
    var n := FrameCount(w, false);
    if n < 2 then None
    else if w.format != Format8Bits && w.format != Format16Bits then None
    else Some(WavSample(w, n, normalize, amplitude))
  }

  /** `create_with_wav` as written: the frame count is the byte length
      over the channel count, so 16-bit data is read on past its end, into
      the bytes `after` that follow it in memory. */
  function CreateWithWavAsWritten(w: Wav, normalize: bool, amplitude: real, after: seq<byte>): (r: Option<Sample>)
    requires |w.data| <= I32_MAX && IsI32(w.loopBegin) && IsI32(w.loopEnd) && |after| >= |w.data|
    ensures r.Some? <==> FrameCount(w, true) >= 2 && (w.format == Format8Bits || w.format == Format16Bits)
    ensures r.Some? ==> var n := FrameCount(w, true);
                        r.value.Valid() && |r.value.frames| == n
                        && r.value.repeat == RepeatForLoop(w.loopMode)
                        && r.value.sustainOffset == SustainIndex(w.loopBegin, n)
                        && r.value.sustainEnd == SustainIndex(w.loopEnd, n)
  {
    var n := FrameCount(w, true);
    if n < 2 then None
    else if w.format != Format8Bits && w.format != Format16Bits then None
    else
      var memory := w.(data := w.data + after);
      MemoryHoldsFrames(w, after);
      Some(WavSample(memory, n, normalize, amplitude))
  }

  /** The data and the bytes after it hold the as-written frame count. */
  lemma MemoryHoldsFrames(w: Wav, after: seq<byte>)
    requires |after| >= |w.data|
    ensures FrameCount(w, true) <= FrameCount(w.(data := w.data + after), false)
  {
    var c := Channels(w);
    var d := |w.data|;
    var m := w.(data := w.data + after);
    assert Channels(m) == c && Width(m.format) == Width(w.format);
    if Width(w.format) == 2 {
      assert (2 * d) / (c * 2) == d / c;
      assert |m.data| / (c * 2) >= (2 * d) / (c * 2);
    } else {
      assert |m.data| / c >= d / c;
    }
  }

  /** For 8-bit data the frame count is right as written, and the import
      reads only the data: both definitions build the same sample. */
  lemma AsWrittenAgreesFor8Bits(w: Wav, normalize: bool, amplitude: real, after: seq<byte>)
    requires |w.data| <= I32_MAX && IsI32(w.loopBegin) && IsI32(w.loopEnd) && |after| >= |w.data|
    requires w.format == Format8Bits
    ensures CreateWithWavAsWritten(w, normalize, amplitude, after) == CreateWithWav(w, normalize, amplitude)
  {
    var n := FrameCount(w, false);
    assert FrameCount(w, true) == n;
    if n >= 2 {
      var memory := w.(data := w.data + after);
      MemoryHoldsFrames(w, after);
      forall i | 0 <= i < n
        ensures WavLevel(memory, i) == WavLevel(w, i)
      {
        FrameValues(w, i);
        FrameValues(memory, i);
      }
      assert seq(n, i requires 0 <= i < n => WavLevel(memory, i)) == seq(n, i requires 0 <= i < n => WavLevel(w, i));
    }
  }

  /** As written, two bytes of 16-bit mono data, one frame, import as a
      sample of two frames; corrected, they are refused. */
  lemma ShortWavImportedAsWritten(after: seq<byte>)
    requires |after| >= 2
    ensures var w := Wav([0, 0], Format16Bits, false, LoopDisabled, 0, 0);
            var r := CreateWithWavAsWritten(w, false, 1.0, after);
            r.Some? && |r.value.frames| == 2 && CreateWithWav(w, false, 1.0).None?
  {
  }

  /** A full-scale 8-bit mono byte becomes a full-scale frame. */
  lemma FullScaleByte()
    ensures var w := Wav([0x7f, 0x81], Format8Bits, false, LoopDisabled, 0, 0);
            CreateWithWav(w, false, 1.0) == Some(Sample([FRAME_MAX, -FRAME_MAX], 0, 0, RepeatNone))
  {
    var w := Wav([0x7f, 0x81], Format8Bits, false, LoopDisabled, 0, 0);
    assert WavLevel(w, 0) == 1.0;
    assert WavLevel(w, 1) == -1.0;
    var ls := seq(2, i requires 0 <= i < 2 => WavLevel(w, i));
    assert ls == [1.0, -1.0];
    ConvertPlain(ls, 1.0, 0);
    ConvertPlain(ls, 1.0, 1);
    assert Truncate(1.0 * FRAME_MAX as real) == FRAME_MAX;
    assert Truncate(-1.0 * FRAME_MAX as real) == -FRAME_MAX;
    var fs := Convert(ls, false, 1.0);
    assert fs == [FRAME_MAX, -FRAME_MAX];
    var s := SetFrames(New(), ls, false, 1.0);
    assert s == Sample(fs, 0, 0, RepeatNone);
  }

  /** As written, every 16-bit import reads past the end of the data:
      twice as many 16-bit values as the bytes hold. */
  lemma WavReadsPastEnd(w: Wav)
    requires w.format == Format16Bits && 4 <= |w.data| && |w.data| % 4 == 0
    ensures ValuesRead(w, true) == 2 * Available(w) > Available(w)
  {
    var n := |w.data|;
    var q := n / 4;
    assert n == 4 * q;
    assert Available(w) == 2 * q;
    if w.stereo {
      assert FrameCount(w, true) == 2 * q;
    } else {
      assert FrameCount(w, true) == 4 * q;
    }
  }

  /** A two-frame mono 16-bit stream: the as-written import reads values
      0..3 of the 2 the data holds. */
  lemma WavReadsPastEndExample()
    ensures var w := Wav([0, 0, 0, 0], Format16Bits, false, LoopDisabled, 0, 0);
            ValuesRead(w, true) == 4 && Available(w) == 2
  {
  }

  /** Corrected, the import reads only values the data holds, and every
      whole frame of it. */
  lemma WavReadsInBounds(w: Wav)
    ensures ValuesRead(w, false) <= Available(w)
    ensures (FrameCount(w, false) + 1) * Channels(w) > Available(w)
  {
    var c := Channels(w);
    var k := Width(w.format);
    var n := |w.data|;
    assert c * k == 1 || c * k == 2 || c * k == 4;
    assert n / (c * k) * (c * k) <= n;
    if c == 2 && k == 2 {
      assert n / 4 * 2 <= n / 2;
    }
  }
}

=== FILE: track.dfy ===
/** `BlipKitTrack`: one voice, configured through BlipKit track
    attributes.

    The library's track is modelled as an attribute store that keeps what
    it is given; the extension's own state (the held custom waveform, sample
    and instrument, the stored arpeggio, whether the user has chosen a
    master volume) sits beside it. The current and the older implementation
    are one model; `older` selects the older behaviour where the two
    differ. Note limits are library constants outside the sources and are
    passed in as `NoteLimits`. */
module Tracks {
  import opened Wrappers
  import opened Bytes
  import opened Levels
  import Samples
  import Waveforms
  import Dividers

  /** The script-facing waveform enum, in declaration order. */
  datatype Waveform = Square | Triangle | Noise | Sawtooth | Sine | Custom | SampleWave

  const WAVEFORM_MAX: nat := 7

  function WaveformOrdinal(w: Waveform): (n: nat)
    ensures n < WAVEFORM_MAX
  {
    match w
    case Square => 0
    case Triangle => 1
    case Noise => 2
    case Sawtooth => 3
    case Sine => 4
    case Custom => 5
    case SampleWave => 6
  }

  function WaveformOf(n: int): (r: Option<Waveform>)
    ensures r.Some? <==> 0 <= n < WAVEFORM_MAX
    ensures r.Some? ==> WaveformOrdinal(r.value) == n
  {
    if n == 0 then Some(Square) else if n == 1 then Some(Triangle) else if n == 2 then Some(Noise)
    else if n == 3 then Some(Sawtooth) else if n == 4 then Some(Sine) else if n == 5 then Some(Custom)
    else if n == 6 then Some(SampleWave) else None
  }

  /** The waveforms `set_waveform` may select directly. */
  predicate IsBasic(w: Waveform) {
    !(w.Custom? || w.SampleWave?)
  }

  /** BlipKit's `BK_MAX_VOLUME`. */
  const MAX_VOLUME: int := 0x7fff

  /** BlipKit's `BK_FINT20_UNIT`. */
  const FINT20_UNIT: int := 0x10_0000

  /** BlipKit's `BK_NOTE_RELEASE` and `BK_NOTE_MUTE`, as `set_note`'s
      thresholds use them. */
  const NOTE_RELEASE: int := -1
  const NOTE_MUTE: int := -2

  /** BlipKit's `BK_MIN_NOTE` and `BK_MAX_NOTE`. */
  datatype NoteLimits = NoteLimits(minNote: real, maxNote: real)
  {
    predicate Valid() {
      0.0 <= minNote <= maxNote
    }
  }

  /** The master volume chosen for a waveform until the user sets one. */
  const MASTER_VOLUME_DEFAULT: real := 0.15
  const MASTER_VOLUME_BASS: real := 0.3

  function MasterVolumeFor(w: Waveform): (v: real)
    ensures v == MASTER_VOLUME_BASS <==> w in {Triangle, Sine, SampleWave}
    ensures v == MASTER_VOLUME_BASS || v == MASTER_VOLUME_DEFAULT
  {
    match w
    case Triangle => MASTER_VOLUME_BASS
    case Sine => MASTER_VOLUME_BASS
    case SampleWave => MASTER_VOLUME_BASS
    case _ => MASTER_VOLUME_DEFAULT
  }

  /** The integer track attributes the extension sets and reads. */
  datatype Attr =
    | MasterVolume | Volume | Panning | DutyCycle | Note | Pitch | PhaseWrap
    | VolumeSlide | PanningSlide | Portamento | EffectDivider | ArpeggioDivider
    | InstrumentDivider | SamplePitch

  /** Tremolo and vibrato: ticks, delta and slide ticks. */
  datatype Effect = Effect(ticks: int, delta: int, slideTicks: int)

  /** BlipKit's sample repeat modes. */
  datatype LibraryRepeat = NoRepeat | Repeat | Palindrome

  /** What `update_waveform` hands the library for a sample. */
  datatype SampleSettings = SampleSettings(backwardRange: bool, sustainOffset: int, sustainEnd: int, repeat: LibraryRepeat)

  /** A script reference to a resource: its identity and its state. */
  datatype WaveformRef = WaveformRef(id: nat, waveform: Waveforms.Waveform)
  datatype SampleRef = SampleRef(id: nat, sample: Samples.Sample)

  datatype Track = Track(
    attrs: map<Attr, int>,
    waveform: Waveform,
    tremolo: Effect,
    vibrato: Effect,
    arpeggio: seq<int>,
    arpeggioCopy: seq<real>,
    sampleSettings: Option<SampleSettings>,
    customWaveform: Option<WaveformRef>,
    sample: Option<SampleRef>,
    instrument: Option<nat>,
    masterVolumeChanged: bool,
    attached: bool)
  {
    /** A custom waveform and a sample are never held together. */
    predicate Valid() {
      !(customWaveform.Some? && sample.Some?)
    }

    /** `BKGetAttr`: an attribute never set reads as 0. */
    function Read(a: Attr): int {
      if a in attrs then attrs[a] else 0
    }
  }

  /** `BKSetAttr`: one attribute changes. */
  function Store(t: Track, a: Attr, v: int): (r: Track)
    ensures r.Read(a) == v
    ensures forall b :: b != a ==> r.Read(b) == t.Read(b)
    ensures r == t.(attrs := r.attrs)
  {
    t.(attrs := t.attrs[a := v])
  }

  /** A level in [lo, 1] as a library value. */
  function Level(x: real, lo: real): (v: int)
    requires lo == 0.0 || lo == -1.0
    ensures lo * MAX_VOLUME as real <= v as real <= MAX_VOLUME as real
  {
    var c := ClampReal(x, lo, 1.0);
    var n := Truncate(c * MAX_VOLUME as real);
    assert c * MAX_VOLUME as real <= MAX_VOLUME as real;
    assert lo * MAX_VOLUME as real <= c * MAX_VOLUME as real;
    n
  }

  /** `set_master_volume`: from now on waveform changes keep this volume. */
  function SetMasterVolume(t: Track, v: real, older: bool): (r: Track)
    ensures r.Read(MasterVolume) == Level(v, 0.0) && 0 <= r.Read(MasterVolume) <= MAX_VOLUME
    ensures forall b :: b != MasterVolume ==> r.Read(b) == t.Read(b)
    ensures r.masterVolumeChanged == (!older || t.masterVolumeChanged)
    ensures r.(attrs := t.attrs, masterVolumeChanged := t.masterVolumeChanged) == t
  {
    Store(t, MasterVolume, Level(v, 0.0)).(masterVolumeChanged := !older || t.masterVolumeChanged)
  }

  /** `get_master_volume`, `get_volume`, `get_panning`. */
  function GetLevel(t: Track, a: Attr): (r: real)
    ensures r * MAX_VOLUME as real == t.Read(a) as real
    ensures 0 <= t.Read(a) <= MAX_VOLUME ==> 0.0 <= r <= 1.0
    ensures -MAX_VOLUME <= t.Read(a) <= MAX_VOLUME ==> -1.0 <= r <= 1.0
  {
    t.Read(a) as real / MAX_VOLUME as real
  }

  /** A level read back is the one set, to within one library step. */
  lemma LevelRoundTrip(x: real, lo: real)
    requires (lo == 0.0 || lo == -1.0) && lo <= x <= 1.0
    ensures var back := Level(x, lo) as real / MAX_VOLUME as real;
            x - 1.0 / MAX_VOLUME as real < back <= x || x <= back < x + 1.0 / MAX_VOLUME as real
  {
    var F := MAX_VOLUME as real;
    var n := Level(x, lo);
    assert ClampReal(x, lo, 1.0) == x;
    if x >= 0.0 {
      assert n as real <= x * F < n as real + 1.0;
      assert n as real / F <= x;
      assert x - 1.0 / F < n as real / F;
    } else {
      assert n as real - 1.0 < x * F <= n as real;
      assert x <= n as real / F;
      assert n as real / F < x + 1.0 / F;
    }
  }

  function SetVolume(t: Track, v: real): (r: Track)
    ensures 0 <= r.Read(Volume) <= MAX_VOLUME && r.Read(Volume) == Level(v, 0.0)
    ensures forall b :: b != Volume ==> r.Read(b) == t.Read(b)
  {
    Store(t, Volume, Level(v, 0.0))
  }

  function SetPanning(t: Track, v: real): (r: Track)
    ensures -MAX_VOLUME <= r.Read(Panning) <= MAX_VOLUME && r.Read(Panning) == Level(v, -1.0)
    ensures forall b :: b != Panning ==> r.Read(b) == t.Read(b)
  {
    Store(t, Panning, Level(v, -1.0))
  }

  /** `set_note`: a non-negative note clamped to the note range in 20-bit
      fixed point; at most -2 mutes; anything between releases. */
  function NoteValue(note: real, lim: NoteLimits): (v: int)
    requires lim.Valid()
    ensures note >= 0.0 ==> v >= 0
    ensures note <= -2.0 ==> v == NOTE_MUTE
    ensures -2.0 < note < 0.0 ==> v == NOTE_RELEASE
  {
    if note >= 0.0 then Truncate(ClampReal(note, lim.minNote, lim.maxNote) * FINT20_UNIT as real)
    else if note <= -2.0 then NOTE_MUTE
    else NOTE_RELEASE
  }

  function SetNote(t: Track, note: real, lim: NoteLimits): (r: Track)
    requires lim.Valid()
    ensures r.Read(Note) == NoteValue(note, lim)
    ensures forall b :: b != Note ==> r.Read(b) == t.Read(b)
  {
    Store(t, Note, NoteValue(note, lim))
  }

  /** `get_note`: a negative value (mute or release) reads as release. */
  function GetNote(t: Track): (n: real)
    ensures t.Read(Note) < 0 ==> n == NOTE_RELEASE as real
    ensures t.Read(Note) >= 0 ==> n >= 0.0
  {
    var v := t.Read(Note);
    if v < 0 then NOTE_RELEASE as real else v as real / FINT20_UNIT as real
  }

  /** `mute` and `release`. */
  function Mute(t: Track, lim: NoteLimits): (r: Track)
    requires lim.Valid()
    ensures r.Read(Note) == NOTE_MUTE && GetNote(r) == NOTE_RELEASE as real
  {
    SetNote(t, NOTE_MUTE as real, lim)
  }

  function Release(t: Track, lim: NoteLimits): (r: Track)
    requires lim.Valid()
    ensures r.Read(Note) == NOTE_RELEASE && GetNote(r) == NOTE_RELEASE as real
  {
    SetNote(t, NOTE_RELEASE as real, lim)
  }

  /** A pitch offset in [-maxNote, maxNote] as 20-bit fixed point, used by
      `set_pitch`, `set_sample_pitch`, the vibrato delta and the arpeggio. */
  function NoteOffset(x: real, lim: NoteLimits): (v: int)
    requires lim.Valid()
    ensures -lim.maxNote * FINT20_UNIT as real - 1.0 < v as real < lim.maxNote * FINT20_UNIT as real + 1.0
  {
    var c := ClampReal(x, -lim.maxNote, lim.maxNote);
    assert -lim.maxNote * FINT20_UNIT as real <= c * FINT20_UNIT as real <= lim.maxNote * FINT20_UNIT as real;
    Truncate(c * FINT20_UNIT as real)
  }

  /** An offset read back is the one set, to within one fixed-point step. */
  lemma NoteOffsetRoundTrip(x: real, lim: NoteLimits)
    requires lim.Valid() && -lim.maxNote <= x <= lim.maxNote
    ensures var back := NoteOffset(x, lim) as real / FINT20_UNIT as real;
            x - 1.0 / FINT20_UNIT as real < back <= x || x <= back < x + 1.0 / FINT20_UNIT as real
  {
    var U := FINT20_UNIT as real;
    var n := NoteOffset(x, lim);
    assert ClampReal(x, -lim.maxNote, lim.maxNote) == x;
    if x >= 0.0 {
      assert n as real <= x * U < n as real + 1.0;
      assert n as real / U <= x;
      assert x - 1.0 / U < n as real / U;
    } else {
      assert n as real - 1.0 < x * U <= n as real;
      assert x <= n as real / U;
      assert n as real / U < x + 1.0 / U;
    }
  }

  function SetPitch(t: Track, x: real, lim: NoteLimits): (r: Track)
    requires lim.Valid()
    ensures r.Read(Pitch) == NoteOffset(x, lim)
    ensures forall b :: b != Pitch ==> r.Read(b) == t.Read(b)
  {
    Store(t, Pitch, NoteOffset(x, lim))
  }

  function SetSamplePitch(t: Track, x: real, lim: NoteLimits): (r: Track)
    requires lim.Valid()
    ensures r.Read(SamplePitch) == NoteOffset(x, lim)
    ensures forall b :: b != SamplePitch ==> r.Read(b) == t.Read(b)
  {
    Store(t, SamplePitch, NoteOffset(x, lim))
  }

  /** `get_pitch` and `get_sample_pitch`. */
  function GetOffset(t: Track, a: Attr): (r: real)
    ensures r * FINT20_UNIT as real == t.Read(a) as real
    ensures forall lim: NoteLimits, x: real {:trigger NoteOffset(x, lim)} ::
              lim.Valid() && t.Read(a) == NoteOffset(x, lim) ==> -lim.maxNote - 1.0 < r < lim.maxNote + 1.0
  {
    t.Read(a) as real / FINT20_UNIT as real
  }

  /** `set_phase_wrap`: 0 turns wrapping off; a positive period is at
      least 2. */
  function PhaseWrapValue(v: int): (r: int)
    ensures r == 0 <==> v <= 0
    ensures r != 0 ==> r >= 2
    ensures v >= 2 ==> r == v
    ensures v == 1 ==> r == 2
  {
    if v > 0 then Max(2, v) else 0
  }

  lemma PhaseWrapIdempotent(v: int)
    ensures PhaseWrapValue(PhaseWrapValue(v)) == PhaseWrapValue(v)
  {
  }

  function SetPhaseWrap(t: Track, v: int): (r: Track)
    ensures r.Read(PhaseWrap) == PhaseWrapValue(v)
    ensures forall b :: b != PhaseWrap ==> r.Read(b) == t.Read(b)
  {
    Store(t, PhaseWrap, PhaseWrapValue(v))
  }

  /** The effect, arpeggio and instrument dividers: negatives become 0. */
  predicate IsDividerAttr(a: Attr) {
    a == EffectDivider || a == ArpeggioDivider || a == InstrumentDivider
  }

  function SetDivider(t: Track, a: Attr, v: int): (r: Track)
    requires IsDividerAttr(a)
    ensures r.Read(a) >= 0 && (v >= 0 ==> r.Read(a) == v) && (v < 0 ==> r.Read(a) == 0)
    ensures forall b :: b != a ==> r.Read(b) == t.Read(b)
  {
    Store(t, a, Max(0, v))
  }

  /** The attributes stored as given: duty cycle, slides, portamento. */
  predicate IsRawAttr(a: Attr) {
    a == DutyCycle || a == VolumeSlide || a == PanningSlide || a == Portamento
  }

  function SetRaw(t: Track, a: Attr, v: int): (r: Track)
    requires IsRawAttr(a)
    ensures r.Read(a) == v
    ensures forall b :: b != a ==> r.Read(b) == t.Read(b)
  {
    Store(t, a, v)
  }

  /** `get_panning_slide` as written: it reads the volume-slide attribute. */
  function GetPanningSlideAsWritten(t: Track): (r: int)
    ensures t.Read(VolumeSlide) != t.Read(PanningSlide) ==> r != t.Read(PanningSlide)
    ensures forall v :: SetRaw(t, PanningSlide, v).Read(VolumeSlide) == r
  {
    t.Read(VolumeSlide)
  }

  /** `get_panning_slide` reading the attribute its setter writes. */
  function GetPanningSlide(t: Track): (r: int)
    ensures forall v :: SetRaw(t, PanningSlide, v).Read(PanningSlide) == v
    ensures forall v :: SetRaw(t, VolumeSlide, v).Read(PanningSlide) == r
  {
    t.Read(PanningSlide)
  }

  /** As written, a panning slide that differs from the volume slide
      cannot be read back. */
  lemma PanningSlideReadsVolume(t: Track, volumeSlide: int, panningSlide: int)
    requires volumeSlide != panningSlide
    ensures var t2 := SetRaw(SetRaw(t, VolumeSlide, volumeSlide), PanningSlide, panningSlide);
            GetPanningSlideAsWritten(t2) == volumeSlide != panningSlide
  {
  }

  /** Corrected, the panning slide reads back what was set, whatever the
      volume slide. */
  lemma PanningSlideRoundTrip(t: Track, v: int, w: int)
    ensures GetPanningSlide(SetRaw(SetRaw(t, PanningSlide, v), VolumeSlide, w)) == v
  {
  }

  /** `set_tremolo`: delta a level in [0, 1], slide ticks not negative. */
  function SetTremolo(t: Track, ticks: int, delta: real, slideTicks: int): (r: Track)
    ensures r.tremolo.ticks == ticks && r.tremolo.delta == Level(delta, 0.0)
    ensures r.tremolo.slideTicks == Max(slideTicks, 0) >= 0
    ensures r == t.(tremolo := r.tremolo)
  {
    t.(tremolo := Effect(ticks, Level(delta, 0.0), Max(slideTicks, 0)))
  }

  /** `set_vibrato`: delta a note offset, slide ticks not negative. */
  function SetVibrato(t: Track, ticks: int, delta: real, slideTicks: int, lim: NoteLimits): (r: Track)
    requires lim.Valid()
    ensures r.vibrato.ticks == ticks && r.vibrato.delta == NoteOffset(delta, lim)
    ensures r.vibrato.slideTicks == Max(slideTicks, 0) >= 0
    ensures r == t.(vibrato := r.vibrato)
  {
    t.(vibrato := Effect(ticks, NoteOffset(delta, lim), Max(slideTicks, 0)))
  }

  /** The dictionary `get_tremolo` and `get_vibrato` return. */
  datatype EffectReading = EffectReading(ticks: int, delta: real, slideTicks: int)

  function GetTremolo(t: Track): (r: EffectReading)
    ensures r.ticks == t.tremolo.ticks && r.slideTicks == t.tremolo.slideTicks
    ensures r.delta * MAX_VOLUME as real == t.tremolo.delta as real
  {
    EffectReading(t.tremolo.ticks, t.tremolo.delta as real / MAX_VOLUME as real, t.tremolo.slideTicks)
  }

  /** `get_vibrato` as the current code writes it: the delta is divided by
      the volume scale although it was stored in 20-bit fixed point. */
  function GetVibratoAsWritten(t: Track): (r: EffectReading)
    ensures r.ticks == t.vibrato.ticks && r.slideTicks == t.vibrato.slideTicks
    ensures r.delta * MAX_VOLUME as real == t.vibrato.delta as real
  {
    EffectReading(t.vibrato.ticks, t.vibrato.delta as real / MAX_VOLUME as real, t.vibrato.slideTicks)
  }

  /** `get_vibrato` dividing by the fixed-point unit, as the older code
      does. */
  function GetVibrato(t: Track): (r: EffectReading)
    ensures r.ticks == t.vibrato.ticks && r.slideTicks == t.vibrato.slideTicks
    ensures r.delta * FINT20_UNIT as real == t.vibrato.delta as real
  {
    EffectReading(t.vibrato.ticks, t.vibrato.delta as real / FINT20_UNIT as real, t.vibrato.slideTicks)
  }

  /** As written, a vibrato of one semitone reads back as 1048576/32767,
      about 32 semitones. */
  lemma VibratoReadsScaled(t: Track, lim: NoteLimits)
    requires lim.Valid() && lim.maxNote >= 1.0
    ensures GetVibratoAsWritten(SetVibrato(t, 4, 1.0, 0, lim)).delta == FINT20_UNIT as real / MAX_VOLUME as real
    ensures GetVibratoAsWritten(SetVibrato(t, 4, 1.0, 0, lim)).delta > 32.0
  {
    assert ClampReal(1.0, -lim.maxNote, lim.maxNote) == 1.0;
    assert NoteOffset(1.0, lim) == FINT20_UNIT;
  }

  /** Corrected, the vibrato reads back the delta set, to within one
      fixed-point step, and the slide ticks clamped. */
  lemma VibratoRoundTrip(t: Track, ticks: int, delta: real, slideTicks: int, lim: NoteLimits)
    requires lim.Valid() && -lim.maxNote <= delta <= lim.maxNote
    ensures var r := GetVibrato(SetVibrato(t, ticks, delta, slideTicks, lim));
            r.ticks == ticks && r.slideTicks == Max(slideTicks, 0)
            && (delta - 1.0 / FINT20_UNIT as real < r.delta <= delta || delta <= r.delta < delta + 1.0 / FINT20_UNIT as real)
  {
    NoteOffsetRoundTrip(delta, lim);
  }

  /** BlipKit's `BK_MAX_ARPEGGIO`. */
  const MAX_ARPEGGIO: nat := 8

  /** `set_arpeggio`: the library receives at most MAX_ARPEGGIO offsets;
      the current code also keeps the whole array for `get_arpeggio`. */
  function SetArpeggio(t: Track, notes: seq<real>, lim: NoteLimits): (r: Track)
    requires lim.Valid()
    ensures |r.arpeggio| == Min(|notes|, MAX_ARPEGGIO)
    ensures forall i :: 0 <= i < |r.arpeggio| ==> r.arpeggio[i] == NoteOffset(notes[i], lim)
    ensures r.arpeggioCopy == notes
    ensures r == t.(arpeggio := r.arpeggio, arpeggioCopy := r.arpeggioCopy)
  {
    var n := Min(|notes|, MAX_ARPEGGIO);
    t.(arpeggio := seq(n, i requires 0 <= i < n => NoteOffset(notes[i], lim)), arpeggioCopy := notes)
  }

  /** `get_arpeggio`: the current code returns the stored array; the older
      one reads the library's offsets back, so at most MAX_ARPEGGIO. */
  function GetArpeggio(t: Track, older: bool): (r: seq<real>)
    ensures !older ==> r == t.arpeggioCopy
    ensures older ==> |r| == |t.arpeggio| && forall i :: 0 <= i < |r| ==> r[i] * FINT20_UNIT as real == t.arpeggio[i] as real
  {
    if older then seq(|t.arpeggio|, i requires 0 <= i < |t.arpeggio| => t.arpeggio[i] as real / FINT20_UNIT as real)
    else t.arpeggioCopy
  }

  /** The current code returns the array it was given; the older one drops
      everything past MAX_ARPEGGIO. */
  lemma ArpeggioRoundTrip(t: Track, notes: seq<real>, lim: NoteLimits)
    requires lim.Valid()
    ensures GetArpeggio(SetArpeggio(t, notes, lim), false) == notes
    ensures |GetArpeggio(SetArpeggio(t, notes, lim), true)| == Min(|notes|, MAX_ARPEGGIO)
  {
  }

  /** BlipKit's repeat mode for a sample's. */
  function LibraryRepeatOf(m: Samples.RepeatMode): (r: LibraryRepeat)
    ensures r == NoRepeat <==> m == Samples.RepeatNone
    ensures r == Palindrome <==> m == Samples.RepeatPingPong
  {
    match m
    case RepeatNone => NoRepeat
    case RepeatForward => Repeat
    case RepeatBackward => Repeat
    case RepeatPingPong => Palindrome
  }

  /** `update_waveform`: hand the waveform (or the held custom waveform or
      sample) to the library, then, unless the user chose a master volume,
      pick the one for this waveform. The library accepts a custom waveform
      or sample only once the track is attached. */
  function UpdateWaveform(t: Track, w: Waveform): (r: Track)
    requires (w.Custom? ==> t.customWaveform.Some?) && (w.SampleWave? ==> t.sample.Some?)
    ensures r.customWaveform == t.customWaveform && r.sample == t.sample
    ensures r.masterVolumeChanged == t.masterVolumeChanged
    ensures IsBasic(w) || t.attached ==> r.waveform == w
    ensures !IsBasic(w) && !t.attached ==> r.waveform == t.waveform
    ensures t.masterVolumeChanged ==> r.Read(MasterVolume) == t.Read(MasterVolume)
    ensures !t.masterVolumeChanged ==> r.Read(MasterVolume) == Level(MasterVolumeFor(w), 0.0)
    ensures forall b :: b != MasterVolume ==> r.Read(b) == t.Read(b)
  {
    var t1 := if IsBasic(w) || t.attached then t.(waveform := w) else t;
    var t2 :=
      if w.SampleWave? then
        var s := t.sample.value.sample;
        t1.(sampleSettings := Some(SampleSettings(s.repeat == Samples.RepeatBackward, s.sustainOffset, s.sustainEnd,
                                                  LibraryRepeatOf(s.repeat))))
      else t1;
    if t.masterVolumeChanged then t2
    else SetMasterVolume(t2, MasterVolumeFor(w), false).(masterVolumeChanged := false)
  }

  /** `set_waveform`: only the basic waveforms; anything else changes
      nothing. The current code mutes first and keeps a held custom
      waveform or sample; the older one drops the custom waveform and
      always resets the master volume. */
  function SetWaveform(t: Track, n: int, older: bool, lim: NoteLimits): (r: Track)
    requires t.Valid() && lim.Valid()
    ensures r.Valid()
    ensures WaveformOf(n).None? || !IsBasic(WaveformOf(n).value) ==> r == t
    ensures WaveformOf(n).Some? && IsBasic(WaveformOf(n).value) ==>
              r.waveform == WaveformOf(n).value
              && (!older ==> r.customWaveform == t.customWaveform && r.sample == t.sample && r.Read(Note) == NOTE_MUTE)
              && (older ==> r.customWaveform.None? && r.Read(Note) == t.Read(Note))
              && (older || !t.masterVolumeChanged ==> r.Read(MasterVolume) == Level(MasterVolumeFor(WaveformOf(n).value), 0.0))
              && (!older && t.masterVolumeChanged ==> r.Read(MasterVolume) == t.Read(MasterVolume))
  {
    match WaveformOf(n)
    case None => t
    case Some(w) =>
      if !IsBasic(w) then t
      else if older then
        SetMasterVolume(t.(customWaveform := None, waveform := w), MasterVolumeFor(w), true)
      else UpdateWaveform(Mute(t, lim), w)
  }

  /** `get_waveform`. */
  function GetWaveform(t: Track): (n: int)
    ensures WaveformOf(n) == Some(t.waveform)
  {
    WaveformOrdinal(t.waveform)
  }

  /** Once the user has set a master volume, no waveform change in the
      current code alters it. */
  lemma UserVolumeSticks(t: Track, v: real, ns: seq<int>, lim: NoteLimits)
    requires t.Valid() && lim.Valid()
    ensures var t1 := SetMasterVolume(t, v, false);
            SetWaveforms(t1, ns, lim).Read(MasterVolume) == Level(v, 0.0)
  {
    SetWaveformsKeepVolume(SetMasterVolume(t, v, false), ns, lim);
  }

  /** A run of current-code `set_waveform` calls. */
  function SetWaveforms(t: Track, ns: seq<int>, lim: NoteLimits): (r: Track)
    requires t.Valid() && lim.Valid()
    ensures r.Valid()
    ensures r.masterVolumeChanged == t.masterVolumeChanged
    decreases |ns|
  {
    if |ns| == 0 then t else SetWaveforms(SetWaveform(t, ns[0], false, lim), ns[1..], lim)
  }

  lemma {:induction false} SetWaveformsKeepVolume(t: Track, ns: seq<int>, lim: NoteLimits)
    requires t.Valid() && lim.Valid() && t.masterVolumeChanged
    ensures SetWaveforms(t, ns, lim).Read(MasterVolume) == t.Read(MasterVolume)
    decreases |ns|
  {
    if |ns| > 0 {
      SetWaveformsKeepVolume(SetWaveform(t, ns[0], false, lim), ns[1..], lim);
    }
  }

  /** `set_custom_waveform`. A null reference falls back to the square
      wave; an empty waveform is refused. The current code mutes, drops any
      held sample and selects the custom waveform; the older one only hands
      it to the library. */
  function SetCustomWaveform(t: Track, wf: Option<WaveformRef>, older: bool, lim: NoteLimits): (r: Track)
    requires t.Valid() && lim.Valid()
    ensures r.Valid()
    ensures wf.Some? && |wf.value.waveform.frames| == 0 ==> r == t
    ensures wf.Some? && |wf.value.waveform.frames| > 0 ==> r.customWaveform == wf && r.sample.None?
    ensures wf.Some? && |wf.value.waveform.frames| > 0 && t.attached ==> r.waveform == Custom
    ensures wf.None? ==> r.customWaveform.None? && r.waveform == Square
    ensures !older && wf.None? ==> r.sample.None?
  {
    match wf
    case None =>
      if older then SetWaveform(t, WaveformOrdinal(Square), true, lim)
      else UpdateWaveform(Mute(t.(customWaveform := None, sample := None), lim), Square)
    case Some(ref) =>
      if |ref.waveform.frames| == 0 then t
      else if older then
        var t1 := t.(customWaveform := wf, sample := None);
        if t.attached then t1.(waveform := Custom) else t1
      else UpdateWaveform(Mute(t.(customWaveform := wf, sample := None), lim), Custom)
  }

  /** `set_sample` (current code only): the mirror image of
      `set_custom_waveform`. */
  function SetSample(t: Track, s: Option<SampleRef>, lim: NoteLimits): (r: Track)
    requires t.Valid() && lim.Valid()
    ensures r.Valid()
    ensures s.Some? && |s.value.sample.frames| == 0 ==> r == t
    ensures s.Some? && |s.value.sample.frames| > 0 ==> r.sample == s && r.customWaveform.None?
    ensures s.Some? && |s.value.sample.frames| > 0 && t.attached ==> r.waveform == SampleWave
    ensures s.Some? && |s.value.sample.frames| > 0 ==>
              r.sampleSettings.Some? && r.sampleSettings.value.sustainOffset == s.value.sample.sustainOffset
              && r.sampleSettings.value.sustainEnd == s.value.sample.sustainEnd
              && r.sampleSettings.value.backwardRange == (s.value.sample.repeat == Samples.RepeatBackward)
    ensures s.None? ==> r.sample.None? && r.customWaveform.None? && r.waveform == Square
  {
    match s
    case None => UpdateWaveform(Mute(t.(customWaveform := None, sample := None), lim), Square)
    case Some(ref) =>
      if |ref.sample.frames| == 0 then t
      else UpdateWaveform(Mute(t.(customWaveform := None, sample := s), lim), SampleWave)
  }

  /** In the current code, `set_waveform` keeps a held custom waveform, so
      attaching later selects it again. */
  lemma BasicKeepsCustom(t: Track, wf: WaveformRef, n: int, lim: NoteLimits)
    requires t.Valid() && lim.Valid() && |wf.waveform.frames| > 0
    requires WaveformOf(n).Some? && IsBasic(WaveformOf(n).value)
    ensures var t1 := SetWaveform(SetCustomWaveform(t, Some(wf), false, lim), n, false, lim);
            t1.customWaveform == Some(wf) && t1.waveform == WaveformOf(n).value
            && Attach(t1, lim).waveform == Custom
  {
  }

  /** The part of `attach` that touches the track: once attached, a held
      custom waveform or sample is handed over again, then the note is
      set to what `get_note` reads. */
  function Attach(t: Track, lim: NoteLimits): (r: Track)
    requires t.Valid() && lim.Valid()
    ensures r.Valid() && r.attached
    ensures r.customWaveform == t.customWaveform && r.sample == t.sample
    ensures t.customWaveform.Some? && |t.customWaveform.value.waveform.frames| > 0 ==> r.waveform == Custom
    ensures t.sample.Some? && |t.sample.value.sample.frames| > 0 ==> r.waveform == SampleWave
  {
    var t1 := t.(attached := true);
    var t2 :=
      if t1.customWaveform.Some? then
        if |t1.customWaveform.value.waveform.frames| == 0 then t1
        else SetCustomWaveform(t1, t1.customWaveform, false, lim)
      else if t1.sample.Some? then SetSample(t1, t1.sample, lim)
      else t1;
    SetNote(t2, GetNote(t2), lim)
  }

  /** `set_instrument`: the reference is kept and handed to the library. */
  function SetInstrument(t: Track, ins: Option<nat>): (r: Track)
    ensures r.instrument == ins && r == t.(instrument := ins)
  {
    t.(instrument := ins)
  }

  /** A new track: the square wave at the default master volume, muted in
      the current code, and no user volume yet. */
  function New(older: bool, lim: NoteLimits): (t: Track)
    requires lim.Valid()
    ensures t.Valid() && t.waveform == Square && !t.masterVolumeChanged
    ensures t.Read(MasterVolume) == Level(MASTER_VOLUME_DEFAULT, 0.0)
    ensures t.customWaveform.None? && t.sample.None? && !t.attached
  {
    var t0 := Track(map[], Square, Effect(0, 0, 0), Effect(0, 0, 0), [], [], None, None, None, None, false, false);
    SetWaveform(t0, WaveformOrdinal(Square), older, lim).(masterVolumeChanged := false)
  }

  /** `add_divider` (current code): a non-positive interval or a null
      callable gives 0 and adds nothing; otherwise the next ID, which is
      fresh while the shared counter is above every ID in use and has not
      wrapped. Returns the ID, the counter after the call and the group. */
  function AddDivider(g: Dividers.Group<nat>, last: nat, interval: int, callableNull: bool): (r: (nat, nat, Dividers.Group<nat>))
    requires IsU32(last)
    ensures interval <= 0 || callableNull ==> r == (0, last, g)
    ensures interval > 0 && !callableNull && last + 1 < U32_LIMIT ==>
              r.0 == last + 1 == r.1 && r.0 != 0 && Dividers.Has(r.2, r.0)
    ensures interval > 0 && !callableNull && last + 1 < U32_LIMIT && (forall k: nat :: Dividers.Has(g, k) ==> k <= last) ==>
              r.2.dividers[r.0] == Dividers.Fresh(interval)
  {
    if interval <= 0 || callableNull then (0, last, g)
    else
      var (id, g1) := Dividers.AddById(g, last, interval);
      (id, id, g1)
  }

  /** `remove_divider` (current code): an unknown ID is refused. */
  function RemoveDivider(g: Dividers.Group<nat>, id: nat): (r: Dividers.Group<nat>)
    ensures !Dividers.Has(r, id)
    ensures !Dividers.Has(g, id) ==> r == g
    ensures forall k :: k != id ==> (Dividers.Has(r, k) <==> Dividers.Has(g, k))
  {
    if !Dividers.Has(g, id) then g else Dividers.Remove(g, id)
  }

  /** `add_divider` (older code): a name in use, a non-positive interval or
      a null callable changes nothing. */
  function AddNamedDivider(g: Dividers.Group<string>, name: string, interval: int, callableNull: bool): (r: Dividers.Group<string>)
    ensures Dividers.Has(g, name) || interval <= 0 || callableNull ==> r == g
    ensures !Dividers.Has(g, name) && interval > 0 && !callableNull ==>
              Dividers.Has(r, name) && r.dividers[name] == Dividers.Fresh(interval)
    ensures forall k :: k != name ==> (Dividers.Has(r, k) <==> Dividers.Has(g, k))
  {
    if Dividers.Has(g, name) || interval <= 0 || callableNull then g
    else Dividers.AddByName(g, name, interval)
  }

  /** `remove_divider` (older code): an unknown name is refused. */
  function RemoveNamedDivider(g: Dividers.Group<string>, name: string): (r: Dividers.Group<string>)
    ensures !Dividers.Has(r, name)
    ensures !Dividers.Has(g, name) ==> r == g
    ensures forall k :: k != name ==> (Dividers.Has(r, k) <==> Dividers.Has(g, k))
  {
    if !Dividers.Has(g, name) then g else Dividers.Remove(g, name)
  }

  /** A divider added under a fresh name and removed again leaves the
      group as it was. */
  lemma NamedAddRemove(g: Dividers.Group<string>, name: string, interval: int)
    requires !Dividers.Has(g, name) && interval > 0
    ensures RemoveNamedDivider(AddNamedDivider(g, name, interval, false), name) == g
  {
    Dividers.AddRemoveByName(g, name, interval);
  }
}

=== FILE: variant.dfy ===
/** The Godot `Variant` values the scripting side hands to the extension,
    reduced to what the modelled code inspects: the type tag and, for the
    kinds it reads, the payload.

    Numbers carry their value and the binary16 bits the byte stream's
    `put_f16` stores for them (after the instruction's float clamp; the
    rounding from the one to the other is floating-point work this model
    leaves out, so the two are independent); strings carry their UTF-8
    bytes; packed float arrays carry the binary16 bits of each element. */
module Variants {
  import opened Bytes

  /** `Variant::Type`, restricted to the tags the checks compare against. */
  datatype VariantType = NilType | IntType | FloatType | StringType | FloatArrayType | OtherType

  datatype Variant =
    | Nil
    | Int(value: int, half: bv16)
    | Float(number: real, half: bv16)
    | Str(utf8: seq<byte>)
    | FloatArray(halves: seq<bv16>)
    | Other

  /** `get_type`. */
  function TypeOf(v: Variant): (t: VariantType)
    ensures t == NilType <==> v.Nil?
    ensures t == IntType <==> v.Int?
    ensures t == FloatType <==> v.Float?
    ensures t == StringType <==> v.Str?
    ensures t == FloatArrayType <==> v.FloatArray?
  {
    match v
    case Nil => NilType
    case Int(_, _) => IntType
    case Float(_, _) => FloatType
    case Str(_) => StringType
    case FloatArray(_) => FloatArrayType
    case Other => OtherType
  }

  /** The integer a Variant converts to; only ints are ever converted. */
  function IntOf(v: Variant): int {
    if v.Int? then v.value else 0
  }

  /** The binary16 bits `put_f16` writes for a number. */
  function HalfOf(v: Variant): bv16 {
    match v
    case Int(_, h) => h
    case Float(_, h) => h
    case _ => 0
  }

  /** The value `float(p_arg)` converts a number to; 0 for anything else. */
  function NumberOf(v: Variant): (x: real)
    ensures v.Int? ==> x == v.value as real
    ensures v.Float? ==> x == v.number
  {
    match v
    case Int(i, _) => i as real
    case Float(x, _) => x
    case _ => 0.0
  }

  /** The UTF-8 bytes of a string argument. */
  function Utf8Of(v: Variant): seq<byte> {
    if v.Str? then v.utf8 else []
  }

  /** The binary16 elements of a packed float array. */
  function HalvesOf(v: Variant): seq<bv16> {
    if v.FloatArray? then v.halves else []
  }
}

=== FILE: waveform.dfy ===
/** `BlipKitWaveform`: a custom waveform of 2 to `WAVE_SIZE_MAX` frames.

    The current and the older implementation agree on the operations; their
    stored property differs in name ("_frames" now, "frames" before) and in
    the `set_frames` defaults it is loaded with (the older header normalises
    by default). */
module Waveforms {
  import opened Wrappers
  import opened Levels

  /** BlipKit's `BK_WAVE_MAX_LENGTH`. */
  const WAVE_SIZE_MAX: nat := 64

  datatype Waveform = Waveform(frames: seq<Frame>)
  {
    /** Between 2 and WAVE_SIZE_MAX frames, none below -FRAME_MAX (the
        conversion never produces -32768). */
    predicate Valid() {
      2 <= |frames| <= WAVE_SIZE_MAX && forall i :: 0 <= i < |frames| ==> -FRAME_MAX <= frames[i]
    }
  }

  /** A new waveform: a square wave of 8 frames, four at full scale and
      four at 0. */
  function New(): (w: Waveform)
    ensures w.Valid() && |w.frames| == 8
    ensures forall i :: 0 <= i < 4 ==> w.frames[i] == FRAME_MAX
    ensures forall i :: 4 <= i < 8 ==> w.frames[i] == 0
  {
    Waveform([FRAME_MAX, FRAME_MAX, FRAME_MAX, FRAME_MAX, 0, 0, 0, 0])
  }

  /** Whether `set_frames` and `create_with_frames` accept this many
      levels. */
  predicate SizeAccepted(n: int) {
    2 <= n <= WAVE_SIZE_MAX
  }

  /** `set_frames`: a size outside [2, WAVE_SIZE_MAX] changes nothing;
      otherwise one frame per level. */
  function SetFrames(w: Waveform, levels: seq<real>, normalize: bool, amplitude: real): (r: Waveform)
    requires w.Valid()
    ensures r.Valid()
    ensures !SizeAccepted(|levels|) ==> r == w
    ensures SizeAccepted(|levels|) ==> |r.frames| == |levels|
    ensures SizeAccepted(|levels|) ==> r.frames == Convert(levels, normalize, amplitude)
  {
    if !SizeAccepted(|levels|) then w else Waveform(Convert(levels, normalize, amplitude))
  }

  /** Without normalising, `set_frames` stores each level inside [-1, +1]
      as its truncated full-scale value and saturates the levels beyond. */
  lemma SetFramesPlain(w: Waveform, levels: seq<real>, amplitude: real, i: int)
    requires w.Valid() && SizeAccepted(|levels|) && 0 <= i < |levels|
    ensures var f := SetFrames(w, levels, false, amplitude).frames[i];
            (-1.0 <= levels[i] <= 1.0 ==> f == Truncate(levels[i] * FRAME_MAX as real))
            && (levels[i] > 1.0 ==> f == FRAME_MAX)
            && (levels[i] < -1.0 ==> f == -FRAME_MAX)
  {
    ConvertPlain(levels, amplitude, i);
  }

  /** `create_with_frames`: null for the sizes `set_frames` refuses,
      otherwise a new waveform holding the converted levels. */
  function CreateWithFrames(levels: seq<real>, normalize: bool, amplitude: real): (r: Option<Waveform>)
    ensures r.Some? <==> SizeAccepted(|levels|)
    ensures r.Some? ==> r.value.Valid() && r.value == SetFrames(New(), levels, normalize, amplitude)
                        && |r.value.frames| == |levels|
  {
    if !SizeAccepted(|levels|) then None else Some(SetFrames(New(), levels, normalize, amplitude))
  }

  /** `get_frames`: one level per frame, the frame over full scale. */
  function GetFrames(w: Waveform): (levels: seq<real>)
    ensures |levels| == |w.frames|
    ensures forall i :: 0 <= i < |levels| ==> levels[i] * FRAME_MAX as real == w.frames[i] as real
  {
    seq(|w.frames|, i requires 0 <= i < |w.frames| => w.frames[i] as real / FRAME_MAX as real)
  }

  /** Storing what `get_frames` returned, without normalising, restores
      the same waveform. */
  lemma GetSetRoundTrip(w: Waveform, amplitude: real)
    requires w.Valid()
    ensures SetFrames(w, GetFrames(w), false, amplitude) == w
  {
    var ls := GetFrames(w);
    var fs := Convert(ls, false, amplitude);
    forall i | 0 <= i < |ls|
      ensures fs[i] == w.frames[i]
    {
      ConvertPlain(ls, amplitude, i);
      assert -1.0 <= ls[i] <= 1.0;
      assert ls[i] * FRAME_MAX as real == w.frames[i] as real;
    }
    assert fs == w.frames;
  }

  /** The stored property: "_frames" in the current code, "frames" in the
      older. */
  function PropertyName(older: bool): string {
    if older then "frames" else "_frames"
  }

  /** `_set`: the stored property goes through `set_frames` with its
      default arguments; any other name is not handled. */
  function SetProperty(w: Waveform, name: string, levels: seq<real>, older: bool): (r: (bool, Waveform))
    requires w.Valid()
    ensures r.0 <==> name == PropertyName(older)
    ensures r.1.Valid() && (!r.0 ==> r.1 == w)
    ensures r.0 && SizeAccepted(|levels|) ==> r.1.frames == Convert(levels, older, 1.0)
  {
    if name == PropertyName(older) then (true, SetFrames(w, levels, older, 1.0)) else (false, w)
  }

  /** `_get`: the stored property reads `get_frames`. */
  function GetProperty(w: Waveform, name: string, older: bool): (r: Option<seq<real>>)
    ensures r.Some? <==> name == PropertyName(older)
    ensures r.Some? ==> |r.value| == |w.frames|
  {
    if name == PropertyName(older) then Some(GetFrames(w)) else None
  }

  /** In the current code, saving a waveform through its property and
      loading it back into any waveform gives the same frames. */
  lemma PropertyRoundTrip(w: Waveform, v: Waveform)
    requires w.Valid() && v.Valid()
    ensures var saved := GetProperty(w, PropertyName(false), false).value;
            SetProperty(v, PropertyName(false), saved, false) == (true, w)
  {
    var ls := GetFrames(w);
    GetSetRoundTrip(w, 1.0);
    assert SetFrames(v, ls, false, 1.0).frames == SetFrames(w, ls, false, 1.0).frames;
  }
}

=== FILE: wrappers.dfy ===
/** Optional values, for lookups that may find nothing. */
module Wrappers {

  datatype Option<T> = None | Some(value: T)
}
